=== FILE: README.md ===
# Moustique in Dafny

Moustique is a small publish/subscribe broker. Clients POST form-encoded
requests (`SUBSCRIBE`, `POST`, `PICKUP`, `PUTVAL`, `GETVAL`,
`GETVALSBYREGEX`, ...) to an HTTP server. Every form value travels as
ROT13 combined with Base64. A published topic is "exploded" into the
wildcard patterns it matches. The message is queued once for every
subscriber of every such pattern, and of `#`. Clients collect their
queues with `PICKUP` and dispatch each message to the callbacks they
registered.

This project models that core and proves properties of the model.

**Wire codecs**
- `Base64`, `Utf8`, `Decimal`, `Text` and `Rotation` are the standard
  pieces the sources call: standard Base64, UTF-8, decimal integers,
  split/join/trim, and ROT13 in both its arithmetic and its table-lookup
  form.
- `Base64` has one encoder and the four decoders the sources call.
  Go's `DecodeString` skips CR and LF. Java's decoder refuses characters
  outside the alphabet but accepts a missing final padding.
  Python's `b64decode` skips characters outside the alphabet and stops at
  complete padding. The browser's `atob` skips ASCII whitespace and
  forgives missing padding.
- `PyCodec`, `JsClient` and `JavaUtils` encode Base64 first and then
  ROT13 ("client order").
- `GoCodec`, `Cli` and `ServerCodec` apply ROT13 first and then Base64
  ("server order").
- Each codec round-trips, and the two orders disagree: `"a"` gives
  `"LD=="` in client order and `"bg=="` in server order.

**Clients**
- `PyClient`, `GoClient`, `Cli`, `JsClient` and `JavaClient` model each
  client as a class over an injected `Transport.Channel`. The channel
  records every request sent and replays a script of replies (an HTTP
  status and body, or a transport failure).
- Callback registries and message dispatch live in `Dispatch`.
- `JsonData` is the parsed `PICKUP` body. The Python and JavaScript
  clients walk whatever JSON arrives, in the shape the server writes or
  not. Each walk follows its language's rules: truthiness, what can be
  iterated, and what a missing field does. It stops at the first
  exception, after the calls already made.

**Broker and server**
- `Explode` models `explodeTopic` (both the broker's version and the
  stand-alone test program's). `ExplodeTest` models that program's cache
  and its matching loop.
- `Broker` models the broker state machine as a class: subscriptions,
  per-client queues, system messages, clients, posters, the explosion
  cache and the key/value store. `BrokerSpec` holds the functions it is
  specified by: fan-out, unsubscribe, newer-than filters and pruning.
- `Storage` models the in-memory side of the key/value store, and `Auth`
  the password check that reads it.
- `Server` models user authentication, the broker manager, request
  routing, the endpoint handlers, and the admin add/delete-user
  commands.
- `RateLimit` models the sliding-window limiter, `Security` the peer
  allow-list (IPv4), and `Config` the configuration defaults.

**Environment as parameters.** Clocks, random numbers, host names,
process ids, JSON (un)marshalling, regular-expression compilation,
SHA-256 and the outcome of file-system calls are all parameters. The
model therefore states what happens for every value they might take.

## Model

| member | source | states |
|---|---|---|
| Rotation.Rot13Char | utils.go:75-87 | letters stay letters of the same case and move by 13; every other character is kept |
| Rotation.Rot13CharInvolutive | utils.go:75-87 | rotating a character twice gives it back |
| Rotation.Rot13 | clients/python/moustique/client.py:194-196 | the rotated text has the same length and is rotated position by position |
| Rotation.Rot13Involutive | clients/python/moustique/client.py:194-205 | rotating twice gives back the text, so the decoder's table undoes the encoder's |
| Rotation.Rot13Ascii | clients/python/moustique/client.py:194-196 | rotation keeps ASCII text ASCII |
| Rotation.Rot13Append | clients/python/moustique/client.py:194-196 | rotation distributes over concatenation |
| Rotation.Rot13Byte | cmd/moustique-cli/main.go:21-34 | the byte rotation agrees with the character rotation and keeps the upper- and lower-case ranges |
| Rotation.Rot13Bytes | cmd/moustique-cli/main.go:21-34 | byte-wise rotation keeps the length and rotates each byte |
| Rotation.Rot13BytesInvolutive | cmd/moustique-cli/main.go:21-34 | rotating bytes twice gives them back |
| Rotation.Rot13BytesAscii | cmd/moustique-cli/main.go:21-34 | on ASCII text, rotating the bytes is rotating the characters |
| Rotation.Plain | clients/go/moustique/utils.go:28 | the plain alphabet table has 52 entries |
| Rotation.Rotated | clients/go/moustique/utils.go:29 | the rotated alphabet table has 52 entries |
| Rotation.Translate | clients/java/src/main/java/moustique/Utils.java:13-20 | table translation keeps the length, keeps characters not in the from-table, and maps the others into the to-table |
| Rotation.RotatedAt | clients/go/moustique/utils.go:28-29 | entry i of the rotated table is the ROT13 of entry i of the plain table |
| Rotation.PlainIndex | clients/go/moustique/utils.go:32-34 | a character is found in the plain table iff it is an ASCII letter, and the entry at its index in the other table is its ROT13 |
| Rotation.RotatedIndex | clients/python/moustique/client.py:203-205 | the same, looking the character up in the rotated table |
| Rotation.TranslateForward | clients/python/moustique/client.py:194-196 | translating from the plain to the rotated table is ROT13 |
| Rotation.TranslateBackward | clients/python/moustique/client.py:203-205 | translating from the rotated to the plain table is also ROT13 |
| Rotation.TranslateTablesInverse | clients/java/src/main/java/moustique/Utils.java:22-36 | the decoder's translation undoes the encoder's |
| Base64.CharOf | clients/python/moustique/client.py:193 | each 6-bit value has a character of the alphabet |
| Base64.ValueOf | clients/python/moustique/client.py:206 | each alphabet character's value is below 64 and maps back to the character |
| Base64.ValueOfCharOf | clients/python/moustique/client.py:193-206 | a value survives character and back |
| Base64.EncodingTextIsAscii | clients/python/moustique/client.py:193 | encoded text is ASCII |
| Base64.Encode | clients/python/moustique/client.py:193 | the output is 4 characters per started group of 3 bytes, uses only the alphabet and '=', and is empty iff the input is |
| Base64.EncodingTextAppend | clients/python/moustique/client.py:193 | concatenated encoding text is encoding text |
| Base64.Group | clients/python/moustique/client.py:193 | one group of 3 bytes gives 4 alphabet characters |
| Base64.DecodePrefix | utils.go:96 | the strict decoder Go runs once line breaks are gone: at most 3 bytes per 4 characters, and a complete decode only of alphabet-and-padding text of a length divisible by 4 |
| Base64.EncodingTextCons | clients/python/moustique/client.py:193 | 4 alphabet characters followed by encoding text are encoding text |
| Base64.Decode | clients/java/src/main/java/moustique/Utils.java:35 | the strict decoder: only alphabet-and-padding text of a length divisible by 4 decodes; "" decodes to no bytes |
| Base64.GroupRoundTrip | clients/python/moustique/client.py:193-206 | reassembling the four 6-bit fields of a group gives its three bytes back |
| Base64.DecodeEncode | clients/python/moustique/client.py:193-206 | decoding an encoding gives the bytes back |
| Base64.DecodeLastOne | clients/python/moustique/client.py:193-206 | a final group with "==" padding decodes to its one byte |
| Base64.DecodeLastTwo | clients/python/moustique/client.py:193-206 | a final group with "=" padding decodes to its two bytes |
| Base64.DecodeGroup | clients/python/moustique/client.py:193-206 | decoding a full group followed by more text gives its three bytes followed by the rest's decoding |
| Base64.Without | utils.go:96 | the text without the characters to drop: no longer, and none of them left |
| Base64.WithoutKeeps | utils.go:96 | a text with nothing to drop is kept as it is |
| Base64.WithoutAppend | utils.go:96 | dropping distributes over concatenation |
| Base64.WithoutDropped | utils.go:96 | a dropped character anywhere in the text changes nothing |
| Base64.EncodingTextKept | utils.go:96 | Base64 text holds no CR, LF or ASCII whitespace to drop |
| Base64.DecodeString | utils.go:96 | Go's DecodeString: CR and LF are skipped; a complete decode saw well-formed text; without line breaks it is the strict decoder |
| Base64.LineBreakSkipped | utils.go:96 | a CR or LF anywhere in the text does not change the result |
| Base64.DecodeStringEncode | utils.go:89-101 | DecodeString(Encode(b)) decodes completely to b |
| Base64.WrappedA | utils.go:96 | "Y\nQ==" decodes to "a" while the strict decoder refuses it |
| Base64.GroupValues | clients/python/moustique/client.py:193 | a group of three bytes is four 6-bit values |
| Base64.SextetsLength | clients/python/moustique/client.py:193 | a short last group of one or two bytes gives two or three values |
| Base64.SextetBytes | clients/python/moustique/client.py:206 | 6-bit values reassembled into bytes: three per four, one fewer than the values of a short last group |
| Base64.SextetBytesSextets | clients/python/moustique/client.py:193-206 | reassembling the 6-bit values of a byte string gives it back |
| Base64.EncodeShape | clients/python/moustique/client.py:193 | an encoding is the characters of its 6-bit values followed by its padding |
| Base64.ScanNonStrict | clients/python/moustique/client.py:206 | the scan of non-strict decoding: no more values than characters, and only alphabet values |
| Base64.DecodeNonStrict | clients/python/moustique/client.py:206 | b64decode without validate: succeeds iff the scan stopped at complete padding or ended on whole groups |
| Base64.NonStrictSkips | clients/python/moustique/client.py:206 | a character outside the alphabet and '=' anywhere changes nothing |
| Base64.NonStrictEncode | clients/python/moustique/client.py:193-206 | non-strict decoding of an encoding gives the bytes back |
| Base64.NonStrictExamples | clients/python/moustique/client.py:206 | "YQ==" and "YQ==YQ==" both decode to "a"; the strict decoder refuses the second |
| Base64.NonStrictSpaced | clients/python/moustique/client.py:206 | "Y Q==" decodes to "a"; the strict decoder refuses it |
| Base64.Unpadded | clients/javascript/moustique/index.js:35 | the forgiving decoder's text: no longer than the input |
| Base64.DecodeForgiving | clients/javascript/moustique/index.js:35 | forgiving-base64 decode: succeeds iff, whitespace and final padding removed, the text is alphabet only and its length is not 1 modulo 4 |
| Base64.ForgivingSkips | clients/javascript/moustique/index.js:35 | ASCII whitespace anywhere changes nothing |
| Base64.ForgivingEncode | clients/javascript/moustique/index.js:20-36 | forgiving decoding of an encoding gives the bytes back |
| Base64.ForgivingExamples | clients/javascript/moustique/index.js:35 | "YQ" and "YQ==" both decode to "a"; the strict decoder refuses "YQ" |
| Base64.ForgivingTrims | clients/javascript/moustique/index.js:35 | whitespace around the text is skipped |
| Base64.ForgivingSpaced | clients/javascript/moustique/index.js:35 | " YQ==\n" decodes to "a"; the strict decoder refuses it |
| Utf8.EncodeChar | clients/python/moustique/client.py:193 | a character takes 1 to 4 bytes, exactly one iff it is ASCII, and an ASCII character is its own byte |
| Utf8.Encode | clients/python/moustique/client.py:193 | encoding is at least as long as the text and empty iff it is |
| Utf8.EncodeAppend | clients/python/moustique/client.py:193 | encoding distributes over concatenation |
| Utf8.EncodeAscii | clients/python/moustique/client.py:193 | ASCII text encodes to its own bytes |
| Utf8.DecodeFirst | clients/python/moustique/client.py:206 | the first character uses 1 to 4 bytes, and an ASCII byte is one character |
| Utf8.Decode | clients/python/moustique/client.py:206 | strict decoding of no bytes is the empty text |
| Utf8.DecodeLenient | clients/go/moustique/utils.go:31 | lenient decoding (invalid bytes become U+FFFD) is no longer than its input |
| Utf8.DecodeFirstTwo | clients/python/moustique/client.py:193-206 | a 2-byte character decodes back from its encoding |
| Utf8.DecodeFirstThree | clients/python/moustique/client.py:193-206 | a 3-byte character decodes back from its encoding |
| Utf8.DecodeFirstFour | clients/python/moustique/client.py:193-206 | a 4-byte character decodes back from its encoding |
| Utf8.DecodeFirstEncode | clients/python/moustique/client.py:193-206 | the first character of an encoding is decoded with its own length |
| Utf8.DecodeEncode | clients/python/moustique/client.py:193-206 | strict decoding of an encoding gives the text back |
| Utf8.DecodeLenientEncode | clients/go/moustique/utils.go:31 | lenient decoding of an encoding gives the text back |
| Utf8.DecodeLenientAgrees | clients/go/moustique/utils.go:31 | on valid UTF-8, lenient decoding agrees with strict decoding |
| Utf8.DecodeEncodeBytes | clients/python/moustique/client.py:206 | bytes that decode are the encoding of what they decode to |
| Utf8.DecodeCons | clients/python/moustique/client.py:206 | valid UTF-8 decodes as its first character followed by the rest |
| Utf8.EncodeCons | clients/python/moustique/client.py:193 | a character followed by text encodes as its bytes followed by the rest |
| Utf8.EncodeCharDecodeFirst | clients/python/moustique/client.py:206 | the bytes the first character used are that character's encoding |
| Utf8.EncodeTwo | clients/python/moustique/client.py:206 | a valid 2-byte sequence is the encoding of the character it denotes |
| Utf8.EncodeThree | clients/python/moustique/client.py:206 | a valid 3-byte sequence is the encoding of the character it denotes |
| Utf8.EncodeFour | clients/python/moustique/client.py:206 | a valid 4-byte sequence is the encoding of the character it denotes |
| Decimal.DigitChar | clients/python/moustique/client.py:65 | a digit value gives a digit character |
| Decimal.NatToString | clients/python/moustique/client.py:65 | decimal text is non-empty, all digits, and has no leading zero |
| Decimal.IntToString | clients/python/moustique/client.py:65 | decimal text is ASCII and starts with '-' iff the number is negative |
| Decimal.DigitsValueNatToString | clients/python/moustique/client.py:65 | the digits of n have value n |
| Decimal.ParseInt64 | server.go:659-662 | a successful parse is of non-empty text and lies within the int64 range |
| Decimal.ParseIntToString | server.go:659-662 | every int64 value written in decimal parses back to itself |
| Text.Latin1 | clients/go/moustique/utils.go:15 | bytes read one character per byte keep their values |
| Text.AsciiBytes | clients/go/moustique/utils.go:15 | ASCII text gives one byte per character, with the same value |
| Text.Latin1AsciiBytes | clients/go/moustique/utils.go:15 | reading ASCII bytes back gives the text |
| Text.IndexOf | clients/go/moustique/utils.go:32 | the index found is the first occurrence, and nothing is found iff the character is absent |
| Text.Split | broker.go:472 | splitting gives at least one part and no part contains the separator |
| Text.JoinSplit | broker.go:472-495 | joining the parts of a split gives back the text |
| Text.SplitJoin | broker.go:472-495 | splitting a join of separator-free parts gives back the parts |
| Text.SplitCons | broker.go:472 | a separator-free head and a separator split off as the first part |
| Text.IndexOfAfter | clients/java/src/main/java/moustique/MoustiqueClient.java:139-155 | the first occurrence in a + b, with the character absent from a and at the head of b, is at the length of a |
| Text.TrimBy | clients/python/moustique/client.py:116 | the result is the text with a run of trimmed characters cut from its start and another from its end (`Text.CutFrom`), and no trimmed character remains at either end |
| Text.TrimByUnique | clients/python/moustique/client.py:116 | any such cut with no trimmed character left at either end is the trimmed text: the contract above determines the result |
| Text.TrimLeft | clients/python/moustique/client.py:116 | left trimming keeps a suffix that starts with a kept character; every character it drops is trimmed; it gives "" when every character is trimmed |
| Text.TrimRight | clients/python/moustique/client.py:116 | right trimming keeps a prefix that ends with a kept character, and every character it drops is trimmed |
| Text.TrimByKeeps | clients/python/moustique/client.py:116 | text with no trimmed character at either end is unchanged |
| PyCodec.Enc | clients/python/moustique/client.py:190-197 | the encoding is empty iff the text is, and un-rotated it is Base64 text |
| PyCodec.Dec | clients/python/moustique/client.py:199-206 | "" decodes to ""; a result is the UTF-8 text of the non-strict decoding of the un-rotated input; a base64 error exactly when the un-rotated text is ASCII and the non-strict decoder refuses it |
| PyCodec.EncIsRotatedBase64 | clients/python/moustique/client.py:190-197 | client order: Base64 of the UTF-8 bytes, then ROT13 |
| PyCodec.DecEnc | clients/python/moustique/client.py:190-206 | dec(enc(s)) == s for every text s |
| PyCodec.DecSkipsJunk | clients/python/moustique/client.py:199-206 | an ASCII character outside the alphabet and '=' appended to the input changes nothing |
| GoCodec.Rotate | clients/go/moustique/utils.go:27-40 | the loop over runes computes the rune-wise table rotation of the bytes |
| GoCodec.EncodeTranslated | clients/go/moustique/utils.go:30-39 | the builder holds the UTF-8 of the translated runes |
| GoCodec.RotateTextIsRot13 | clients/go/moustique/utils.go:27-40 | on valid UTF-8, rotate is ROT13 of the text |
| GoCodec.RotateTextInvolutive | clients/go/moustique/utils.go:27-40 | rotating twice gives back the bytes of any text |
| GoCodec.Enc | clients/go/moustique/utils.go:9-16 | the encoding is empty iff the input is, and it is Base64 text |
| GoCodec.Dec | clients/go/moustique/utils.go:18-25 | "" decodes to ""; CR and LF are skipped (the rotation leaves them alone); the decoding error is dropped |
| GoCodec.DecEnc | clients/go/moustique/utils.go:9-25 | Dec(Enc(s)) == s for every text s |
| GoCodec.DecDropsErrors | clients/go/moustique/utils.go:23-24 | a decoding error is ignored: "bg==!" fails to decode yet Dec gives "a" from the bytes decoded before the error |
| ServerCodec.Rot13Runes | utils.go:75-87 | the loop computes the rune-wise ROT13 of the bytes |
| ServerCodec.RuneRot13Involutive | utils.go:75-87 | rotating twice gives back the bytes of any text |
| ServerCodec.Encode | utils.go:89-93 | server order: the result is Base64 text, empty for empty input |
| ServerCodec.Decode | utils.go:95-101 | "" decodes to ""; text that Go's decoder does not decode completely, CR and LF skipped, is returned unchanged |
| ServerCodec.DecodeEncode | utils.go:89-101 | decodeROT13Base64(encodeROT13Base64(s)) == s for every text s |
| ServerCodec.GoClientEncAgrees | clients/go/moustique/utils.go:9-16 | the Go client's Enc equals the server's encoder |
| ServerCodec.LegacyEncode | utils.go:38-45 | the old encoder gives empty output iff the input is empty |
| ServerCodec.LegacyEncodeIsPythonOrder | utils.go:38-45 | the old (commented-out) encoder is the Python client's order |
| ServerCodec.PythonOrderOfA | clients/python/moustique/client.py:190-197 | "a" encodes to "LD==" in client order |
| ServerCodec.Base64OfA | clients/python/moustique/client.py:193 | Base64 of "a" is "YQ==" |
| ServerCodec.RotateYQ | clients/python/moustique/client.py:194-196 | ROT13 of "YQ==" is "LD==" |
| ServerCodec.ServerOrderOfA | utils.go:89-93 | "a" encodes to "bg==" in server order |
| ServerCodec.OrdersDiffer | utils.go:89-101 | the two orders disagree on "a", and the server reads the Python client's "a" as "," |
| ServerCodec.ServerReadsLD | utils.go:95-101 | the server decodes "LD==" to "," |
| ServerCodec.DecodeParams | utils.go:103-111 | each parameter with at least one value maps to the decoding of its first value; the others are dropped |
| Transport.Channel.Send | clients/python/moustique/client.py:70 | sending records the request and consumes one reply from the script |
| Transport.Channel.SendEach | clients/python/moustique/client.py:96-103 | sending a list records the requests in order and consumes one reply each |
| Transport.DropRest | clients/python/moustique/client.py:96-103 | consuming k replies and then one more is consuming k + 1 |
| Transport.DropAdd | clients/python/moustique/client.py:96-103 | consuming a replies and then b is consuming a + b |
| Dispatch.Append | clients/go/moustique/client.go:118-140 | registering appends the handler under its topic and changes no other topic |
| Dispatch.AddUnique | clients/python/moustique/client.py:83-88 | registering a handler already listed changes nothing; otherwise it is appended; other topics are unchanged |
| Dispatch.AddUniqueKeepsUnique | clients/python/moustique/client.py:83-88 | registries without duplicates stay without duplicates |
| Dispatch.AddUniqueIdempotent | clients/python/moustique/client.py:83-88 | registering the same handler twice is registering it once |
| Dispatch.AppendTwice | clients/go/moustique/client.go:118-140 | registering the same handler twice lists it twice |
| Dispatch.MessageCalls | clients/python/moustique/client.py:173-178 | a message calls every user callback in order and, only when there are none, the topic's system callback |
| Dispatch.UserCalls | clients/python/moustique/client.py:174-175 | a message calls every user callback in order with topic, message and sender |
| Dispatch.KeyCallsCount | clients/python/moustique/client.py:172-178 | a topic's messages make as many calls as messages times callbacks, or one each for a system topic with none |
| Dispatch.SystemCallIff | clients/python/moustique/client.py:176-178 | a call is a system call iff the topic has a system callback and no user callbacks |
| Dispatch.NoSystemCalls | clients/go/moustique/client.go:142-178 | without system callbacks every call is a user callback |
| Dispatch.NothingRegisteredNothingCalled | clients/go/moustique/client.go:142-178 | with nothing registered nothing is called |
| Dispatch.Deliver | clients/python/moustique/client.py:171-178 | the nested loops make exactly the calls the batch specifies |
| Dispatch.DeliverKey | clients/python/moustique/client.py:172-178 | the message loop makes exactly the calls the topic's messages specify |
| Dispatch.DeliverMessage | clients/python/moustique/client.py:173-178 | the callback loop makes exactly the calls the message specifies |
| Dispatch.SystemCount | clients/python/moustique/client.py:176-178 | no more system calls than calls |
| Dispatch.SystemCountAppend | clients/python/moustique/client.py:171-178 | system calls add up over concatenated call lists |
| Dispatch.MessageSystemCount | clients/python/moustique/client.py:176-178 | a message makes one system call iff its topic is a system topic without user callbacks |
| Dispatch.UserCallsNoSystem | clients/python/moustique/client.py:174-175 | user callbacks make no system calls |
| Dispatch.KeySystemCount | clients/javascript/moustique/index.js:132-141 | a topic's messages make one system call each when it falls back to the system callback, none otherwise |
| Dispatch.KeyCallsAgree | clients/python/moustique/client.py:172-178 | messages that bring the same calls one by one bring the same calls together |
| Dispatch.BatchCallsAgree | clients/python/moustique/client.py:171-178 | batches with the same keys whose keys bring the same calls bring the same calls |
| Dispatch.MapBatch | clients/python/moustique/client.py:171-178 | a batch with every field converted keeps its keys and its messages in order |
| Dispatch.MapMsgs | clients/python/moustique/client.py:172-178 | messages with every field converted, in order |
| JsonData.Member | clients/python/moustique/client.py:174-178 | a member is found iff the object has the key; the value found is filed under it |
| JsonData.Characters | clients/python/moustique/client.py:172 | iterating a string gives its characters as one-character strings |
| JsonData.Keys | clients/python/moustique/client.py:172 | iterating a dict gives its keys as strings |
| JsonData.ReadItems | clients/python/moustique/client.py:172-178 | messages are read in order until the first failure: every one before it is read, none after |
| JsonData.ReadMembers | clients/python/moustique/client.py:171-178 | keys are walked in order until one fails; the failing key is kept with the messages read before its failure |
| JsonData.MessagesJson | broker.go:16-23 | the server writes each message of a topic in order |
| JsonData.BatchMembers | broker.go:16-23 | the server writes a batch as one member per topic holding its messages |
| JsonData.MessageJsonFields | broker.go:16-23 | a message the server wrote has its from, topic and message fields |
| PyClient.Strip | clients/python/moustique/client.py:116 | stripping cuts a run of whitespace from each end of the text, and leaves no whitespace at either end |
| PyClient.InstanceName | clients/python/moustique/client.py:23 | the instance name is host-client- or host- followed by the random and pid parts |
| PyClient.Wire | clients/python/moustique/client.py:62-68 | the wire form has the same fields, each of which decodes back to its value |
| PyClient.SubscribeAll | clients/python/moustique/client.py:96-103 | resubscribing sends one SUBSCRIBE per topic, in order |
| PyClient.EncNoSpace | clients/python/moustique/client.py:116 | an encoding contains no whitespace, so strip() leaves it alone |
| PyClient.ReadBodyEnc | clients/python/moustique/client.py:116 | a reply whose body is an encoding reads as the encoded text |
| PyClient.PickupData | clients/python/moustique/client.py:162-170 | a transport failure is the only crash; an empty text is the empty dict |
| PyClient.Iterated | clients/python/moustique/client.py:172 | for-in fails exactly on None, booleans and numbers |
| PyClient.Subscript | clients/python/moustique/client.py:174-178 | message[field] answers iff the message is a dict holding the field |
| PyClient.ReadMessage | clients/python/moustique/client.py:173-178 | a message is read without an exception iff every field its calls use is present, and the calls get those fields' values |
| PyClient.ReadKey | clients/python/moustique/client.py:172-178 | a value that cannot be iterated raises before any call |
| PyClient.Walk | clients/python/moustique/client.py:170-178 | a false body walks nothing; any other body that is not a dict raises at once |
| PyClient.ReadServerMessage | clients/python/moustique/client.py:173-178 | a message the server wrote makes the calls of its fields |
| PyClient.ReadServerKey | clients/python/moustique/client.py:172-178 | a topic the server wrote is read without an exception and makes the calls of its messages |
| PyClient.ReadServerMembers | clients/python/moustique/client.py:171-178 | the topics the server wrote are walked without an exception and make the calls of their messages |
| PyClient.WalkServer | clients/python/moustique/client.py:162-180 | a batch the server wrote is walked without an exception and makes the calls of its messages, key by key |
| PyClient.ReadKeyStops | clients/python/moustique/client.py:172-178 | a topic whose second message is not a dict: the first is read, then the TypeError is raised |
| PyClient.WalkStopsMidKey | clients/python/moustique/client.py:170-178 | the walk of a body with that topic makes the first message's calls and then raises |
| PyClient.RepeatAppend | clients/python/moustique/client.py:176-178 | a + b resubscriptions send what a and then b send |
| PyClient.PublishNothread | clients/python/moustique/client.py:59-74 | publish_nothread sends one POST to ip:port with the encoded form and consumes one reply |
| PyClient.GetValResult | clients/python/moustique/client.py:122-133 | a transport failure or an HTTP error gives None |
| PyClient.GetValReadsEncoded | clients/python/moustique/client.py:122-133 | a reply carrying encoded JSON gives what parsing that JSON gives |
| PyClient.Getval | clients/python/moustique/client.py:122-133 | getval sends one GETVAL and returns the reading of the reply |
| PyClient.Pitval | clients/python/moustique/client.py:135-137 | pitval raises and sends nothing, because the method it calls does not exist |
| PyClient.Attempt | clients/python/moustique/client.py:143-160 | a transport failure crashes, a 401 gives None, and from 5 retries on an attempt always finishes |
| PyClient.GetSpec | clients/python/moustique/client.py:143-160 | get makes at least one request and at most 6 - retries, and exactly one when retries >= 5 |
| PyClient.GetGivesUp | clients/python/moustique/client.py:153-160 | when every reply is a non-401 HTTP error, get tries 6 - retries times and returns None |
| PyClient.Get | clients/python/moustique/client.py:143-160 | the recursion sends the same request once per attempt and returns what GetSpec specifies |
| PyClient.Globals.constructor | clients/python/moustique/client.py:9-17 | the module globals start empty, with the name "NONAME" |
| PyClient.Moustique.constructor | clients/python/moustique/client.py:20-31 | the instance name, the globals it sets, empty registries, and the resubscribe system callback |
| PyClient.Moustique.Initialize | clients/python/moustique/client.py:33-36 | copies the server address from the globals and registers the resubscribe callback |
| PyClient.Moustique.Publish | clients/python/moustique/client.py:38-39 | publish sends publish_nothread's request from this client's name |
| PyClient.Moustique.Putval | clients/python/moustique/client.py:41-57 | putval sends one PUTVAL with the encoded form |
| PyClient.Moustique.Subscribe | clients/python/moustique/client.py:77-90 | one SUBSCRIBE; on success the callback is registered once and a new topic is listed; on failure nothing changes |
| PyClient.Moustique.Resubscribe | clients/python/moustique/client.py:92-104 | sends the opening log post (only if any topics), one SUBSCRIBE per topic, and the closing log post |
| PyClient.Moustique.DispatchMessage | clients/python/moustique/client.py:173-178 | calls the message's callbacks; a system call resubscribes |
| PyClient.Moustique.DispatchKey | clients/python/moustique/client.py:172-178 | calls every message's callbacks and resubscribes once per system call |
| PyClient.Moustique.DispatchBatch | clients/python/moustique/client.py:171-178 | calls every topic's messages' callbacks and resubscribes once per system call |
| PyClient.Moustique.Pickup | clients/python/moustique/client.py:162-180 | one PICKUP, then the walk of the parsed body with its calls and resubscriptions. A failed request, an error status, a base64 error or invalid JSON is caught and ends it quietly. A ValueError from dec, or an AttributeError, TypeError or KeyError from a body of the wrong shape, escapes after the calls made before it |
| PyClient.Moustique.GetVal | clients/python/moustique/client.py:110-120 | get_val sends one GETVAL from this client and returns the reading of the reply |
| PyClient.Moustique.Tick | clients/python/moustique/client.py:106-108 | tick is a pickup that then returns 1; an exception from pickup escapes it |
| PyClient.Moustique.NonEmptyRegistry | clients/python/moustique/client.py:94 | there are callbacks iff there are subscribed topics |
| PyClient.ResubscribeSequence | clients/python/moustique/client.py:92-104 | topics plus one or two log posts; the closing post is last and the opening one first when there are topics |
| GoClient.Check | clients/go/moustique/client.go:80-90 | no error iff a reply arrived with an accepted status; a transport failure is a transport error |
| GoClient.Wire | clients/go/moustique/client.go:71-91 | every form value goes out through Enc |
| GoClient.ServerReadsWire | clients/go/moustique/client.go:71-91 | the server decodes each wire value back to the value |
| GoClient.DecReadsServer | clients/go/moustique/client.go:142-178 | the client decodes what the server encodes |
| GoClient.AddAuth | clients/go/moustique/client.go:63-69 | credentials are added only when both are set; other fields are untouched |
| GoClient.DefaultName | clients/go/moustique/client.go:36-61 | the default client name has 9 characters |
| GoClient.ClientNameOf | clients/go/moustique/client.go:36-61 | the name is the given (or default) name, '-', and the first 8 characters of the uuid |
| GoClient.Client.constructor | clients/go/moustique/client.go:36-61 | the base URL, the name, credentials from the extra arguments, and empty registries |
| GoClient.Client.Publish | clients/go/moustique/client.go:71-91 | one POST; an error unless the status is 200 |
| GoClient.Client.PutVal | clients/go/moustique/client.go:93-116 | one PUTVAL; an error unless the status is 200 or 308 |
| GoClient.Client.Subscribe | clients/go/moustique/client.go:118-140 | one SUBSCRIBE; the callback is appended only on success |
| GoClient.Client.Pickup | clients/go/moustique/client.go:142-178 | one PICKUP; on any reply the decoded batch's user callbacks are called; only a transport failure errs |
| GoClient.PickupCalls | clients/go/moustique/client.go:156-176 | pickup makes only user calls |
| GoClient.PickupReadsServer | clients/go/moustique/client.go:142-178 | a server-encoded batch is dispatched exactly as specified |
| Cli.Rot13 | cmd/moustique-cli/main.go:21-34 | the byte loop computes the byte-wise ROT13 |
| Cli.Encode | cmd/moustique-cli/main.go:36-40 | the encoding is empty iff the input is, and it is Base64 text |
| Cli.Decode | cmd/moustique-cli/main.go:42-49 | text that Go's decoder, skipping CR and LF, does not decode completely comes back unchanged; otherwise the result is as long as the decoded bytes |
| Cli.DecodeEncode | cmd/moustique-cli/main.go:36-49 | decode(encode(p)) == p for every byte string |
| Cli.EncodeCharRotated | cmd/moustique-cli/main.go:21-34 | rotating the UTF-8 bytes of a character encodes its ROT13 |
| Cli.Rot13BytesUtf8 | cmd/moustique-cli/main.go:21-34 | byte-wise ROT13 of UTF-8 is the UTF-8 of ROT13 |
| Cli.Rot13BytesAppend | cmd/moustique-cli/main.go:21-34 | byte-wise ROT13 distributes over concatenation |
| Cli.EncodeAgreesWithServer | cmd/moustique-cli/main.go:36-40 | the CLI encodes exactly as the server does |
| Cli.DecodeKeepsInvalid | cmd/moustique-cli/main.go:42-49 | a body that is not Base64, line breaks aside, is passed through as it is |
| Cli.DecodeSkipsLineBreak | cmd/moustique-cli/main.go:42-49 | a line feed inside a decodable body does not change its decoding |
| Cli.ClientNameOf | cmd/moustique-cli/main.go:72-87 | the name is the given name or host-cli, then '-' and the first 8 characters of the uuid |
| Cli.Wire | cmd/moustique-cli/main.go:97-117 | every form value goes out encoded and decodes back |
| Cli.ServerReadsWire | cmd/moustique-cli/main.go:97-117 | the server decodes each wire value back to the value |
| Cli.Client.constructor | cmd/moustique-cli/main.go:72-87 | the base URL, the name, the credentials, and empty registries |
| Cli.Client.Publish | cmd/moustique-cli/main.go:97-117 | one POST; an error unless the status is 200 |
| Cli.Client.PutVal | cmd/moustique-cli/main.go:119-142 | one PUTVAL; an error unless the status is 200 or 308 |
| Cli.Client.Subscribe | cmd/moustique-cli/main.go:144-163 | one SUBSCRIBE; the callback is appended only on success |
| Cli.Client.Pickup | cmd/moustique-cli/main.go:165-197 | one PICKUP; the decoded batch's user callbacks are called; only a transport failure errs |
| Cli.PickupCalls | cmd/moustique-cli/main.go:165-197 | only user calls; a body that decodes to nothing or does not parse calls nothing |
| Cli.PickupReadsServer | cmd/moustique-cli/main.go:165-197 | a server-encoded batch is dispatched exactly as specified |
| JsClient.BinaryBytes | clients/javascript/moustique/index.js:22 | a binary string gives one byte per character |
| JsClient.Btoa | clients/javascript/moustique/index.js:22 | btoa succeeds iff every character is below 256, and then gives Base64 text |
| JsClient.Atob | clients/javascript/moustique/index.js:35 | atob succeeds iff the forgiving decoder does, and then gives a binary string |
| JsClient.AtobBtoa | clients/javascript/moustique/index.js:20-36 | atob(btoa(s)) == s for binary strings |
| JsClient.AtobForgives | clients/javascript/moustique/index.js:35 | atob("YQ") and atob(" YQ==\n") both give "a" |
| JsClient.Enc | clients/javascript/moustique/index.js:20-28 | enc succeeds iff the text is binary; "" encodes to "" |
| JsClient.Dec | clients/javascript/moustique/index.js:30-36 | "" decodes to ""; a result is a binary string; whitespace and missing padding are forgiven as atob forgives them |
| JsClient.DecEnc | clients/javascript/moustique/index.js:20-36 | dec(enc(s)) == s for binary strings |
| JsClient.EncAgreesWithPython | clients/javascript/moustique/index.js:20-28 | on binary ASCII text the JavaScript encoder agrees with the Python one |
| JsClient.EncOfA | clients/javascript/moustique/index.js:20-28 | "a" encodes to "LD==", which the server does not read back as "a" |
| JsClient.EncChars | clients/javascript/moustique/index.js:20-28 | an encoding is Base64 text after rotation |
| JsClient.Wire | clients/javascript/moustique/index.js:42-66 | the wire form has the same fields, each decoding back to its value |
| JsClient.SubscribeAll | clients/javascript/moustique/index.js:148-153 | resubscribe sends one SUBSCRIBE per topic, in order |
| JsClient.PublishOutcome | clients/javascript/moustique/index.js:42-66 | success iff the reply is ok; an error iff the request failed |
| JsClient.PutvalOutcome | clients/javascript/moustique/index.js:68-92 | success iff the reply is ok or a 308; an error iff the request failed |
| JsClient.ReadPickup | clients/javascript/moustique/index.js:116-129 | a failed request gives no data; a non-ok reply gives its status; data only from an ok reply |
| JsClient.ReadPickupEnc | clients/javascript/moustique/index.js:116-129 | an encoded JSON body gives what parsing the JSON gives, and {} for an empty text |
| JsClient.EncReadable | clients/javascript/moustique/index.js:127-128 | trimming an encoding and decoding it gives the text back |
| JsClient.ReadPickupDecoded | clients/javascript/moustique/index.js:127-129 | any body that trims and decodes to the JSON gives what parsing gives |
| JsClient.NoJsSpace | clients/javascript/moustique/index.js:128 | an encoding holds no JavaScript whitespace |
| JsClient.PickupCalls | clients/javascript/moustique/index.js:131-142 | without data no callback is called |
| JsClient.PickupOutcome | clients/javascript/moustique/index.js:120-145 | success iff the data was walked to its end; every exception, in the walk too, is caught |
| JsClient.Entries | clients/javascript/moustique/index.js:131 | Object.entries fails exactly on null; a boolean or number has no entries; an array's entries are its indices and items |
| JsClient.Indexed | clients/javascript/moustique/index.js:131 | each value under its decimal index, in order |
| JsClient.Iterated | clients/javascript/moustique/index.js:132 | for-of works exactly on arrays and strings |
| JsClient.Property | clients/javascript/moustique/index.js:135-139 | a property is defined iff the value is an object holding it |
| JsClient.ReadMessage | clients/javascript/moustique/index.js:133-140 | a message throws iff a call is made and it is null; otherwise the calls get its properties, undefined where missing |
| JsClient.ReadKey | clients/javascript/moustique/index.js:132-141 | a value that cannot be iterated throws before any call |
| JsClient.Walk | clients/javascript/moustique/index.js:131-142 | null throws at once; a boolean or a number walks nothing |
| JsClient.ReadServerMessage | clients/javascript/moustique/index.js:133-140 | a message the server wrote makes the calls of its fields |
| JsClient.ReadServerItems | clients/javascript/moustique/index.js:132-141 | the messages the server wrote for a topic are all read, each making its own calls |
| JsClient.ReadServerKey | clients/javascript/moustique/index.js:132-141 | a topic the server wrote is read without an exception and makes the calls of its messages |
| JsClient.ReadServerMembers | clients/javascript/moustique/index.js:131-142 | the topics the server wrote are walked without an exception and make the calls of their messages |
| JsClient.WalkServer | clients/javascript/moustique/index.js:116-146 | a batch the server wrote is walked without an exception and makes the calls of its messages, key by key |
| JsClient.ResubscribePerMessage | clients/javascript/moustique/index.js:11 | each message under the resubscribe topic, with no user callback for it, starts one resubscribe |
| JsClient.MissingFromIsUndefined | clients/javascript/moustique/index.js:135 | a message without "from" still reaches the user callback, with undefined in its place |
| JsClient.ReadKeyStops | clients/javascript/moustique/index.js:132-141 | a topic whose second message is null: the first is read, then the TypeError is thrown |
| JsClient.WalkStopsAtNull | clients/javascript/moustique/index.js:131-145 | the walk of data with that topic makes the first message's call and then stops |
| JsClient.RegisterKeepsValid | clients/javascript/moustique/index.js:94-114 | subscribing keeps the topic list and the registry in step |
| JsClient.Regrown | clients/javascript/moustique/index.js:148-153 | resubscribing never adds or removes a topic |
| JsClient.Moustique.constructor | clients/javascript/moustique/index.js:4-18 | default address, the given or generated client name, the resubscribe system topic, empty registries |
| JsClient.Moustique.Publish | clients/javascript/moustique/index.js:42-66 | one POST and its outcome; a form that btoa rejects sends nothing |
| JsClient.Moustique.Putval | clients/javascript/moustique/index.js:68-92 | one PUTVAL and its outcome; a form that btoa rejects sends nothing |
| JsClient.Moustique.Subscribe | clients/javascript/moustique/index.js:94-114 | one SUBSCRIBE; on an ok reply the callback is appended and a new topic listed; otherwise nothing changes |
| JsClient.Moustique.Pickup | clients/javascript/moustique/index.js:116-146 | one PICKUP; the parsed data is walked, calling each message's user callbacks or the system callback, until an exception, which is caught; the count of resubscribes started is the number of system calls made |
| JsClient.Moustique.Resubscribe | clients/javascript/moustique/index.js:148-153 | one SUBSCRIBE per topic; each accepted topic's first callback is appended again |
| JsClient.NotAcceptedBefore | clients/javascript/moustique/index.js:148-153 | a topic is not accepted before its turn |
| JsClient.AcceptedExtend | clients/javascript/moustique/index.js:148-153 | a topic counts as accepted after step i iff it was before or step i accepted it |
| JsClient.ResubscribeAllAccepted | clients/javascript/moustique/index.js:148-153 | when every resubscription is accepted, each topic's first callback is listed once more |
| JsClient.ResubscribeAllRefused | clients/javascript/moustique/index.js:148-153 | when none is accepted, the registry is unchanged |
| JavaUtils.Rotate | clients/java/src/main/java/moustique/Utils.java:13-20 | the loop computes the table translation |
| JavaUtils.BasicDecode | clients/java/src/main/java/moustique/Utils.java:35 | padded text decodes as standard Base64, and a length of 1 modulo 4 is refused |
| JavaUtils.BasicDecodeEncode | clients/java/src/main/java/moustique/Utils.java:24-35 | the Java decoder reads any encoding back |
| JavaUtils.Enc | clients/java/src/main/java/moustique/Utils.java:22-28 | "" encodes to "", and any other encoding is rotated Base64 text |
| JavaUtils.Dec | clients/java/src/main/java/moustique/Utils.java:30-36 | "" decodes to ""; otherwise it throws iff the un-rotated text does not decode |
| JavaUtils.DecEnc | clients/java/src/main/java/moustique/Utils.java:22-36 | dec(enc(s)) == s when the charset conversions are mutual inverses |
| JavaUtils.EncAgreesWithPython | clients/java/src/main/java/moustique/Utils.java:22-28 | with UTF-8 getBytes the Java encoder equals the Python one |
| JavaUtils.DecThrows | clients/java/src/main/java/moustique/Utils.java:30-36 | text that is not Base64 after rotation throws |
| JavaClient.Trim | clients/java/src/main/java/moustique/MoustiqueClient.java:54-63 | trim cuts a run of characters up to U+0020 from each end of the text, and leaves none at either end |
| JavaClient.ClientNameOf | clients/java/src/main/java/moustique/MoustiqueClient.java:54-63 | a blank name becomes "java-" and the nano time; any other is trimmed |
| JavaClient.NameKept | clients/java/src/main/java/moustique/MoustiqueClient.java:54-63 | an already trimmed, non-blank name is kept as it is |
| JavaClient.AddAuth | clients/java/src/main/java/moustique/MoustiqueClient.java:65-73 | credentials are added only when both are present and not blank |
| JavaClient.Wire | clients/java/src/main/java/moustique/MoustiqueClient.java:139-155 | every encoded value is free of '&' |
| JavaClient.EncHasNoAmpersand | clients/java/src/main/java/moustique/Utils.java:22-28 | an encoding contains no '&' |
| JavaClient.Pairs | clients/java/src/main/java/moustique/MoustiqueClient.java:139-155 | each pair is key=value, in the given order |
| JavaClient.FormBody | clients/java/src/main/java/moustique/MoustiqueClient.java:139-155 | an empty form has no body |
| JavaClient.FormBodyFields | clients/java/src/main/java/moustique/MoustiqueClient.java:139-155 | splitting the body at '&' gives back the pairs, and each pair's first '=' ends its key |
| JavaClient.PairFields | clients/java/src/main/java/moustique/MoustiqueClient.java:139-155 | a pair of ampersand-free key and value has no '&', and its first '=' ends the key |
| JavaClient.WireBodyFields | clients/java/src/main/java/moustique/MoustiqueClient.java:139-155 | the body of an encoded form splits back into its pairs |
| JavaClient.CompletionOf | clients/java/src/main/java/moustique/MoustiqueClient.java:75-86 | the future fails iff the request failed |
| JavaClient.ReadPickup | clients/java/src/main/java/moustique/MoustiqueClient.java:113-133 | a failed request logs an error |
| JavaClient.ReadPickupEnc | clients/java/src/main/java/moustique/MoustiqueClient.java:113-133 | an encoded body is decoded and logged as the text |
| JavaClient.EncReadable | clients/java/src/main/java/moustique/MoustiqueClient.java:113-133 | trimming an encoding and decoding it gives the text back |
| JavaClient.ReadPickupDecoded | clients/java/src/main/java/moustique/MoustiqueClient.java:113-133 | any body that trims and decodes to the text logs that text |
| JavaClient.EncNoSpace | clients/java/src/main/java/moustique/MoustiqueClient.java:113-133 | an encoding has no character up to U+0020 at either end |
| JavaClient.MoustiqueClient.constructor | clients/java/src/main/java/moustique/MoustiqueClient.java:50-63 | the base URL, the name, the credentials, and an empty registry |
| JavaClient.MoustiqueClient.Publish | clients/java/src/main/java/moustique/MoustiqueClient.java:75-86 | one POST; the future fails iff the request did |
| JavaClient.MoustiqueClient.Putval | clients/java/src/main/java/moustique/MoustiqueClient.java:88-99 | one PUTVAL; the future fails iff the request did |
| JavaClient.MoustiqueClient.Subscribe | clients/java/src/main/java/moustique/MoustiqueClient.java:101-111 | the callback is appended before the SUBSCRIBE, whatever the reply |
| JavaClient.MoustiqueClient.Pickup | clients/java/src/main/java/moustique/MoustiqueClient.java:113-133 | one PICKUP whose decoded body is logged |
| JavaClient.SubscribeTwice | clients/java/src/main/java/moustique/MoustiqueClient.java:101-111 | subscribing the same callback twice lists it twice |
| Explode.MainSections | broker.go:478-494 | sections before i are kept; from i on a section is kept iff it equals section i, else "+" |
| Explode.InsertedSections | broker.go:500-508 | the inserted pattern replaces section i-1 by "+" |
| Explode.Sections | broker.go:472 | a topic has at least one section |
| Explode.PatternsCount | broker.go:475-511 | n-1 main patterns and, for n >= 3, n-3 inserted ones |
| Explode.StepLength | broker.go:475-511 | one turn adds two patterns when i > 2, else one |
| Explode.ExplodeCount | broker.go:466-520 | a topic with n sections explodes into (n-1) + max(0, n-3) patterns |
| Explode.MainGeneralises | broker.go:478-494 | a main pattern agrees with the topic or has "+" at each section |
| Explode.InsertedGeneralises | broker.go:500-508 | an inserted pattern agrees with the topic or has "+" at each section |
| Explode.SplitGeneralisation | broker.go:495 | a pattern joined from parts splits back into them |
| Explode.MainShape | broker.go:478-496 | each main pattern generalises the topic |
| Explode.InsertedShape | broker.go:500-509 | each inserted pattern generalises the topic |
| Explode.StepShape | broker.go:475-511 | every pattern of one turn generalises the topic |
| Explode.PatternsShape | broker.go:475-511 | every pattern generalises the topic |
| Explode.ExplodeShape | broker.go:466-520 | every exploded pattern has the topic's sections, some replaced by "+" |
| Explode.PatternsStart | broker.go:475-496 | the first pattern is the main one for the last section |
| Explode.MainLastIsAll | broker.go:478-494 | the main pattern for the last section is the topic itself |
| Explode.SlashSections | broker.go:472 | a topic containing '/' has at least two sections |
| Explode.ExplodeFirst | broker.go:513-516 | a topic with a '/' explodes with the topic itself first |
| Explode.ExplodeNoSlash | broker.go:475 | a topic without '/' explodes to nothing, in both versions |
| Explode.DedupSamePatterns | tests/test_explode.go:46-60 | skipping repeated inserted patterns lists the same set of patterns |
| Explode.DedupNoLonger | tests/test_explode.go:46-60 | the test program's list is never longer than the broker's |
| Explode.InsertedOnlyIfNew | tests/test_explode.go:55-59 | an inserted pattern already listed is not added again |
| Explode.ExampleSections | tests/test_explode.go:18 | "/a/x/a" splits into "", "a", "x", "a" |
| Explode.ExamplePatterns | tests/test_explode.go:21-60 | the main and inserted patterns of "/a/x/a" for each i |
| Explode.ExampleSteps | tests/test_explode.go:21-60 | the patterns each turn adds for "/a/x/a" |
| Explode.ExamplePatternLists | tests/test_explode.go:21-60 | both lists for "/a/x/a" |
| Explode.ExplodeRepeats | tests/test_explode.go:12-70 | the test program's check does not stop "/a/+/a" appearing twice for "/a/x/a", because the repeat is a main pattern |
| Explode.MainPatternParts | broker.go:478-494 | the loop computes the main sections |
| Explode.ExplodePatterns | broker.go:471-516 | the loop computes the broker's pattern list |
| Explode.ExplodePatternsDedup | tests/test_explode.go:17-66 | the loop computes the test program's pattern list |
| ExplodeTest.Exploder.constructor | tests/test_explode.go:10 | the cache starts empty |
| ExplodeTest.Exploder.ExplodeTopic | tests/test_explode.go:12-70 | the result is the test program's list, cached under the topic; a cached topic returns its entry |
| ExplodeTest.Matches | tests/test_explode.go:89-100 | a subscription matches iff it is one of the patterns |
| ExplodeTest.MatchesAgreeWithBroker | tests/test_explode.go:89-100 | the test program and the broker match the same subscriptions |
| BrokerSpec.Copies | broker.go:227-244 | n copies of the message |
| BrokerSpec.Enqueue | broker.go:233-241 | queuing for a client adds that client and no other |
| BrokerSpec.EnqueueEachKeys | broker.go:229-242 | queuing for a list of clients adds exactly those clients |
| BrokerSpec.EnqueueEachSnoc | broker.go:229-242 | queuing for one more client queues after the others |
| BrokerSpec.EnqueueEntry | broker.go:233-241 | a client's entry for a pattern grows by the message only for that client and pattern |
| BrokerSpec.EnqueueEachEntry | broker.go:229-242 | an entry grows by one copy per listing of the client, and only for that pattern |
| BrokerSpec.FanOutEntry | broker.go:227-244 | a client's entry for pattern p grows by one copy per occurrence of p among the targets times its listings under p |
| BrokerSpec.FanOutLast | broker.go:227-244 | fan-out over one more target queues that target's subscribers last |
| BrokerSpec.TimesIsProduct | broker.go:227-244 | the repeated-addition count is the product |
| BrokerSpec.FanOutKeys | broker.go:227-244 | fan-out adds exactly the subscribers of the targets to the queues |
| BrokerSpec.DistinctCount | broker.go:155-158 | in a list without repeats an element occurs once or not at all |
| BrokerSpec.FanOutOncePerPattern | broker.go:227-244 | with duplicate-free subscriber lists, a subscriber of p gets one copy per occurrence of p, and others get none |
| BrokerSpec.NewerThan | broker.go:538-543 | filtering never lengthens the list |
| BrokerSpec.NewerThanMembers | broker.go:538-543 | exactly the messages newer than the last system pickup are kept |
| BrokerSpec.SystemSinceMembers | broker.go:522-550 | a topic is returned with exactly its newer messages, and left out only when it has none |
| BrokerSpec.OverlayReplaces | broker.go:295-306 | system messages replace normal ones of the same topic; other topics are kept |
| BrokerSpec.RemoveAll | broker.go:684-692 | removal never lengthens the list |
| BrokerSpec.RemoveAllMembers | broker.go:684-692 | exactly the elements not removed remain |
| BrokerSpec.RemoveAllTwice | broker.go:595-606 | removing two sets in turn is removing their union |
| BrokerSpec.RemoveAllAppend | broker.go:684-692 | removal distributes over concatenation |
| BrokerSpec.RemoveAllNone | broker.go:684-692 | removing nothing present changes nothing |
| BrokerSpec.RemoveAllDistinct | broker.go:684-692 | removal keeps a list without repeats |
| BrokerSpec.UnsubscribeTwice | broker.go:595-610 | kicking clients one at a time is kicking them together |
| BrokerSpec.UnsubscribeNobody | broker.go:600-606 | kicking nobody keeps every non-empty topic |
| BrokerSpec.UnsubscribeEffect | broker.go:600-606 | no topic is left empty; a client stays listed under a topic iff it was listed and was not kicked |
| BrokerSpec.Without | broker.go:608-609 | exactly the keys not removed remain |
| BrokerSpec.WithoutOneMore | broker.go:595-610 | removing one more key is removing it from the set |
| BrokerSpec.Fresh | broker.go:617-628 | exactly the posters that are not stale remain |
| Broker.Contains | broker.go:675-682 | true iff the item is in the list |
| Broker.RemoveString | broker.go:684-692 | the loop removes every occurrence of the item and keeps the order |
| Broker.ReplaceAt | broker.go:694-701 | same length; only position index takes the new value |
| Broker.FanOutLoop | broker.go:227-244 | the loop over targets computes the fan-out |
| Broker.EnqueueLoop | broker.go:229-242 | the loop over subscribers queues for each in order |
| Broker.AppendMessage | broker.go:233-241 | appends the message to the client's entry for the pattern |
| Broker.NewerSystemMessages | broker.go:534-547 | the loop keeps exactly the newer system messages per topic |
| Broker.CopyInto | broker.go:301-306 | copying system messages into the result overlays them |
| Broker.RemoveFromTopics | broker.go:600-606 | the loop unsubscribes the client from every topic and drops emptied topics |
| Broker.CollectInactive | broker.go:585-592 | the clients collected are exactly the inactive ones |
| Broker.PosterName | broker.go:194-196 | an empty sender becomes "UNKNOWN"; any other is kept |
| Broker.Targets | broker.go:227-228 | the targets are the exploded patterns followed by "#" |
| Broker.ReadValue | broker.go:325-347 | a value reads back iff the key is stored and its text unmarshals |
| Broker.ReadMatching | broker.go:350-377 | exactly the matching keys whose text unmarshals are returned |
| Broker.ClientInfo | broker.go:631-649 | the stored client, or a record named after the queue |
| Broker.DeliveredOnPickup | broker.go:227-322 | after a publish, a fresh subscriber of p picks up one copy per occurrence of p among the targets; a non-subscriber none |
| Broker.HashOnce | broker.go:227-228 | "#" is a target exactly once |
| Broker.SystemMessageDue | broker.go:254-275 | a system message newer than a client's last system pickup is delivered to it |
| Broker.StoredReadsBack | broker.go:246-248 | a published message is read back from the store |
| Broker.JustSeenStays | broker.go:581-615 | a client that just subscribed or picked up is not kicked |
| Broker.ListedValid | broker.go:155-158 | subscribing keeps subscriber lists free of repeats |
| Broker.ListedOnce | broker.go:155-158 | after subscribing the client is listed exactly once under the topic |
| Broker.ListedTwice | broker.go:155-158 | subscribing twice is subscribing once |
| Broker.Broker.constructor | broker.go:85-104 | all maps start empty |
| Broker.Broker.Subscribe | broker.go:128-174 | an empty name is an error; otherwise the client is listed once, its queue exists, and its record is created or refreshed |
| Broker.Broker.ExplodeTopic | broker.go:466-520 | the result is the pattern list, and it is cached |
| Broker.Broker.Publish | broker.go:177-251 | fan-out to the targets' subscribers, the poster is recorded, the message is stored, and nothing else changes |
| Broker.Broker.Deliver | broker.go:194-251 | the same for a given target list |
| Broker.Broker.PublishSystemMessage | broker.go:254-275 | appends a SERVER message to the topic's system queue |
| Broker.Broker.GetSystemMessages | broker.go:522-550 | returns the newer system messages and stamps the client's system pickup time |
| Broker.Broker.Pickup | broker.go:278-322 | returns the client's queue overlaid with its system messages, empties the queue, and refreshes the client |
| Broker.Broker.GetValue | broker.go:325-347 | the stored message, or an error |
| Broker.Broker.GetValuesByRegex | broker.go:350-377 | an invalid pattern is an error; otherwise the matching stored messages |
| Broker.Broker.PutValue | broker.go:380-396 | stores val (or message when val is empty) as a message under valname |
| Broker.Broker.KickInactiveClients | broker.go:581-615 | inactive clients lose their records, queues and subscriptions |
| Broker.Broker.ClearOldPosters | broker.go:617-628 | stale posters are dropped |
| Broker.Broker.MaintenanceTick | broker.go:553-579 | every fourth tick kicks inactive clients and clears old posters; the others change nothing |
| Broker.Broker.GetClients | broker.go:631-649 | one record per queue: every queued client's record is listed, and every record listed is the record of some queued client |
| Broker.Broker.GetPosters | broker.go:652-661 | every poster once |
| Broker.Broker.GetTopics | broker.go:664-669 | exactly the stored keys |
| Storage.LastRow | database.go:55-78 | the value of the last row for the key, and none iff no row has it |
| Storage.LoadedValue | database.go:66-73 | loading keeps every key, adds each row's key, and leaves the last row's value |
| Storage.ScannedStep | database.go:66-73 | the scanned rows grow one row at a time |
| Storage.KeysMatching | database.go:165-189 | every matching key once |
| Storage.Database.constructor | database.go:24 | the store starts empty |
| Storage.Database.SaveValue | database.go:113-133 | the marshalled text replaces the key's value; a marshal failure is an error and stores nothing |
| Storage.Database.GetValue | database.go:135-146 | the stored text, or "key not found" |
| Storage.Database.HasValue | database.go:148-155 | true iff the key is stored |
| Storage.Database.CountValues | database.go:157-163 | the number of keys |
| Storage.Database.GetKeys | database.go:165-175 | every key once |
| Storage.Database.GetKeysByRegex | database.go:177-189 | every matching key once |
| Storage.Database.LoadAll | database.go:55-78 | all rows scan and load, or the load stops with an error at the first row that fails to scan |
| Auth.CheckPassword | auth.go:18-38 | true iff the password is non-empty and equals the message stored under moustique_pwd |
| Auth.PutValueSetsPassword | auth.go:18-38 | after PUTVAL of moustique_pwd, exactly the stored value is accepted |
| Auth.OtherKeyKeepsPassword | auth.go:18-38 | storing any other key does not change which passwords are accepted |
| RateLimit.Recent | ratelimit.go:67-73 | filtering never lengthens the list |
| RateLimit.RecentMembers | ratelimit.go:67-73 | exactly the timestamps inside the window are kept |
| RateLimit.RecentKeeps | ratelimit.go:67-73 | timestamps already inside the window are all kept |
| RateLimit.RecentIdempotent | ratelimit.go:67-73 | filtering twice is filtering once |
| RateLimit.LimitFor | ratelimit.go:33-41 | a user's own limit, else the default |
| RateLimit.Pruned | ratelimit.go:112-133 | users with timestamps left in the window keep exactly those; the others are dropped |
| RateLimit.PrunedRecent | ratelimit.go:112-133 | every remaining list is non-empty and inside the window |
| RateLimit.FilterRecent | ratelimit.go:67-73 | the loop keeps the timestamps inside the window |
| RateLimit.CountRecent | ratelimit.go:98-108 | the loop counts the timestamps inside the window |
| RateLimit.PruneAll | ratelimit.go:112-133 | the loop prunes every user |
| RateLimit.RateLimiter.constructor | ratelimit.go:17-24 | the default limit and empty maps |
| RateLimit.RateLimiter.SetUserLimit | ratelimit.go:26-31 | sets the user's limit only |
| RateLimit.RateLimiter.GetUserLimit | ratelimit.go:33-41 | the user's limit, else the default |
| RateLimit.RateLimiter.AllowRequest | ratelimit.go:43-87 | a limit of 0 allows all; otherwise a request is refused iff the window is full, and an allowed one is recorded |
| RateLimit.RateLimiter.GetUserRequestCount | ratelimit.go:89-110 | the number of the user's requests inside the window |
| RateLimit.RateLimiter.Cleanup | ratelimit.go:112-133 | drops timestamps outside the window and users left with none |
| RateLimit.AllowedWithinLimit | ratelimit.go:43-87 | an allowed request never takes the window past the limit |
| RateLimit.RefusedKeepsCount | ratelimit.go:43-87 | a refused request keeps the window full |
| Security.ParseOctet | security.go:44-80 | an octet is below 256 |
| Security.ParseOctets | security.go:44-80 | an address has four octets below 256 |
| Security.Address | security.go:44-80 | an address fits in 32 bits |
| Security.ParseIP | security.go:44-80 | a parsed IPv4 address fits in 32 bits |
| Security.ParseBits | security.go:18-42 | a prefix length parses iff it is a non-empty run of digits worth at most 32, leading zeros allowed |
| Security.ParseCIDR | security.go:18-42 | a network parses iff the text has a '/' with an address before it and a prefix length after it; the base is aligned to the prefix and the network holds the address written |
| Security.BitsOfDecimal | security.go:18-42 | every prefix length up to 32 written in decimal reads back |
| Security.BitsLeadingZero | security.go:18-42 | a leading zero does not change a prefix length |
| Security.DigitsValueLeadingZero | security.go:18-42 | a leading zero does not change a run of digits' value |
| Security.PaddedPrefixes | security.go:18-42 | "08" and "008" are the prefix length 8 |
| Security.MaskDivides | security.go:18-42 | clearing the host bits keeps the network bits |
| Security.OctetValue | security.go:44-80 | a decimal octet without leading zeros parses to its value |
| Security.TailscaleOctets | security.go:82-95 | an address is in 100.64.0.0/10 iff its first octet is 100 and its second is 64 to 127 |
| Security.ExactPeers | security.go:18-42 | the exact peers are the entries without '/' |
| Security.PeerNets | security.go:18-42 | every network has at most 32 bits |
| Security.PeerNetsMembers | security.go:18-42 | the networks are exactly those of the entries that parse as CIDR |
| Security.ClassifyPeers | security.go:18-42 | the loop sorts the entries into exact peers and networks |
| Security.PeerStep | security.go:18-42 | each entry adds itself to one of the two lists |
| Security.SecurityChecker.constructor | security.go:18-42 | the checker holds the exact peers and the networks |
| Security.SecurityChecker.IsPeerAllowed | security.go:44-80 | allowed iff the host is not blank or UNKNOWN and is a localhost name, in 192.168., listed exactly, inside a listed network, or a Tailscale 100.64.0.0/10 address |
| Security.BlankRefused | security.go:44-80 | "" and "UNKNOWN" are refused |
| Security.ListedAllowed | security.go:44-80 | an exactly listed peer is allowed |
| Security.InListedNetAllowed | security.go:44-80 | an address inside a listed network is allowed |
| Security.ParsedNotBlank | security.go:44-80 | an address that parses is neither blank nor UNKNOWN |
| Security.FirstOctetHundred | security.go:82-95 | text starting "100." has first octet 100 |
| Security.TailscaleDecides | security.go:82-95 | with nothing listed, a 100.x.y.z peer is allowed iff x is 64 to 127 |
| Config.Defaulted | config.go:55-71 | every field is set afterwards, and fields already set are kept |
| Config.ApplyDefaults | config.go:55-71 | the steps give the defaulted configuration |
| Config.CompleteKeepsSetEqual | config.go:55-71 | a complete configuration is kept as it is |
| Config.DefaultedComplete | config.go:55-71 | defaulting a complete configuration changes nothing |
| Config.DefaultedIdempotent | config.go:55-71 | defaulting twice is defaulting once |
| Config.DefaultConfigFixed | config.go:77-99 | the generated default configuration is already complete |
| Config.LoadConfig | config.go:44-74 | a read error and a parse error are reported with their prefixes; otherwise the defaulted configuration |
| Config.DefaultConfig | config.go:77-99 | complete, and allows 172.16.0.0/12 and 192.168.0.0/16 |
| Server.AddedUserAccepted | server.go:278-297 | after AddUser the new password is accepted, and no other user's acceptance changes |
| Server.DeletedUserRefused | server.go:949-970 | a deleted user is refused whatever the password |
| Server.UserAuth.constructor | server.go:205-228 | no users |
| Server.UserAuth.AddUser | server.go:278-285 | stores the hash of the password under the user |
| Server.UserAuth.ValidateUser | server.go:287-297 | true iff the user exists and the password hashes to the stored hash |
| Server.UserAuth.DeleteUser | server.go:956-959 | removes the user |
| Server.BrokerManager.constructor | server.go:34-44 | no brokers, no default broker, and no context |
| Server.BrokerManager.NewLoadedBroker | server.go:90-141 | a fresh broker over a fresh store |
| Server.BrokerManager.InitializeDefault | server.go:47-87 | the default broker is created only when public access is allowed and setup succeeds; the context is set |
| Server.BrokerManager.GetOrCreateBroker | server.go:90-141 | an existing broker is returned; otherwise each failure has its own error and changes nothing, and success registers a new broker whose store is its own, so distinct users never share a broker or a store |
| Server.BrokerManager.GetBroker | server.go:144-148 | the user's broker, or none |
| Server.Param | server.go:526 | a missing parameter reads as "" |
| Server.RoutePath | server.go:506 | the path has no leading or trailing '/' |
| Server.Route | server.go:505-580 | public pages need nothing; ADMIN/ needs the admin password; user brokers need valid credentials; the public broker needs public access and missing credentials |
| Server.BrokerNeedsCredentials | server.go:547-580 | a broker request is served iff (without credentials) public access is on, or (with credentials) they are valid |
| Server.PublicPagesIgnoreCredentials | server.go:508-522 | public pages are routed the same whatever the credentials or settings |
| Server.UpdatedTime | server.go:658-663 | the parsed updated_time, or now when it is missing or not an int64 |
| Server.UpdatedTimeSent | server.go:658-663 | an int64 written as updated_time is used as it is |
| Server.HandlePickup | server.go:629-646 | a missing client is not found; otherwise the client's messages are returned and its queue is emptied |
| Server.HandlePost | server.go:648-672 | a missing topic or message is not found; otherwise the reply is Success iff the message marshals (a server error otherwise), the store holds it under the topic exactly then, the poster is recorded, the message is fanned out, and subscriptions and client records are unchanged |
| Server.HandleSubscribe | server.go:674-690 | a missing topic or client is not found; otherwise the client is listed under the topic |
| Server.HandlePutVal | server.go:692-717 | a missing name or value is not found; otherwise the value is stored, or a marshal failure is an error |
| Server.HandleGetVal | server.go:719-733 | a missing topic or an unreadable value is not found; otherwise the value |
| Server.HandleGetValsByRegex | server.go:735-749 | a missing pattern is not found, an invalid one an error; otherwise the matching values |
| Server.HandleEndpoint | server.go:592-620 | an unknown endpoint is not found and changes nothing |
| Server.Server.constructor | server.go:319-342 | no users, no brokers, and the public-access setting |
| Server.Server.AdminAddUser | server.go:915-947 | missing fields are a bad request; an existing user is an error; otherwise the user is created |
| Server.Server.AdminDeleteUser | server.go:949-970 | a missing name is a bad request; otherwise the user is removed and success reported |
| Server.Server.HandleRequest | server.go:477-625 | refused requests change nothing; user requests can only add the user's broker; the default broker never changes |
| Server.Server.ServeAdmin | server.go:532-543 | an unknown admin path is not found; only add and delete change users |
| Server.Server.ServePublic | server.go:554-567 | without a default broker the request is an error |
| Server.Server.ServeUser | server.go:568-580 | serving a user can only add this user's broker; every other user's broker, the public broker and their stores are unchanged; each GetOrCreateBroker failure is answered "failed to get broker: " followed by its error, registering nothing |

## Left out

- HTTP, sockets and file I/O are replaced by the `Transport.Channel` script and by parameters for the results of file-system calls. Request parsing, JSON rendering and response headers are not modelled.
- Mutexes, goroutines, the maintenance ticker and asynchronous JavaScript/Java futures are left out. Each operation is modelled as one atomic step; `MaintenanceTick` is one tick of `StartMaintenance`.
- Clocks, random numbers, host names, process ids and uuids are parameters. Date formatting (`getNiceDateTime`, `formatNiceDateTime`) is passed in as text.
- SHA-256, JSON (un)marshalling, YAML parsing, regular-expression compilation and matching, and Java's charset conversions are abstract function parameters.
- SQLite persistence (`NewDatabase`, `SaveAll`, `Close`), the users file (`UserAuth.Load`/`Save`) and the log files are left out. `LoadAll` takes the scanned rows as a parameter.
- `GetStats`, the request and serve-time counters, the status/stats/log/version pages, `ADMIN/LIST_USERS` and `ADMIN/SERVER_LOG` are left out. They only report.
- Entry points (`main`, `Start`, `handleConnection`), the demos, the example tests and test_explode's printing are left out.
- Python's module-level `getversion` ... `getcrooks` wrappers are left out. Each is one `get` call with a fixed endpoint, and `get` is modelled.
- PyClient.Pitval: modelled as raising, because `publish_nothread_put` does not exist.
- Broker.Broker.Subscribe: takes the client's IP and the time, as in broker.go. server.go calls it with two arguments.
- Broker.Broker.Pickup: takes the client's IP and the time, as in broker.go. server.go calls it with one argument.
- Broker.ReplaceAt: the index is a `nat`, so Go's panic on a negative index is not modelled.
- Broker.Broker.Publish: each queued copy carries the message's final subscriber set, which is what the shared pointer shows once Publish returns. Pointer sharing between queues and poster records, and later changes through it, are not modelled.
- Decimal.ParseInt64: gives None for every text `strconv.ParseInt` rejects in base 10, without telling its syntax and range errors apart; the handlers ignore both alike.
- Security.ParseIP: IPv4 only. An IPv6 peer is allowed only as "::1" or when listed exactly; the source would also test it against IPv6 networks.
- Security.ParseOctet: accepts decimal octets up to 255 and rejects leading zeros, as Go's parser does. IPv4-mapped forms are not modelled.
- Server.Server.HandleRequest: states routing and what each decision may change. The endpoint handlers' effects are stated on `Server.HandleEndpoint` and the handlers it calls.
- Server.Server.ServePublic: states only the missing-broker error; the effects on the broker are those of `Server.HandleEndpoint`.
- Server.HandleEndpoint: states only the not-found case; each endpoint's effect is stated on its handler.
- Server.BrokerManager.NewLoadedBroker: the loaded broker's values are not stated, only that it is fresh and valid.
- JsClient.Regrown: states only that no topic is added or removed; what is appended is stated by `JsClient.ResubscribeAllAccepted` and `JsClient.ResubscribeAllRefused`.
- JsonData.Json: JSON parsing is a function parameter. An object's members come in the order the client iterates them, each key once; JavaScript's placing of integer-like keys first is left to that order. A number keeps only its value, so NaN and Infinity stand for any non-zero number, which is all the clients look at.
- JavaUtils.Enc, JavaUtils.Dec, JsClient.Enc, JsClient.Dec: take a string. Java's `enc` and `dec` also map `null` to "", and the JavaScript ones map every falsy argument (`null`, `undefined`) to ''; such arguments, and the requests built from them (a `publish` with a `null` message sends an empty field), cannot be expressed.
- JsClient.Entries: Object.entries on a string indexes its UTF-16 code units; the model indexes Unicode characters, which differ only outside the Basic Multilingual Plane. (for-of goes through code points, as `JsClient.Iterated` does.)
- PyClient.Walk, JsClient.Walk: callbacks are handlers that return normally; an exception thrown inside a user callback is not modelled.
- JsClient.Moustique.Pickup: each system call starts resubscribe without awaiting it. The model returns how many were started and leaves each run to `JsClient.Moustique.Resubscribe`; how their requests interleave with pickup's later calls and with other requests is not modelled.
- Integer widths: timestamps and counters are unbounded integers. Only `updated_time` parsing checks the int64 range.

=== FILE: auth.dfy ===
/**
 * The broker-level password check (auth.go): the password lives in the
 * key/value store under "moustique_pwd" as a JSON message whose message
 * field is the password.  JSON decoding is the unmarshal parameter.
 */
module Auth {

  import opened Wrappers
  import opened BrokerSpec

  /** The key the password is stored under. */
  const PasswordKey: string := "moustique_pwd"

  /**
   * CheckPassword: an empty password, a missing key and a stored text that
   * does not parse as a message all fail; otherwise the password must equal
   * the stored message field.
   */
  function CheckPassword(values: map<string, string>, provided: string,
                         unmarshal: string -> Option<Message>): (ok: bool)
    ensures provided == "" ==> !ok
    ensures PasswordKey !in values ==> !ok
    ensures PasswordKey in values && unmarshal(values[PasswordKey]).None? ==> !ok
    ensures ok <==> (provided != "" && PasswordKey in values && unmarshal(values[PasswordKey]).Some? &&
                     provided == unmarshal(values[PasswordKey]).value.message)
  {
    if provided == "" then false
    else if PasswordKey !in values then false
    else
      var msg := unmarshal(values[PasswordKey]);
      if msg.None? then false
      else provided == msg.value.message
  }

  /**
   * A password set with PutValue (val, or message when val is empty) is
   * the one that passes afterwards, provided the JSON codec reads back what
   * it writes; every other password fails.
   */
  lemma PutValueSetsPassword(values: map<string, string>, key: string, val: string, message: string,
                             from: string, updatedTime: int, provided: string,
                             marshal: Message -> Option<string>, unmarshal: string -> Option<Message>)
    requires key == PasswordKey
    requires var msg := Message(from, "", if val == "" then message else val, updatedTime, None, "");
      marshal(msg).Some? && unmarshal(marshal(msg).value) == Some(msg)
    ensures var msg := Message(from, "", if val == "" then message else val, updatedTime, None, "");
      CheckPassword(values[key := marshal(msg).value], provided, unmarshal) <==>
        provided != "" && provided == (if val == "" then message else val)
  {
    var msg := Message(from, "", if val == "" then message else val, updatedTime, None, "");
    var after := values[key := marshal(msg).value];
    assert after[PasswordKey] == marshal(msg).value;
  }

  /** Storing under any other key leaves the check as it was. */
  lemma OtherKeyKeepsPassword(values: map<string, string>, key: string, text: string, provided: string,
                              unmarshal: string -> Option<Message>)
    requires key != PasswordKey
    ensures CheckPassword(values[key := text], provided, unmarshal) == CheckPassword(values, provided, unmarshal)
  {
    assert PasswordKey in values[key := text] <==> PasswordKey in values;
  }
}

=== FILE: base64.dfy ===
/**
 * Standard base64 (section 4 of RFC 4648): the alphabet A-Z a-z 0-9 + /,
 * padding with '=' to a multiple of four characters.  Four decoders:
 *  - DecodeString, Go's StdEncoding.DecodeString: skips every '\r' and
 *    '\n', and on an error still hands back the bytes of every group
 *    decoded before the failing one;
 *  - Decode, the strict reading of the same groups with nothing skipped
 *    (the reading Java's basic decoder makes of padded text);
 *  - DecodeNonStrict, Python's b64decode with validate=False, and
 *    DecodeForgiving, the "forgiving-base64 decode" atob runs.
 */
module Base64 {

  import opened Wrappers
  import opened Text

  predicate IsAlphabet(c: char) {
    IsAsciiLetter(c) || IsDigit(c) || c == '+' || c == '/'
  }

  /** The character that stands for a 6-bit value. */
  function CharOf(v: nat): (c: char)
    requires v < 64
    ensures IsAlphabet(c)
  {
    if v < 26 then ('A' as int + v) as char
    else if v < 52 then ('a' as int + v - 26) as char
    else if v < 62 then ('0' as int + v - 52) as char
    else if v == 62 then '+'
    else '/'
  }

  /** The 6-bit value an alphabet character stands for. */
  function ValueOf(c: char): (v: nat)
    requires IsAlphabet(c)
    ensures v < 64 && CharOf(v) == c
  {
    if IsUpper(c) then c as int - 'A' as int
    else if IsLower(c) then c as int - 'a' as int + 26
    else if IsDigit(c) then c as int - '0' as int + 52
    else if c == '+' then 62
    else 63
  }

  lemma ValueOfCharOf(v: nat)
    requires v < 64
    ensures ValueOf(CharOf(v)) == v
  {
  }

  /** Only alphabet characters and '=' make up an encoding. */
  predicate IsEncodingText(s: string) {
    forall i :: 0 <= i < |s| ==> IsAlphabet(s[i]) || s[i] == '='
  }

  lemma EncodingTextIsAscii(s: string)
    requires IsEncodingText(s)
    ensures IsAscii(s)
  {
  }

  /** Base64 of a byte string, padded. */
  function Encode(b: seq<Byte>): (s: string)
    ensures |s| == 4 * ((|b| + 2) / 3)
    ensures IsEncodingText(s)
    ensures |b| > 0 <==> |s| > 0
    decreases |b|
  {
    if |b| == 0 then ""
    else if |b| == 1 then
      [CharOf(b[0] / 4), CharOf((b[0] % 4) * 16), '=', '=']
    else if |b| == 2 then
      [CharOf(b[0] / 4), CharOf((b[0] % 4) * 16 + b[1] / 16), CharOf((b[1] % 16) * 4), '=']
    else
      var g, rest := Group(b[0], b[1], b[2]), Encode(b[3..]);
      assert (|b| + 2) / 3 == (|b| - 1) / 3 + 1;
      EncodingTextAppend(g, rest);
      g + rest
  }

  lemma EncodingTextAppend(a: string, b: string)
    requires IsEncodingText(a) && IsEncodingText(b)
    ensures IsEncodingText(a + b)
  {
    var s := a + b;
    forall i | 0 <= i < |s| ensures IsAlphabet(s[i]) || s[i] == '=' {
      if i >= |a| {
        assert s[i] == b[i - |a|];
      }
    }
  }

  /** The four characters for three bytes: 24 bits cut into four 6-bit values. */
  function Group(x: Byte, y: Byte, z: Byte): (s: string)
    ensures |s| == 4 && IsEncodingText(s)
  {
    [CharOf(x / 4), CharOf((x % 4) * 16 + y / 16), CharOf((y % 16) * 4 + z / 64), CharOf(z % 64)]
  }

  /** What a decoder hands back: the bytes decoded so far, and whether the whole input was valid. */
  datatype Decoded = Decoded(bytes: seq<Byte>, complete: bool)

  function Byte1(a: nat, b: nat): (x: Byte)
    requires a < 64 && b < 64
  {
    a * 4 + b / 16
  }

  function Byte2(b: nat, c: nat): (x: Byte)
    requires b < 64 && c < 64
  {
    (b % 16) * 16 + c / 4
  }

  function Byte3(c: nat, d: nat): (x: Byte)
    requires c < 64 && d < 64
  {
    (c % 4) * 64 + d
  }

  /**
   * Decodes group by group.  Four alphabet characters give three bytes and
   * decoding goes on; "xx==" gives one byte and "xxx=" two, and must end the
   * input; anything else (a stray character, padding in the wrong place, a
   * short last group) stops with an error, keeping the bytes of the groups
   * before it.  Non-zero bits under the padding are accepted.
   */
  function DecodePrefix(s: string): (d: Decoded)
    ensures |d.bytes| <= 3 * (|s| / 4)
    ensures d.complete ==> |s| % 4 == 0 && IsEncodingText(s)
    ensures |s| == 0 ==> d == Decoded([], true)
    decreases |s|
  {
    if |s| == 0 then Decoded([], true)
    else if |s| < 4 || !IsAlphabet(s[0]) || !IsAlphabet(s[1]) then Decoded([], false)
    else
      var a, b := ValueOf(s[0]), ValueOf(s[1]);
      if IsAlphabet(s[2]) && IsAlphabet(s[3]) then
        var c, d := ValueOf(s[2]), ValueOf(s[3]);
        var rest := DecodePrefix(s[4..]);
        assert |s[4..]| / 4 == |s| / 4 - 1;
        EncodingTextCons(s);
        Decoded([Byte1(a, b), Byte2(b, c), Byte3(c, d)] + rest.bytes, rest.complete)
      else if IsAlphabet(s[2]) && s[3] == '=' then
        Decoded([Byte1(a, b), Byte2(b, ValueOf(s[2]))], |s| == 4)
      else if s[2] == '=' && s[3] == '=' then
        Decoded([Byte1(a, b)], |s| == 4)
      else Decoded([], false)
  }

  lemma EncodingTextCons(s: string)
    requires |s| >= 4 && IsAlphabet(s[0]) && IsAlphabet(s[1]) && IsAlphabet(s[2]) && IsAlphabet(s[3])
    ensures IsEncodingText(s[4..]) ==> IsEncodingText(s)
  {
    if IsEncodingText(s[4..]) {
      forall i | 4 <= i < |s| ensures IsAlphabet(s[i]) || s[i] == '=' {
        assert s[i] == s[4..][i - 4];
      }
    }
  }

  /** Strict decoding: the bytes when the whole input is a valid encoding, None otherwise. */
  function Decode(s: string): (r: Option<seq<Byte>>)
    ensures r.Some? ==> |s| % 4 == 0 && IsEncodingText(s)
    ensures s == "" ==> r == Some([])
  {
    var d := DecodePrefix(s);
    if d.complete then Some(d.bytes) else None
  }

  // ---------------------------------------------------------------------
  // Characters a decoder skips

  /** The text with every character drop picks out taken out. */
  function Without(s: string, drop: char -> bool): (r: string)
    ensures |r| <= |s|
    ensures forall i :: 0 <= i < |r| ==> !drop(r[i])
    decreases |s|
  {
    if |s| == 0 then ""
    else
      var init := Without(s[..|s| - 1], drop);
      if drop(s[|s| - 1]) then init else init + [s[|s| - 1]]
  }

  /** Text with nothing to drop is left as it is. */
  lemma {:induction false} WithoutKeeps(s: string, drop: char -> bool)
    requires forall i :: 0 <= i < |s| ==> !drop(s[i])
    ensures Without(s, drop) == s
    decreases |s|
  {
    if |s| > 0 {
      WithoutKeeps(s[..|s| - 1], drop);
      assert s[..|s| - 1] + [s[|s| - 1]] == s;
    }
  }

  lemma {:induction false} WithoutAppend(a: string, b: string, drop: char -> bool)
    ensures Without(a + b, drop) == Without(a, drop) + Without(b, drop)
    decreases |b|
  {
    if |b| == 0 {
      assert a + b == a;
    } else {
      var init := b[..|b| - 1];
      assert (a + b)[..|a + b| - 1] == a + init;
      assert (a + b)[|a + b| - 1] == b[|b| - 1];
      WithoutAppend(a, init, drop);
    }
  }

  /** A dropped character anywhere in the text leaves no trace. */
  lemma WithoutDropped(a: string, c: char, b: string, drop: char -> bool)
    requires drop(c)
    ensures Without(a + [c] + b, drop) == Without(a + b, drop)
  {
    WithoutAppend(a + [c], b, drop);
    WithoutAppend(a, [c], drop);
    WithoutAppend(a, b, drop);
    assert Without([c], drop) == Without([], drop) by {
      assert [c][..0] == [];
    }
  }

  /** An encoding has no character outside the alphabet and '='. */
  lemma EncodingTextKept(s: string, drop: char -> bool)
    requires IsEncodingText(s)
    requires forall c :: drop(c) ==> !IsAlphabet(c) && c != '='
    ensures Without(s, drop) == s
  {
    forall i | 0 <= i < |s| ensures !drop(s[i]) {
      assert IsAlphabet(s[i]) || s[i] == '=';
    }
    WithoutKeeps(s, drop);
  }

  // ---------------------------------------------------------------------
  // Go: line breaks skipped

  predicate IsLineBreak(c: char) {
    c == '\r' || c == '\n'
  }

  /**
   * StdEncoding.DecodeString: the group decoder run over the text with its
   * line breaks skipped.
   */
  function DecodeString(s: string): (d: Decoded)
    ensures d.complete ==> |Without(s, IsLineBreak)| % 4 == 0 && IsEncodingText(Without(s, IsLineBreak))
    ensures (forall i :: 0 <= i < |s| ==> !IsLineBreak(s[i])) ==> d == DecodePrefix(s)
  {
    assert (forall i :: 0 <= i < |s| ==> !IsLineBreak(s[i])) ==> Without(s, IsLineBreak) == s by {
      if forall i :: 0 <= i < |s| ==> !IsLineBreak(s[i]) {
        WithoutKeeps(s, IsLineBreak);
      }
    }
    DecodePrefix(Without(s, IsLineBreak))
  }

  /** A line break anywhere in the input changes nothing. */
  lemma LineBreakSkipped(a: string, c: char, b: string)
    requires IsLineBreak(c)
    ensures DecodeString(a + [c] + b) == DecodeString(a + b)
  {
    WithoutDropped(a, c, b, IsLineBreak);
  }

  /** An encoding has no line breaks, so DecodeString reads it back like the strict decoder. */
  lemma DecodeStringEncode(b: seq<Byte>)
    ensures DecodeString(Encode(b)) == Decoded(b, true)
  {
    EncodingTextKept(Encode(b), IsLineBreak);
    DecodeEncode(b);
  }

  /** The MIME-wrapped "Y\nQ==" decodes to "a" in Go, while the strict decoder refuses it. */
  lemma WrappedA()
    ensures DecodeString("Y\nQ==") == Decoded(['a' as int], true)
    ensures Decode("Y\nQ==") == None
  {
    LineBreakSkipped("Y", '\n', "Q==");
    assert "Y" + ['\n'] + "Q==" == "Y\nQ==";
    assert "Y" + "Q==" == "YQ==";
    var t := "YQ==";
    assert forall i :: 0 <= i < |t| ==> !IsLineBreak(t[i]);
    assert ValueOf(t[0]) == 24 && ValueOf(t[1]) == 16;
    assert Byte1(24, 16) == 'a' as int;
  }

  lemma Split16(x: nat, y: nat)
    requires x < 16 && y < 16
    ensures (x * 16 + y) / 16 == x && (x * 16 + y) % 16 == y
  {
  }

  lemma Split4(x: nat, y: nat)
    requires x < 64 && y < 4
    ensures (x * 4 + y) / 4 == x && (x * 4 + y) % 4 == y
  {
  }

  lemma Split64(x: nat, y: nat)
    requires x < 4 && y < 64
    ensures (x * 64 + y) / 64 == x && (x * 64 + y) % 64 == y
  {
  }

  /** One full group: three bytes out, three bytes back. */
  lemma {:induction false} GroupRoundTrip(x: Byte, y: Byte, z: Byte)
    ensures Byte1(x / 4, (x % 4) * 16 + y / 16) == x
    ensures Byte2((x % 4) * 16 + y / 16, (y % 16) * 4 + z / 64) == y
    ensures Byte3((y % 16) * 4 + z / 64, z % 64) == z
  {
    Split16(x % 4, y / 16);
    Split4(y % 16, z / 64);
  }

  /** Every byte string survives encoding and decoding. */
  lemma {:induction false} DecodeEncode(b: seq<Byte>)
    ensures DecodePrefix(Encode(b)) == Decoded(b, true)
    ensures Decode(Encode(b)) == Some(b)
    decreases |b|
  {
    if |b| == 1 {
      assert b == [b[0]];
      DecodeLastOne(b[0]);
    } else if |b| == 2 {
      assert b == [b[0], b[1]];
      DecodeLastTwo(b[0], b[1]);
    } else if |b| >= 3 {
      var rest := b[3..];
      calc {
        DecodePrefix(Encode(b));
        DecodePrefix(Group(b[0], b[1], b[2]) + Encode(rest));
        { DecodeGroup(b[0], b[1], b[2], Encode(rest)); }
        Decoded([b[0], b[1], b[2]] + DecodePrefix(Encode(rest)).bytes, DecodePrefix(Encode(rest)).complete);
        { DecodeEncode(rest); }
        Decoded([b[0], b[1], b[2]] + rest, true);
        { assert b == [b[0], b[1], b[2]] + rest; }
        Decoded(b, true);
      }
    }
  }

  lemma DecodeLastOne(x: Byte)
    ensures DecodePrefix(Encode([x])) == Decoded([x], true)
  {
    var s := Encode([x]);
    ValueOfCharOf(x / 4);
    ValueOfCharOf((x % 4) * 16);
    assert ValueOf(s[0]) == x / 4 && ValueOf(s[1]) == (x % 4) * 16;
    Split16(x % 4, 0);
    assert Byte1(x / 4, (x % 4) * 16) == x;
  }

  lemma DecodeLastTwo(x: Byte, y: Byte)
    ensures DecodePrefix(Encode([x, y])) == Decoded([x, y], true)
  {
    var s := Encode([x, y]);
    ValueOfCharOf(x / 4);
    ValueOfCharOf((x % 4) * 16 + y / 16);
    ValueOfCharOf((y % 16) * 4);
    assert ValueOf(s[0]) == x / 4 && ValueOf(s[1]) == (x % 4) * 16 + y / 16;
    assert ValueOf(s[2]) == (y % 16) * 4;
    GroupRoundTrip(x, y, 0);
  }

  lemma DecodeGroup(x: Byte, y: Byte, z: Byte, rest: string)
    ensures DecodePrefix(Group(x, y, z) + rest)
         == Decoded([x, y, z] + DecodePrefix(rest).bytes, DecodePrefix(rest).complete)
  {
    var g := Group(x, y, z);
    var s := g + rest;
    ValueOfCharOf(x / 4);
    ValueOfCharOf((x % 4) * 16 + y / 16);
    ValueOfCharOf((y % 16) * 4 + z / 64);
    ValueOfCharOf(z % 64);
    GroupRoundTrip(x, y, z);
    assert s[4..] == rest;
  }

  // ---------------------------------------------------------------------
  // Lenient decoders: the 6-bit values read, then the bytes they carry

  type Sextet = v: nat | v < 64

  /**
   * The bytes a run of 6-bit values carries, eight bits at a time: four
   * values give three bytes, a trailing two give one byte and a trailing
   * three give two; the bits left over are dropped.
   */
  function SextetBytes(v: seq<Sextet>): (b: seq<Byte>)
    ensures |b| == 3 * (|v| / 4) + (if |v| % 4 == 0 then 0 else |v| % 4 - 1)
    decreases |v|
  {
    if |v| < 2 then []
    else if |v| == 2 then [Byte1(v[0], v[1])]
    else if |v| == 3 then [Byte1(v[0], v[1]), Byte2(v[1], v[2])]
    else [Byte1(v[0], v[1]), Byte2(v[1], v[2]), Byte3(v[2], v[3])] + SextetBytes(v[4..])
  }

  /** The 6-bit values Encode writes for b, padding left out. */
  function Sextets(b: seq<Byte>): (v: seq<Sextet>)
    decreases |b|
  {
    if |b| == 0 then []
    else if |b| == 1 then [b[0] / 4, (b[0] % 4) * 16]
    else if |b| == 2 then [b[0] / 4, (b[0] % 4) * 16 + b[1] / 16, (b[1] % 16) * 4]
    else GroupValues(b[0], b[1], b[2]) + Sextets(b[3..])
  }

  /** The four values three bytes are cut into. */
  function GroupValues(x: Byte, y: Byte, z: Byte): (v: seq<Sextet>)
    ensures |v| == 4
  {
    [x / 4, (x % 4) * 16 + y / 16, (y % 16) * 4 + z / 64, z % 64]
  }

  /** Whole groups of bytes give whole groups of values; a last byte two values, two last bytes three. */
  lemma {:induction false} SextetsLength(b: seq<Byte>)
    ensures |Sextets(b)| % 4 == (if |b| % 3 == 0 then 0 else |b| % 3 + 1)
    decreases |b|
  {
    if |b| >= 3 {
      SextetsLength(b[3..]);
    }
  }

  /** The characters for a run of values. */
  function Chars(v: seq<Sextet>): (s: string)
    ensures |s| == |v| && forall i :: 0 <= i < |v| ==> s[i] == CharOf(v[i])
  {
    seq(|v|, i requires 0 <= i < |v| => CharOf(v[i]))
  }

  /** The values of a run of alphabet characters. */
  function Values(s: string): (v: seq<Sextet>)
    requires forall i :: 0 <= i < |s| ==> IsAlphabet(s[i])
    ensures |v| == |s| && forall i :: 0 <= i < |s| ==> CharOf(v[i]) == s[i]
  {
    seq(|s|, i requires 0 <= i < |s| => ValueOf(s[i]))
  }

  /** The padding Encode puts after the values of n bytes. */
  function Padding(n: nat): (p: string)
  {
    if n % 3 == 1 then "==" else if n % 3 == 2 then "=" else ""
  }

  lemma CharsAppend(u: seq<Sextet>, v: seq<Sextet>)
    ensures Chars(u + v) == Chars(u) + Chars(v)
  {
  }

  /** An encoding is the characters of its values, then padding. */
  lemma {:induction false} EncodeShape(b: seq<Byte>)
    ensures Encode(b) == Chars(Sextets(b)) + Padding(|b|)
    decreases |b|
  {
    if |b| == 1 {
      LastOneShape(b[0]);
      assert b == [b[0]];
    } else if |b| == 2 {
      LastTwoShape(b[0], b[1]);
      assert b == [b[0], b[1]];
    } else if |b| >= 3 {
      EncodeShape(b[3..]);
      EncodeCons(b);
      EncodeShapeStep(b, Encode(b), Encode(b[3..]));
    }
  }

  /** One group in front of text of that shape keeps the shape. */
  lemma EncodeShapeStep(b: seq<Byte>, e: string, tail: string)
    requires |b| >= 3
    requires e == Group(b[0], b[1], b[2]) + tail
    requires tail == Chars(Sextets(b[3..])) + Padding(|b| - 3)
    ensures e == Chars(Sextets(b)) + Padding(|b|)
  {
    var rest := b[3..];
    GroupShape(b[0], b[1], b[2]);
    PaddingShift(|rest|);
    assert Sextets(b) == GroupValues(b[0], b[1], b[2]) + Sextets(rest);
    assert |rest| + 3 == |b|;
    CharsConcat(GroupValues(b[0], b[1], b[2]), Sextets(rest), Padding(|rest|));
  }

  lemma CharsConcat(u: seq<Sextet>, v: seq<Sextet>, p: string)
    ensures Chars(u) + (Chars(v) + p) == Chars(u + v) + p
  {
    CharsAppend(u, v);
  }

  lemma PaddingShift(n: nat)
    ensures Padding(n + 3) == Padding(n)
  {
  }

  lemma EncodeCons(b: seq<Byte>)
    requires |b| >= 3
    ensures Encode(b) == Group(b[0], b[1], b[2]) + Encode(b[3..])
  {
  }

  lemma GroupShape(x: Byte, y: Byte, z: Byte)
    ensures Group(x, y, z) == Chars(GroupValues(x, y, z))
  {
  }

  lemma LastOneShape(x: Byte)
    ensures Encode([x]) == Chars(Sextets([x])) + "=="
  {
  }

  lemma LastTwoShape(x: Byte, y: Byte)
    ensures Encode([x, y]) == Chars(Sextets([x, y])) + "="
  {
  }

  /** The values of an encoding carry its bytes back. */
  lemma {:induction false} SextetBytesSextets(b: seq<Byte>)
    ensures SextetBytes(Sextets(b)) == b
    decreases |b|
  {
    if |b| == 1 {
      Split16(b[0] % 4, 0);
    } else if |b| == 2 {
      GroupRoundTrip(b[0], b[1], 0);
    } else if |b| >= 3 {
      var v := Sextets(b);
      GroupRoundTrip(b[0], b[1], b[2]);
      assert v[4..] == Sextets(b[3..]);
      SextetBytesSextets(b[3..]);
      assert b == [b[0], b[1], b[2]] + b[3..];
    }
  }

  // ---------------------------------------------------------------------
  // Python: b64decode(s) with validate=False

  /**
   * binascii.a2b_base64 with strict mode off.  Characters outside the
   * alphabet and '=' are skipped.  A '=' counts as padding only once two or
   * three values of the current group are in, and the padding that fills
   * the group ends the input; a value in between resets the count.  The
   * result: the values read, and whether padding ended the input.
   */
  function ScanNonStrict(s: string, vals: seq<Sextet>, pads: nat): (r: (seq<Sextet>, bool))
    ensures |vals| <= |r.0|
    decreases |s|
  {
    if |s| == 0 then (vals, false)
    else if s[0] == '=' then
      var q := |vals| % 4;
      if q >= 2 && q + pads + 1 >= 4 then (vals, true)
      else ScanNonStrict(s[1..], vals, if q >= 2 then pads + 1 else pads)
    else if IsAlphabet(s[0]) then ScanNonStrict(s[1..], vals + [ValueOf(s[0])], 0)
    else ScanNonStrict(s[1..], vals, pads)
  }

  /**
   * The bytes of the values read, when padding ended the input or the
   * values fill whole groups; otherwise binascii.Error, which None stands
   * for.  Bits under the padding are not checked.
   */
  function DecodeNonStrict(s: string): (r: Option<seq<Byte>>)
    ensures r.Some? <==> ScanNonStrict(s, [], 0).1 || |ScanNonStrict(s, [], 0).0| % 4 == 0
  {
    var scan := ScanNonStrict(s, [], 0);
    if scan.1 || |scan.0| % 4 == 0 then Some(SextetBytes(scan.0)) else None
  }

  /** Scanning an alphabet character appends its value and clears the pad count. */
  lemma ScanChar(c: char, rest: string, vals: seq<Sextet>, pads: nat)
    requires IsAlphabet(c)
    ensures ScanNonStrict([c] + rest, vals, pads) == ScanNonStrict(rest, vals + [ValueOf(c)], 0)
  {
    assert ([c] + rest)[1..] == rest;
  }

  lemma CharsCons(v: seq<Sextet>, p: string)
    requires |v| > 0
    ensures Chars(v) + p == [CharOf(v[0])] + (Chars(v[1..]) + p)
  {
  }

  /** Scanning alphabet characters appends their values and clears the pad count. */
  lemma {:induction false} ScanChars(v: seq<Sextet>, p: string, vals: seq<Sextet>, pads: nat)
    requires |v| > 0
    ensures ScanNonStrict(Chars(v) + p, vals, pads) == ScanNonStrict(p, vals + v, 0)
    decreases |v|
  {
    CharsCons(v, p);
    ScanChar(CharOf(v[0]), Chars(v[1..]) + p, vals, pads);
    ValueOfCharOf(v[0]);
    if |v| == 1 {
      assert Chars(v[1..]) == [];
      assert vals + [v[0]] == vals + v;
    } else {
      ScanChars(v[1..], p, vals + [v[0]], 0);
      assert vals + [v[0]] + v[1..] == vals + v;
    }
  }

  /** Padding that fills the group ends the scan, whatever follows. */
  lemma PaddingEnds(v: seq<Sextet>, p: string, rest: string)
    requires (|v| % 4 == 2 && p == "==") || (|v| % 4 == 3 && p == "=")
    ensures ScanNonStrict(p + rest, v, 0) == (v, true)
  {
    if p == "==" {
      assert (p + rest)[1..] == "=" + rest;
    }
  }

  /** A character outside the alphabet and '=' is skipped. */
  lemma {:induction false} ScanSkips(a: string, c: char, b: string, vals: seq<Sextet>, pads: nat)
    requires !IsAlphabet(c) && c != '='
    ensures ScanNonStrict(a + [c] + b, vals, pads) == ScanNonStrict(a + b, vals, pads)
    decreases |a|
  {
    if |a| == 0 {
      assert (a + [c] + b)[1..] == a + b;
    } else {
      assert (a + [c] + b)[0] == (a + b)[0] == a[0];
      assert (a + [c] + b)[1..] == a[1..] + [c] + b;
      assert (a + b)[1..] == a[1..] + b;
      var q := |vals| % 4;
      if a[0] == '=' {
        ScanSkips(a[1..], c, b, vals, if q >= 2 then pads + 1 else pads);
      } else if IsAlphabet(a[0]) {
        ScanSkips(a[1..], c, b, vals + [ValueOf(a[0])], 0);
      } else {
        ScanSkips(a[1..], c, b, vals, pads);
      }
    }
  }

  /** Junk between the characters of an input changes nothing. */
  lemma NonStrictSkips(a: string, c: char, b: string)
    requires !IsAlphabet(c) && c != '='
    ensures DecodeNonStrict(a + [c] + b) == DecodeNonStrict(a + b)
  {
    ScanSkips(a, c, b, [], 0);
  }

  /** Every encoding reads back. */
  lemma NonStrictEncode(b: seq<Byte>)
    ensures DecodeNonStrict(Encode(b)) == Some(b)
  {
    EncodeShape(b);
    SextetBytesSextets(b);
    SextetsLength(b);
    NonStrictShape(Sextets(b), |b|);
  }

  lemma NonStrictShape(v: seq<Sextet>, n: nat)
    requires |v| % 4 == (if n % 3 == 0 then 0 else n % 3 + 1)
    ensures DecodeNonStrict(Chars(v) + Padding(n)) == Some(SextetBytes(v))
  {
    var p := Padding(n);
    if |v| > 0 {
      ScanChars(v, p, [], 0);
      assert [] + v == v;
      if n % 3 != 0 {
        PaddingEnds(v, p, "");
        assert p + "" == p;
      }
    }
  }

  /** Two encodings run together read as the first, where the strict decoder refuses them. */
  lemma NonStrictExamples()
    ensures DecodeNonStrict("YQ==") == Some(['a' as int])
    ensures DecodeNonStrict("YQ==YQ==") == Some(['a' as int])
    ensures Decode("YQ==YQ==") == None
  {
    var v: seq<Sextet> := [24, 16];
    assert Chars(v) == "YQ";
    assert SextetBytes(v) == ['a' as int];
    ScanChars(v, "==YQ==", [], 0);
    ScanChars(v, "==", [], 0);
    assert "YQ" + "==YQ==" == "YQ==YQ==" && "YQ" + "==" == "YQ==";
    assert [] + v == v;
    PaddingEnds(v, "==", "YQ==");
    PaddingEnds(v, "==", "");
    assert "==" + "YQ==" == "==YQ==" && "==" + "" == "==";
  }

  /** A space inside a group is skipped, where the strict decoder refuses it. */
  lemma NonStrictSpaced()
    ensures DecodeNonStrict("Y Q==") == Some(['a' as int])
    ensures Decode("Y Q==") == None
  {
    NonStrictExamples();
    NonStrictSkips("Y", ' ', "Q==");
    assert "Y" + [' '] + "Q==" == "Y Q==";
    assert "Y" + "Q==" == "YQ==";
  }

  // ---------------------------------------------------------------------
  // JavaScript: atob's forgiving-base64 decode

  predicate IsAsciiWhitespace(c: char) {
    c == '\t' || c == '\n' || c == '\U{000C}' || c == '\r' || c == ' '
  }

  /** The text forgiving decode checks: whitespace gone, one or two closing '=' dropped at a length divisible by four. */
  function Unpadded(s: string): (e: string)
    ensures |e| <= |s|
  {
    var d := Without(s, IsAsciiWhitespace);
    if |d| % 4 == 0 && |d| >= 2 && d[|d| - 2..] == "==" then d[..|d| - 2]
    else if |d| % 4 == 0 && |d| >= 1 && d[|d| - 1] == '=' then d[..|d| - 1]
    else d
  }

  /**
   * The bytes of the values left, when what is left has no character
   * outside the alphabet and its length is not one past a multiple of four;
   * None is atob's InvalidCharacterError.  Missing padding is accepted and
   * the bits left over are dropped.
   */
  function DecodeForgiving(s: string): (r: Option<seq<Byte>>)
    ensures r.Some? <==> |Unpadded(s)| % 4 != 1 && forall i :: 0 <= i < |Unpadded(s)| ==> IsAlphabet(Unpadded(s)[i])
  {
    var e := Unpadded(s);
    if |e| % 4 == 1 || exists i :: 0 <= i < |e| && !IsAlphabet(e[i]) then None
    else Some(SextetBytes(Values(e)))
  }

  /** ASCII whitespace anywhere in the input changes nothing. */
  lemma ForgivingSkips(a: string, c: char, b: string)
    requires IsAsciiWhitespace(c)
    ensures DecodeForgiving(a + [c] + b) == DecodeForgiving(a + b)
  {
    WithoutDropped(a, c, b, IsAsciiWhitespace);
    assert Unpadded(a + [c] + b) == Unpadded(a + b);
  }

  /** What forgiving decode checks of an encoding is the characters of its values. */
  lemma UnpaddedEncode(b: seq<Byte>)
    ensures Unpadded(Encode(b)) == Chars(Sextets(b))
  {
    EncodeShape(b);
    SextetsLength(b);
    UnpaddedShape(Sextets(b), |b|);
  }

  lemma UnpaddedShape(v: seq<Sextet>, n: nat)
    requires |v| % 4 == (if n % 3 == 0 then 0 else n % 3 + 1)
    ensures Unpadded(Chars(v) + Padding(n)) == Chars(v)
  {
    var p := Padding(n);
    var s := Chars(v) + p;
    var k := |s|;
    forall i | 0 <= i < k ensures !IsAsciiWhitespace(s[i]) {
      if i < |v| {
        assert s[i] == CharOf(v[i]);
      } else {
        assert s[i] == p[i - |v|];
      }
    }
    WithoutKeeps(s, IsAsciiWhitespace);
    if n % 3 == 0 {
      if k >= 2 {
        assert s[k - 1] == CharOf(v[k - 1]);
        assert s[k - 2..][0] == s[k - 2] == CharOf(v[k - 2]);
      }
    } else if n % 3 == 2 {
      assert s[k - 2..][0] == s[k - 2] == CharOf(v[k - 2]);
      assert s[..k - 1] == Chars(v);
    } else {
      assert s[k - 2..] == "==";
      assert s[..k - 2] == Chars(v);
    }
  }

  lemma ValuesChars(v: seq<Sextet>)
    ensures Values(Chars(v)) == v
  {
    forall i | 0 <= i < |v| ensures Values(Chars(v))[i] == v[i] {
      ValueOfCharOf(v[i]);
    }
  }

  /** Every encoding reads back. */
  lemma ForgivingEncode(b: seq<Byte>)
    ensures DecodeForgiving(Encode(b)) == Some(b)
  {
    UnpaddedEncode(b);
    SextetsNotOne(b);
    ForgivingValues(Encode(b), Sextets(b));
    SextetBytesSextets(b);
  }

  /** No encoding leaves a single value in its last group. */
  lemma SextetsNotOne(b: seq<Byte>)
    ensures |Sextets(b)| % 4 != 1
  {
    SextetsLength(b);
  }

  /** Text that comes down to the characters of some values decodes to their bytes. */
  lemma ForgivingValues(s: string, v: seq<Sextet>)
    requires Unpadded(s) == Chars(v)
    requires |v| % 4 != 1
    ensures DecodeForgiving(s) == Some(SextetBytes(v))
  {
    ValuesChars(v);
  }

  /** A missing padding is forgiven, where the strict decoder refuses it. */
  lemma ForgivingExamples()
    ensures DecodeForgiving("YQ") == Some(['a' as int])
    ensures DecodeForgiving("YQ==") == Some(['a' as int])
    ensures Decode("YQ") == None
  {
    var v: seq<Sextet> := [24, 16];
    assert Chars(v) == "YQ" && Chars(v) + Padding(1) == "YQ==";
    assert SextetBytes(v) == ['a' as int];
    WithoutKeeps("YQ", IsAsciiWhitespace);
    UnpaddedShape(v, 1);
    ForgivingValues("YQ", v);
    ForgivingValues("YQ==", v);
  }

  /** Whitespace around the text is skipped. */
  lemma ForgivingTrims(e: string)
    ensures DecodeForgiving([' '] + e + ['\n']) == DecodeForgiving(e)
  {
    ForgivingSkips([], ' ', e + ['\n']);
    assert [] + [' '] + (e + ['\n']) == [' '] + e + ['\n'];
    ForgivingSkips(e, '\n', []);
    assert [] + (e + ['\n']) == e + ['\n'] + [];
    assert e + [] == e;
  }

  /** " YQ==\n" decodes as "YQ==" does; the strict decoder refuses it. */
  lemma ForgivingSpaced()
    ensures DecodeForgiving(" YQ==\n") == Some(['a' as int])
    ensures Decode(" YQ==\n") == None
  {
    assert Decode(" YQ==\n") == None by {
      assert |" YQ==\n"| == 6;
    }
    assert DecodeForgiving(" YQ==\n") == DecodeForgiving("YQ==") by {
      ForgivingTrims("YQ==");
      assert [' '] + "YQ==" + ['\n'] == " YQ==\n";
    }
    ForgivingExamples();
  }
}

=== FILE: broker.dfy ===
/**
 * The broker (broker.go): the per-client message queues, the subscription
 * lists, the client and poster records, the system message queue and the
 * pattern cache, and the operations on them.  Every operation runs under
 * the broker's lock in the source, so each method here is one atomic
 * step; the clock is the now parameter, the JSON codec the marshal and
 * unmarshal constants, and the regexp engine a matches parameter.
 */
module Broker {

  import opened Wrappers
  import opened Text
  import opened Explode
  import opened BrokerSpec
  import Storage

  // ---------------------------------------------------------------------
  // The slice helpers at the end of broker.go

  /** contains: whether the item is in the slice. */
  method Contains(s: seq<string>, item: string) returns (b: bool)
    ensures b <==> item in s
  {
    b := false;
    var i := 0;
    while i < |s|
      invariant 0 <= i <= |s|
      invariant !b <==> item !in s[..i]
    {
      if s[i] == item {
        assert item in s[..i + 1];
        return true;
      }
      assert s[..i + 1] == s[..i] + [s[i]];
      i := i + 1;
    }
    assert s[..i] == s;
  }

  /** removeString: the slice without the item, the others in their order. */
  method RemoveString(s: seq<string>, item: string) returns (r: seq<string>)
    ensures r == RemoveAll(s, {item})
  {
    r := [];
    var i := 0;
    while i < |s|
      invariant 0 <= i <= |s|
      invariant r == RemoveAll(s[..i], {item})
    {
      assert s[..i + 1][..i] == s[..i];
      if s[i] != item {
        r := r + [s[i]];
      }
      i := i + 1;
    }
    assert s[..i] == s;
  }

  /** replaceAt: a copy of the slice with position index set to value when the slice reaches it. */
  function ReplaceAt(s: seq<string>, index: nat, value: string): (r: seq<string>)
    ensures |r| == |s|
    ensures forall i :: 0 <= i < |s| ==> r[i] == if i == index then value else s[i]
  {
    if index < |s| then s[index := value] else s
  }

  // ---------------------------------------------------------------------
  // The loops of the broker's operations, over the maps they rewrite

  /** Publish's delivery loop: msg appended, for each pattern in turn, to the queue of every client subscribed to it. */
  method FanOutLoop(qs: map<string, Queue>, targets: seq<string>, subs: map<string, seq<string>>, msg: Message)
    returns (r: map<string, Queue>)
    ensures r == FanOut(qs, targets, subs, msg)
  {
    r := qs;
    var k := 0;
    while k < |targets|
      invariant 0 <= k <= |targets|
      invariant r == FanOut(qs, targets[..k], subs, msg)
    {
      var p := targets[k];
      FanOutLast(qs, targets[..k + 1], subs, msg);
      assert targets[..k + 1][..k] == targets[..k];
      if p in subs {
        r := EnqueueLoop(r, subs[p], p, msg);
      }
      k := k + 1;
    }
    assert targets[..k] == targets;
  }

  /** The inner loop of the delivery: msg appended under p to the queue of each listed client. */
  method EnqueueLoop(qs: map<string, Queue>, clients: seq<string>, p: string, msg: Message)
    returns (r: map<string, Queue>)
    ensures r == EnqueueEach(qs, clients, p, msg)
  {
    r := qs;
    var j := 0;
    while j < |clients|
      invariant 0 <= j <= |clients|
      invariant r == EnqueueEach(qs, clients[..j], p, msg)
    {
      var c := clients[j];
      r := AppendMessage(r, c, p, msg);
      EnqueueEachSnoc(qs, clients[..j], c, p, msg);
      assert clients[..j + 1] == clients[..j] + [c];
      j := j + 1;
    }
    assert clients[..j] == clients;
  }

  /** One delivery: msg appended to client c's list for p, the client's queue created when missing. */
  method AppendMessage(qs: map<string, Queue>, c: string, p: string, msg: Message) returns (r: map<string, Queue>)
    ensures r == Enqueue(qs, c, p, msg)
  {
    var q := if c in qs then qs[c] else map[];
    r := qs[c := q[p := (if p in q then q[p] else []) + [msg]]];
  }

  /** getSystemMessages for a known client: per topic the messages newer than since, topics with none left out. */
  method NewerSystemMessages(sq: map<string, seq<Message>>, since: int) returns (r: map<string, seq<Message>>)
    ensures r == SystemSince(sq, since)
  {
    r := map[];
    var remaining := sq.Keys;
    while remaining != {}
      invariant remaining <= sq.Keys
      invariant r == map t | t in sq && t !in remaining && NewerThan(sq[t], since) != [] :: NewerThan(sq[t], since)
      decreases remaining
    {
      var t :| t in remaining;
      var messages := sq[t];
      var deliver: seq<Message> := [];
      var j := 0;
      while j < |messages|
        invariant 0 <= j <= |messages|
        invariant deliver == NewerThan(messages[..j], since)
      {
        assert messages[..j + 1][..j] == messages[..j];
        if messages[j].updatedTime > since {
          deliver := deliver + [messages[j]];
        }
        j := j + 1;
      }
      assert messages[..j] == messages;
      if |deliver| > 0 {
        r := r[t := deliver];
      }
      remaining := remaining - {t};
    }
  }

  /** Pickup's copy loop: every list of from copied into the result, replacing a list under the same topic. */
  method CopyInto(into: Queue, from: Queue) returns (r: Queue)
    ensures r == into + from
  {
    r := into;
    var remaining := from.Keys;
    while remaining != {}
      invariant remaining <= from.Keys
      invariant r == into + map t | t in from && t !in remaining :: from[t]
      decreases remaining
    {
      var t :| t in remaining;
      r := r[t := from[t]];
      remaining := remaining - {t};
    }
    assert (map t | t in from :: from[t]) == from;
  }

  /** kickInactiveClients' inner loop: one client removed from every topic's list, emptied topics dropped. */
  method RemoveFromTopics(subs: map<string, seq<string>>, c: string) returns (r: map<string, seq<string>>)
    ensures r == Unsubscribe(subs, {c})
  {
    r := subs;
    var remaining := subs.Keys;
    while remaining != {}
      invariant remaining <= subs.Keys
      invariant forall t :: t in r <==> t in subs && (t in remaining || RemoveAll(subs[t], {c}) != [])
      invariant forall t :: t in r ==> r[t] == if t in remaining then subs[t] else RemoveAll(subs[t], {c})
      decreases remaining
    {
      var t :| t in remaining;
      assert t in r && r[t] == subs[t];
      var kept := RemoveString(r[t], c);
      ghost var r0 := r;
      r := r[t := kept];
      if |kept| == 0 {
        r := r - {t};
      }
      remaining := remaining - {t};
      assert forall u :: u != t ==> (u in r <==> u in r0) && (u in r ==> r[u] == r0[u]);
    }
    assert r == Unsubscribe(subs, {c}) by {
      var u := Unsubscribe(subs, {c});
      assert r.Keys == u.Keys;
      forall t | t in r ensures r[t] == u[t] {}
    }
  }

  /** kickInactiveClients' first loop: the names of the clients silent for longer than the timeout. */
  method CollectInactive(clients: map<string, Client>, now: int) returns (toKick: seq<string>)
    ensures forall c :: c in toKick <==> c in Inactive(clients, now)
  {
    toKick := [];
    var remaining := clients.Keys;
    while remaining != {}
      invariant remaining <= clients.Keys
      invariant forall c :: c in toKick <==> c in Inactive(clients, now) && c !in remaining
      decreases remaining
    {
      var c :| c in remaining;
      if now - clients[c].latestPickup > MessageQueueTimeout {
        toKick := toKick + [c];
      }
      remaining := remaining - {c};
    }
  }

  // ---------------------------------------------------------------------
  // The records an operation writes

  /** A subscriber's record after Subscribe: created on first sight, then touched. */
  function Subscribed(clients: map<string, Client>, c: string, ip: string, now: int): Client {
    var cl := if c in clients then clients[c] else Client(c, now, now, now, 0, ip);
    cl.(latestPickup := now, requestCounter := cl.requestCounter + 1)
  }

  /** A subscriber's record after a pickup. */
  function PickedUp(cl: Client, ip: string, now: int): Client {
    cl.(latestPickup := now, latestSystemPickup := now, requestCounter := cl.requestCounter + 1, ip := ip)
  }

  /** The topic's subscription list with the client appended unless already there. */
  function Listed(subs: map<string, seq<string>>, topic: string, c: string): map<string, seq<string>> {
    var l := ListedUnder(subs, topic);
    if c in l then subs else subs[topic := l + [c]]
  }

  /** A poster's record after a publication. */
  function Posted(providers: map<string, Provider>, from: string, topic: string, msg: Message, ip: string, t: int): Provider {
    var p := if from in providers then providers[from] else Provider(from, map[], None, "", t, 0, 0);
    p.(latestPostsByTopic := p.latestPostsByTopic[topic := msg], latestPost := Some(msg), ip := ip,
       latestPostTime := t, messageCount := p.messageCount + 1)
  }

  /** Publish stores messages from an unnamed poster under "UNKNOWN". */
  function PosterName(from: string): (r: string)
    ensures r != ""
    ensures from != "" ==> r == from
  {
    if from == "" then "UNKNOWN" else from
  }

  /** The patterns a publication is delivered under: the exploded ones, then "#". */
  function Targets(topic: string): (r: seq<string>)
    ensures |r| >= 1 && r[|r| - 1] == "#" && r[..|r| - 1] == Explode.Explode(topic)
  {
    Explode.Explode(topic) + ["#"]
  }

  /** The message Publish enqueues under the targets, with the set of clients it was enqueued for. */
  function Published(topic: string, message: string, from: string, ip: string, t: int,
                     targets: seq<string>, subs: map<string, seq<string>>): Message {
    Message(PosterName(from), topic, message, t, Some(Recipients(targets, subs)), ip)
  }

  /** The system messages a pickup hands out: all of them to an unknown client. */
  function SystemFor(clients: map<string, Client>, sq: map<string, seq<Message>>, c: string): map<string, seq<Message>> {
    if c in clients then SystemSince(sq, clients[c].latestSystemPickup) else sq
  }

  /** GetValue's answer for a stored key. */
  function ReadValue(values: map<string, string>, key: string, unmarshal: string -> Option<Message>): (r: Result<Message, string>)
    ensures r.Ok? <==> key in values && unmarshal(values[key]).Some?
  {
    if key !in values then Err("key not found: " + key)
    else match unmarshal(values[key])
      case None => Err("failed to unmarshal value")
      case Some(m) => Ok(m)
  }

  /** GetValuesByRegex's answer: every matching key whose text unmarshals. */
  function ReadMatching(values: map<string, string>, matches: string -> bool, unmarshal: string -> Option<Message>)
    : (r: map<string, Message>)
    ensures forall k :: k in r <==> k in values && matches(k) && unmarshal(values[k]).Some?
  {
    map k | k in values && matches(k) && unmarshal(values[k]).Some? :: unmarshal(values[k]).value
  }

  /** A client record as GetClients lists it: a bare record for a queue with no client. */
  function ClientInfo(clients: map<string, Client>, c: string): (r: Client)
    ensures r.name == c || (c in clients && r == clients[c])
  {
    if c in clients then clients[c] else Client(c, 0, 0, 0, 0, "")
  }

  // ---------------------------------------------------------------------
  // What the operations promise together

  /**
   * A message published after a client's pickup is in its next pickup,
   * under each pattern it subscribed to, once per occurrence of the
   * pattern among the targets; under a pattern it did not subscribe to
   * there is nothing (a system topic of the same name aside).
   */
  lemma DeliveredOnPickup(qs: map<string, Queue>, targets: seq<string>, subs: map<string, seq<string>>,
                          msg: Message, sys: Queue, c: string, p: string)
    requires ListsValid(subs)
    requires QueueOf(qs, c) == map[] && p !in sys
    ensures Entry(QueueOf(FanOut(qs, targets, subs, msg), c) + sys, p) ==
      if c in ListedUnder(subs, p) then Copies(msg, Count(targets, p)) else []
  {
    FanOutOncePerPattern(qs, targets, subs, msg, c, p);
    var q := QueueOf(FanOut(qs, targets, subs, msg), c);
    assert Entry(q + sys, p) == Entry(q, p);
  }

  /** A text without the separator is one part. */
  lemma SplitWhole(s: string, sep: char)
    requires sep !in s
    ensures Split(s, sep) == [s]
  {
  }

  /** "#" is never among a topic's patterns, so a subscriber to "#" gets every publication exactly once. */
  lemma HashOnce(topic: string, hash: string)
    requires hash == "#"
    ensures Count(Targets(topic), hash) == 1
  {
    var ex := Explode.Explode(topic);
    var sec := Sections(topic);
    if |sec| == 1 {
      assert ex == [];
    } else {
      ExplodeShape(topic);
      SplitWhole(hash, '/');
      forall k | 0 <= k < |ex|
        ensures ex[k] != hash
      {
        assert |Split(ex[k], '/')| == |sec|;
      }
    }
    assert hash !in ex;
    assert Targets(topic) == ex + [hash];
  }

  /** A system message newer than a known client's last system pickup is handed out at its next pickup. */
  lemma SystemMessageDue(sq: map<string, seq<Message>>, topic: string, msg: Message, since: int)
    requires msg.updatedTime > since
    ensures topic in SystemSince(sq[topic := Entry(sq, topic) + [msg]], since)
    ensures msg in SystemSince(sq[topic := Entry(sq, topic) + [msg]], since)[topic]
  {
    var sq' := sq[topic := Entry(sq, topic) + [msg]];
    NewerThanMembers(sq'[topic], since);
    assert msg in NewerThan(sq'[topic], since);
  }

  /** With a codec that reads back what it writes, the value stored under a key is what GetValue returns. */
  lemma StoredReadsBack(values: map<string, string>, key: string, msg: Message,
                        marshal: Message -> Option<string>, unmarshal: string -> Option<Message>)
    requires marshal(msg).Some? && unmarshal(marshal(msg).value) == Some(msg)
    ensures ReadValue(values[key := marshal(msg).value], key, unmarshal) == Ok(msg)
  {
  }

  /** A client that has just subscribed or picked up is not inactive. */
  lemma JustSeenStays(clients: map<string, Client>, c: string, ip: string, now: int)
    ensures c !in Inactive(clients[c := Subscribed(clients, c, ip, now)], now)
    ensures c in clients ==> c !in Inactive(clients[c := PickedUp(clients[c], ip, now)], now)
  {
  }

  // ---------------------------------------------------------------------
  // What the broker's maps keep

  ghost predicate CacheValid(cache: map<string, seq<string>>) {
    forall t :: t in cache ==> cache[t] == Explode.Explode(t)
  }

  ghost predicate ListsValid(subs: map<string, seq<string>>) {
    forall t :: t in subs ==> subs[t] != [] && Distinct(subs[t])
  }

  /** Subscribing keeps every list non-empty and free of repeats. */
  lemma ListedValid(subs: map<string, seq<string>>, topic: string, c: string)
    requires ListsValid(subs)
    ensures ListsValid(Listed(subs, topic, c))
  {
    var l := ListedUnder(subs, topic);
    if c !in l {
      assert Distinct(l);
      assert Distinct(l + [c]);
    }
  }

  /** After subscribing, the client is listed under the topic exactly once. */
  lemma ListedOnce(subs: map<string, seq<string>>, topic: string, c: string)
    requires ListsValid(subs)
    ensures topic in Listed(subs, topic, c) && Count(Listed(subs, topic, c)[topic], c) == 1
  {
    ListedValid(subs, topic, c);
    DistinctCount(Listed(subs, topic, c)[topic], c);
  }

  /** Subscribing twice lists the client as subscribing once does. */
  lemma ListedTwice(subs: map<string, seq<string>>, topic: string, c: string)
    ensures Listed(Listed(subs, topic, c), topic, c) == Listed(subs, topic, c)
  {
    var l := ListedUnder(subs, topic);
    assert c in Listed(subs, topic, c)[topic];
  }

  // ---------------------------------------------------------------------
  // The broker

  class Broker {
    const db: Storage.Database
    const marshal: Message -> Option<string>
    const unmarshal: string -> Option<Message>
    var messageQueue: map<string, Queue>
    var systemMessageQueue: map<string, seq<Message>>
    var subscriptions: map<string, seq<string>>
    var clients: map<string, Client>
    var providers: map<string, Provider>
    var topicExplosionCache: map<string, seq<string>>

    /**
     * What every operation keeps: cached pattern lists are the topic's,
     * and every subscription list is non-empty and names each client once.
     */
    ghost predicate Valid()
      reads this
    {
      CacheValid(topicExplosionCache) && ListsValid(subscriptions)
    }

    /** NewBroker: empty maps. */
    constructor (db: Storage.Database, marshal: Message -> Option<string>, unmarshal: string -> Option<Message>)
      ensures Valid()
      ensures this.db == db && this.marshal == marshal && this.unmarshal == unmarshal
      ensures messageQueue == map[] && systemMessageQueue == map[] && subscriptions == map[]
      ensures clients == map[] && providers == map[] && topicExplosionCache == map[]
    {
      this.db := db;
      this.marshal := marshal;
      this.unmarshal := unmarshal;
      messageQueue := map[];
      systemMessageQueue := map[];
      subscriptions := map[];
      clients := map[];
      providers := map[];
      topicExplosionCache := map[];
    }

    /**
     * Subscribe: an empty client name is refused and changes nothing;
     * otherwise the client is recorded, listed under the topic once, given
     * a queue, and marked as seen now.
     */
    method Subscribe(topic: string, clientName: string, ip: string, now: int) returns (err: Option<string>)
      requires Valid()
      modifies this
      ensures Valid()
      ensures err.Some? <==> clientName == ""
      ensures clientName == "" ==>
        clients == old(clients) && subscriptions == old(subscriptions) && messageQueue == old(messageQueue)
      ensures clientName != "" ==> clients == old(clients)[clientName := Subscribed(old(clients), clientName, ip, now)]
      ensures clientName != "" ==> subscriptions == Listed(old(subscriptions), topic, clientName)
      ensures clientName != "" ==>
        messageQueue == if clientName in old(messageQueue) then old(messageQueue) else old(messageQueue)[clientName := map[]]
      ensures systemMessageQueue == old(systemMessageQueue) && providers == old(providers)
      ensures topicExplosionCache == old(topicExplosionCache)
    {
      if clientName == "" {
        return Some("client name cannot be empty");
      }
      var listed := ListedUnder(subscriptions, topic);
      var present := Contains(listed, clientName);
      ListedValid(subscriptions, topic, clientName);
      var subs := if present then subscriptions else subscriptions[topic := listed + [clientName]];
      var queues := if clientName in messageQueue then messageQueue else messageQueue[clientName := map[]];
      var client := if clientName in clients then clients[clientName] else Client(clientName, now, now, now, 0, ip);
      subscriptions, messageQueue := subs, queues;
      clients := clients[clientName := client.(latestPickup := now, requestCounter := client.requestCounter + 1)];
      err := None;
    }

    /** explodeTopic: the cached pattern list, or the patterns built and cached. */
    method ExplodeTopic(topic: string) returns (r: seq<string>)
      requires Valid()
      modifies this
      ensures Valid()
      ensures r == Explode.Explode(topic)
      ensures topicExplosionCache == old(topicExplosionCache)[topic := r]
      ensures messageQueue == old(messageQueue) && systemMessageQueue == old(systemMessageQueue)
      ensures subscriptions == old(subscriptions) && clients == old(clients) && providers == old(providers)
    {
      if topic in topicExplosionCache {
        r := topicExplosionCache[topic];
        assert topicExplosionCache == old(topicExplosionCache)[topic := r];
        return;
      }
      r := ExplodePatterns(topic);
      topicExplosionCache := topicExplosionCache[topic := r];
    }

    /**
     * Publish: the poster's record is updated, the message is appended to
     * the queue of every client subscribed to one of the topic's patterns
     * or to "#", once per pattern that lists it, and stored under the topic.
     */
    method Publish(topic: string, message: string, from: string, ip: string, updatedTime: int)
      returns (err: Option<string>)
      requires Valid()
      modifies this, db
      ensures Valid()
      ensures var msg := Published(topic, message, from, ip, updatedTime, Targets(topic), old(subscriptions));
        providers == old(providers)[msg.from := Posted(old(providers), msg.from, topic, msg, ip, updatedTime)] &&
        messageQueue == FanOut(old(messageQueue), Targets(topic), old(subscriptions), msg)
      ensures var stored := marshal(Published(topic, message, from, ip, updatedTime, Targets(topic), old(subscriptions)));
        (stored.Some? ==> err.None? && db.values == old(db.values)[topic := stored.value]) &&
        (stored.None? ==> err.Some? && db.values == old(db.values))
      ensures topicExplosionCache == old(topicExplosionCache)[topic := Explode.Explode(topic)]
      ensures subscriptions == old(subscriptions) && clients == old(clients) && systemMessageQueue == old(systemMessageQueue)
    {
      var targets := ExplodeTopic(topic);
      targets := targets + ["#"];
      err := Deliver(topic, message, from, ip, updatedTime, targets);
    }

    /** The rest of Publish once the patterns are known: the poster's record, the queues, the store. */
    method Deliver(topic: string, message: string, from: string, ip: string, updatedTime: int, targets: seq<string>)
      returns (err: Option<string>)
      modifies this, db
      ensures var msg := Published(topic, message, from, ip, updatedTime, targets, old(subscriptions));
        providers == old(providers)[msg.from := Posted(old(providers), msg.from, topic, msg, ip, updatedTime)] &&
        messageQueue == FanOut(old(messageQueue), targets, old(subscriptions), msg)
      ensures var stored := marshal(Published(topic, message, from, ip, updatedTime, targets, old(subscriptions)));
        (stored.Some? ==> err.None? && db.values == old(db.values)[topic := stored.value]) &&
        (stored.None? ==> err.Some? && db.values == old(db.values))
      ensures topicExplosionCache == old(topicExplosionCache)
      ensures subscriptions == old(subscriptions) && clients == old(clients) && systemMessageQueue == old(systemMessageQueue)
    {
      var poster := PosterName(from);
      var msg := Message(poster, topic, message, updatedTime, Some(Recipients(targets, subscriptions)), ip);
      providers := providers[poster := Posted(providers, poster, topic, msg, ip, updatedTime)];
      messageQueue := FanOutLoop(messageQueue, targets, subscriptions, msg);
      var saved := db.SaveValue(topic, marshal(msg));
      if saved.Some? {
        return Some("failed to save value: " + saved.value);
      }
      err := None;
    }

    /** PublishSystemMessage: a message from "SERVER" appended to the topic's system list. */
    method PublishSystemMessage(topic: string, message: string, now: int)
      modifies this
      ensures systemMessageQueue == old(systemMessageQueue)[topic :=
        Entry(old(systemMessageQueue), topic) + [Message("SERVER", topic, message, now, Some({}), "127.0.0.1")]]
      ensures messageQueue == old(messageQueue) && subscriptions == old(subscriptions) && clients == old(clients)
      ensures providers == old(providers) && topicExplosionCache == old(topicExplosionCache)
    {
      var msg := Message("SERVER", topic, message, now, Some({}), "127.0.0.1");
      systemMessageQueue := systemMessageQueue[topic := Entry(systemMessageQueue, topic) + [msg]];
    }

    /**
     * getSystemMessages: an unknown client gets every system message; a
     * known one gets those newer than its last system pickup, which moves
     * to now.
     */
    method GetSystemMessages(clientName: string, now: int) returns (r: map<string, seq<Message>>)
      modifies this
      ensures r == SystemFor(old(clients), systemMessageQueue, clientName)
      ensures clientName in old(clients) ==>
        clients == old(clients)[clientName := old(clients)[clientName].(latestSystemPickup := now)]
      ensures clientName !in old(clients) ==> clients == old(clients)
      ensures messageQueue == old(messageQueue) && systemMessageQueue == old(systemMessageQueue)
      ensures subscriptions == old(subscriptions) && providers == old(providers)
      ensures topicExplosionCache == old(topicExplosionCache)
    {
      if clientName !in clients {
        return systemMessageQueue;
      }
      var client := clients[clientName];
      var since := client.latestSystemPickup;
      clients := clients[clientName := client.(latestSystemPickup := now)];
      r := NewerSystemMessages(systemMessageQueue, since);
    }

    /**
     * Pickup: the client's queue is handed over and emptied (created empty
     * for a client never seen), the system messages due are laid over it
     * topic by topic, and a known client is marked as seen now.
     */
    method Pickup(clientName: string, ip: string, now: int) returns (result: Queue)
      modifies this
      ensures result == QueueOf(old(messageQueue), clientName) + SystemFor(old(clients), systemMessageQueue, clientName)
      ensures messageQueue == old(messageQueue)[clientName := map[]]
      ensures clientName in old(clients) ==> clients == old(clients)[clientName := PickedUp(old(clients)[clientName], ip, now)]
      ensures clientName !in old(clients) ==> clients == old(clients)
      ensures systemMessageQueue == old(systemMessageQueue) && subscriptions == old(subscriptions)
      ensures providers == old(providers) && topicExplosionCache == old(topicExplosionCache)
    {
      var normalMessages := QueueOf(messageQueue, clientName);
      messageQueue := messageQueue[clientName := map[]];
      var systemMessages := GetSystemMessages(clientName, now);
      result := CopyInto(map[], normalMessages);
      assert map[] + normalMessages == normalMessages;
      result := CopyInto(result, systemMessages);
      if clientName in clients {
        var client := clients[clientName];
        clients := clients[clientName := client.(latestPickup := now, latestSystemPickup := now,
                                                  requestCounter := client.requestCounter + 1, ip := ip)];
      }
    }

    /** GetValue: the stored message under the key, or why there is none. */
    method GetValue(key: string) returns (r: Result<Message, string>)
      ensures r == ReadValue(db.values, key, unmarshal)
    {
      var value := db.GetValue(key);
      if value.Err? {
        return Err(value.error);
      }
      var msg := unmarshal(value.value);
      if msg.None? {
        return Err("failed to unmarshal value");
      }
      r := Ok(msg.value);
    }

    /**
     * GetValuesByRegex: an invalid pattern is an error; otherwise every
     * stored key the pattern matches whose text unmarshals, the others
     * skipped.  The pattern compiles to re, None where it does not.
     */
    method GetValuesByRegex(re: Option<string -> bool>) returns (r: Result<map<string, Message>, string>)
      ensures re.None? ==> r.Err?
      ensures re.Some? ==> r == Ok(ReadMatching(db.values, re.value, unmarshal))
    {
      if re.None? {
        return Err("invalid regex");
      }
      var keys := db.GetKeysByRegex(re.value);
      var result: map<string, Message> := map[];
      var i := 0;
      while i < |keys|
        invariant 0 <= i <= |keys|
        invariant forall k :: k in result <==> k in keys[..i] && k in db.values && unmarshal(db.values[k]).Some?
        invariant forall k :: k in result ==> result[k] == unmarshal(db.values[k]).value
      {
        var key := keys[i];
        var value := db.GetValue(key);
        if value.Ok? {
          var msg := unmarshal(value.value);
          if msg.Some? {
            result := result[key := msg.value];
          }
        }
        assert keys[..i + 1] == keys[..i] + [key];
        i := i + 1;
      }
      assert keys[..i] == keys;
      ghost var expected := ReadMatching(db.values, re.value, unmarshal);
      assert forall k :: k in result <==> k in expected;
      assert forall k :: k in result ==> result[k] == expected[k];
      assert result == expected;
      r := Ok(result);
    }

    /** PutValue: an empty val falls back to message; the bare message is stored under valname. */
    method PutValue(valname: string, val: string, message: string, from: string, updatedTime: int)
      returns (err: Option<string>)
      modifies db
      ensures var stored := marshal(Message(from, "", if val == "" then message else val, updatedTime, None, ""));
        (stored.Some? ==> err.None? && db.values == old(db.values)[valname := stored.value]) &&
        (stored.None? ==> err.Some? && db.values == old(db.values))
    {
      var v := if val == "" then message else val;
      var msg := Message(from, "", v, updatedTime, None, "");
      err := db.SaveValue(valname, marshal(msg));
    }

    /**
     * kickInactiveClients: every client silent for longer than the
     * timeout loses its record, its queue and its subscriptions; topics
     * left with no subscriber are dropped.
     */
    method KickInactiveClients(now: int)
      requires Valid()
      modifies this
      ensures Valid()
      ensures clients == Without(old(clients), Inactive(old(clients), now))
      ensures messageQueue == Without(old(messageQueue), Inactive(old(clients), now))
      ensures subscriptions == Unsubscribe(old(subscriptions), Inactive(old(clients), now))
      ensures systemMessageQueue == old(systemMessageQueue) && providers == old(providers)
      ensures topicExplosionCache == old(topicExplosionCache)
    {
      var toKick := CollectInactive(clients, now);
      ghost var gone: set<string> := {};
      UnsubscribeNobody(subscriptions);
      var i := 0;
      while i < |toKick|
        invariant 0 <= i <= |toKick|
        invariant forall c :: c in gone <==> c in toKick[..i]
        invariant clients == Without(old(clients), gone)
        invariant messageQueue == Without(old(messageQueue), gone)
        invariant subscriptions == Unsubscribe(old(subscriptions), gone)
        invariant systemMessageQueue == old(systemMessageQueue) && providers == old(providers)
        invariant topicExplosionCache == old(topicExplosionCache)
      {
        var c := toKick[i];
        subscriptions := RemoveFromTopics(subscriptions, c);
        UnsubscribeTwice(old(subscriptions), gone, c);
        WithoutOneMore(old(messageQueue), gone, c);
        WithoutOneMore(old(clients), gone, c);
        messageQueue := messageQueue - {c};
        clients := clients - {c};
        gone := gone + {c};
        assert toKick[..i + 1] == toKick[..i] + [c];
        i := i + 1;
      }
      assert toKick[..i] == toKick;
      assert gone == Inactive(old(clients), now);
      forall t | t in subscriptions
        ensures subscriptions[t] != [] && Distinct(subscriptions[t])
      {
        RemoveAllDistinct(old(subscriptions)[t], gone);
      }
    }

    /** clearOldPosters: every poster whose latest post is older than the poster timeout is forgotten. */
    method ClearOldPosters(now: int)
      modifies this
      ensures providers == Fresh(old(providers), now)
      ensures messageQueue == old(messageQueue) && systemMessageQueue == old(systemMessageQueue)
      ensures subscriptions == old(subscriptions) && clients == old(clients)
      ensures topicExplosionCache == old(topicExplosionCache)
    {
      var remaining := providers.Keys;
      while remaining != {}
        invariant remaining <= old(providers).Keys
        invariant providers ==
          map k | k in old(providers) && (k in remaining || !IsStale(old(providers)[k], now)) :: old(providers)[k]
        invariant messageQueue == old(messageQueue) && systemMessageQueue == old(systemMessageQueue)
        invariant subscriptions == old(subscriptions) && clients == old(clients)
        invariant topicExplosionCache == old(topicExplosionCache)
        decreases remaining
      {
        var name :| name in remaining;
        var provider := providers[name];
        if provider.latestPost.Some? && now - provider.latestPost.value.updatedTime > PosterStatsTimeout {
          providers := providers - {name};
        }
        remaining := remaining - {name};
      }
    }

    /** One tick of the maintenance loop: every fourth tick kicks inactive clients and forgets old posters. */
    method MaintenanceTick(counter: int, now: int) returns (next: int)
      requires Valid()
      modifies this
      ensures Valid()
      ensures next == counter + 1
      ensures next % 4 == 0 ==> clients == Without(old(clients), Inactive(old(clients), now))
      ensures next % 4 == 0 ==> providers == Fresh(old(providers), now)
      ensures next % 4 != 0 ==> clients == old(clients) && providers == old(providers)
      ensures next % 4 != 0 ==> subscriptions == old(subscriptions) && messageQueue == old(messageQueue)
    {
      next := counter + 1;
      if next % 4 == 0 {
        KickInactiveClients(now);
        ClearOldPosters(now);
      }
    }

    /** GetClients: one record per queue, the client's own or a bare one. */
    method GetClients() returns (r: seq<Client>)
      ensures |r| == |messageQueue|
      ensures forall c :: c in messageQueue ==> ClientInfo(clients, c) in r
      ensures forall i :: 0 <= i < |r| ==> exists c :: c in messageQueue && r[i] == ClientInfo(clients, c)
    {
      r := [];
      var remaining := messageQueue.Keys;
      while remaining != {}
        invariant remaining <= messageQueue.Keys
        invariant |r| + |remaining| == |messageQueue|
        invariant forall c :: c in messageQueue && c !in remaining ==> ClientInfo(clients, c) in r
        invariant forall i :: 0 <= i < |r| ==> exists c :: c in messageQueue && r[i] == ClientInfo(clients, c)
        decreases remaining
      {
        var c :| c in remaining;
        r := r + [ClientInfo(clients, c)];
        remaining := remaining - {c};
      }
    }

    /** GetPosters: every poster record once. */
    method GetPosters() returns (r: seq<Provider>)
      ensures |r| == |providers|
      ensures forall p :: p in providers ==> providers[p] in r
      ensures forall i :: 0 <= i < |r| ==> r[i] in providers.Values
    {
      r := [];
      var remaining := providers.Keys;
      while remaining != {}
        invariant remaining <= providers.Keys
        invariant |r| + |remaining| == |providers|
        invariant forall p :: p in providers && p !in remaining ==> providers[p] in r
        invariant forall i :: 0 <= i < |r| ==> r[i] in providers.Values
        decreases remaining
      {
        var p :| p in remaining;
        r := r + [providers[p]];
        remaining := remaining - {p};
      }
    }

    /** GetTopics: every stored key once. */
    method GetTopics() returns (r: seq<string>)
      ensures forall k :: k in r <==> k in db.values
      ensures |r| == |db.values|
    {
      r := db.GetKeys();
    }
  }
}

=== FILE: brokerspec.dfy ===
/**
 * The broker's records and the functions that say what its operations do
 * to its maps: the per-client, per-pattern message queues a publication
 * fans out into, the system messages a pickup overlays, and the client and
 * subscription records an eviction removes.
 */
module BrokerSpec {

  import opened Wrappers

  /** A published message; subscribers is None where the source leaves the map nil. */
  datatype Message = Message(from: string, topic: string, message: string, updatedTime: int,
                             subscribers: Option<set<string>>, ip: string)

  /** A subscriber, as the broker remembers it. */
  datatype Client = Client(name: string, firstSeen: int, latestPickup: int, latestSystemPickup: int,
                           requestCounter: int, ip: string)

  /** A poster, as the broker remembers it. */
  datatype Provider = Provider(name: string, latestPostsByTopic: map<string, Message>, latestPost: Option<Message>,
                               ip: string, firstSeen: int, latestPostTime: int, messageCount: int)

  /** One client's queue: a message list per matching pattern. */
  type Queue = map<string, seq<Message>>

  /** Seconds of silence after which a client is kicked, and after which a poster is forgotten. */
  const MessageQueueTimeout: int := 300
  const PosterStatsTimeout: int := 3600

  function Entry(q: Queue, p: string): seq<Message> {
    if p in q then q[p] else []
  }

  function QueueOf(qs: map<string, Queue>, c: string): Queue {
    if c in qs then qs[c] else map[]
  }

  function ListedUnder(subs: map<string, seq<string>>, p: string): seq<string> {
    if p in subs then subs[p] else []
  }

  function Count(s: seq<string>, x: string): nat {
    multiset(s)[x]
  }

  function Copies(msg: Message, n: nat): (r: seq<Message>)
    ensures |r| == n && forall i :: 0 <= i < n ==> r[i] == msg
  {
    seq(n, _ => msg)
  }

  // ---------------------------------------------------------------------
  // Fan-out

  function Members(s: seq<string>): set<string> {
    set x | x in s
  }

  /** msg appended to client c's list for pattern p, creating the client's queue if missing. */
  function Enqueue(qs: map<string, Queue>, c: string, p: string, msg: Message): (r: map<string, Queue>)
    ensures r.Keys == qs.Keys + {c}
  {
    qs[c := QueueOf(qs, c)[p := Entry(QueueOf(qs, c), p) + [msg]]]
  }

  /** msg enqueued under p for each listed client in turn. */
  function EnqueueEach(qs: map<string, Queue>, clients: seq<string>, p: string, msg: Message): map<string, Queue>
    decreases |clients|
  {
    if |clients| == 0 then qs
    else
      var last := |clients| - 1;
      Enqueue(EnqueueEach(qs, clients[..last], p, msg), clients[last], p, msg)
  }

  /** Enqueueing to a list of clients creates a queue for each of them and removes none. */
  lemma {:induction false} EnqueueEachKeys(qs: map<string, Queue>, clients: seq<string>, p: string, msg: Message)
    ensures EnqueueEach(qs, clients, p, msg).Keys == qs.Keys + Members(clients)
    decreases |clients|
  {
    if |clients| > 0 {
      var last := |clients| - 1;
      EnqueueEachKeys(qs, clients[..last], p, msg);
      assert Members(clients) == Members(clients[..last]) + {clients[last]} by {
        assert clients == clients[..last] + [clients[last]];
      }
    }
  }

  lemma EnqueueEachSnoc(qs: map<string, Queue>, clients: seq<string>, c: string, p: string, msg: Message)
    ensures EnqueueEach(qs, clients + [c], p, msg) == Enqueue(EnqueueEach(qs, clients, p, msg), c, p, msg)
  {
    assert (clients + [c])[..|clients|] == clients;
  }

  /** msg enqueued, for each pattern in turn, to every client subscribed to it. */
  function FanOut(qs: map<string, Queue>, targets: seq<string>, subs: map<string, seq<string>>, msg: Message): map<string, Queue>
    decreases |targets|
  {
    if |targets| == 0 then qs
    else
      var last := |targets| - 1;
      EnqueueEach(FanOut(qs, targets[..last], subs, msg), ListedUnder(subs, targets[last]), targets[last], msg)
  }

  /** The clients subscribed to some pattern of targets. */
  function Recipients(targets: seq<string>, subs: map<string, seq<string>>): set<string> {
    set j, c | 0 <= j < |targets| && c in ListedUnder(subs, targets[j]) :: c
  }

  lemma EnqueueEntry(qs: map<string, Queue>, c: string, p: string, msg: Message, c': string, p': string)
    ensures Entry(QueueOf(Enqueue(qs, c, p, msg), c'), p') ==
            Entry(QueueOf(qs, c'), p') + (if c' == c && p' == p then [msg] else [])
  {
  }

  /** One more copy, or none, at the end of a run of copies. */
  lemma AppendCopies(e: seq<Message>, msg: Message, n: nat, k: nat)
    requires k <= 1
    ensures e + Copies(msg, n) + (if k == 1 then [msg] else []) == e + Copies(msg, n + k)
  {
  }

  lemma CountLast(s: seq<string>, x: string)
    requires |s| > 0
    ensures Count(s, x) == Count(s[..|s| - 1], x) + (if s[|s| - 1] == x then 1 else 0)
  {
    assert s == s[..|s| - 1] + [s[|s| - 1]];
  }

  /** Each listed client receives msg under p once per time it is listed; nothing else changes. */
  lemma {:induction false} EnqueueEachEntry(qs: map<string, Queue>, clients: seq<string>, p: string, msg: Message, c: string, p': string)
    ensures Entry(QueueOf(EnqueueEach(qs, clients, p, msg), c), p') ==
            Entry(QueueOf(qs, c), p') + Copies(msg, if p' == p then Count(clients, c) else 0)
    decreases |clients|
  {
    if |clients| > 0 {
      var last := |clients| - 1;
      var prev := EnqueueEach(qs, clients[..last], p, msg);
      var e := Entry(QueueOf(qs, c), p');
      var n := if p' == p then Count(clients[..last], c) else 0;
      var k := if p' == p && clients[last] == c then 1 else 0;
      calc {
        Entry(QueueOf(EnqueueEach(qs, clients, p, msg), c), p');
        Entry(QueueOf(Enqueue(prev, clients[last], p, msg), c), p');
        { EnqueueEntry(prev, clients[last], p, msg, c, p'); }
        Entry(QueueOf(prev, c), p') + (if k == 1 then [msg] else []);
        { EnqueueEachEntry(qs, clients[..last], p, msg, c, p'); }
        e + Copies(msg, n) + (if k == 1 then [msg] else []);
        { AppendCopies(e, msg, n, k); }
        e + Copies(msg, n + k);
        { CountLast(clients, c); }
        e + Copies(msg, if p' == p then Count(clients, c) else 0);
      }
    }
  }

  /**
   * After a fan-out, client c's list for pattern p has gained one copy of
   * msg per occurrence of p among the targets and per listing of c under p.
   */
  lemma {:induction false} FanOutEntry(qs: map<string, Queue>, targets: seq<string>, subs: map<string, seq<string>>,
                                       msg: Message, c: string, p: string)
    ensures Entry(QueueOf(FanOut(qs, targets, subs, msg), c), p) ==
            Entry(QueueOf(qs, c), p) + Copies(msg, Times(Count(targets, p), Count(ListedUnder(subs, p), c)))
    decreases |targets|
  {
    if |targets| > 0 {
      var last := |targets| - 1;
      var t := targets[last];
      var prev := FanOut(qs, targets[..last], subs, msg);
      var listed := Count(ListedUnder(subs, p), c);
      var k := if p == t then Count(ListedUnder(subs, t), c) else 0;
      FanOutEntry(qs, targets[..last], subs, msg, c, p);
      FanOutLast(qs, targets, subs, msg);
      EnqueueEachEntry(prev, ListedUnder(subs, t), t, msg, c, p);
      Chain(prev, FanOut(qs, targets, subs, msg), c, p, Entry(QueueOf(qs, c), p), msg, Times(Count(targets[..last], p), listed), k);
      CountTimes(targets, p, listed, k);
      assert Entry(QueueOf(FanOut(qs, targets, subs, msg), c), p) ==
             Entry(QueueOf(qs, c), p) + Copies(msg, Times(Count(targets, p), listed));
    } else {
      assert Count(targets, p) == 0;
      assert Copies(msg, 0) == [];
      assert Entry(QueueOf(FanOut(qs, targets, subs, msg), c), p) == Entry(QueueOf(qs, c), p);
    }
  }

  /** Copies added in two rounds are the copies of both. */
  lemma Chain(before: map<string, Queue>, after: map<string, Queue>, c: string, p: string, e: seq<Message>, msg: Message, n: nat, k: nat)
    requires Entry(QueueOf(before, c), p) == e + Copies(msg, n)
    requires Entry(QueueOf(after, c), p) == Entry(QueueOf(before, c), p) + Copies(msg, k)
    ensures Entry(QueueOf(after, c), p) == e + Copies(msg, n + k)
  {
    CopiesAdd(e, msg, n, k);
  }

  lemma FanOutLast(qs: map<string, Queue>, targets: seq<string>, subs: map<string, seq<string>>, msg: Message)
    requires |targets| > 0
    ensures FanOut(qs, targets, subs, msg)
         == EnqueueEach(FanOut(qs, targets[..|targets| - 1], subs, msg), ListedUnder(subs, targets[|targets| - 1]), targets[|targets| - 1], msg)
  {
  }

  /** Counting one more target: the product grows by the listing count exactly when the target is p. */
  lemma CountTimes(targets: seq<string>, p: string, listed: nat, k: nat)
    requires |targets| > 0
    requires k == if p == targets[|targets| - 1] then listed else 0
    ensures Times(Count(targets[..|targets| - 1], p), listed) + k == Times(Count(targets, p), listed)
  {
    CountLast(targets, p);
    if p == targets[|targets| - 1] {
      MulSucc(Count(targets[..|targets| - 1], p), listed);
    }
  }

  lemma CopiesAdd(e: seq<Message>, msg: Message, n: nat, k: nat)
    ensures e + Copies(msg, n) + Copies(msg, k) == e + Copies(msg, n + k)
  {
  }

  /** a copies of b added up: the product of two counts, written as repeated addition. */
  function Times(a: nat, b: nat): nat
    decreases a
  {
    if a == 0 then 0 else Times(a - 1, b) + b
  }

  lemma {:induction false} TimesIsProduct(a: nat, b: nat)
    ensures Times(a, b) == a * b
    decreases a
  {
    if a > 0 {
      TimesIsProduct(a - 1, b);
    }
  }

  lemma {:induction false} TimesOne(a: nat)
    ensures Times(a, 1) == a && Times(a, 0) == 0
    decreases a
  {
    if a > 0 {
      TimesOne(a - 1);
    }
  }

  lemma MulSucc(a: nat, b: nat)
    ensures Times(a + 1, b) == Times(a, b) + b
  {
  }

  /** The recipients of a list of targets: those of all but the last, and the last one's subscribers. */
  lemma RecipientsLast(targets: seq<string>, subs: map<string, seq<string>>)
    requires |targets| > 0
    ensures Recipients(targets, subs)
         == Recipients(targets[..|targets| - 1], subs) + Members(ListedUnder(subs, targets[|targets| - 1]))
  {
    var last := |targets| - 1;
    forall c ensures c in Recipients(targets, subs) <==> c in Recipients(targets[..last], subs) || c in ListedUnder(subs, targets[last]) {
      if c in Recipients(targets, subs) {
        var j :| 0 <= j < |targets| && c in ListedUnder(subs, targets[j]);
        if j < last {
          assert targets[..last][j] == targets[j];
        }
      }
      if c in Recipients(targets[..last], subs) {
        var j :| 0 <= j < last && c in ListedUnder(subs, targets[..last][j]);
        assert targets[j] == targets[..last][j];
      }
    }
  }

  /** A fan-out creates a queue for every recipient and removes none. */
  lemma {:induction false} FanOutKeys(qs: map<string, Queue>, targets: seq<string>, subs: map<string, seq<string>>, msg: Message)
    ensures FanOut(qs, targets, subs, msg).Keys == qs.Keys + Recipients(targets, subs)
    decreases |targets|
  {
    if |targets| > 0 {
      FanOutKeys(qs, targets[..|targets| - 1], subs, msg);
      FanOutKeysStep(qs, targets, subs, msg);
    }
  }

  lemma FanOutKeysStep(qs: map<string, Queue>, targets: seq<string>, subs: map<string, seq<string>>, msg: Message)
    requires |targets| > 0
    requires FanOut(qs, targets[..|targets| - 1], subs, msg).Keys == qs.Keys + Recipients(targets[..|targets| - 1], subs)
    ensures FanOut(qs, targets, subs, msg).Keys == qs.Keys + Recipients(targets, subs)
  {
    var last := |targets| - 1;
    var listed := Members(ListedUnder(subs, targets[last]));
    EnqueueEachKeys(FanOut(qs, targets[..last], subs, msg), ListedUnder(subs, targets[last]), targets[last], msg);
    assert FanOut(qs, targets, subs, msg).Keys == FanOut(qs, targets[..last], subs, msg).Keys + listed;
    RecipientsLast(targets, subs);
  }

  ghost predicate Distinct(s: seq<string>) {
    forall i, j :: 0 <= i < j < |s| ==> s[i] != s[j]
  }

  lemma DistinctCount(s: seq<string>, x: string)
    requires Distinct(s)
    ensures Count(s, x) == if x in s then 1 else 0
    decreases |s|
  {
    if |s| > 0 {
      assert s == [s[0]] + s[1..];
      assert Distinct(s[1..]);
      DistinctCount(s[1..], x);
    }
  }

  /**
   * With every subscription list free of repeats, as Subscribe keeps it, a
   * subscriber of p receives msg under p once per occurrence of p among the
   * targets, and a client not subscribed to p receives nothing under p.
   */
  lemma FanOutOncePerPattern(qs: map<string, Queue>, targets: seq<string>, subs: map<string, seq<string>>,
                             msg: Message, c: string, p: string)
    requires forall t :: t in subs ==> Distinct(subs[t])
    ensures c in ListedUnder(subs, p) ==>
      Entry(QueueOf(FanOut(qs, targets, subs, msg), c), p) == Entry(QueueOf(qs, c), p) + Copies(msg, Count(targets, p))
    ensures c !in ListedUnder(subs, p) ==>
      Entry(QueueOf(FanOut(qs, targets, subs, msg), c), p) == Entry(QueueOf(qs, c), p)
  {
    FanOutEntry(qs, targets, subs, msg, c, p);
    if p in subs {
      DistinctCount(subs[p], c);
    }
    TimesOne(Count(targets, p));
    assert Copies(msg, 0) == [];
  }

  // ---------------------------------------------------------------------
  // System messages and pickup

  /** The messages strictly newer than since, in their order. */
  function NewerThan(msgs: seq<Message>, since: int): (r: seq<Message>)
    ensures |r| <= |msgs|
    decreases |msgs|
  {
    if |msgs| == 0 then []
    else
      var last := |msgs| - 1;
      NewerThan(msgs[..last], since) + (if msgs[last].updatedTime > since then [msgs[last]] else [])
  }

  lemma {:induction false} NewerThanMembers(msgs: seq<Message>, since: int)
    ensures forall m :: m in NewerThan(msgs, since) <==> m in msgs && m.updatedTime > since
    decreases |msgs|
  {
    if |msgs| > 0 {
      var last := |msgs| - 1;
      NewerThanMembers(msgs[..last], since);
      assert msgs == msgs[..last] + [msgs[last]];
    }
  }

  /** What a known client gets: per topic the messages newer than its last system pickup, empty topics left out. */
  function SystemSince(sq: map<string, seq<Message>>, since: int): map<string, seq<Message>> {
    map t | t in sq && NewerThan(sq[t], since) != [] :: NewerThan(sq[t], since)
  }

  /** A known client is given exactly the system messages strictly newer than its last system pickup. */
  lemma SystemSinceMembers(sq: map<string, seq<Message>>, since: int, t: string, m: Message)
    ensures t in SystemSince(sq, since) ==> (m in SystemSince(sq, since)[t] <==> m in sq[t] && m.updatedTime > since)
    ensures t !in SystemSince(sq, since) ==> t !in sq || forall m' :: m' in sq[t] ==> m'.updatedTime <= since
  {
    if t in sq {
      NewerThanMembers(sq[t], since);
      if t !in SystemSince(sq, since) {
        forall m' | m' in sq[t] ensures m'.updatedTime <= since {
          assert m' !in NewerThan(sq[t], since);
        }
      }
    }
  }

  /** The pickup result: the queued lists, with every system topic replacing a queued topic of the same name. */
  lemma OverlayReplaces(normal: Queue, system: Queue, t: string)
    ensures t in system ==> t in normal + system && (normal + system)[t] == system[t]
    ensures t !in system && t in normal ==> t in normal + system && (normal + system)[t] == normal[t]
    ensures t !in system && t !in normal ==> t !in normal + system
  {
  }

  // ---------------------------------------------------------------------
  // Eviction

  /** The list without any of the names in gone, the others in their order. */
  function RemoveAll(s: seq<string>, gone: set<string>): (r: seq<string>)
    ensures |r| <= |s|
    decreases |s|
  {
    if |s| == 0 then []
    else
      var last := |s| - 1;
      RemoveAll(s[..last], gone) + (if s[last] in gone then [] else [s[last]])
  }

  lemma {:induction false} RemoveAllMembers(s: seq<string>, gone: set<string>)
    ensures forall x :: x in RemoveAll(s, gone) <==> x in s && x !in gone
    decreases |s|
  {
    if |s| > 0 {
      var last := |s| - 1;
      RemoveAllMembers(s[..last], gone);
      assert s == s[..last] + [s[last]];
    }
  }

  lemma {:induction false} RemoveAllTwice(s: seq<string>, gone: set<string>, c: string)
    ensures RemoveAll(RemoveAll(s, gone), {c}) == RemoveAll(s, gone + {c})
    decreases |s|
  {
    if |s| > 0 {
      var last := |s| - 1;
      RemoveAllTwice(s[..last], gone, c);
      RemoveAllAppend(RemoveAll(s[..last], gone), if s[last] in gone then [] else [s[last]], {c});
    }
  }

  lemma {:induction false} RemoveAllAppend(a: seq<string>, b: seq<string>, gone: set<string>)
    ensures RemoveAll(a + b, gone) == RemoveAll(a, gone) + RemoveAll(b, gone)
    decreases |b|
  {
    if |b| > 0 {
      var last := |b| - 1;
      assert (a + b)[..|a + b| - 1] == a + b[..last];
      RemoveAllAppend(a, b[..last], gone);
    } else {
      assert a + b == a;
    }
  }

  lemma {:induction false} RemoveAllNone(s: seq<string>, gone: set<string>)
    requires forall x :: x in s ==> x !in gone
    ensures RemoveAll(s, gone) == s
    decreases |s|
  {
    if |s| > 0 {
      var last := |s| - 1;
      RemoveAllNone(s[..last], gone);
      assert s == s[..last] + [s[last]];
    }
  }

  /** Removing names keeps a list free of repeats. */
  lemma {:induction false} RemoveAllDistinct(s: seq<string>, gone: set<string>)
    requires Distinct(s)
    ensures Distinct(RemoveAll(s, gone))
    decreases |s|
  {
    if |s| > 0 {
      var last := |s| - 1;
      assert Distinct(s[..last]);
      RemoveAllDistinct(s[..last], gone);
      RemoveAllMembers(s[..last], gone);
      assert s[last] !in s[..last];
    }
  }

  /** Every topic's list without the gone clients; topics left with nobody are dropped. */
  function Unsubscribe(subs: map<string, seq<string>>, gone: set<string>): map<string, seq<string>> {
    map t | t in subs && RemoveAll(subs[t], gone) != [] :: RemoveAll(subs[t], gone)
  }

  /** Removing clients one at a time is removing them all at once. */
  lemma UnsubscribeTwice(subs: map<string, seq<string>>, gone: set<string>, c: string)
    ensures Unsubscribe(Unsubscribe(subs, gone), {c}) == Unsubscribe(subs, gone + {c})
  {
    var lhs := Unsubscribe(Unsubscribe(subs, gone), {c});
    var rhs := Unsubscribe(subs, gone + {c});
    forall t | t in subs ensures (t in lhs <==> t in rhs) && (t in lhs ==> lhs[t] == rhs[t]) {
      RemoveAllTwice(subs[t], gone, c);
      assert RemoveAll([], {c}) == [];
    }
    assert lhs.Keys <= subs.Keys;
  }

  lemma UnsubscribeNobody(subs: map<string, seq<string>>)
    requires forall t :: t in subs ==> subs[t] != []
    ensures Unsubscribe(subs, {}) == subs
  {
    forall t | t in subs {
      RemoveAllNone(subs[t], {});
    }
  }

  /** An eviction leaves no gone client in any list, no empty list, and the other clients where they were. */
  lemma UnsubscribeEffect(subs: map<string, seq<string>>, gone: set<string>, t: string, c: string)
    ensures t in Unsubscribe(subs, gone) ==> Unsubscribe(subs, gone)[t] != []
    ensures t in Unsubscribe(subs, gone) ==> (c in Unsubscribe(subs, gone)[t] <==> t in subs && c in subs[t] && c !in gone)
    ensures t in subs && c in subs[t] && c !in gone ==> t in Unsubscribe(subs, gone)
  {
    if t in subs {
      RemoveAllMembers(subs[t], gone);
    }
  }

  /** The clients silent for longer than the timeout. */
  function Inactive(clients: map<string, Client>, now: int): set<string> {
    set c | c in clients && now - clients[c].latestPickup > MessageQueueTimeout
  }

  function Without<V>(m: map<string, V>, gone: set<string>): (r: map<string, V>)
    ensures forall k :: k in r <==> k in m && k !in gone
  {
    map k | k in m && k !in gone :: m[k]
  }

  /** Deleting keys one at a time is removing them all at once. */
  lemma WithoutOneMore<V>(m: map<string, V>, gone: set<string>, c: string)
    ensures Without(m, gone) - {c} == Without(m, gone + {c})
  {
  }

  /** A poster whose latest post is older than the poster timeout. */
  predicate IsStale(p: Provider, now: int) {
    p.latestPost.Some? && now - p.latestPost.value.updatedTime > PosterStatsTimeout
  }

  function Fresh(providers: map<string, Provider>, now: int): (r: map<string, Provider>)
    ensures forall k :: k in r <==> k in providers && !IsStale(providers[k], now)
  {
    map k | k in providers && !IsStale(providers[k], now) :: providers[k]
  }
}

=== FILE: cli.dfy ===
/**
 * The command-line client (cmd/moustique-cli/main.go): its own codec, a
 * byte-wise rot13 followed by standard base64, and a client with the same
 * request set as the Go library.  Its decode gives the argument back when
 * it is not valid base64, so a pickup body that is not base64 is read as
 * it came.
 */
module Cli {

  import opened Wrappers
  import opened Text
  import Base64
  import Utf8
  import opened Rotation
  import opened Transport
  import opened Dispatch
  import ServerCodec
  import GoClient

  type Bytes = seq<Byte>

  /** rot13: fills a fresh byte array, one position per input byte. */
  method Rot13(s: Bytes) returns (r: Bytes)
    ensures r == Rot13Bytes(s)
  {
    var result := new Byte[|s|];
    var i := 0;
    while i < |s|
      invariant 0 <= i <= |s|
      invariant forall j :: 0 <= j < i ==> result[j] == Rot13Byte(s[j])
    {
      var c := s[i];
      if 'a' as int <= c <= 'z' as int {
        result[i] := 'a' as int + (c - 'a' as int + 13) % 26;
      } else if 'A' as int <= c <= 'Z' as int {
        result[i] := 'A' as int + (c - 'A' as int + 13) % 26;
      } else {
        result[i] := c;
      }
      i := i + 1;
    }
    r := result[..];
  }

  /** encode: rot13, then standard base64. */
  function Encode(plaintext: Bytes): (r: Bytes)
    ensures plaintext == [] <==> r == []
    ensures Base64.IsEncodingText(Latin1(r))
  {
    var e := Base64.Encode(Rot13Bytes(plaintext));
    Base64.EncodingTextIsAscii(e);
    Latin1AsciiBytes(e);
    AsciiBytes(e)
  }

  /**
   * decode: base64 (line breaks skipped), then rot13; the argument itself
   * when DecodeString reports an error.
   */
  function Decode(encoded: Bytes): (r: Bytes)
    ensures !Base64.DecodeString(Latin1(encoded)).complete ==> r == encoded
    ensures Base64.DecodeString(Latin1(encoded)).complete ==> |r| == |Base64.DecodeString(Latin1(encoded)).bytes|
  {
    var d := Base64.DecodeString(Latin1(encoded));
    if d.complete then Rot13Bytes(d.bytes) else encoded
  }

  /** Every byte string survives encode and decode: the byte-wise rotation undoes itself on any byte. */
  lemma DecodeEncode(p: Bytes)
    ensures Decode(Encode(p)) == p
  {
    var rotated := Rot13Bytes(p);
    var e := Base64.Encode(rotated);
    Base64.EncodingTextIsAscii(e);
    Latin1AsciiBytes(e);
    Base64.DecodeStringEncode(rotated);
    Rot13BytesInvolutive(p);
  }

  /** Every byte of a multi-byte UTF-8 sequence is at least 0x80, so the byte-wise rotation leaves it alone. */
  lemma EncodeCharRotated(c: char)
    ensures Rot13Bytes(Utf8.EncodeChar(c)) == Utf8.EncodeChar(Rot13Char(c))
  {
    var b := Utf8.EncodeChar(c);
    if c as int >= 128 {
      assert forall i :: 0 <= i < |b| ==> b[i] >= 128;
      assert Rot13Bytes(b) == b;
    }
  }

  /** On well-formed UTF-8 the byte-wise rotation is the rune-wise one. */
  lemma {:induction false} Rot13BytesUtf8(t: string)
    ensures Rot13Bytes(Utf8.Encode(t)) == Utf8.Encode(Rotation.Rot13(t))
    decreases |t|
  {
    if |t| > 0 {
      var head, tail := Utf8.EncodeChar(t[0]), Utf8.Encode(t[1..]);
      var rotated := Rotation.Rot13(t);
      Rot13BytesUtf8(t[1..]);
      EncodeCharRotated(t[0]);
      Rot13BytesAppend(head, tail);
      assert rotated[0] == Rot13Char(t[0]) && rotated[1..] == Rotation.Rot13(t[1..]);
      calc {
        Rot13Bytes(Utf8.Encode(t));
        Rot13Bytes(head + tail);
        Rot13Bytes(head) + Rot13Bytes(tail);
        Utf8.EncodeChar(rotated[0]) + Utf8.Encode(rotated[1..]);
        Utf8.Encode(rotated);
      }
    }
  }

  lemma Rot13BytesAppend(a: seq<Byte>, b: seq<Byte>)
    ensures Rot13Bytes(a + b) == Rot13Bytes(a) + Rot13Bytes(b)
  {
  }

  /** The command-line client and the server encode every well-formed text alike. */
  lemma EncodeAgreesWithServer(t: string)
    ensures Encode(Utf8.Encode(t)) == ServerCodec.Encode(Utf8.Encode(t))
  {
    Rot13BytesUtf8(t);
    Utf8.DecodeLenientEncode(t);
  }

  /** A body refused even with its line breaks skipped reaches the JSON parser as it came. */
  lemma DecodeKeepsInvalid(body: Bytes)
    requires !Base64.DecodeString(Latin1(body)).complete
    ensures Decode(body) == body
  {
  }

  /** A line break inside a valid body is skipped, not a reason to pass the body through. */
  lemma DecodeSkipsLineBreak(a: Bytes, b: Bytes)
    requires Base64.DecodeString(Latin1(a + b)).complete
    ensures Decode(a + ['\n' as int] + b) == Decode(a + b)
  {
    assert Latin1(a + ['\n' as int] + b) == Latin1(a) + ['\n'] + Latin1(b);
    assert Latin1(a + b) == Latin1(a) + Latin1(b);
    Base64.LineBreakSkipped(Latin1(a), '\n', Latin1(b));
  }

  /** NewClient: hostname + "-cli" for an empty name, then "-" and eight characters of a fresh UUID. */
  function ClientNameOf(clientName: Bytes, hostname: Bytes, uuid: Bytes): (r: Bytes)
    requires |uuid| >= 8
    ensures |r| == (if clientName == [] then |hostname| + 4 else |clientName|) + 9
    ensures clientName != [] ==> r[..|clientName|] == clientName
    ensures clientName == [] ==> r[..|hostname|] == hostname && r[|hostname|..|hostname| + 4] == AsciiBytes("-cli")
    ensures r[|r| - 8..] == uuid[..8] && r[|r| - 9] == '-' as int
  {
    var base := if clientName == [] then hostname + AsciiBytes("-cli") else clientName;
    base + [('-' as int)] + uuid[..8]
  }

  /** What goes on the wire for a request: every form value through encode. */
  function Wire(req: Request<Bytes>): (w: Request<Bytes>)
    ensures w.verb == req.verb && w.url == req.url && w.form.Keys == req.form.Keys
    ensures forall k :: k in req.form ==> Decode(w.form[k]) == req.form[k]
  {
    var w := Request(req.verb, req.url, map k | k in req.form :: Encode(req.form[k]));
    forall k | k in req.form ensures Decode(w.form[k]) == req.form[k] {
      DecodeEncode(req.form[k]);
    }
    w
  }

  /** The server reads every well-formed UTF-8 value the command-line client sends. */
  lemma ServerReadsWire(req: Request<Bytes>, k: string, t: string)
    requires k in req.form && req.form[k] == Utf8.Encode(t)
    ensures ServerCodec.Decode(Wire(req).form[k]) == req.form[k]
  {
    EncodeAgreesWithServer(t);
    ServerCodec.DecodeEncode(t);
  }

  class Client {
    var baseUrl: string
    var clientName: Bytes
    var username: Bytes
    var password: Bytes
    var callbacks: map<Bytes, seq<Handler>>
    /** Every callback invocation so far, oldest first. */
    var invoked: seq<Call<Bytes>>
    const net: Channel<Bytes>

    /** NewClient; the host name and the fresh UUID are parameters. */
    constructor (net: Channel<Bytes>, ip: string, port: string, clientName: Bytes, username: Bytes, password: Bytes,
                 hostname: Bytes, uuid: Bytes)
      requires |uuid| >= 8
      ensures this.net == net
      ensures baseUrl == "http://" + ip + ":" + port
      ensures this.clientName == ClientNameOf(clientName, hostname, uuid)
      ensures this.username == username && this.password == password
      ensures callbacks == map[] && invoked == []
    {
      this.net := net;
      baseUrl := "http://" + ip + ":" + port;
      this.clientName := ClientNameOf(clientName, hostname, uuid);
      this.username := username;
      this.password := password;
      callbacks := map[];
      invoked := [];
    }

    function PublishRequest(topic: Bytes, message: Bytes, now: int, nice: Bytes): Request<Bytes>
      reads this
    {
      Request("POST", baseUrl + "/POST", GoClient.AddAuth(map["topic" := topic, "message" := message,
        "updated_time" := GoClient.TimeText(now), "updated_nicedatetime" := nice, "from" := clientName], username, password))
    }

    function PutValRequest(topic: Bytes, value: Bytes, now: int, nice: Bytes): Request<Bytes>
      reads this
    {
      Request("PUT", baseUrl + "/PUTVAL", GoClient.AddAuth(map["valname" := topic, "val" := value,
        "updated_time" := GoClient.TimeText(now), "updated_nicedatetime" := nice, "from" := clientName], username, password))
    }

    function SubscribeRequest(topic: Bytes): Request<Bytes>
      reads this
    {
      Request("POST", baseUrl + "/SUBSCRIBE", GoClient.AddAuth(map["topic" := topic, "client" := clientName], username, password))
    }

    function PickupRequest(): Request<Bytes>
      reads this
    {
      Request("POST", baseUrl + "/PICKUP", GoClient.AddAuth(map["client" := clientName], username, password))
    }

    /** Publish: an error unless the reply is 200. */
    method Publish(topic: Bytes, message: Bytes, now: int, nice: Bytes) returns (err: Option<GoClient.ClientError>)
      modifies net
      ensures net.sent == old(net.sent) + [PublishRequest(topic, message, now, nice)]
      ensures net.replies == Rest(old(net.replies))
      ensures err == GoClient.Check(Next(old(net.replies)), {200})
    {
      var reply := net.Send(PublishRequest(topic, message, now, nice));
      err := GoClient.Check(reply, {200});
    }

    /** PutVal: 200 and 308 are success. */
    method PutVal(topic: Bytes, value: Bytes, now: int, nice: Bytes) returns (err: Option<GoClient.ClientError>)
      modifies net
      ensures net.sent == old(net.sent) + [PutValRequest(topic, value, now, nice)]
      ensures net.replies == Rest(old(net.replies))
      ensures err == GoClient.Check(Next(old(net.replies)), {200, 308})
    {
      var reply := net.Send(PutValRequest(topic, value, now, nice));
      err := GoClient.Check(reply, {200, 308});
    }

    /** Subscribe: after a 200 the callback goes at the end of the topic's list, without a duplicate check. */
    method Subscribe(topic: Bytes, callback: Handler) returns (err: Option<GoClient.ClientError>)
      modifies this`callbacks, net
      ensures net.sent == old(net.sent) + [old(SubscribeRequest(topic))]
      ensures net.replies == Rest(old(net.replies))
      ensures err == GoClient.Check(Next(old(net.replies)), {200})
      ensures callbacks == if err.None? then Append(old(callbacks), topic, callback) else old(callbacks)
    {
      var reply := net.Send(SubscribeRequest(topic));
      err := GoClient.Check(reply, {200});
      if err.None? {
        callbacks := callbacks[topic := Lookup(callbacks, topic) + [callback]];
      }
    }

    /** Pickup: the body is decoded whatever the status; an empty or non-JSON result dispatches nothing. */
    method Pickup(parse: Bytes -> Option<Batch<Bytes, Bytes>>) returns (err: Option<GoClient.ClientError>)
      modifies this`invoked, net
      ensures net.sent == old(net.sent) + [old(PickupRequest())]
      ensures net.replies == Rest(old(net.replies))
      ensures var reply := Next(old(net.replies));
        err == (if reply.Failure? then Some(GoClient.TransportError) else None) &&
        invoked == old(invoked) + (if reply.Failure? then [] else PickupCalls(reply.body, parse, callbacks))
    {
      var reply := net.Send(PickupRequest());
      if reply.Failure? {
        err := Some(GoClient.TransportError);
        return;
      }
      err := None;
      var decrypted := Decode(reply.body);
      if decrypted == [] {
        return;
      }
      var data := parse(decrypted);
      if data.None? {
        return;
      }
      var calls := Deliver(data.value, callbacks, {});
      invoked := invoked + calls;
    }
  }

  /** The calls a pickup body leads to: none for an empty or non-JSON decoding, else the user callbacks of the batch. */
  function PickupCalls(body: Bytes, parse: Bytes -> Option<Batch<Bytes, Bytes>>, reg: map<Bytes, seq<Handler>>): (r: seq<Call<Bytes>>)
    ensures forall i :: 0 <= i < |r| ==> r[i].User?
    ensures Decode(body) == [] || parse(Decode(body)).None? ==> r == []
  {
    var decrypted := Decode(body);
    if decrypted == [] then []
    else match parse(decrypted)
      case None => []
      case Some(batch) =>
        var calls := BatchCalls(batch, reg, {});
        forall i | 0 <= i < |calls| ensures calls[i].User? {
          NoSystemCalls(batch, reg, i);
        }
        calls
  }

  /** A batch the server encoded reaches the command-line client's callbacks as it was written. */
  lemma PickupReadsServer(t: string, parse: Bytes -> Option<Batch<Bytes, Bytes>>, reg: map<Bytes, seq<Handler>>, batch: Batch<Bytes, Bytes>)
    requires t != "" && parse(Utf8.Encode(t)) == Some(batch)
    ensures PickupCalls(ServerCodec.Encode(Utf8.Encode(t)), parse, reg) == BatchCalls(batch, reg, {})
  {
    EncodeAgreesWithServer(t);
    DecodeEncode(Utf8.Encode(t));
  }
}

=== FILE: config.dfy ===
/**
 * Server configuration (config.go): the YAML file's contents and the
 * defaults LoadConfig fills in for fields left at their zero value.
 * Reading and parsing the file are parameters; a timeout is a count of
 * nanoseconds, as Go's time.Duration is.
 */
module Config {

  import opened Wrappers

  const Second: int := 1_000_000_000

  const DefaultPort: int := 33334
  const DefaultTimeout: int := 30 * Second
  const DefaultPath: string := "./data"
  const DefaultLevel: string := "info"

  datatype ServerConfig = ServerConfig(port: int, timeout: int, allowPublic: Option<bool>)
  datatype DatabaseConfig = DatabaseConfig(path: string)
  datatype LoggingConfig = LoggingConfig(level: string, file: string)
  datatype SecurityConfig = SecurityConfig(allowedPeers: seq<string>, blockedPeers: seq<string>)
  datatype Config = Config(server: ServerConfig, database: DatabaseConfig,
                           logging: LoggingConfig, security: SecurityConfig)

  /** Every defaulted field is set. */
  predicate Complete(c: Config) {
    c.server.port != 0 && c.server.timeout != 0 && c.server.allowPublic.Some? &&
    c.database.path != "" && c.logging.level != ""
  }

  /**
   * Two configs agree on every field that was already set in the first:
   * a non-zero port or timeout, a present allow_public, a non-empty path or
   * level; the log file and the peer lists always.
   */
  predicate KeepsSet(c: Config, r: Config) {
    (c.server.port != 0 ==> r.server.port == c.server.port) &&
    (c.server.timeout != 0 ==> r.server.timeout == c.server.timeout) &&
    (c.server.allowPublic.Some? ==> r.server.allowPublic == c.server.allowPublic) &&
    (c.database.path != "" ==> r.database.path == c.database.path) &&
    (c.logging.level != "" ==> r.logging.level == c.logging.level) &&
    r.logging.file == c.logging.file && r.security == c.security
  }

  /** Each zero-valued field replaced by its default, the rest kept. */
  function Defaulted(c: Config): (r: Config)
    ensures Complete(r) && KeepsSet(c, r)
  {
    Config(ServerConfig(if c.server.port == 0 then DefaultPort else c.server.port,
                        if c.server.timeout == 0 then DefaultTimeout else c.server.timeout,
                        if c.server.allowPublic.None? then Some(false) else c.server.allowPublic),
           DatabaseConfig(if c.database.path == "" then DefaultPath else c.database.path),
           c.logging.(level := if c.logging.level == "" then DefaultLevel else c.logging.level),
           c.security)
  }

  /** The defaulting step of LoadConfig, one conditional assignment at a time. */
  method ApplyDefaults(parsed: Config) returns (config: Config)
    ensures config == Defaulted(parsed)
  {
    config := parsed;
    if config.server.port == 0 {
      config := config.(server := config.server.(port := DefaultPort));
    }
    if config.server.timeout == 0 {
      config := config.(server := config.server.(timeout := DefaultTimeout));
    }
    if config.server.allowPublic.None? {
      config := config.(server := config.server.(allowPublic := Some(false)));
    }
    if config.database.path == "" {
      config := config.(database := config.database.(path := DefaultPath));
    }
    if config.logging.level == "" {
      config := config.(logging := config.logging.(level := DefaultLevel));
    }
  }

  /** Complete and agreeing on everything set: the same config. */
  lemma CompleteKeepsSetEqual(c: Config, r: Config)
    requires Complete(c) && KeepsSet(c, r)
    ensures r == c
  {
  }

  /** The defaults only fill gaps: a complete config is left as it is. */
  lemma DefaultedComplete(c: Config)
    requires Complete(c)
    ensures Defaulted(c) == c
  {
    CompleteKeepsSetEqual(c, Defaulted(c));
  }

  /** Applying the defaults twice gives the config applying them once gives. */
  lemma DefaultedIdempotent(c: Config)
    ensures Defaulted(Defaulted(c)) == Defaulted(c)
  {
    DefaultedComplete(Defaulted(c));
  }

  /** The config GenerateDefaultConfig writes already has every default in place. */
  lemma DefaultConfigFixed()
    ensures Defaulted(DefaultConfig()) == DefaultConfig()
  {
    DefaultedComplete(DefaultConfig());
  }

  /**
   * LoadConfig: a read failure and a parse failure are errors with their
   * own prefix; otherwise the parsed config with the defaults filled in.
   */
  method LoadConfig(contents: Result<string, string>, parse: string -> Result<Config, string>)
    returns (r: Result<Config, string>)
    ensures contents.Err? ==> r == Err("failed to read config file: " + contents.error)
    ensures contents.Ok? && parse(contents.value).Err? ==> r == Err("failed to parse config: " + parse(contents.value).error)
    ensures contents.Ok? && parse(contents.value).Ok? ==>
      r == Ok(Defaulted(parse(contents.value).value))
  {
    if contents.Err? {
      return Err("failed to read config file: " + contents.error);
    }
    var parsed := parse(contents.value);
    if parsed.Err? {
      return Err("failed to parse config: " + parsed.error);
    }
    var config := ApplyDefaults(parsed.value);
    r := Ok(config);
  }

  /** The config GenerateDefaultConfig writes. */
  function DefaultConfig(): (c: Config)
    ensures Complete(c)
    ensures c.security.allowedPeers == ["172.16.0.0/12", "192.168.0.0/16"] && c.security.blockedPeers == []
  {
    Config(ServerConfig(DefaultPort, DefaultTimeout, Some(false)),
           DatabaseConfig(DefaultPath),
           LoggingConfig(DefaultLevel, ""),
           SecurityConfig(["172.16.0.0/12", "192.168.0.0/16"], []))
  }
}

=== FILE: database.dfy ===
/**
 * The broker's key/value store (database.go): an in-memory map from key to
 * a JSON text.  Only the in-memory side is modelled; the SQLite table
 * behind it is left out, and LoadAll takes the rows it would read as a
 * parameter.
 */
module Storage {

  import opened Wrappers

  /** One row as LoadAll scans it: None where the scan fails. */
  type Row = Option<(string, string)>

  /** The value the last row for key k carries, if any row has it. */
  function LastRow(rows: seq<(string, string)>, k: string): (r: Option<string>)
    ensures r.None? <==> forall i :: 0 <= i < |rows| ==> rows[i].0 != k
    ensures r.Some? ==>
      exists i :: (0 <= i < |rows| && rows[i] == (k, r.value) &&
        forall j :: i < j < |rows| ==> rows[j].0 != k)
    decreases |rows|
  {
    if |rows| == 0 then None
    else
      var last := |rows| - 1;
      if rows[last].0 == k then
        assert rows[last] == (k, rows[last].1);
        Some(rows[last].1)
      else
        var r := LastRow(rows[..last], k);
        assert r.None? ==> forall i :: 0 <= i < |rows| ==> rows[i].0 != k by {
          if r.None? {
            forall i | 0 <= i < |rows| ensures rows[i].0 != k {
              if i < last { assert rows[..last][i] == rows[i]; }
            }
          }
        }
        assert r.Some? ==> exists i :: (0 <= i < |rows| && rows[i] == (k, r.value) &&
          forall j :: i < j < |rows| ==> rows[j].0 != k) by {
          if r.Some? {
            var i :| 0 <= i < last && rows[..last][i] == (k, r.value) &&
              forall j :: i < j < last ==> rows[..last][j].0 != k;
            assert rows[i] == (k, r.value);
            forall j | i < j < |rows| ensures rows[j].0 != k {
              if j < last { assert rows[..last][j] == rows[j]; }
            }
          }
        }
        r
  }

  /** The map the rows give when applied to values in order. */
  function Loaded(values: map<string, string>, rows: seq<(string, string)>): map<string, string>
    decreases |rows|
  {
    if |rows| == 0 then values
    else
      var last := |rows| - 1;
      Loaded(values, rows[..last])[rows[last].0 := rows[last].1]
  }

  /** Loading keeps every key, adds every row's key, and leaves each key with its last row's value. */
  lemma {:induction false} LoadedValue(values: map<string, string>, rows: seq<(string, string)>, k: string)
    ensures k in Loaded(values, rows) <==> k in values || LastRow(rows, k).Some?
    ensures k in Loaded(values, rows) ==>
      Loaded(values, rows)[k] == if LastRow(rows, k).Some? then LastRow(rows, k).value else values[k]
    decreases |rows|
  {
    if |rows| > 0 {
      LoadedValue(values, rows[..|rows| - 1], k);
    }
  }

  class Database {
    var values: map<string, string>

    constructor ()
      ensures values == map[]
    {
      values := map[];
    }

    /** SaveValue: the JSON text replaces whatever the key held; a value that does not marshal is an error and stores nothing. */
    method SaveValue(key: string, marshalled: Option<string>) returns (err: Option<string>)
      modifies this
      ensures marshalled.Some? ==> err.None? && values == old(values)[key := marshalled.value]
      ensures marshalled.None? ==> err.Some? && values == old(values)
    {
      if marshalled.None? {
        return Some("failed to marshal value");
      }
      values := values[key := marshalled.value];
      err := None;
    }

    /** GetValue: the stored text, or "key not found". */
    method GetValue(key: string) returns (r: Result<string, string>)
      ensures key in values ==> r == Ok(values[key])
      ensures key !in values ==> r == Err("key not found: " + key)
    {
      if key !in values {
        return Err("key not found: " + key);
      }
      r := Ok(values[key]);
    }

    method HasValue(key: string) returns (b: bool)
      ensures b <==> key in values
    {
      b := key in values;
    }

    method CountValues() returns (n: int)
      ensures n == |values|
    {
      n := |values|;
    }

    /** GetKeys: every stored key once, in the map's iteration order. */
    method GetKeys() returns (keys: seq<string>)
      ensures forall k :: k in keys <==> k in values
      ensures forall i, j :: 0 <= i < j < |keys| ==> keys[i] != keys[j]
      ensures |keys| == |values|
    {
      keys := KeysMatching(values, _ => true);
    }

    /** GetKeysByRegex: the stored keys the pattern matches, each once; the regexp engine is the matches parameter. */
    method GetKeysByRegex(matches: string -> bool) returns (keys: seq<string>)
      ensures forall k :: k in keys <==> k in values && matches(k)
      ensures forall i, j :: 0 <= i < j < |keys| ==> keys[i] != keys[j]
    {
      keys := KeysMatching(values, matches);
    }

    /** LoadAll: each scanned row overwrites its key; a row that fails to scan stops the load with an error. */
    method LoadAll(rows: seq<Row>) returns (err: Option<string>)
      modifies this
      ensures err.None? <==> forall i :: 0 <= i < |rows| ==> rows[i].Some?
      ensures err.None? ==> values == Loaded(old(values), Scanned(rows))
      ensures err.Some? ==>
        exists n :: (0 <= n < |rows| && rows[n].None? && Prefix(rows, n) &&
          values == Loaded(old(values), Scanned(rows[..n])))
    {
      var i := 0;
      while i < |rows|
        invariant 0 <= i <= |rows|
        invariant Prefix(rows, i)
        invariant values == Loaded(old(values), Scanned(rows[..i]))
      {
        if rows[i].None? {
          return Some("failed to scan row");
        }
        ScannedStep(rows, i);
        values := values[rows[i].value.0 := rows[i].value.1];
        i := i + 1;
      }
      assert rows[..i] == rows;
      err := None;
    }
  }

  /** The first n rows all scanned. */
  predicate Prefix(rows: seq<Row>, n: nat)
    requires n <= |rows|
  {
    forall i :: 0 <= i < n ==> rows[i].Some?
  }

  /** The rows that scanned, as long as every row before them did. */
  function Scanned(rows: seq<Row>): (r: seq<(string, string)>)
    requires forall i :: 0 <= i < |rows| ==> rows[i].Some?
    ensures |r| == |rows| && forall i :: 0 <= i < |rows| ==> r[i] == rows[i].value
  {
    seq(|rows|, i requires 0 <= i < |rows| => rows[i].value)
  }

  lemma ScannedStep(rows: seq<Row>, i: nat)
    requires i < |rows| && forall j :: 0 <= j <= i ==> rows[j].Some?
    ensures Scanned(rows[..i + 1]) == Scanned(rows[..i]) + [rows[i].value]
  {
  }

  /** The keys of m for which matches holds, each once, in some order. */
  method KeysMatching(m: map<string, string>, matches: string -> bool) returns (keys: seq<string>)
    ensures forall k :: k in keys <==> k in m && matches(k)
    ensures forall i, j :: 0 <= i < j < |keys| ==> keys[i] != keys[j]
    ensures (forall k :: k in m ==> matches(k)) ==> |keys| == |m|
  {
    keys := [];
    var remaining := m.Keys;
    while remaining != {}
      invariant remaining <= m.Keys
      invariant forall k :: k in keys <==> k in m && k !in remaining && matches(k)
      invariant forall i, j :: 0 <= i < j < |keys| ==> keys[i] != keys[j]
      invariant (forall k :: k in m ==> matches(k)) ==> |keys| + |remaining| == |m|
      decreases remaining
    {
      var k :| k in remaining;
      if matches(k) {
        keys := keys + [k];
      }
      remaining := remaining - {k};
    }
  }
}

=== FILE: decimal.dfy ===
/**
 * Base-10 text for integers: the formatting of Python's str(int), Go's
 * fmt.Sprintf("%d") and JavaScript's toString(), and Go's
 * strconv.ParseInt(s, 10, 64), which the server applies to updated_time.
 */
module Decimal {

  import opened Wrappers
  import opened Text

  const MinInt64: int := -0x8000_0000_0000_0000
  const MaxInt64: int := 0x7FFF_FFFF_FFFF_FFFF

  function DigitChar(d: nat): (c: char)
    requires d < 10
    ensures IsDigit(c)
  {
    ('0' as int + d) as char
  }

  /** The digits of n, most significant first, without leading zeros. */
  function NatToString(n: nat): (s: string)
    ensures |s| >= 1
    ensures forall i :: 0 <= i < |s| ==> IsDigit(s[i])
    ensures |s| > 1 ==> s[0] != '0'
    decreases n
  {
    if n < 10 then [DigitChar(n)] else NatToString(n / 10) + [DigitChar(n % 10)]
  }

  /** A minus sign before negative numbers. */
  function IntToString(n: int): (s: string)
    ensures |s| >= 1 && IsAscii(s)
    ensures n < 0 <==> s[0] == '-'
  {
    if n < 0 then "-" + NatToString(-n) else NatToString(n)
  }

  /** The value of a string of digits. */
  function DigitsValue(s: string): (n: nat)
    requires forall i :: 0 <= i < |s| ==> IsDigit(s[i])
    decreases |s|
  {
    if |s| == 0 then 0
    else
      assert IsDigit(s[|s| - 1]);
      DigitsValue(s[..|s| - 1]) * 10 + (s[|s| - 1] as int - '0' as int)
  }

  lemma {:induction false} DigitsValueNatToString(n: nat)
    ensures DigitsValue(NatToString(n)) == n
    decreases n
  {
    if n >= 10 {
      var s := NatToString(n);
      DigitsValueNatToString(n / 10);
      assert s[..|s| - 1] == NatToString(n / 10);
    }
  }

  predicate AllDigits(s: string) {
    forall i :: 0 <= i < |s| ==> IsDigit(s[i])
  }

  /**
   * strconv.ParseInt(s, 10, 64): an optional '+' or '-', then one or more
   * decimal digits, and a value that fits in 64 bits; None otherwise.
   */
  function ParseInt64(s: string): (r: Option<int>)
    ensures r.Some? ==> MinInt64 <= r.value <= MaxInt64
    ensures r.Some? ==> |s| > 0
  {
    if |s| == 0 then None
    else
      var neg := s[0] == '-';
      var body := if s[0] == '-' || s[0] == '+' then s[1..] else s;
      if |body| == 0 || !AllDigits(body) then None
      else
        var v: int := if neg then -(DigitsValue(body) as int) else DigitsValue(body);
        if MinInt64 <= v <= MaxInt64 then Some(v) else None
  }

  /** Formatting and parsing agree on every 64-bit value. */
  lemma ParseIntToString(n: int)
    requires MinInt64 <= n <= MaxInt64
    ensures ParseInt64(IntToString(n)) == Some(n)
  {
    var s := IntToString(n);
    var digits := if n < 0 then NatToString(-n) else NatToString(n);
    assert |digits| > 0 && AllDigits(digits);
    assert DigitsValue(digits) == if n < 0 then -n else n by {
      DigitsValueNatToString(if n < 0 then -n else n);
    }
    assert (if s[0] == '-' || s[0] == '+' then s[1..] else s) == digits by {
      if n < 0 {
        assert s == "-" + digits;
      } else {
        assert IsDigit(s[0]);
      }
    }
  }
}

=== FILE: dispatch.dfy ===
/**
 * What the clients share: the callback registry (topic -> callbacks in
 * registration order), the two registration rules the clients use, and the
 * calls a pickup makes for a decoded batch of messages.
 */
module Dispatch {

  /** A callback handed to subscribe; equal numbers stand for equal callables. */
  type Handler = nat

  /** One delivered message, as the server's JSON carries it. */
  datatype Msg<V> = Msg(topic: V, message: V, from: V)

  /** A decoded pickup body: each topic key with its messages, in iteration order. */
  type Batch<K, V> = seq<(K, seq<Msg<V>>)>

  /** A callback invocation: a user callback gets (topic, message, from), a system one (topic, message). */
  datatype Call<V> = User(handler: Handler, topic: V, message: V, from: V) | System(topic: V, message: V)

  function Lookup<K, H>(reg: map<K, seq<H>>, k: K): seq<H> {
    if k in reg then reg[k] else []
  }

  /** Registration without a duplicate check: the callback goes at the end of the topic's list. */
  function Append<K, H>(reg: map<K, seq<H>>, k: K, h: H): (r: map<K, seq<H>>)
    ensures r.Keys == reg.Keys + {k}
    ensures Lookup(r, k) == Lookup(reg, k) + [h]
    ensures forall t :: t in reg && t != k ==> r[t] == reg[t]
  {
    reg[k := Lookup(reg, k) + [h]]
  }

  /** Registration that refuses a callback the topic already has. */
  function AddUnique<K, H(==)>(reg: map<K, seq<H>>, k: K, h: H): (r: map<K, seq<H>>)
    ensures r.Keys == reg.Keys + {k}
    ensures h in Lookup(reg, k) ==> Lookup(r, k) == Lookup(reg, k)
    ensures h !in Lookup(reg, k) ==> Lookup(r, k) == Lookup(reg, k) + [h]
    ensures forall t :: t in reg && t != k ==> r[t] == reg[t]
  {
    if h in Lookup(reg, k) then reg else Append(reg, k, h)
  }

  predicate NoDuplicates<H(==)>(s: seq<H>) {
    forall i, j :: 0 <= i < j < |s| ==> s[i] != s[j]
  }

  predicate UniqueLists<K, H(==)>(reg: map<K, seq<H>>) {
    forall t :: t in reg ==> NoDuplicates(reg[t])
  }

  /** Under the refusing rule a callback is never on a topic's list twice. */
  lemma AddUniqueKeepsUnique<K, H>(reg: map<K, seq<H>>, k: K, h: H)
    requires UniqueLists(reg)
    ensures UniqueLists(AddUnique(reg, k, h))
  {
    var r := AddUnique(reg, k, h);
    if h !in Lookup(reg, k) {
      var l := Lookup(r, k);
      assert l == Lookup(reg, k) + [h];
      forall i, j | 0 <= i < j < |l| ensures l[i] != l[j] {
        if j == |l| - 1 {
          assert l[i] in Lookup(reg, k);
        }
      }
    }
  }

  /** Adding the same callback twice under the refusing rule is the same as adding it once. */
  lemma AddUniqueIdempotent<K, H>(reg: map<K, seq<H>>, k: K, h: H)
    ensures AddUnique(AddUnique(reg, k, h), k, h) == AddUnique(reg, k, h)
  {
    assert h in Lookup(AddUnique(reg, k, h), k);
  }

  /** Without the check, the same callback subscribed twice is on the list twice. */
  lemma AppendTwice<K, H>(reg: map<K, seq<H>>, k: K, h: H)
    ensures Lookup(Append(Append(reg, k, h), k, h), k) == Lookup(reg, k) + [h, h]
  {
  }

  /**
   * The calls one message brings: every user callback of its key in
   * registration order, then the system callback only when the key has a
   * system callback and no user callback.  The arguments come from the
   * message itself, not from the key it was filed under.
   */
  function MessageCalls<V>(m: Msg<V>, users: seq<Handler>, system: bool): (r: seq<Call<V>>)
    ensures |r| == |users| + (if system && |users| == 0 then 1 else 0)
    ensures forall i :: 0 <= i < |users| ==> r[i] == User(users[i], m.topic, m.message, m.from)
    ensures |r| > |users| ==> r[|users|] == System(m.topic, m.message)
  {
    UserCalls(m, users) + (if system && |users| == 0 then [System(m.topic, m.message)] else [])
  }

  function UserCalls<V>(m: Msg<V>, users: seq<Handler>): (r: seq<Call<V>>)
    ensures |r| == |users|
    ensures forall i :: 0 <= i < |users| ==> r[i] == User(users[i], m.topic, m.message, m.from)
  {
    seq(|users|, i requires 0 <= i < |users| => User(users[i], m.topic, m.message, m.from))
  }

  /** The calls for all messages of one key, message after message. */
  function KeyCalls<V>(msgs: seq<Msg<V>>, users: seq<Handler>, system: bool): seq<Call<V>>
    decreases |msgs|
  {
    if |msgs| == 0 then []
    else KeyCalls(msgs[..|msgs| - 1], users, system) + MessageCalls(msgs[|msgs| - 1], users, system)
  }

  /** The calls for a whole batch, key after key in iteration order. */
  function BatchCalls<K, V>(batch: Batch<K, V>, reg: map<K, seq<Handler>>, system: set<K>): seq<Call<V>>
    decreases |batch|
  {
    if |batch| == 0 then []
    else
      var (key, msgs) := batch[|batch| - 1];
      BatchCalls(batch[..|batch| - 1], reg, system) + KeyCalls(msgs, Lookup(reg, key), key in system)
  }

  /** A key's calls number (user callbacks, or one system call) per message. */
  lemma {:induction false} KeyCallsCount<V>(msgs: seq<Msg<V>>, users: seq<Handler>, system: bool)
    ensures |KeyCalls(msgs, users, system)| == |msgs| * (|users| + (if system && |users| == 0 then 1 else 0))
    decreases |msgs|
  {
    if |msgs| > 0 {
      KeyCallsCount(msgs[..|msgs| - 1], users, system);
    }
  }

  /** A system call happens exactly for keys with a system callback and no user callback. */
  lemma {:induction false} SystemCallIff<V>(msgs: seq<Msg<V>>, users: seq<Handler>, system: bool, i: nat)
    requires i < |KeyCalls(msgs, users, system)|
    ensures KeyCalls(msgs, users, system)[i].System? <==> system && |users| == 0
    decreases |msgs|
  {
    var prev := KeyCalls(msgs[..|msgs| - 1], users, system);
    var m := msgs[|msgs| - 1];
    if i >= |prev| {
      var j := i - |prev|;
      assert KeyCalls(msgs, users, system)[i] == MessageCalls(m, users, system)[j];
    } else {
      SystemCallIff(msgs[..|msgs| - 1], users, system, i);
    }
  }

  /** Without a system table, a pickup only ever calls user callbacks. */
  lemma {:induction false} NoSystemCalls<K, V>(batch: Batch<K, V>, reg: map<K, seq<Handler>>, i: nat)
    requires i < |BatchCalls(batch, reg, {})|
    ensures BatchCalls(batch, reg, {})[i].User?
    decreases |batch|
  {
    var (key, msgs) := batch[|batch| - 1];
    var prev := BatchCalls(batch[..|batch| - 1], reg, {});
    if i < |prev| {
      NoSystemCalls(batch[..|batch| - 1], reg, i);
    } else {
      SystemCallIff(msgs, Lookup(reg, key), false, i - |prev|);
    }
  }

  /** With no callback registered anywhere and no system table, a pickup calls nothing. */
  lemma {:induction false} NothingRegisteredNothingCalled<K, V>(batch: Batch<K, V>)
    ensures BatchCalls(batch, map[], {}) == []
    decreases |batch|
  {
    if |batch| > 0 {
      NothingRegisteredNothingCalled(batch[..|batch| - 1]);
      var (key, msgs) := batch[|batch| - 1];
      KeyCallsCount(msgs, [], false);
    }
  }

  /** How many system callbacks a run of calls contains. */
  function SystemCount<V>(calls: seq<Call<V>>): (n: nat)
    ensures n <= |calls|
    decreases |calls|
  {
    if |calls| == 0 then 0
    else SystemCount(calls[..|calls| - 1]) + (if calls[|calls| - 1].System? then 1 else 0)
  }

  lemma {:induction false} SystemCountAppend<V>(a: seq<Call<V>>, b: seq<Call<V>>)
    ensures SystemCount(a + b) == SystemCount(a) + SystemCount(b)
    decreases |b|
  {
    if |b| == 0 {
      assert a + b == a;
    } else {
      SystemCountAppend(a, b[..|b| - 1]);
      assert (a + b)[..|a + b| - 1] == a + b[..|b| - 1];
    }
  }

  /** A message's calls hold one system call exactly when it falls back to the system callback. */
  lemma MessageSystemCount<V>(m: Msg<V>, users: seq<Handler>, system: bool)
    ensures SystemCount(MessageCalls(m, users, system)) == if system && |users| == 0 then 1 else 0
  {
    UserCallsNoSystem(m, users);
    SystemCountAppend(UserCalls(m, users), if system && |users| == 0 then [System(m.topic, m.message)] else []);
  }

  /** A key's calls hold one system call per message when it falls back to the system callback, and none otherwise. */
  lemma {:induction false} KeySystemCount<V>(msgs: seq<Msg<V>>, users: seq<Handler>, system: bool)
    ensures SystemCount(KeyCalls(msgs, users, system)) == if system && |users| == 0 then |msgs| else 0
    decreases |msgs|
  {
    if |msgs| > 0 {
      var init := msgs[..|msgs| - 1];
      KeySystemCount(init, users, system);
      MessageSystemCount(msgs[|msgs| - 1], users, system);
      SystemCountAppend(KeyCalls(init, users, system), MessageCalls(msgs[|msgs| - 1], users, system));
    }
  }

  lemma {:induction false} UserCallsNoSystem<V>(m: Msg<V>, users: seq<Handler>)
    ensures SystemCount(UserCalls(m, users)) == 0
    decreases |users|
  {
    if |users| > 0 {
      UserCallsNoSystem(m, users[..|users| - 1]);
      assert UserCalls(m, users)[..|users| - 1] == UserCalls(m, users[..|users| - 1]);
    }
  }

  /** A batch with every message field passed through f. */
  function MapBatch<K, V, W>(batch: Batch<K, V>, f: V -> W): (r: Batch<K, W>)
    ensures |r| == |batch|
    ensures forall i :: 0 <= i < |batch| ==> r[i].0 == batch[i].0 && r[i].1 == MapMsgs(batch[i].1, f)
  {
    seq(|batch|, i requires 0 <= i < |batch| => (batch[i].0, MapMsgs(batch[i].1, f)))
  }

  function MapMsgs<V, W>(msgs: seq<Msg<V>>, f: V -> W): (r: seq<Msg<W>>)
    ensures |r| == |msgs|
    ensures forall i :: 0 <= i < |msgs| ==> r[i] == Msg(f(msgs[i].topic), f(msgs[i].message), f(msgs[i].from))
  {
    seq(|msgs|, i requires 0 <= i < |msgs| => Msg(f(msgs[i].topic), f(msgs[i].message), f(msgs[i].from)))
  }

  /** Messages that bring the same calls one by one bring the same calls together. */
  lemma {:induction false} KeyCallsAgree<V>(a: seq<Msg<V>>, b: seq<Msg<V>>, users: seq<Handler>, system: bool)
    requires |a| == |b|
    requires forall i :: 0 <= i < |a| ==> MessageCalls(a[i], users, system) == MessageCalls(b[i], users, system)
    ensures KeyCalls(a, users, system) == KeyCalls(b, users, system)
    decreases |a|
  {
    if |a| > 0 {
      KeyCallsAgree(a[..|a| - 1], b[..|b| - 1], users, system);
    }
  }

  /** Batches with the same keys whose keys bring the same calls one by one bring the same calls together. */
  lemma {:induction false} BatchCallsAgree<K, V>(a: Batch<K, V>, b: Batch<K, V>, reg: map<K, seq<Handler>>, system: set<K>)
    requires |a| == |b|
    requires forall i :: 0 <= i < |a| ==> a[i].0 == b[i].0
    requires forall i :: 0 <= i < |a| ==>
      KeyCalls(a[i].1, Lookup(reg, a[i].0), a[i].0 in system) == KeyCalls(b[i].1, Lookup(reg, b[i].0), b[i].0 in system)
    ensures BatchCalls(a, reg, system) == BatchCalls(b, reg, system)
    decreases |a|
  {
    if |a| > 0 {
      BatchCallsAgree(a[..|a| - 1], b[..|b| - 1], reg, system);
    }
  }

  /**
   * The nested delivery loops the Go, command-line and JavaScript clients
   * run: for each key, for each message, for each user callback (then the
   * system callback, where the client has one).
   */
  method Deliver<K, V>(batch: Batch<K, V>, reg: map<K, seq<Handler>>, system: set<K>) returns (calls: seq<Call<V>>)
    ensures calls == BatchCalls(batch, reg, system)
  {
    calls := [];
    var i := 0;
    while i < |batch|
      invariant 0 <= i <= |batch|
      invariant calls == BatchCalls(batch[..i], reg, system)
    {
      var (key, msgs) := batch[i];
      var keyCalls := DeliverKey(msgs, Lookup(reg, key), key in system);
      assert batch[..i + 1][..i] == batch[..i];
      calls := calls + keyCalls;
      i := i + 1;
    }
    assert batch[..i] == batch;
  }

  /** The middle loop: the messages of one key. */
  method DeliverKey<V>(msgs: seq<Msg<V>>, users: seq<Handler>, system: bool) returns (calls: seq<Call<V>>)
    ensures calls == KeyCalls(msgs, users, system)
  {
    calls := [];
    var j := 0;
    while j < |msgs|
      invariant 0 <= j <= |msgs|
      invariant calls == KeyCalls(msgs[..j], users, system)
    {
      var msgCalls := DeliverMessage(msgs[j], users, system);
      assert msgs[..j + 1][..j] == msgs[..j];
      calls := calls + msgCalls;
      j := j + 1;
    }
    assert msgs[..j] == msgs;
  }

  /** The inner loop: every user callback for one message, then the system fallback. */
  method DeliverMessage<V>(m: Msg<V>, users: seq<Handler>, system: bool) returns (calls: seq<Call<V>>)
    ensures calls == MessageCalls(m, users, system)
  {
    calls := [];
    var k := 0;
    while k < |users|
      invariant 0 <= k <= |users|
      invariant calls == UserCalls(m, users[..k])
    {
      calls := calls + [User(users[k], m.topic, m.message, m.from)];
      k := k + 1;
    }
    assert users[..k] == users;
    if system && |users| == 0 {
      calls := calls + [System(m.topic, m.message)];
    }
  }
}

=== FILE: explode.dfy ===
/**
 * The wildcard patterns a published topic fans out to (explodeTopic).  A
 * topic is split at '/' into n sections; the loop runs i from n-1 down to
 * 1 and, for each i, adds a "main" pattern (the sections before i kept,
 * every section from i on kept if it equals section i and "+" otherwise)
 * and, for i > 2, an "inserted" pattern with section i-1 replaced by "+".
 * The broker appends every pattern; the stand-alone test program skips an
 * inserted pattern that is already in the list.
 */
module Explode {

  import opened Text

  /** The sections of the i-th main pattern. */
  function MainSections(sec: seq<string>, i: nat): (r: seq<string>)
    requires i < |sec|
    ensures |r| == |sec|
    ensures forall j :: 0 <= j < i ==> r[j] == sec[j]
    ensures forall j :: i <= j < |sec| ==> r[j] == (if sec[j] == sec[i] then sec[j] else "+")
  {
    sec[..i] + seq(|sec| - i, j requires 0 <= j < |sec| - i => if sec[i + j] == sec[i] then sec[i + j] else "+")
  }

  /** The sections of the i-th inserted pattern: those before i-1, a "+", and those from i on. */
  function InsertedSections(sec: seq<string>, i: nat): (r: seq<string>)
    requires 2 < i < |sec|
    ensures r == sec[i - 1 := "+"]
  {
    var r := sec[..i - 1] + ["+"] + sec[i..];
    assert forall j :: 0 <= j < |sec| ==> r[j] == sec[i - 1 := "+"][j];
    r
  }

  function MainPattern(sec: seq<string>, i: nat): string
    requires i < |sec|
  {
    Join(MainSections(sec, i), '/')
  }

  function InsertedPattern(sec: seq<string>, i: nat): string
    requires 2 < i < |sec|
  {
    Join(InsertedSections(sec, i), '/')
  }

  /** What one turn of the broker's loop appends. */
  function Step(sec: seq<string>, i: nat): seq<string>
    requires 1 <= i < |sec|
  {
    [MainPattern(sec, i)] + (if i > 2 then [InsertedPattern(sec, i)] else [])
  }

  /** The broker's list after the turns for i = n-1 down to m. */
  function Patterns(sec: seq<string>, m: nat): seq<string>
    requires 1 <= m <= |sec|
    decreases |sec| - m
  {
    if m == |sec| then [] else Patterns(sec, m + 1) + Step(sec, m)
  }

  /** The test program's list after the same turns: an inserted pattern already listed is skipped. */
  function PatternsDedup(sec: seq<string>, m: nat): seq<string>
    requires 1 <= m <= |sec|
    decreases |sec| - m
  {
    if m == |sec| then []
    else
      var withMain := PatternsDedup(sec, m + 1) + [MainPattern(sec, m)];
      if m > 2 && InsertedPattern(sec, m) !in withMain then withMain + [InsertedPattern(sec, m)] else withMain
  }

  function Sections(topic: string): (sec: seq<string>)
    ensures |sec| >= 1
  {
    Split(topic, '/')
  }

  /** The broker's explodeTopic. */
  function Explode(topic: string): seq<string> {
    Patterns(Sections(topic), 1)
  }

  /** The test program's explodeTopic. */
  function ExplodeDedup(topic: string): seq<string> {
    PatternsDedup(Sections(topic), 1)
  }

  function Max0(x: int): nat { if x < 0 then 0 else x }

  /** n-1 main patterns and, from n = 3 on, n-3 inserted ones. */
  lemma {:induction false} PatternsCount(sec: seq<string>, m: nat)
    requires 1 <= m <= |sec|
    ensures |Patterns(sec, m)| == (|sec| - m) + Max0(|sec| - (if m < 3 then 3 else m))
    decreases |sec| - m
  {
    if m < |sec| {
      PatternsCount(sec, m + 1);
      StepLength(sec, m);
    }
  }

  lemma StepLength(sec: seq<string>, m: nat)
    requires 1 <= m < |sec|
    ensures |Step(sec, m)| == if m > 2 then 2 else 1
  {
  }

  lemma ExplodeCount(topic: string)
    ensures |Explode(topic)| == (|Sections(topic)| - 1) + Max0(|Sections(topic)| - 3)
  {
    PatternsCount(Sections(topic), 1);
  }

  /** A pattern's sections: as many as the topic's, each the topic's own or "+". */
  ghost predicate Generalises(parts: seq<string>, sec: seq<string>) {
    |parts| == |sec| && forall j :: 0 <= j < |sec| ==> parts[j] == sec[j] || parts[j] == "+"
  }

  lemma MainGeneralises(sec: seq<string>, i: nat)
    requires i < |sec|
    ensures Generalises(MainSections(sec, i), sec)
  {
    var r := MainSections(sec, i);
    forall j | 0 <= j < |sec| ensures r[j] == sec[j] || r[j] == "+" {
      if j >= i && sec[j] != sec[i] {
        assert r[j] == "+";
      }
    }
  }

  lemma InsertedGeneralises(sec: seq<string>, i: nat)
    requires 2 < i < |sec|
    ensures Generalises(InsertedSections(sec, i), sec)
  {
  }

  lemma SplitGeneralisation(parts: seq<string>, sec: seq<string>)
    requires Generalises(parts, sec) && |sec| >= 1
    requires forall j :: 0 <= j < |sec| ==> '/' !in sec[j]
    ensures Split(Join(parts, '/'), '/') == parts
  {
    SplitJoin(parts, '/');
  }

  lemma MainShape(sec: seq<string>, m: nat)
    requires m < |sec|
    requires forall j :: 0 <= j < |sec| ==> '/' !in sec[j]
    ensures Generalises(Split(MainPattern(sec, m), '/'), sec)
  {
    MainGeneralises(sec, m);
    SplitGeneralisation(MainSections(sec, m), sec);
  }

  lemma InsertedShape(sec: seq<string>, m: nat)
    requires 2 < m < |sec|
    requires forall j :: 0 <= j < |sec| ==> '/' !in sec[j]
    ensures Generalises(Split(InsertedPattern(sec, m), '/'), sec)
  {
    InsertedGeneralises(sec, m);
    SplitGeneralisation(InsertedSections(sec, m), sec);
  }

  lemma StepShape(sec: seq<string>, m: nat)
    requires 1 <= m < |sec|
    requires forall j :: 0 <= j < |sec| ==> '/' !in sec[j]
    ensures forall k :: 0 <= k < |Step(sec, m)| ==> Generalises(Split(Step(sec, m)[k], '/'), sec)
  {
    MainShape(sec, m);
    if m > 2 {
      InsertedShape(sec, m);
    }
  }

  lemma {:induction false} PatternsShape(sec: seq<string>, m: nat)
    requires 1 <= m <= |sec|
    requires forall j :: 0 <= j < |sec| ==> '/' !in sec[j]
    ensures forall k :: 0 <= k < |Patterns(sec, m)| ==> Generalises(Split(Patterns(sec, m)[k], '/'), sec)
    decreases |sec| - m
  {
    if m < |sec| {
      PatternsShape(sec, m + 1);
      StepShape(sec, m);
      var prev := Patterns(sec, m + 1);
      var step := Step(sec, m);
      assert Patterns(sec, m) == prev + step;
      forall k | 0 <= k < |prev + step| ensures Generalises(Split((prev + step)[k], '/'), sec) {
        if k >= |prev| {
          assert (prev + step)[k] == step[k - |prev|];
        } else {
          assert (prev + step)[k] == prev[k];
        }
      }
    }
  }

  /** Every pattern of a topic has its section count, each section the topic's own or "+". */
  lemma ExplodeShape(topic: string)
    ensures forall k :: 0 <= k < |Explode(topic)| ==> Generalises(Split(Explode(topic)[k], '/'), Sections(topic))
  {
    PatternsShape(Sections(topic), 1);
  }

  lemma {:induction false} PatternsStart(sec: seq<string>, m: nat)
    requires 1 <= m < |sec|
    ensures |Patterns(sec, m)| > 0 && Patterns(sec, m)[0] == MainPattern(sec, |sec| - 1)
    decreases |sec| - m
  {
    if m + 1 < |sec| {
      PatternsStart(sec, m + 1);
    }
  }

  lemma MainLastIsAll(sec: seq<string>)
    requires |sec| >= 1
    ensures MainSections(sec, |sec| - 1) == sec
  {
  }

  lemma SlashSections(topic: string)
    requires '/' in topic
    ensures |Sections(topic)| >= 2
  {
    var i := IndexOf(topic, '/').value;
    assert Sections(topic) == [topic[..i]] + Split(topic[i + 1..], '/');
  }

  /** The first pattern of a topic with a '/' is the topic itself. */
  lemma ExplodeFirst(topic: string)
    requires '/' in topic
    ensures |Explode(topic)| > 0 && Explode(topic)[0] == topic
  {
    var sec := Sections(topic);
    SlashSections(topic);
    PatternsStart(sec, 1);
    assert MainPattern(sec, |sec| - 1) == topic by {
      MainLastIsAll(sec);
      JoinSplit(topic, '/');
    }
  }

  /** A topic without '/' has no patterns. */
  lemma ExplodeNoSlash(topic: string)
    requires '/' !in topic
    ensures Explode(topic) == [] && ExplodeDedup(topic) == []
  {
    assert Sections(topic) == [topic];
  }

  /** The test program's list holds the same patterns as the broker's. */
  lemma {:induction false} DedupSamePatterns(sec: seq<string>, m: nat)
    requires 1 <= m <= |sec|
    ensures forall p :: p in PatternsDedup(sec, m) <==> p in Patterns(sec, m)
    decreases |sec| - m
  {
    if m < |sec| {
      DedupSamePatterns(sec, m + 1);
    }
  }

  lemma {:induction false} DedupNoLonger(sec: seq<string>, m: nat)
    requires 1 <= m <= |sec|
    ensures |PatternsDedup(sec, m)| <= |Patterns(sec, m)|
    decreases |sec| - m
  {
    if m < |sec| {
      DedupNoLonger(sec, m + 1);
    }
  }

  /** An inserted pattern that the test program adds was not listed before. */
  lemma InsertedOnlyIfNew(sec: seq<string>, m: nat)
    requires 2 < m < |sec|
    requires InsertedPattern(sec, m) in PatternsDedup(sec, m + 1) + [MainPattern(sec, m)]
    ensures PatternsDedup(sec, m) == PatternsDedup(sec, m + 1) + [MainPattern(sec, m)]
  {
  }

  lemma ExampleSections(topic: string)
    requires topic == "/a/x/a"
    ensures Sections(topic) == ["", "a", "x", "a"]
  {
    var sec := ["", "a", "x", "a"];
    assert Join(sec, '/') == "/a/x/a";
    SplitJoin(sec, '/');
  }

  lemma Join4(a: string, b: string, c: string, d: string)
    ensures Join([a, b, c, d], '/') == a + "/" + b + "/" + c + "/" + d
  {
    assert [c, d][1..] == [d];
    assert Join([c, d], '/') == c + "/" + d;
    assert [b, c, d][1..] == [c, d];
    assert Join([b, c, d], '/') == b + "/" + (c + "/" + d);
    assert [a, b, c, d][1..] == [b, c, d];
    assert Join([a, b, c, d], '/') == a + "/" + (b + "/" + (c + "/" + d));
  }

  lemma ExamplePatterns(sec: seq<string>)
    requires sec == ["", "a", "x", "a"]
    ensures MainPattern(sec, 3) == "/a/x/a" && InsertedPattern(sec, 3) == "/a/+/a"
    ensures MainPattern(sec, 2) == "/a/x/+" && MainPattern(sec, 1) == "/a/+/a"
  {
    assert MainSections(sec, 3) == sec;
    assert MainSections(sec, 2) == ["", "a", "x", "+"];
    assert MainSections(sec, 1) == ["", "a", "+", "a"];
    assert InsertedSections(sec, 3) == ["", "a", "+", "a"];
    Join4("", "a", "x", "a");
    Join4("", "a", "x", "+");
    Join4("", "a", "+", "a");
  }

  lemma ExampleSteps(sec: seq<string>)
    requires sec == ["", "a", "x", "a"]
    ensures Step(sec, 3) == ["/a/x/a", "/a/+/a"]
    ensures Step(sec, 2) == ["/a/x/+"]
    ensures Step(sec, 1) == ["/a/+/a"]
  {
    ExamplePatterns(sec);
  }

  lemma ExamplePatternLists(sec: seq<string>)
    requires sec == ["", "a", "x", "a"]
    ensures Patterns(sec, 1) == ["/a/x/a", "/a/+/a", "/a/x/+", "/a/+/a"]
    ensures PatternsDedup(sec, 1) == ["/a/x/a", "/a/+/a", "/a/x/+", "/a/+/a"]
  {
    ExampleSteps(sec);
    assert Patterns(sec, 3) == ["/a/x/a", "/a/+/a"];
    assert Patterns(sec, 2) == ["/a/x/a", "/a/+/a", "/a/x/+"];
    ExamplePatterns(sec);
    assert "/a/+/a"[3] != "/a/x/a"[3];
    assert PatternsDedup(sec, 4) == [];
    assert PatternsDedup(sec, 3) == ["/a/x/a", "/a/+/a"];
    assert PatternsDedup(sec, 2) == ["/a/x/a", "/a/+/a", "/a/x/+"];
  }

  /**
   * Main patterns are appended unchecked, in the broker and in the test
   * program alike: "/a/x/a" gives "/a/+/a" twice.
   */
  lemma ExplodeRepeats(topic: string)
    requires topic == "/a/x/a"
    ensures Explode(topic) == ["/a/x/a", "/a/+/a", "/a/x/+", "/a/+/a"]
    ensures ExplodeDedup(topic) == ["/a/x/a", "/a/+/a", "/a/x/+", "/a/+/a"]
  {
    ExampleSections(topic);
    ExamplePatternLists(Sections(topic));
  }

  /**
   * The inner loop of explodeTopic: the sections before i, then each
   * section from i on kept where it equals section i and "+" elsewhere.
   */
  method MainPatternParts(sec: seq<string>, i: nat) returns (parts: seq<string>)
    requires 1 <= i < |sec|
    ensures parts == MainSections(sec, i)
  {
    var mapped: seq<string> := [];
    var j := 0;
    while j < |sec| - i
      invariant 0 <= j <= |sec| - i
      invariant |mapped| == j
      invariant forall k :: 0 <= k < j ==> mapped[k] == if sec[i + k] == sec[i] then sec[i + k] else "+"
    {
      mapped := mapped + [if sec[i + j] == sec[i] then sec[i + j] else "+"];
      j := j + 1;
    }
    parts := sec[..i] + mapped;
    assert forall k :: 0 <= k < |sec| ==> parts[k] == MainSections(sec, i)[k];
  }

  /** The broker's explodeTopic loop: for i from n-1 down to 1, the main pattern and, for i > 2, the inserted one. */
  method ExplodePatterns(topic: string) returns (patterns: seq<string>)
    ensures patterns == Explode(topic)
  {
    var sec := Sections(topic);
    patterns := [];
    var i := |sec| - 1;
    while i >= 1
      invariant 0 <= i < |sec|
      invariant patterns == Patterns(sec, i + 1)
    {
      var parts := MainPatternParts(sec, i);
      patterns := patterns + [Join(parts, '/')];
      if i > 2 && i <= |sec| - 1 {
        patterns := patterns + [Join(InsertedSections(sec, i), '/')];
      }
      assert patterns == Patterns(sec, i);
      i := i - 1;
    }
  }

  /** The test program's loop: the same, except that an inserted pattern already listed is skipped. */
  method ExplodePatternsDedup(topic: string) returns (patterns: seq<string>)
    ensures patterns == ExplodeDedup(topic)
  {
    var sec := Sections(topic);
    patterns := [];
    var i := |sec| - 1;
    while i >= 1
      invariant 0 <= i < |sec|
      invariant patterns == PatternsDedup(sec, i + 1)
    {
      var parts := MainPatternParts(sec, i);
      patterns := patterns + [Join(parts, '/')];
      assert patterns == PatternsDedup(sec, i + 1) + [MainPattern(sec, i)];
      if i > 2 && i <= |sec| - 1 {
        var inserted := Join(InsertedSections(sec, i), '/');
        if inserted !in patterns {
          patterns := patterns + [inserted];
        }
      }
      assert patterns == PatternsDedup(sec, i);
      i := i - 1;
    }
  }
}

=== FILE: explodetest.dfy ===
/**
 * The stand-alone pattern tester (tests/test_explode.go): its own
 * explodeTopic, which skips an inserted pattern already listed and keeps
 * its results in a package-level cache, and the check of a subscription
 * against the patterns a topic gives.
 */
module ExplodeTest {

  import opened Text
  import opened Explode

  /** The program's package-level cache, as an object. */
  class Exploder {
    var cache: map<string, seq<string>>

    /** Every cached list is the one the topic gives. */
    ghost predicate Valid()
      reads this
    {
      forall t :: t in cache ==> cache[t] == ExplodeDedup(t)
    }

    constructor ()
      ensures cache == map[] && Valid()
    {
      cache := map[];
    }

    /** explodeTopic: the cached list if there is one, otherwise the patterns built and cached. */
    method ExplodeTopic(topic: string) returns (r: seq<string>)
      requires Valid()
      modifies this
      ensures Valid()
      ensures r == ExplodeDedup(topic)
      ensures cache == old(cache)[topic := r]
    {
      if topic in cache {
        r := cache[topic];
        assert cache == old(cache)[topic := r];
        return;
      }
      r := ExplodePatternsDedup(topic);
      cache := cache[topic := r];
    }
  }

  /** The subscription matches when it is one of the patterns, compared as whole strings. */
  method Matches(patterns: seq<string>, subscription: string) returns (matched: bool)
    ensures matched <==> subscription in patterns
  {
    matched := false;
    var i := 0;
    while i < |patterns|
      invariant 0 <= i <= |patterns|
      invariant matched <==> subscription in patterns[..i]
    {
      if patterns[i] == subscription {
        matched := true;
      }
      i := i + 1;
    }
    assert patterns[..i] == patterns;
  }

  /** A subscription the tester accepts is one the broker would deliver to: both lists hold the same patterns. */
  lemma MatchesAgreeWithBroker(topic: string, subscription: string)
    ensures subscription in ExplodeDedup(topic) <==> subscription in Explode.Explode(topic)
  {
    DedupSamePatterns(Sections(topic), 1);
  }
}

=== FILE: goclient.dfy ===
/**
 * The Go client library (package moustique, client.go): a Client value
 * with the broker's base URL, its name, optional credentials and the
 * callback registry, and the requests it sends.  Go strings are byte
 * strings; every form value goes through the Go Enc (rotate, then base64).
 */
module GoClient {

  import opened Wrappers
  import opened Text
  import Decimal
  import Utf8
  import opened Transport
  import opened Dispatch
  import GoCodec
  import ServerCodec

  type Bytes = seq<Byte>

  /** What a failed call returns: the transport's error, or the status and body of a refused request. */
  datatype ClientError = TransportError | StatusError(status: int, body: Bytes)

  /** The error a reply gives when only the statuses in accepted count as success. */
  function Check(reply: Reply<Bytes>, accepted: set<int>): (r: Option<ClientError>)
    ensures r.None? <==> reply.Response? && reply.status in accepted
    ensures reply.Failure? ==> r == Some(TransportError)
  {
    match reply
    case Failure => Some(TransportError)
    case Response(status, body) => if status in accepted then None else Some(StatusError(status, body))
  }

  /** What goes on the wire for a request: every form value through Enc. */
  function Wire(req: Request<Bytes>): (w: Request<Bytes>)
    ensures w.verb == req.verb && w.url == req.url && w.form.Keys == req.form.Keys
    ensures forall k :: k in req.form ==> w.form[k] == GoCodec.Enc(req.form[k])
  {
    Request(req.verb, req.url, map k | k in req.form :: GoCodec.Enc(req.form[k]))
  }

  /** The server's decoder gives back every well-formed UTF-8 value the Go client sends. */
  lemma ServerReadsWire(req: Request<Bytes>, k: string, t: string)
    requires k in req.form && req.form[k] == Utf8.Encode(t)
    ensures ServerCodec.Decode(Wire(req).form[k]) == req.form[k]
  {
    ServerCodec.GoClientEncAgrees(req.form[k]);
    ServerCodec.DecodeEncode(t);
  }

  /** The Go Dec gives back every well-formed UTF-8 text the server encodes. */
  lemma DecReadsServer(t: string)
    ensures GoCodec.Dec(ServerCodec.Encode(Utf8.Encode(t))) == Utf8.Encode(t)
  {
    ServerCodec.GoClientEncAgrees(Utf8.Encode(t));
    GoCodec.DecEnc(t);
  }

  /** addAuth: the credentials are added only when both are set. */
  function AddAuth(payload: map<string, Bytes>, username: Bytes, password: Bytes): (r: map<string, Bytes>)
    ensures username != [] && password != [] ==>
      r.Keys == payload.Keys + {"username", "password"} && r["username"] == username && r["password"] == password
    ensures username == [] || password == [] ==> r == payload
    ensures forall k :: k in payload && k != "username" && k != "password" ==> k in r && r[k] == payload[k]
  {
    if username != [] && password != [] then payload["username" := username]["password" := password]
    else payload
  }

  function TimeText(now: int): Bytes {
    AsciiBytes(Decimal.IntToString(now))
  }

  function DefaultName(): (r: Bytes)
    ensures |r| == 9
  {
    AsciiBytes("go-client")
  }

  /** New: "go-client" unless a non-empty name is given, then "-" and the first eight characters of a fresh UUID. */
  function ClientNameOf(args: seq<Bytes>, uuid: Bytes): (r: Bytes)
    requires |uuid| >= 8
    ensures |r| == (if |args| > 0 && args[0] != [] then |args[0]| else 9) + 9
    ensures |args| > 0 && args[0] != [] ==> r[..|args[0]|] == args[0]
    ensures r[|r| - 8..] == uuid[..8] && r[|r| - 9] == '-' as int
  {
    var base := if |args| > 0 && args[0] != [] then args[0] else DefaultName();
    base + [('-' as int)] + uuid[..8]
  }

  class Client {
    var baseUrl: string
    var clientName: Bytes
    var username: Bytes
    var password: Bytes
    var callbacks: map<Bytes, seq<Handler>>
    /** Every callback invocation so far, oldest first. */
    var invoked: seq<Call<Bytes>>
    const net: Channel<Bytes>

    /** New(ip, port, name, username, password); the fresh UUID is a parameter. */
    constructor (net: Channel<Bytes>, ip: string, port: string, args: seq<Bytes>, uuid: Bytes)
      requires |uuid| >= 8
      ensures this.net == net
      ensures baseUrl == "http://" + ip + ":" + port
      ensures clientName == ClientNameOf(args, uuid)
      ensures username == (if |args| > 1 then args[1] else [])
      ensures password == (if |args| > 2 then args[2] else [])
      ensures callbacks == map[] && invoked == []
    {
      this.net := net;
      baseUrl := "http://" + ip + ":" + port;
      clientName := ClientNameOf(args, uuid);
      username := if |args| > 1 then args[1] else [];
      password := if |args| > 2 then args[2] else [];
      callbacks := map[];
      invoked := [];
    }

    function PublishRequest(topic: Bytes, message: Bytes, now: int, nice: Bytes): Request<Bytes>
      reads this
    {
      Request("POST", baseUrl + "/POST", AddAuth(map["topic" := topic, "message" := message,
        "updated_time" := TimeText(now), "updated_nicedatetime" := nice, "from" := clientName], username, password))
    }

    function PutValRequest(topic: Bytes, value: Bytes, now: int, nice: Bytes): Request<Bytes>
      reads this
    {
      Request("PUT", baseUrl + "/PUTVAL", AddAuth(map["valname" := topic, "val" := value,
        "updated_time" := TimeText(now), "updated_nicedatetime" := nice, "from" := clientName], username, password))
    }

    function SubscribeRequest(topic: Bytes): Request<Bytes>
      reads this
    {
      Request("POST", baseUrl + "/SUBSCRIBE", AddAuth(map["topic" := topic, "client" := clientName], username, password))
    }

    function PickupRequest(): Request<Bytes>
      reads this
    {
      Request("POST", baseUrl + "/PICKUP", AddAuth(map["client" := clientName], username, password))
    }

    /** Publish: an error unless the reply is 200. */
    method Publish(topic: Bytes, message: Bytes, now: int, nice: Bytes) returns (err: Option<ClientError>)
      modifies net
      ensures net.sent == old(net.sent) + [PublishRequest(topic, message, now, nice)]
      ensures net.replies == Rest(old(net.replies))
      ensures err == Check(Next(old(net.replies)), {200})
    {
      var reply := net.Send(PublishRequest(topic, message, now, nice));
      err := Check(reply, {200});
    }

    /** PutVal: 200 and 308 are success. */
    method PutVal(topic: Bytes, value: Bytes, now: int, nice: Bytes) returns (err: Option<ClientError>)
      modifies net
      ensures net.sent == old(net.sent) + [PutValRequest(topic, value, now, nice)]
      ensures net.replies == Rest(old(net.replies))
      ensures err == Check(Next(old(net.replies)), {200, 308})
    {
      var reply := net.Send(PutValRequest(topic, value, now, nice));
      err := Check(reply, {200, 308});
    }

    /** Subscribe: after a 200 the callback goes at the end of the topic's list, even when it is already there. */
    method Subscribe(topic: Bytes, callback: Handler) returns (err: Option<ClientError>)
      modifies this`callbacks, net
      ensures net.sent == old(net.sent) + [old(SubscribeRequest(topic))]
      ensures net.replies == Rest(old(net.replies))
      ensures err == Check(Next(old(net.replies)), {200})
      ensures callbacks == if err.None? then Append(old(callbacks), topic, callback) else old(callbacks)
    {
      var reply := net.Send(SubscribeRequest(topic));
      err := Check(reply, {200});
      if err.None? {
        callbacks := callbacks[topic := Lookup(callbacks, topic) + [callback]];
      }
    }

    /**
     * Pickup: any reply body is read, whatever its status; an empty Dec
     * result or a body that is not JSON ends the pickup without error; a
     * batch is dispatched to the user callbacks only.
     */
    method Pickup(parse: Bytes -> Option<Batch<Bytes, Bytes>>) returns (err: Option<ClientError>)
      modifies this`invoked, net
      ensures net.sent == old(net.sent) + [old(PickupRequest())]
      ensures net.replies == Rest(old(net.replies))
      ensures var reply := Next(old(net.replies));
        err == (if reply.Failure? then Some(TransportError) else None) &&
        invoked == old(invoked) + (if reply.Failure? then [] else PickupCalls(reply.body, parse, callbacks))
    {
      var reply := net.Send(PickupRequest());
      if reply.Failure? {
        err := Some(TransportError);
        return;
      }
      err := None;
      var decrypted := GoCodec.Dec(reply.body);
      if decrypted == [] {
        return;
      }
      var data := parse(decrypted);
      if data.None? {
        return;
      }
      var calls := Deliver(data.value, callbacks, {});
      invoked := invoked + calls;
    }
  }

  /** The calls a pickup body leads to: none for an empty or non-JSON body, else the user callbacks of the batch. */
  function PickupCalls(body: Bytes, parse: Bytes -> Option<Batch<Bytes, Bytes>>, reg: map<Bytes, seq<Handler>>): (r: seq<Call<Bytes>>)
    ensures forall i :: 0 <= i < |r| ==> r[i].User?
  {
    var decrypted := GoCodec.Dec(body);
    if decrypted == [] then []
    else match parse(decrypted)
      case None => []
      case Some(batch) =>
        var calls := BatchCalls(batch, reg, {});
        forall i | 0 <= i < |calls| ensures calls[i].User? {
          NoSystemCalls(batch, reg, i);
        }
        calls
  }

  /** A batch the server encoded reaches the Go client's callbacks as it was written. */
  lemma PickupReadsServer(t: string, parse: Bytes -> Option<Batch<Bytes, Bytes>>, reg: map<Bytes, seq<Handler>>, batch: Batch<Bytes, Bytes>)
    requires t != "" && parse(Utf8.Encode(t)) == Some(batch)
    ensures PickupCalls(ServerCodec.Encode(Utf8.Encode(t)), parse, reg) == BatchCalls(batch, reg, {})
  {
    DecReadsServer(t);
  }
}

=== FILE: gocodec.dfy ===
/**
 * The Go client's wire codec (package moustique, Enc / Dec / rotate): the
 * letter rotation first, then standard base64.  Go strings are byte strings;
 * rotate walks them rune by rune.
 */
module GoCodec {

  import opened Wrappers
  import opened Text
  import Base64
  import Utf8
  import opened Rotation

  /** What rotate computes: table translation of the runes, written back as UTF-8. */
  function RotateText(s: seq<Byte>): seq<Byte>
  {
    Utf8.Encode(Translate(Utf8.DecodeLenient(s), Plain(), Rotated()))
  }

  /** rotate: one rune at a time, letters through the table, everything else copied. */
  method Rotate(s: seq<Byte>) returns (r: seq<Byte>)
    ensures r == RotateText(s)
  {
    var runes := Utf8.DecodeLenient(s);
    r := EncodeTranslated(runes, Plain(), Rotated());
  }

  /** The loop of rotate over decoded runes, for any pair of tables. */
  method EncodeTranslated(runes: string, from: string, to: string) returns (r: seq<Byte>)
    requires |from| <= |to|
    ensures r == Utf8.Encode(Translate(runes, from, to))
  {
    r := [];
    var i := 0;
    while i < |runes|
      invariant 0 <= i <= |runes|
      invariant r == Utf8.Encode(Translate(runes[..i], from, to))
    {
      var c := runes[i];
      var idx := IndexOf(from, c);
      var out := if idx.Some? then to[idx.value] else c;
      assert runes[..i + 1] == runes[..i] + [c];
      EncodeTranslatedStep(runes[..i], c, from, to);
      r := r + Utf8.EncodeChar(out);
      i := i + 1;
    }
    assert runes[..i] == runes;
  }

  lemma EncodeTranslatedStep(done: string, c: char, from: string, to: string)
    requires |from| <= |to|
    ensures Utf8.Encode(Translate(done + [c], from, to))
         == Utf8.Encode(Translate(done, from, to))
          + Utf8.EncodeChar(if IndexOf(from, c).Some? then to[IndexOf(from, c).value] else c)
  {
    var out := if IndexOf(from, c).Some? then to[IndexOf(from, c).value] else c;
    var t := Translate(done, from, to);
    calc {
      Utf8.Encode(Translate(done + [c], from, to));
      { TranslateSnoc(done, c, from, to); }
      Utf8.Encode(t + [out]);
      { Utf8.EncodeAppend(t, [out]); }
      Utf8.Encode(t) + Utf8.Encode([out]);
      { Utf8.EncodeCons(out, ""); assert [out] + "" == [out]; }
      Utf8.Encode(t) + Utf8.EncodeChar(out);
    }
  }

  lemma TranslateSnoc(s: string, c: char, from: string, to: string)
    requires |from| <= |to|
    ensures Translate(s + [c], from, to)
         == Translate(s, from, to) + [if IndexOf(from, c).Some? then to[IndexOf(from, c).value] else c]
  {
    var l, r := Translate(s + [c], from, to), Translate(s, from, to);
    assert forall i :: 0 <= i < |s| ==> l[i] == r[i];
  }

  /** On well-formed text, rotate is the 13-place rotation of its characters. */
  lemma RotateTextIsRot13(t: string)
    ensures RotateText(Utf8.Encode(t)) == Utf8.Encode(Rot13(t))
  {
    Utf8.DecodeLenientEncode(t);
    TranslateForward(t);
  }

  /** rotate keeps the rune count and undoes itself on well-formed text. */
  lemma RotateTextInvolutive(t: string)
    ensures |Utf8.DecodeLenient(RotateText(Utf8.Encode(t)))| == |t|
    ensures RotateText(RotateText(Utf8.Encode(t))) == Utf8.Encode(t)
  {
    RotateTextIsRot13(t);
    RotateTextIsRot13(Rot13(t));
    Utf8.DecodeLenientEncode(Rot13(t));
    Rot13Involutive(t);
  }

  /** Enc: "" for "", else rotate and then base64. */
  function Enc(s: seq<Byte>): (r: seq<Byte>)
    ensures s == [] <==> r == []
    ensures Base64.IsEncodingText(Latin1(r))
  {
    if s == [] then []
    else
      var e := Base64.Encode(RotateText(s));
      Base64.EncodingTextIsAscii(e);
      Latin1AsciiBytes(e);
      AsciiBytes(e)
  }

  /**
   * Dec: "" for "", else base64-decode (line breaks skipped) and rotate.  A
   * decoding error is dropped: whatever bytes were decoded before it are
   * rotated and returned.
   */
  function Dec(s: seq<Byte>): (r: seq<Byte>)
    ensures s == [] ==> r == []
  {
    if s == [] then [] else RotateText(Base64.DecodeString(Latin1(s)).bytes)
  }

  /** Every well-formed UTF-8 string survives Enc followed by Dec. */
  lemma DecEnc(t: string)
    ensures Dec(Enc(Utf8.Encode(t))) == Utf8.Encode(t)
  {
    var s := Utf8.Encode(t);
    if s != [] {
      var rotated := RotateText(s);
      var e := Base64.Encode(rotated);
      Base64.EncodingTextIsAscii(e);
      Latin1AsciiBytes(e);
      Base64.DecodeStringEncode(rotated);
      RotateTextInvolutive(t);
    }
  }

  /**
   * Dec reports no error: "bg==" followed by a stray "!" is not valid
   * base64, and Dec still hands back the rotation of the byte decoded before
   * the error ("n" rotated is "a").
   */
  lemma DecDropsErrors()
    ensures !Base64.DecodeString("bg==!").complete
    ensures Dec(AsciiBytes("bg==!")) == AsciiBytes("a")
  {
    var s := AsciiBytes("bg==!");
    assert Latin1(s) == "bg==!";
    DecodeBang();
    RotateN();
  }

  lemma DecodeBang()
    ensures Base64.DecodeString("bg==!") == Base64.Decoded(['n' as int], false)
  {
    var s := "bg==!";
    assert forall i :: 0 <= i < |s| ==> !Base64.IsLineBreak(s[i]);
    assert Base64.ValueOf(s[0]) == 27 && Base64.ValueOf(s[1]) == 32;
    assert Base64.Byte1(27, 32) == 'n' as int;
  }

  lemma RotateN()
    ensures RotateText(['n' as int]) == AsciiBytes("a")
  {
    LenientN();
    TranslateN();
    EncodeA();
  }

  lemma LenientN()
    ensures Utf8.DecodeLenient(['n' as int]) == "n"
  {
    assert Utf8.DecodeFirst(['n' as int]) == Some(('n', 1));
  }

  lemma TranslateN()
    ensures Translate("n", Plain(), Rotated()) == "a"
  {
    TranslateForward("n");
    assert Rot13Char('n') == 'a';
    assert Rot13("n") == "a";
  }

  lemma EncodeA()
    ensures Utf8.Encode("a") == AsciiBytes("a")
  {
    assert Utf8.Encode("a") == Utf8.EncodeChar('a') + Utf8.Encode("");
  }
}

=== FILE: javaclient.dfy ===
/**
 * The Java client (MoustiqueClient.java).  It registers a callback before
 * the SUBSCRIBE request goes out, whatever its outcome, and its pickup
 * only logs the decoded text: no callback is ever invoked.  Requests are
 * written as "key=value" pairs joined by "&", without percent-encoding.
 */
module JavaClient {

  import opened Wrappers
  import opened Text
  import Decimal
  import Base64
  import opened Rotation
  import opened Transport
  import opened Dispatch
  import JavaUtils

  /** Character.isWhitespace, which String.isBlank tests every character with. */
  predicate IsWhitespace(c: char) {
    '\t' <= c <= '\r' || '\U{1c}' <= c <= ' ' || c == '\U{1680}' || '\U{2000}' <= c <= '\U{2006}' ||
    '\U{2008}' <= c <= '\U{200a}' || c == '\U{2028}' || c == '\U{2029}' || c == '\U{205f}' || c == '\U{3000}'
  }

  predicate IsBlank(s: string) {
    forall i :: 0 <= i < |s| ==> IsWhitespace(s[i])
  }

  /** What String.trim removes: every character up to U+0020. */
  predicate IsTrimmed(c: char) { c <= ' ' }

  /** String.trim: drops every leading and trailing character up to U+0020. */
  function Trim(s: string): (r: string)
    ensures |r| <= |s|
    ensures CutFrom(s, r, IsTrimmed)
    ensures |r| > 0 ==> r[0] > ' ' && r[|r| - 1] > ' '
  {
    TrimBy(s, IsTrimmed)
  }

  /** The constructor's name rule: "java-" and the nanosecond clock for a blank name, the trimmed name otherwise. */
  function ClientNameOf(clientName: string, nanoTime: int): (r: string)
    ensures IsBlank(clientName) ==> r == "java-" + Decimal.IntToString(nanoTime)
    ensures !IsBlank(clientName) ==> r == Trim(clientName)
  {
    if IsBlank(clientName) then "java-" + Decimal.IntToString(nanoTime) else Trim(clientName)
  }

  /** A name with nothing to trim is kept as it is. */
  lemma NameKept(clientName: string, nanoTime: int)
    requires clientName != "" && !IsWhitespace(clientName[0])
    requires clientName[0] > ' ' && clientName[|clientName| - 1] > ' '
    ensures ClientNameOf(clientName, nanoTime) == clientName
  {
    assert !IsBlank(clientName) by {
      assert !IsWhitespace(clientName[0]);
    }
    assert Trim(clientName) == clientName by {
      TrimByKeeps(clientName, IsTrimmed);
    }
  }

  /** addAuth: a copy with the credentials only when both are present and not blank; otherwise the payload itself. */
  function AddAuth(payload: map<string, string>, username: Option<string>, password: Option<string>): (r: map<string, string>)
    ensures username.Some? && password.Some? && !IsBlank(username.value) && !IsBlank(password.value) ==>
      r == payload["username" := username.value]["password" := password.value]
    ensures !(username.Some? && password.Some? && !IsBlank(username.value) && !IsBlank(password.value)) ==> r == payload
  {
    if username.Some? && password.Some? && !IsBlank(username.value) && !IsBlank(password.value) then
      payload["username" := username.value]["password" := password.value]
    else payload
  }

  // ---------------------------------------------------------------------
  // The request body

  /** Every form value through Utils.enc. */
  function Wire(req: Request<string>, getBytes: string -> seq<Byte>): (w: Request<string>)
    ensures w.verb == req.verb && w.url == req.url && w.form.Keys == req.form.Keys
    ensures forall k :: k in req.form ==> '&' !in w.form[k]
  {
    var w := Request(req.verb, req.url, map k | k in req.form :: JavaUtils.Enc(req.form[k], getBytes));
    forall k | k in req.form ensures '&' !in w.form[k] {
      EncHasNoAmpersand(req.form[k], getBytes);
    }
    w
  }

  /** enc never writes '&': the rotation keeps it, and base64 has no '&'. */
  lemma EncHasNoAmpersand(text: string, getBytes: string -> seq<Byte>)
    ensures '&' !in JavaUtils.Enc(text, getBytes)
  {
    var e := JavaUtils.Enc(text, getBytes);
    forall i | 0 <= i < |e| ensures e[i] != '&' {
      assert Rot13(e)[i] == Rot13Char(e[i]);
    }
  }

  /** The keys in the order the map's entry set yields them. */
  ghost predicate ListsKeys(order: seq<string>, form: map<string, string>) {
    (forall k :: k in order <==> k in form) &&
    (forall i, j :: 0 <= i < j < |order| ==> order[i] != order[j])
  }

  function Pairs(order: seq<string>, form: map<string, string>): (r: seq<string>)
    requires forall k :: k in order ==> k in form
    ensures |r| == |order|
    ensures forall i :: 0 <= i < |order| ==> r[i] == order[i] + "=" + form[order[i]]
  {
    seq(|order|, i requires 0 <= i < |order| => order[i] + "=" + form[order[i]])
  }

  /** sendRequest's body: None (no body) for an empty form, else key=value pairs joined by "&". */
  function FormBody(order: seq<string>, form: map<string, string>): (r: Option<string>)
    requires ListsKeys(order, form)
    ensures r.None? <==> |form| == 0
  {
    if |order| == 0 then
      assert form.Keys == {};
      None
    else
      assert order[0] in form;
      Some(Join(Pairs(order, form), '&'))
  }

  /**
   * Splitting the body at '&' gives back one "key=value" piece per entry,
   * and each piece splits at its first '=' into the key and the value, as
   * long as no key holds '=' or '&' and no value holds '&'.
   */
  lemma FormBodyFields(order: seq<string>, form: map<string, string>)
    requires ListsKeys(order, form) && |form| > 0
    requires forall k :: k in form ==> '&' !in k && '=' !in k && '&' !in form[k]
    ensures Split(FormBody(order, form).value, '&') == Pairs(order, form)
    ensures forall i :: 0 <= i < |order| ==> IndexOf(Pairs(order, form)[i], '=') == Some(|order[i]|)
  {
    var pairs := Pairs(order, form);
    assert order[0] in form;
    forall i | 0 <= i < |order| ensures '&' !in pairs[i] {
      PairFields(order[i], form[order[i]]);
    }
    SplitJoin(pairs, '&');
    forall i | 0 <= i < |order| ensures IndexOf(pairs[i], '=') == Some(|order[i]|) {
      PairFields(order[i], form[order[i]]);
    }
  }

  lemma PairFields(k: string, v: string)
    requires '&' !in k && '=' !in k && '&' !in v
    ensures '&' !in k + "=" + v
    ensures IndexOf(k + "=" + v, '=') == Some(|k|)
  {
    IndexOfAfter(k, "=" + v, '=');
    assert k + "=" + v == k + ("=" + v);
  }

  /** The keys a client writes and the values enc writes keep the body splittable. */
  lemma WireBodyFields(req: Request<string>, getBytes: string -> seq<Byte>, order: seq<string>)
    requires ListsKeys(order, Wire(req, getBytes).form) && |req.form| > 0
    requires forall k :: k in req.form ==> '&' !in k && '=' !in k
    ensures Split(FormBody(order, Wire(req, getBytes).form).value, '&') == Pairs(order, Wire(req, getBytes).form)
  {
    var w := Wire(req, getBytes);
    assert w.form.Keys == req.form.Keys;
    FormBodyFields(order, w.form);
  }

  // ---------------------------------------------------------------------
  // The client

  /** How a returned future ends: normally, or exceptionally with the transport's error. */
  datatype Completion = Completed | Failed

  function CompletionOf(reply: Reply<string>): (r: Completion)
    ensures r == Failed <==> reply.Failure?
  {
    if reply.Failure? then Failed else Completed
  }

  /** What pickup does with a reply: nothing for an empty decoding, log the text otherwise, or log an error. */
  datatype PickupLog = ErrorLogged | NothingLogged | RawLogged(text: string)

  function ReadPickup(reply: Reply<string>, newString: seq<Byte> -> string): (r: PickupLog)
    ensures reply.Failure? ==> r == ErrorLogged
  {
    match reply
    case Failure => ErrorLogged
    case Response(_, body) =>
      match JavaUtils.Dec(Trim(body), newString)
      case None => ErrorLogged
      case Some(decrypted) => if decrypted == "" then NothingLogged else RawLogged(decrypted)
  }

  /** A reply body written with enc is logged as the text encoded, whatever the status. */
  lemma ReadPickupEnc(status: int, text: string, getBytes: string -> seq<Byte>, newString: seq<Byte> -> string)
    requires text != "" && newString(getBytes(text)) == text && newString([]) == ""
    ensures ReadPickup(Response(status, JavaUtils.Enc(text, getBytes)), newString) == RawLogged(text)
  {
    EncReadable(text, getBytes, newString);
    ReadPickupDecoded(status, JavaUtils.Enc(text, getBytes), newString, text);
  }

  /** What enc writes has nothing to trim and decodes back. */
  lemma EncReadable(text: string, getBytes: string -> seq<Byte>, newString: seq<Byte> -> string)
    requires newString(getBytes(text)) == text && newString([]) == ""
    ensures JavaUtils.Dec(Trim(JavaUtils.Enc(text, getBytes)), newString) == Some(text)
  {
    var e := JavaUtils.Enc(text, getBytes);
    assert Trim(e) == e by {
      EncNoSpace(e);
      TrimByKeeps(e, IsTrimmed);
    }
    JavaUtils.DecEnc(text, getBytes, newString);
  }

  lemma ReadPickupDecoded(status: int, body: string, newString: seq<Byte> -> string, text: string)
    requires text != "" && JavaUtils.Dec(Trim(body), newString) == Some(text)
    ensures ReadPickup(Response(status, body), newString) == RawLogged(text)
  {
  }

  lemma EncNoSpace(e: string)
    requires Base64.IsEncodingText(Rot13(e))
    ensures |e| == 0 || (e[0] > ' ' && e[|e| - 1] > ' ')
  {
    if |e| > 0 {
      assert Rot13(e)[0] == Rot13Char(e[0]);
      assert Rot13(e)[|e| - 1] == Rot13Char(e[|e| - 1]);
    }
  }

  class MoustiqueClient {
    const baseUrl: string
    const clientName: string
    const username: Option<string>
    const password: Option<string>
    /** The platform's default charset. */
    const getBytes: string -> seq<Byte>
    const newString: seq<Byte> -> string
    const net: Channel<string>
    var callbacks: map<string, seq<Handler>>

    /** The constructor; null credentials are None, and the nanosecond clock is a parameter. */
    constructor (net: Channel<string>, ip: string, port: string, clientName: string,
                 username: Option<string>, password: Option<string>,
                 getBytes: string -> seq<Byte>, newString: seq<Byte> -> string, nanoTime: int)
      ensures this.net == net && this.getBytes == getBytes && this.newString == newString
      ensures baseUrl == "http://" + ip + ":" + port
      ensures this.clientName == ClientNameOf(clientName, nanoTime)
      ensures this.username == username && this.password == password
      ensures callbacks == map[]
    {
      this.net := net;
      this.getBytes := getBytes;
      this.newString := newString;
      baseUrl := "http://" + ip + ":" + port;
      this.clientName := ClientNameOf(clientName, nanoTime);
      this.username := username;
      this.password := password;
      callbacks := map[];
    }

    function PublishRequest(topic: string, message: string, nowSeconds: int, nice: string): Request<string> {
      Request("POST", baseUrl + "/POST", AddAuth(map["topic" := topic, "message" := message,
        "updated_time" := Decimal.IntToString(nowSeconds), "updated_nicedatetime" := nice, "from" := clientName],
        username, password))
    }

    function PutvalRequest(topic: string, value: string, nowSeconds: int, nice: string): Request<string> {
      Request("PUT", baseUrl + "/PUTVAL", AddAuth(map["valname" := topic, "val" := value,
        "updated_time" := Decimal.IntToString(nowSeconds), "updated_nicedatetime" := nice, "from" := clientName],
        username, password))
    }

    function SubscribeRequest(topic: string): Request<string> {
      Request("POST", baseUrl + "/SUBSCRIBE", AddAuth(map["topic" := topic, "client" := clientName], username, password))
    }

    function PickupRequest(): Request<string> {
      Request("POST", baseUrl + "/PICKUP", AddAuth(map["client" := clientName], username, password))
    }

    /** publish: one POST; the future completes normally on any reply, whatever its status. */
    method Publish(topic: string, message: string, nowSeconds: int, nice: string) returns (c: Completion)
      modifies net
      ensures net.sent == old(net.sent) + [PublishRequest(topic, message, nowSeconds, nice)]
      ensures net.replies == Rest(old(net.replies))
      ensures c == CompletionOf(Next(old(net.replies)))
    {
      var reply := net.Send(PublishRequest(topic, message, nowSeconds, nice));
      c := CompletionOf(reply);
    }

    /** putval: one PUT, with the same completion rule. */
    method Putval(topic: string, value: string, nowSeconds: int, nice: string) returns (c: Completion)
      modifies net
      ensures net.sent == old(net.sent) + [PutvalRequest(topic, value, nowSeconds, nice)]
      ensures net.replies == Rest(old(net.replies))
      ensures c == CompletionOf(Next(old(net.replies)))
    {
      var reply := net.Send(PutvalRequest(topic, value, nowSeconds, nice));
      c := CompletionOf(reply);
    }

    /** subscribe: the callback goes at the end of the topic's list first, then the request is sent, whatever it gives. */
    method Subscribe(topic: string, callback: Handler) returns (c: Completion)
      modifies this`callbacks, net
      ensures callbacks == Append(old(callbacks), topic, callback)
      ensures net.sent == old(net.sent) + [SubscribeRequest(topic)]
      ensures net.replies == Rest(old(net.replies))
      ensures c == CompletionOf(Next(old(net.replies)))
    {
      callbacks := Append(callbacks, topic, callback);
      var reply := net.Send(SubscribeRequest(topic));
      c := CompletionOf(reply);
    }

    /** pickup: the reply body is trimmed, decoded and only logged; the callbacks are never invoked. */
    method Pickup() returns (log: PickupLog)
      modifies net
      ensures net.sent == old(net.sent) + [PickupRequest()]
      ensures net.replies == Rest(old(net.replies))
      ensures log == ReadPickup(Next(old(net.replies)), newString)
    {
      var reply := net.Send(PickupRequest());
      log := ReadPickup(reply, newString);
    }
  }

  /** Subscribing twice with the same callback puts it on the list twice. */
  lemma SubscribeTwice(reg: map<string, seq<Handler>>, topic: string, h: Handler)
    ensures Lookup(Append(Append(reg, topic, h), topic, h), topic) == Lookup(reg, topic) + [h, h]
  {
    AppendTwice(reg, topic, h);
  }
}

=== FILE: javautils.dfy ===
/**
 * The Java client's codec (Utils.java): base64 of the text's bytes in the
 * platform's default charset, then the letter rotation through a pair of
 * tables; dec rotates back and decodes with java.util.Base64's basic
 * decoder, which throws on bad input.  The default charset is a pair of
 * parameters: getBytes for String.getBytes(), newString for new String(bytes).
 */
module JavaUtils {

  import opened Wrappers
  import opened Text
  import Base64
  import Utf8
  import opened Rotation
  import PyCodec

  /** rotate: one character at a time, looked up in `from` and replaced by its partner in `to`. */
  method Rotate(s: string, from: string, to: string) returns (r: string)
    requires |from| <= |to|
    ensures r == Translate(s, from, to)
  {
    var sb: string := "";
    var i := 0;
    while i < |s|
      invariant 0 <= i <= |s|
      invariant |sb| == i
      invariant forall j :: 0 <= j < i ==> sb[j] == Translate(s, from, to)[j]
    {
      var c := s[i];
      var idx := IndexOf(from, c);
      sb := sb + [if idx.Some? then to[idx.value] else c];
      i := i + 1;
    }
    r := sb;
  }

  /**
   * The basic decoder: padding may be left off a final unit of two or three
   * characters, but padding that is there must complete its unit of four.
   */
  function BasicDecode(s: string): (r: Option<seq<Byte>>)
    ensures '=' in s ==> r == Base64.Decode(s)
    ensures |s| % 4 == 1 ==> r.None?
  {
    if '=' in s || |s| % 4 == 0 then Base64.Decode(s)
    else if |s| % 4 == 1 then None
    else if |s| % 4 == 2 then Base64.Decode(s + "==")
    else Base64.Decode(s + "=")
  }

  /** What the encoder writes, the decoder reads back. */
  lemma BasicDecodeEncode(b: seq<Byte>)
    ensures BasicDecode(Base64.Encode(b)) == Some(b)
  {
    Base64.DecodeEncode(b);
  }

  /** enc: "" for "", otherwise base64 of getBytes(text), rotated. */
  function Enc(text: string, getBytes: string -> seq<Byte>): (r: string)
    ensures text == "" ==> r == ""
    ensures text != "" ==> Base64.IsEncodingText(Rot13(r))
  {
    if text == "" then ""
    else
      var b64 := Base64.Encode(getBytes(text));
      TranslateForward(b64);
      Rot13Involutive(b64);
      Translate(b64, Plain(), Rotated())
  }

  /** dec: "" for "", otherwise rotated back, decoded, and read in the charset; None where the decoder throws. */
  function Dec(encoded: string, newString: seq<Byte> -> string): (r: Option<string>)
    ensures encoded == "" ==> r == Some("")
    ensures encoded != "" ==> (r.None? <==> BasicDecode(Rot13(encoded)).None?)
  {
    if encoded == "" then Some("")
    else
      TranslateBackward(encoded);
      match BasicDecode(Translate(encoded, Rotated(), Plain()))
      case None => None
      case Some(bytes) => Some(newString(bytes))
  }

  /** Every text the default charset round-trips survives enc and dec. */
  lemma DecEnc(s: string, getBytes: string -> seq<Byte>, newString: seq<Byte> -> string)
    requires newString(getBytes(s)) == s && newString([]) == ""
    ensures Dec(Enc(s, getBytes), newString) == Some(s)
  {
    if s != "" {
      assert getBytes(s) != [];
      var b64 := Base64.Encode(getBytes(s));
      TranslateForward(b64);
      var e := Rot13(b64);
      assert Enc(s, getBytes) == e;
      assert e != "";
      TranslateBackward(e);
      Rot13Involutive(b64);
      BasicDecodeEncode(getBytes(s));
    }
  }

  /** With UTF-8 as the default charset the Java and the Python encoders agree on every text. */
  lemma EncAgreesWithPython(s: string)
    ensures Enc(s, Utf8.Encode) == PyCodec.Enc(s)
  {
  }

  /** A character outside the base64 alphabet, after rotating back, makes dec throw. */
  lemma DecThrows(encoded: string, newString: seq<Byte> -> string)
    requires exists i :: 0 <= i < |encoded| && !Base64.IsAlphabet(Rot13Char(encoded[i])) && encoded[i] != '='
    ensures Dec(encoded, newString).None?
  {
    var i :| 0 <= i < |encoded| && !Base64.IsAlphabet(Rot13Char(encoded[i])) && encoded[i] != '=';
    var rotated := Rot13(encoded);
    assert !Base64.IsAlphabet(rotated[i]) && rotated[i] != '=';
    if '=' !in rotated && |rotated| % 4 != 0 && |rotated| % 4 != 1 {
      var padded := if |rotated| % 4 == 2 then rotated + "==" else rotated + "=";
      assert padded[i] == rotated[i];
    }
  }
}

=== FILE: jsclient.dfy ===
/**
 * The JavaScript client (class Moustique in index.js).  Its codec is the
 * Python order (btoa, then the letter rotation) on "binary strings", whose
 * characters must all be below 256; its callback registry appends without
 * a duplicate check, after an ok reply; pickup has the system-callback
 * fallback, and resubscribe sends every topic's first callback again.
 */
module JsClient {

  import opened Wrappers
  import opened Text
  import Decimal
  import Base64
  import Utf8
  import opened Rotation
  import opened Transport
  import opened Dispatch
  import opened JsonData
  import PyCodec
  import ServerCodec

  const DefaultIp: string := "192.168.1.79"
  const DefaultPort: string := "33334"
  const ResubscribeTopic: string := "/server/action/resubscribe"

  // ---------------------------------------------------------------------
  // The codec

  /** A string btoa accepts: every character a single byte. */
  predicate IsBinary(s: string) {
    forall i :: 0 <= i < |s| ==> s[i] as int < 256
  }

  /** The bytes btoa encodes: one per character. */
  function BinaryBytes(s: string): (b: seq<Byte>)
    requires IsBinary(s)
    ensures |b| == |s|
    ensures forall i :: 0 <= i < |s| ==> b[i] == s[i] as int
  {
    seq(|s|, i requires 0 <= i < |s| => s[i] as int)
  }

  /** btoa: fails (throws) on a character above U+00FF. */
  function Btoa(s: string): (r: Option<string>)
    ensures r.Some? <==> IsBinary(s)
    ensures r.Some? ==> Base64.IsEncodingText(r.value)
  {
    if IsBinary(s) then Some(Base64.Encode(BinaryBytes(s))) else None
  }

  /**
   * atob: forgiving-base64 decode, the bytes as characters; fails (throws)
   * when even the forgiving reading finds the text is not base64.
   */
  function Atob(s: string): (r: Option<string>)
    ensures r.Some? ==> IsBinary(r.value)
    ensures r.Some? <==> Base64.DecodeForgiving(s).Some?
  {
    match Base64.DecodeForgiving(s)
    case None => None
    case Some(b) => Some(Latin1(b))
  }

  lemma AtobBtoa(s: string)
    requires IsBinary(s)
    ensures Atob(Btoa(s).value) == Some(s)
  {
    var b := BinaryBytes(s);
    Base64.ForgivingEncode(b);
    var r := Latin1(b);
    assert forall i :: 0 <= i < |s| ==> r[i] as int == s[i] as int;
    assert r == s;
  }

  /** atob takes "YQ" without its padding, and " YQ==\n" with white space around it, as "a". */
  lemma AtobForgives()
    ensures Atob("YQ") == Some("a") && Atob(" YQ==\n") == Some("a")
  {
    Base64.ForgivingExamples();
    Base64.ForgivingSpaced();
    assert Latin1(['a' as int]) == "a";
  }

  /** enc: '' for '', otherwise btoa and then the letter rotation; None where btoa throws. */
  function Enc(text: string): (r: Option<string>)
    ensures text == "" ==> r == Some("")
    ensures r.Some? <==> IsBinary(text)
  {
    if text == "" then Some("")
    else match Btoa(text)
      case None => None
      case Some(b64) => Some(Translate(b64, Plain(), Rotated()))
  }

  /** dec: '' for '', otherwise the same rotation and then atob; None where atob throws. */
  function Dec(encoded: string): (r: Option<string>)
    ensures encoded == "" ==> r == Some("")
    ensures r.Some? ==> IsBinary(r.value)
  {
    if encoded == "" then Some("")
    else Atob(Translate(encoded, Plain(), Rotated()))
  }

  /** Every string btoa accepts survives enc and dec. */
  lemma DecEnc(s: string)
    requires IsBinary(s)
    ensures Dec(Enc(s).value) == Some(s)
  {
    if s != "" {
      var b64 := Btoa(s).value;
      TranslateForward(b64);
      var e := Rot13(b64);
      assert Enc(s) == Some(e);
      assert e != "";
      TranslateForward(e);
      Rot13Involutive(b64);
      AtobBtoa(s);
    }
  }

  /** On ASCII text the JavaScript and the Python encoders agree. */
  lemma EncAgreesWithPython(s: string)
    requires IsAscii(s)
    ensures Enc(s) == Some(PyCodec.Enc(s))
  {
    if s != "" {
      Utf8.EncodeAscii(s);
      assert BinaryBytes(s) == AsciiBytes(s);
    }
  }

  /** "a" goes out as "LD==", which the server reads as ","; the server itself writes "a" as "bg==". */
  lemma EncOfA()
    ensures Enc("a") == Some("LD==")
    ensures ServerCodec.Decode(AsciiBytes("LD==")) != Utf8.Encode("a")
  {
    EncAgreesWithPython("a");
    ServerCodec.PythonOrderOfA();
    ServerCodec.ServerReadsLD();
    assert Utf8.Encode("a") == Utf8.EncodeChar('a') + Utf8.Encode("");
    assert AsciiBytes(",")[0] != Utf8.Encode("a")[0];
  }

  /** Every character enc writes is a base64 character, a rotated letter or '='. */
  lemma EncChars(s: string)
    requires IsBinary(s) && s != ""
    ensures Base64.IsEncodingText(Enc(s).value)
  {
    var b64 := Btoa(s).value;
    TranslateForward(b64);
    var e := Enc(s).value;
    forall i | 0 <= i < |e| ensures Base64.IsAlphabet(e[i]) || e[i] == '=' {
      assert e[i] == Rot13Char(b64[i]);
    }
  }

  // ---------------------------------------------------------------------
  // Requests

  /** Every form value has to pass enc before the request is sent. */
  predicate Encodable(req: Request<string>) {
    forall k :: k in req.form ==> IsBinary(req.form[k])
  }

  /** What goes on the wire for an encodable request: every form value through enc. */
  function Wire(req: Request<string>): (w: Request<string>)
    requires Encodable(req)
    ensures w.verb == req.verb && w.url == req.url && w.form.Keys == req.form.Keys
    ensures forall k :: k in req.form ==> Dec(w.form[k]) == Some(req.form[k])
  {
    var w := Request(req.verb, req.url, map k | k in req.form :: Enc(req.form[k]).value);
    forall k | k in req.form ensures Dec(w.form[k]) == Some(req.form[k]) {
      DecEnc(req.form[k]);
    }
    w
  }

  function PublishRequest(baseUrl: string, topic: string, message: string, name: string, nowSeconds: int, nice: string): Request<string> {
    Request("POST", baseUrl + "/POST", map["topic" := topic, "message" := message,
      "updated_time" := Decimal.IntToString(nowSeconds), "updated_nicedatetime" := nice, "from" := name])
  }

  function PutvalRequest(baseUrl: string, topic: string, message: string, name: string, nowSeconds: int, nice: string): Request<string> {
    Request("PUT", baseUrl + "/PUTVAL", map["valname" := topic, "val" := message,
      "updated_time" := Decimal.IntToString(nowSeconds), "updated_nicedatetime" := nice, "from" := name])
  }

  function SubscribeRequest(baseUrl: string, topic: string, name: string): Request<string> {
    Request("POST", baseUrl + "/SUBSCRIBE", map["topic" := topic, "client" := name])
  }

  function PickupRequest(baseUrl: string, name: string): Request<string> {
    Request("POST", baseUrl + "/PICKUP", map["client" := name])
  }

  /** One SUBSCRIBE per topic, in order. */
  function SubscribeAll(baseUrl: string, topics: seq<string>, name: string): (r: seq<Request<string>>)
    ensures |r| == |topics|
    ensures forall i :: 0 <= i < |topics| ==> r[i] == SubscribeRequest(baseUrl, topics[i], name)
  {
    if |topics| == 0 then []
    else SubscribeAll(baseUrl, topics[..|topics| - 1], name) + [SubscribeRequest(baseUrl, topics[|topics| - 1], name)]
  }

  // ---------------------------------------------------------------------
  // Replies

  /** Response.ok: a 2xx status. */
  predicate IsOk(reply: Reply<string>) {
    reply.Response? && 200 <= reply.status <= 299
  }

  /**
   * How a method ends: the success line, a refusing status, a caught
   * exception, or a rejected promise because enc threw before the request.
   */
  datatype Outcome = Succeeded | Refused(status: int) | Errored | Rejected

  function PublishOutcome(reply: Reply<string>): (r: Outcome)
    ensures r == Succeeded <==> IsOk(reply)
    ensures r == Errored <==> reply.Failure?
  {
    if reply.Failure? then Errored else if IsOk(reply) then Succeeded else Refused(reply.status)
  }

  /** putval also takes a 308 as success. */
  function PutvalOutcome(reply: Reply<string>): (r: Outcome)
    ensures r == Succeeded <==> IsOk(reply) || (reply.Response? && reply.status == 308)
    ensures r == Errored <==> reply.Failure?
  {
    if reply.Failure? then Errored
    else if IsOk(reply) || reply.status == 308 then Succeeded
    else Refused(reply.status)
  }

  /** Characters String.prototype.trim removes: white space and line terminators. */
  predicate IsJsSpace(c: char) {
    '\t' <= c <= '\r' || c == ' ' || c == '\U{a0}' || c == '\U{1680}' || '\U{2000}' <= c <= '\U{200a}' ||
    c == '\U{2028}' || c == '\U{2029}' || c == '\U{202f}' || c == '\U{205f}' || c == '\U{3000}' || c == '\U{feff}'
  }

  /** What pickup makes of a reply: nothing, an exception it catches, or parsed JSON ({} for an empty text). */
  datatype PickupData = NoReply | NotOk(status: int) | Thrown | Data(json: Json)

  function ReadPickup(reply: Reply<string>, parse: string -> Option<Json>): (r: PickupData)
    ensures reply.Failure? ==> r == NoReply
    ensures reply.Response? && !IsOk(reply) ==> r == NotOk(reply.status)
    ensures r.Data? ==> reply.Response? && IsOk(reply)
  {
    if reply.Failure? then NoReply
    else if !IsOk(reply) then NotOk(reply.status)
    else match Dec(TrimBy(reply.body, IsJsSpace))
      case None => Thrown
      case Some(decrypted) =>
        if decrypted == "" then Data(Obj([]))
        else match parse(decrypted)
          case None => Thrown
          case Some(json) => Data(json)
  }

  /** A body written with enc reaches JSON.parse as the text encoded. */
  lemma ReadPickupEnc(status: int, json: string, parse: string -> Option<Json>)
    requires 200 <= status <= 299 && IsBinary(json)
    ensures ReadPickup(Response(status, Enc(json).value), parse) ==
      if json == "" then Data(Obj([])) else match parse(json) case None => Thrown case Some(j) => Data(j)
  {
    EncReadable(json);
    ReadPickupDecoded(status, Enc(json).value, json, parse);
  }

  /** What enc writes has no white space to trim and decodes back. */
  lemma EncReadable(json: string)
    requires IsBinary(json)
    ensures Dec(TrimBy(Enc(json).value, IsJsSpace)) == Some(json)
  {
    var e := Enc(json).value;
    assert TrimBy(e, IsJsSpace) == e by {
      if json != "" {
        EncChars(json);
        NoJsSpace(e);
      }
      TrimByKeeps(e, IsJsSpace);
    }
    DecEnc(json);
  }

  lemma ReadPickupDecoded(status: int, body: string, json: string, parse: string -> Option<Json>)
    requires 200 <= status <= 299 && Dec(TrimBy(body, IsJsSpace)) == Some(json)
    ensures ReadPickup(Response(status, body), parse) ==
      if json == "" then Data(Obj([])) else match parse(json) case None => Thrown case Some(j) => Data(j)
  {
  }

  lemma NoJsSpace(e: string)
    requires Base64.IsEncodingText(e)
    ensures forall i :: 0 <= i < |e| ==> !IsJsSpace(e[i])
  {
  }

  // ---------------------------------------------------------------------
  // What pickup reads of the parsed data

  /**
   * Object.entries(data): a TypeError (None) for null; no entries for a
   * boolean or a number; a string's indices with its characters; an
   * array's indices with its items; an object's members.
   */
  function Entries(data: Json): (r: Option<seq<(string, Json)>>)
    ensures r.None? <==> data.Null?
    ensures data.Bool? || data.Num? ==> r == Some([])
    ensures data.Obj? ==> r == Some(data.members)
    ensures data.Arr? ==> r == Some(Indexed(data.items))
  {
    match data
    case Null => None
    case Bool(_) => Some([])
    case Num(_) => Some([])
    case Str(s) => Some(Indexed(Characters(s)))
    case Arr(items) => Some(Indexed(items))
    case Obj(members) => Some(members)
  }

  /** Each value under its index, written in decimal. */
  function Indexed(values: seq<Json>): (r: seq<(string, Json)>)
    ensures |r| == |values|
    ensures forall i :: 0 <= i < |values| ==> r[i] == (Decimal.NatToString(i), values[i])
  {
    seq(|values|, i requires 0 <= i < |values| => (Decimal.NatToString(i), values[i]))
  }

  /** for (const msg of messages): an array's items, a string's characters; a TypeError (None) for anything else. */
  function Iterated(messages: Json): (r: Option<seq<Json>>)
    ensures r.Some? <==> messages.Arr? || messages.Str?
  {
    match messages
    case Arr(items) => Some(items)
    case Str(s) => Some(Characters(s))
    case _ => None
  }

  /** A property read on a value other than null: an object's member, undefined (None) for anything missing. */
  function Property(j: Json, name: string): (r: Option<Json>)
    ensures r.Some? <==> j.Obj? && exists i :: 0 <= i < |j.members| && j.members[i].0 == name
  {
    if j.Obj? then Member(j.members, name) else None
  }

  /**
   * What the calls for one message read of it, undefined being None:
   * msg.topic and msg.message, and msg.from for the user callbacks.  With no
   * call nothing is read; with a call, a null msg throws (the result None).
   */
  function ReadMessage(item: Json, calls: bool, users: bool): (r: Option<Msg<Option<Json>>>)
    ensures r.None? <==> calls && item.Null?
    ensures calls && r.Some? ==> r.value.topic == Property(item, "topic") && r.value.message == Property(item, "message")
    ensures calls && users && r.Some? ==> r.value.from == Property(item, "from")
  {
    if !calls then Some(Msg(None, None, None))
    else if item.Null? then None
    else Some(Msg(Property(item, "topic"), Property(item, "message"), if users then Property(item, "from") else None))
  }

  function ItemReader(calls: bool, users: bool): Json -> Option<Msg<Option<Json>>> {
    item => ReadMessage(item, calls, users)
  }

  /**
   * One entry: its value iterated (a TypeError when it cannot be), then its
   * messages read in order.  A message brings a call when the key has a user
   * callback or a system callback.
   */
  function ReadKey(reg: map<string, seq<Handler>>, system: set<string>, key: string, messages: Json): (r: (seq<Msg<Option<Json>>>, bool))
    ensures Iterated(messages).None? ==> r == ([], true)
  {
    var users := Lookup(reg, key);
    match Iterated(messages)
    case None => ([], true)
    case Some(items) => ReadItems(items, ItemReader(|users| > 0 || key in system, |users| > 0))
  }

  function KeyReader(reg: map<string, seq<Handler>>, system: set<string>): (string, Json) -> (seq<Msg<Option<Json>>>, bool) {
    (key, messages) => ReadKey(reg, system, key, messages)
  }

  /**
   * The walk pickup makes over the parsed data: entry by entry, until the
   * first exception.  The result: the messages read under each entry
   * reached, and whether an exception was thrown (and caught).
   */
  function Walk(data: Json, reg: map<string, seq<Handler>>, system: set<string>): (r: (Batch<string, Option<Json>>, bool))
    ensures data.Null? ==> r == ([], true)
    ensures data.Bool? || data.Num? ==> r == ([], false)
  {
    match Entries(data)
    case None => ([], true)
    case Some(entries) => ReadMembers(entries, KeyReader(reg, system))
  }

  /** The calls pickup makes: those of the entries walked, none without data. */
  function PickupCalls(data: PickupData, reg: map<string, seq<Handler>>, system: set<string>): (r: seq<Call<Option<Json>>>)
    ensures !data.Data? ==> r == []
  {
    if data.Data? then BatchCalls(Walk(data.json, reg, system).0, reg, system) else []
  }

  /** How pickup ends: every exception is caught and logged. */
  function PickupOutcome(data: PickupData, reg: map<string, seq<Handler>>, system: set<string>): (r: Outcome)
    ensures r == Succeeded <==> data.Data? && !Walk(data.json, reg, system).1
    ensures r == Errored <==> data.NoReply? || data.Thrown? || (data.Data? && Walk(data.json, reg, system).1)
  {
    match data
    case NoReply => Errored
    case NotOk(status) => Refused(status)
    case Thrown => Errored
    case Data(json) => if Walk(json, reg, system).1 then Errored else Succeeded
  }

  function SomeStr(s: string): Option<Json> {
    Some(Str(s))
  }

  /** A message the server wrote makes the calls its fields call for. */
  lemma ReadServerMessage(m: Msg<string>, users: seq<Handler>, system: bool)
    ensures var r := ReadMessage(MessageJson(m), |users| > 0 || system, |users| > 0);
      r.Some? && MessageCalls(r.value, users, system) == MessageCalls(MapMsgs([m], SomeStr)[0], users, system)
  {
    MessageJsonFields(m);
  }

  /** The messages the server wrote for one key all read, each bringing its own calls. */
  lemma ReadServerItems(msgs: seq<Msg<string>>, users: seq<Handler>, system: bool)
    ensures var r := ReadItems(MessagesJson(msgs), ItemReader(|users| > 0 || system, |users| > 0));
      !r.1 && |r.0| == |msgs| &&
      forall i :: 0 <= i < |msgs| ==> MessageCalls(r.0[i], users, system) == MessageCalls(MapMsgs(msgs, SomeStr)[i], users, system)
  {
    var read := ItemReader(|users| > 0 || system, |users| > 0);
    var items := MessagesJson(msgs);
    var r := ReadItems(items, read);
    forall i | 0 <= i < |items|
      ensures read(items[i]).Some?
      ensures MessageCalls(read(items[i]).value, users, system) == MessageCalls(MapMsgs(msgs, SomeStr)[i], users, system)
    {
      ReadServerMessage(msgs[i], users, system);
      assert MapMsgs([msgs[i]], SomeStr)[0] == MapMsgs(msgs, SomeStr)[i];
    }
  }

  /** An entry the server wrote reads without an exception and makes the calls of its messages. */
  lemma ReadServerKey(reg: map<string, seq<Handler>>, system: set<string>, key: string, msgs: seq<Msg<string>>)
    ensures var r := ReadKey(reg, system, key, Arr(MessagesJson(msgs)));
      !r.1 && KeyCalls(r.0, Lookup(reg, key), key in system) == KeyCalls(MapMsgs(msgs, SomeStr), Lookup(reg, key), key in system)
  {
    var users := Lookup(reg, key);
    var sys := key in system;
    ReadServerItems(msgs, users, sys);
    var r := ReadItems(MessagesJson(msgs), ItemReader(|users| > 0 || sys, |users| > 0));
    KeyCallsAgree(r.0, MapMsgs(msgs, SomeStr), users, sys);
  }

  /** The entries of a batch the server wrote read without an exception and bring the calls of their messages. */
  lemma ReadServerMembers(batch: Batch<string, string>, reg: map<string, seq<Handler>>, system: set<string>)
    ensures var r := ReadMembers(BatchMembers(batch), KeyReader(reg, system));
      !r.1 && BatchCalls(r.0, reg, system) == BatchCalls(MapBatch(batch, SomeStr), reg, system)
  {
    var members := BatchMembers(batch);
    var mapped := MapBatch(batch, SomeStr);
    var readKey := KeyReader(reg, system);
    var r := ReadMembers(members, readKey);
    forall i | 0 <= i < |members|
      ensures !readKey(members[i].0, members[i].1).1
      ensures KeyCalls(readKey(members[i].0, members[i].1).0, Lookup(reg, batch[i].0), batch[i].0 in system)
           == KeyCalls(mapped[i].1, Lookup(reg, batch[i].0), batch[i].0 in system)
    {
      ReadServerKey(reg, system, batch[i].0, batch[i].1);
    }
    BatchCallsAgree(r.0, mapped, reg, system);
  }

  /**
   * A batch the server wrote is walked without an exception and brings the
   * calls of its messages, key by key.
   */
  lemma WalkServer(batch: Batch<string, string>, reg: map<string, seq<Handler>>, system: set<string>)
    ensures var r := Walk(BatchJson(batch), reg, system);
      !r.1 && BatchCalls(r.0, reg, system) == BatchCalls(MapBatch(batch, SomeStr), reg, system)
  {
    ReadServerMembers(batch, reg, system);
  }

  /**
   * Messages the server filed under the resubscribe topic, when it has no
   * user callback: each one starts a resubscribe.
   */
  lemma ResubscribePerMessage(msgs: seq<Msg<string>>, reg: map<string, seq<Handler>>, system: set<string>)
    requires ResubscribeTopic in system && Lookup(reg, ResubscribeTopic) == []
    ensures SystemCount(PickupCalls(Data(BatchJson([(ResubscribeTopic, msgs)])), reg, system)) == |msgs|
  {
    var batch := [(ResubscribeTopic, msgs)];
    WalkServer(batch, reg, system);
    var mapped := MapBatch(batch, SomeStr);
    assert mapped[..0] == [];
    assert BatchCalls(mapped, reg, system) == KeyCalls(MapMsgs(msgs, SomeStr), [], true);
    KeySystemCount(MapMsgs(msgs, SomeStr), [], true);
  }

  /** A message without "from" still reaches the user callback, with undefined in its place. */
  lemma MissingFromIsUndefined(topic: string, message: string)
    ensures ReadMessage(Obj([("topic", Str(topic)), ("message", Str(message))]), true, true) ==
      Some(Msg(Some(Str(topic)), Some(Str(message)), None))
  {
    var members := [("topic", Str(topic)), ("message", Str(message))];
    assert members[..1] == [("topic", Str(topic))];
    assert Member(members[..1], "topic") == Some(Str(topic));
  }

  /**
   * An entry whose second message is null: the user callback is called for
   * the first message, then the TypeError is thrown and caught.
   */
  lemma ReadKeyStops(m: Msg<string>, h: Handler)
    ensures ReadKey(map["a" := [h]], {}, "a", Arr([MessageJson(m), Null])) == ([MapMsgs([m], SomeStr)[0]], true)
  {
    MessageJsonFields(m);
    var items := [MessageJson(m), Null];
    var read := ItemReader(true, true);
    var first := MapMsgs([m], SomeStr)[0];
    assert read(items[0]) == Some(first);
    assert read(items[1]).None?;
    var r := ReadItems(items, read);
    assert |r.0| == 1 && r.0[0] == first;
    assert r.0 == [first] && r.1;
  }

  /** The walk over data holding only that entry: the first message's call is made, then the walk stops. */
  lemma WalkStopsAtNull(m: Msg<string>, h: Handler)
    ensures Walk(Obj([("a", Arr([MessageJson(m), Null]))]), map["a" := [h]], {}) ==
      ([("a", [MapMsgs([m], SomeStr)[0]])], true)
  {
    ReadKeyStops(m, h);
    var first := MapMsgs([m], SomeStr)[0];
    var members := [("a", Arr([MessageJson(m), Null]))];
    var w := ReadMembers(members, KeyReader(map["a" := [h]], {}));
    assert |w.0| == 1 && w.0[0] == ("a", [first]);
    assert w.0 == [("a", [first])] && w.1;
  }

  // ---------------------------------------------------------------------
  // The client

  /**
   * The registry's shape: the key order lists every key once, every list
   * is non-empty, and everything registered passed enc.
   */
  ghost predicate RegistryValid(topics: seq<string>, callbacks: map<string, seq<Handler>>, clientName: string) {
    (forall t :: t in topics <==> t in callbacks) &&
    (forall i, j :: 0 <= i < j < |topics| ==> topics[i] != topics[j]) &&
    (forall t :: t in callbacks ==> |callbacks[t]| > 0) &&
    (forall i :: 0 <= i < |topics| ==> IsBinary(topics[i])) &&
    (|topics| > 0 ==> IsBinary(clientName))
  }

  lemma RegisterKeepsValid(topics: seq<string>, callbacks: map<string, seq<Handler>>, clientName: string, topic: string, h: Handler)
    requires RegistryValid(topics, callbacks, clientName) && IsBinary(topic) && IsBinary(clientName)
    ensures RegistryValid(if topic in callbacks then topics else topics + [topic], Append(callbacks, topic, h), clientName)
  {
  }

  /** The topics whose re-sent SUBSCRIBE got an ok reply have their first callback appended once more. */
  function Regrown(reg: map<string, seq<Handler>>, topics: seq<string>, replies: seq<Reply<string>>): (r: map<string, seq<Handler>>)
    requires forall t :: t in reg ==> |reg[t]| > 0
    ensures r.Keys == reg.Keys
  {
    map t | t in reg :: if Accepted(topics, replies, t) then reg[t] + [reg[t][0]] else reg[t]
  }

  /** Some SUBSCRIBE for t, the i-th of the run, got an ok reply. */
  predicate Accepted(topics: seq<string>, replies: seq<Reply<string>>, t: string) {
    exists i :: 0 <= i < |topics| && topics[i] == t && IsOk(NextAt(replies, i))
  }

  class Moustique {
    const ip: string
    const port: string
    const baseUrl: string
    const clientName: string
    const net: Channel<string>
    /** The system callbacks: only the resubscribe topic. */
    const systemTopics: set<string>
    /** callbacks, with its keys in insertion order (the order a Map iterates them). */
    var callbacks: map<string, seq<Handler>>
    var topics: seq<string>
    /** Every callback invocation so far, oldest first. */
    var invoked: seq<Call<Option<Json>>>

    ghost predicate Valid()
      reads this`topics, this`callbacks
    {
      RegistryValid(topics, callbacks, clientName)
    }

    /**
     * The constructor: defaults for a missing ip or port, and for a missing
     * or empty name the host name, a random number below 100 and the time in
     * milliseconds.
     */
    constructor (net: Channel<string>, ip: Option<string>, port: Option<string>, clientName: string,
                 hostname: string, random: nat, nowMillis: int)
      requires random < 100
      ensures this.net == net
      ensures this.ip == (if ip.Some? then ip.value else DefaultIp)
      ensures this.port == (if port.Some? then port.value else DefaultPort)
      ensures baseUrl == "http://" + this.ip + ":" + this.port
      ensures this.clientName == if clientName != "" then clientName
        else hostname + "-" + Decimal.NatToString(random) + "-" + Decimal.IntToString(nowMillis)
      ensures systemTopics == {ResubscribeTopic}
      ensures callbacks == map[] && topics == [] && invoked == []
      ensures Valid()
    {
      this.net := net;
      this.ip := if ip.Some? then ip.value else DefaultIp;
      this.port := if port.Some? then port.value else DefaultPort;
      baseUrl := "http://" + (if ip.Some? then ip.value else DefaultIp) + ":" + (if port.Some? then port.value else DefaultPort);
      this.clientName := if clientName != "" then clientName
        else hostname + "-" + Decimal.NatToString(random) + "-" + Decimal.IntToString(nowMillis);
      systemTopics := {ResubscribeTopic};
      callbacks := map[];
      topics := [];
      invoked := [];
    }

    /** publish: nothing is sent when enc throws; otherwise one POST, its outcome only logged. */
    method Publish(topic: string, message: string, nowSeconds: int, nice: string) returns (outcome: Outcome)
      modifies net
      ensures var req := PublishRequest(baseUrl, topic, message, clientName, nowSeconds, nice);
        if Encodable(req) then
          net.sent == old(net.sent) + [req] && net.replies == Rest(old(net.replies)) &&
          outcome == PublishOutcome(Next(old(net.replies)))
        else
          net.sent == old(net.sent) && net.replies == old(net.replies) && outcome == Rejected
    {
      var req := PublishRequest(baseUrl, topic, message, clientName, nowSeconds, nice);
      if !Encodable(req) {
        return Rejected;
      }
      var reply := net.Send(req);
      outcome := PublishOutcome(reply);
    }

    /** putval: as publish, with 308 also a success. */
    method Putval(topic: string, message: string, nowSeconds: int, nice: string) returns (outcome: Outcome)
      modifies net
      ensures var req := PutvalRequest(baseUrl, topic, message, clientName, nowSeconds, nice);
        if Encodable(req) then
          net.sent == old(net.sent) + [req] && net.replies == Rest(old(net.replies)) &&
          outcome == PutvalOutcome(Next(old(net.replies)))
        else
          net.sent == old(net.sent) && net.replies == old(net.replies) && outcome == Rejected
    {
      var req := PutvalRequest(baseUrl, topic, message, clientName, nowSeconds, nice);
      if !Encodable(req) {
        return Rejected;
      }
      var reply := net.Send(req);
      outcome := PutvalOutcome(reply);
    }

    /** subscribe: after an ok reply the callback goes at the end of the topic's list, with no duplicate check. */
    method Subscribe(topic: string, callback: Handler) returns (outcome: Outcome)
      requires Valid()
      modifies this`callbacks, this`topics, net
      ensures Valid()
      ensures Encodable(SubscribeRequest(baseUrl, topic, clientName)) ==>
        net.sent == old(net.sent) + [SubscribeRequest(baseUrl, topic, clientName)] &&
        net.replies == Rest(old(net.replies)) && outcome == PublishOutcome(Next(old(net.replies)))
      ensures Encodable(SubscribeRequest(baseUrl, topic, clientName)) && IsOk(Next(old(net.replies))) ==>
        callbacks == Append(old(callbacks), topic, callback) &&
        topics == (if topic in old(callbacks) then old(topics) else old(topics) + [topic])
      ensures !(Encodable(SubscribeRequest(baseUrl, topic, clientName)) && IsOk(Next(old(net.replies)))) ==>
        callbacks == old(callbacks) && topics == old(topics)
      ensures !Encodable(SubscribeRequest(baseUrl, topic, clientName)) ==>
        net.sent == old(net.sent) && net.replies == old(net.replies) && outcome == Rejected
    {
      var req := SubscribeRequest(baseUrl, topic, clientName);
      if !Encodable(req) {
        return Rejected;
      }
      var reply := net.Send(req);
      outcome := PublishOutcome(reply);
      if IsOk(reply) {
        assert IsBinary(topic) && IsBinary(clientName) by {
          assert req.form["topic"] == topic && req.form["client"] == clientName;
        }
        RegisterKeepsValid(topics, callbacks, clientName, topic, callback);
        topics := if topic in callbacks then topics else topics + [topic];
        callbacks := Append(callbacks, topic, callback);
      }
    }

    /**
     * pickup: nothing is sent when enc throws; a refused or failed reply,
     * or an exception from dec or JSON.parse, dispatches nothing; the parsed
     * data is walked entry by entry, calling every user callback of the
     * entry's key and, when there is none, the system callback, until an
     * exception ends the walk.  The system callback starts resubscribe
     * without awaiting it: started counts the runs started, which the caller
     * completes with Resubscribe.
     */
    method Pickup(parse: string -> Option<Json>) returns (outcome: Outcome, started: nat)
      modifies this`invoked, net
      ensures var req := PickupRequest(baseUrl, clientName);
        if IsBinary(clientName) then
          var data := ReadPickup(Next(old(net.replies)), parse);
          net.sent == old(net.sent) + [req] && net.replies == Rest(old(net.replies)) &&
          outcome == PickupOutcome(data, callbacks, systemTopics) &&
          invoked == old(invoked) + PickupCalls(data, callbacks, systemTopics)
        else
          net.sent == old(net.sent) && net.replies == old(net.replies) && outcome == Rejected &&
          invoked == old(invoked)
      ensures started == SystemCount(invoked[|old(invoked)|..])
    {
      if !IsBinary(clientName) {
        assert invoked[|old(invoked)|..] == [];
        return Rejected, 0;
      }
      var reply := net.Send(PickupRequest(baseUrl, clientName));
      var data := ReadPickup(reply, parse);
      outcome := PickupOutcome(data, callbacks, systemTopics);
      // A reply without data reaches no entry: nothing is dispatched.
      var walk := if data.Data? then Walk(data.json, callbacks, systemTopics) else ([], false);
      var calls := Deliver(walk.0, callbacks, systemTopics);
      invoked := invoked + calls;
      assert invoked[|old(invoked)|..] == calls;
      started := SystemCount(calls);
    }

    /**
     * resubscribe: one SUBSCRIBE per registered topic, in insertion order,
     * each with the topic's first callback; every ok reply appends that
     * callback once more.
     */
    method Resubscribe()
      requires Valid()
      modifies this`callbacks, this`topics, net
      ensures Valid()
      ensures topics == old(topics)
      ensures net.sent == old(net.sent) + SubscribeAll(baseUrl, topics, clientName)
      ensures net.replies == Drop(old(net.replies), |topics|)
      ensures callbacks == Regrown(old(callbacks), topics, old(net.replies))
    {
      assert (this as object) != (net as object);
      var ts := topics;
      var i := 0;
      while i < |ts|
        invariant 0 <= i <= |ts|
        invariant Valid() && topics == ts
        invariant net.sent == old(net.sent) + SubscribeAll(baseUrl, ts[..i], clientName)
        invariant net.replies == Drop(old(net.replies), i)
        invariant callbacks == Regrown(old(callbacks), ts[..i], old(net.replies))
      {
        var t := ts[i];
        ghost var before, sent0 := callbacks, net.sent;
        assert t in callbacks;
        SubscribeEncodable(baseUrl, t, clientName);
        var _ := Subscribe(t, callbacks[t][0]);
        ghost var reply := NextAt(old(net.replies), i);
        assert topics == ts;
        assert callbacks == Regrown(old(callbacks), ts[..i + 1], old(net.replies)) by {
          assert callbacks == if IsOk(reply) then Append(before, t, before[t][0]) else before;
          RegrownStep(old(callbacks), ts, i, old(net.replies), before, callbacks);
        }
        assert net.replies == Drop(old(net.replies), i + 1) by {
          DropRest(old(net.replies), i);
        }
        assert net.sent == old(net.sent) + SubscribeAll(baseUrl, ts[..i + 1], clientName) by {
          assert net.sent == sent0 + [SubscribeRequest(baseUrl, t, clientName)];
          SubscribeAllStep(old(net.sent), sent0, net.sent, baseUrl, ts, i, clientName);
        }
        i := i + 1;
      }
      assert ts[..i] == ts;
    }
  }

  lemma SubscribeAllStep(start: seq<Request<string>>, sent0: seq<Request<string>>, sent1: seq<Request<string>>,
                         baseUrl: string, ts: seq<string>, i: nat, name: string)
    requires i < |ts|
    requires sent0 == start + SubscribeAll(baseUrl, ts[..i], name)
    requires sent1 == sent0 + [SubscribeRequest(baseUrl, ts[i], name)]
    ensures sent1 == start + SubscribeAll(baseUrl, ts[..i + 1], name)
  {
    assert ts[..i + 1][..i] == ts[..i];
  }

  lemma SubscribeEncodable(baseUrl: string, topic: string, name: string)
    requires IsBinary(topic) && IsBinary(name)
    ensures Encodable(SubscribeRequest(baseUrl, topic, name))
  {
  }

  lemma RegrownStep(reg: map<string, seq<Handler>>, ts: seq<string>, i: nat, replies: seq<Reply<string>>,
                    before: map<string, seq<Handler>>, after: map<string, seq<Handler>>)
    requires i < |ts| && ts[i] in reg
    requires forall t :: t in reg ==> |reg[t]| > 0
    requires forall a, b :: 0 <= a < b < |ts| ==> ts[a] != ts[b]
    requires before == Regrown(reg, ts[..i], replies)
    requires after == if IsOk(NextAt(replies, i)) then Append(before, ts[i], before[ts[i]][0]) else before
    ensures after == Regrown(reg, ts[..i + 1], replies)
  {
    var t := ts[i];
    var next := Regrown(reg, ts[..i + 1], replies);
    NotAcceptedBefore(ts, i, replies);
    assert before[t] == reg[t];
    forall u | u in reg ensures after[u] == next[u] {
      AcceptedExtend(ts, i, replies, u);
    }
    assert after.Keys == next.Keys;
  }

  /** The i-th run of a distinct topic list has not met ts[i] before. */
  lemma NotAcceptedBefore(ts: seq<string>, i: nat, replies: seq<Reply<string>>)
    requires i < |ts|
    requires forall a, b :: 0 <= a < b < |ts| ==> ts[a] != ts[b]
    ensures !Accepted(ts[..i], replies, ts[i])
  {
    assert forall j :: 0 <= j < i ==> ts[..i][j] == ts[j] != ts[i];
  }

  lemma AcceptedExtend(ts: seq<string>, i: nat, replies: seq<Reply<string>>, u: string)
    requires i < |ts|
    ensures Accepted(ts[..i + 1], replies, u) <==> Accepted(ts[..i], replies, u) || (ts[i] == u && IsOk(NextAt(replies, i)))
  {
    var longer, shorter := ts[..i + 1], ts[..i];
    assert forall j :: 0 <= j < i ==> longer[j] == shorter[j];
    assert longer[i] == ts[i];
    if Accepted(longer, replies, u) {
      var j :| 0 <= j < i + 1 && longer[j] == u && IsOk(NextAt(replies, j));
      assert j < i ==> shorter[j] == u;
    }
  }

  /** When every re-sent SUBSCRIBE gets an ok reply, each topic's list grows by exactly its first callback. */
  lemma ResubscribeAllAccepted(reg: map<string, seq<Handler>>, topics: seq<string>, replies: seq<Reply<string>>)
    requires forall t :: t in reg ==> |reg[t]| > 0
    requires forall t :: t in topics <==> t in reg
    requires forall i :: 0 <= i < |topics| ==> IsOk(NextAt(replies, i))
    ensures forall t :: t in reg ==> Regrown(reg, topics, replies)[t] == reg[t] + [reg[t][0]]
  {
    forall t | t in reg ensures Accepted(topics, replies, t) {
      var i :| 0 <= i < |topics| && topics[i] == t;
      assert IsOk(NextAt(replies, i));
    }
  }

  /** With every re-sent SUBSCRIBE refused, resubscribe leaves the registry as it was. */
  lemma ResubscribeAllRefused(reg: map<string, seq<Handler>>, topics: seq<string>, replies: seq<Reply<string>>)
    requires forall t :: t in reg ==> |reg[t]| > 0
    requires forall i :: 0 <= i < |topics| ==> !IsOk(NextAt(replies, i))
    ensures Regrown(reg, topics, replies) == reg
  {
    var r := Regrown(reg, topics, replies);
    forall t | t in reg ensures r[t] == reg[t] {
      assert !Accepted(topics, replies, t);
    }
  }
}

=== FILE: json.dfy ===
/**
 * A parsed JSON value, as JSON.parse or json.loads hands it to a client's
 * pickup, and the walk both clients make over it: keys in iteration order,
 * the messages of each key one after another, stopping at the first one
 * that cannot be read.
 */
module JsonData {

  import opened Wrappers
  import opened Dispatch

  /**
   * Object members come in the order the client's language iterates them,
   * each key once.  A number only carries its value; the clients look at
   * nothing but whether it is zero.
   */
  datatype Json =
    | Null
    | Bool(b: bool)
    | Num(value: real)
    | Str(s: string)
    | Arr(items: seq<Json>)
    | Obj(members: seq<(string, Json)>)

  /** The value filed under key in an object's members; None when the key is absent. */
  function Member(members: seq<(string, Json)>, key: string): (r: Option<Json>)
    ensures r.Some? <==> exists i :: 0 <= i < |members| && members[i].0 == key
    ensures r.Some? ==> exists i :: 0 <= i < |members| && members[i] == (key, r.value)
    decreases |members|
  {
    if |members| == 0 then None
    else if members[|members| - 1].0 == key then Some(members[|members| - 1].1)
    else Member(members[..|members| - 1], key)
  }

  /** A string's characters, each as a one-character string, as iterating over the string yields them. */
  function Characters(s: string): (r: seq<Json>)
    ensures |r| == |s| && forall i :: 0 <= i < |s| ==> r[i] == Str([s[i]])
  {
    seq(|s|, i requires 0 <= i < |s| => Str([s[i]]))
  }

  /** The names of an object's members, each as a string value, as iterating over a dict yields them. */
  function Keys(members: seq<(string, Json)>): (r: seq<Json>)
    ensures |r| == |members| && forall i :: 0 <= i < |members| ==> r[i] == Str(members[i].0)
  {
    seq(|members|, i requires 0 <= i < |members| => Str(members[i].0))
  }

  /**
   * Items read one after another until read fails: the messages read, and
   * whether an item failed.  Every item before the failing one was read, and
   * nothing after it.
   */
  function ReadItems<V>(items: seq<Json>, read: Json -> Option<Msg<V>>): (r: (seq<Msg<V>>, bool))
    ensures |r.0| <= |items|
    ensures forall i :: 0 <= i < |r.0| ==> read(items[i]) == Some(r.0[i])
    ensures r.1 <==> |r.0| < |items|
    ensures r.1 ==> read(items[|r.0|]).None?
    decreases |items|
  {
    if |items| == 0 then ([], false)
    else
      var prev := ReadItems(items[..|items| - 1], read);
      if prev.1 then prev
      else match read(items[|items| - 1])
        case None => (prev.0, true)
        case Some(m) => (prev.0 + [m], false)
  }

  /**
   * The keys of a batch read one after another until a key fails: each key
   * with the messages read under it, the failing key included with the
   * messages before its failure, and whether a key failed.
   */
  function ReadMembers<V>(members: seq<(string, Json)>, readKey: (string, Json) -> (seq<Msg<V>>, bool)): (r: (Batch<string, V>, bool))
    ensures |r.0| <= |members|
    ensures forall i :: 0 <= i < |r.0| ==> r.0[i] == (members[i].0, readKey(members[i].0, members[i].1).0)
    ensures forall i :: 0 <= i < |r.0| - 1 ==> !readKey(members[i].0, members[i].1).1
    ensures r.1 <==> 0 < |r.0| && readKey(members[|r.0| - 1].0, members[|r.0| - 1].1).1
    ensures !r.1 ==> |r.0| == |members|
    decreases |members|
  {
    if |members| == 0 then ([], false)
    else
      var prev := ReadMembers(members[..|members| - 1], readKey);
      if prev.1 then prev
      else
        var (key, value) := members[|members| - 1];
        var (msgs, failed) := readKey(key, value);
        (prev.0 + [(key, msgs)], failed)
  }

  // ---------------------------------------------------------------------
  // What the server writes

  function StrOf(s: string): Json {
    Str(s)
  }

  /** One message as the server encodes it (the fields no client reads left out). */
  function MessageJson(m: Msg<string>): Json {
    Obj([("from", Str(m.from)), ("topic", Str(m.topic)), ("message", Str(m.message))])
  }

  function MessagesJson(msgs: seq<Msg<string>>): (r: seq<Json>)
    ensures |r| == |msgs| && forall i :: 0 <= i < |msgs| ==> r[i] == MessageJson(msgs[i])
  {
    seq(|msgs|, i requires 0 <= i < |msgs| => MessageJson(msgs[i]))
  }

  /** A pickup batch as the server encodes it: an object from topic to the array of its messages. */
  function BatchJson(batch: Batch<string, string>): Json {
    Obj(BatchMembers(batch))
  }

  function BatchMembers(batch: Batch<string, string>): (r: seq<(string, Json)>)
    ensures |r| == |batch| && forall i :: 0 <= i < |batch| ==> r[i] == (batch[i].0, Arr(MessagesJson(batch[i].1)))
  {
    seq(|batch|, i requires 0 <= i < |batch| => (batch[i].0, Arr(MessagesJson(batch[i].1))))
  }

  /** The three fields of a message the server wrote are all there. */
  lemma MessageJsonFields(m: Msg<string>)
    ensures Member(MessageJson(m).members, "topic") == Some(Str(m.topic))
    ensures Member(MessageJson(m).members, "message") == Some(Str(m.message))
    ensures Member(MessageJson(m).members, "from") == Some(Str(m.from))
  {
    var ms := MessageJson(m).members;
    assert ms[..2] == [("from", Str(m.from)), ("topic", Str(m.topic))];
    assert ms[..2][..1] == [("from", Str(m.from))];
    assert Member(ms[..2][..1], "from") == Some(Str(m.from));
  }
}

=== FILE: pyclient.dfy ===
/**
 * The Python client (class Moustique in client.py) and the module-level
 * state it shares: the server address and client name every instance
 * writes on construction, and the HTTP session all requests go through.
 */
module PyClient {

  import opened Wrappers
  import opened Text
  import Decimal
  import opened Transport
  import opened Dispatch
  import PyCodec
  import Base64
  import Utf8
  import opened Rotation
  import opened JsonData

  const ResubscribeTopic: string := "/server/action/resubscribe"
  const LogTopic: string := "/mushroom/logs/moustique_lib/INFO"
  const MaxRetries: int := 5

  /** The only system callback there is. */
  datatype SystemAction = ResubscribeAction

  /** Whether a method returned normally or let an exception out of its except clauses. */
  datatype Outcome = Returned | Raised

  /** raise_for_status raises for client and server errors and nothing else. */
  predicate IsHttpError(status: int) {
    400 <= status < 600
  }

  /** Characters str.strip() removes: those str.isspace() accepts. */
  predicate IsSpace(c: char) {
    c == ' ' || '\t' <= c <= '\r' || '\U{1c}' <= c <= '\U{1f}' || c == '\U{85}' || c == '\U{a0}' ||
    c == '\U{1680}' || '\U{2000}' <= c <= '\U{200a}' || c == '\U{2028}' || c == '\U{2029}' ||
    c == '\U{202f}' || c == '\U{205f}' || c == '\U{3000}'
  }

  function Strip(s: string): (r: string)
    ensures |r| <= |s|
    ensures CutFrom(s, r, IsSpace)
    ensures |r| > 0 ==> !IsSpace(r[0]) && !IsSpace(r[|r| - 1])
  {
    TrimBy(s, IsSpace)
  }

  /** The instance name: host, the optional client name, a random number below 100, the pid. */
  function InstanceName(hostname: string, clientName: string, random: Byte, pid: nat): (r: string)
    ensures clientName != "" ==> HasPrefix(r, hostname + "-" + clientName + "-")
    ensures clientName == "" ==> HasPrefix(r, hostname + "-")
  {
    var tail := Decimal.NatToString(random % 100) + "-" + Decimal.NatToString(pid);
    if clientName != "" then
      assert hostname + "-" + clientName + "-" + tail == (hostname + "-" + clientName + "-") + tail;
      hostname + "-" + clientName + "-" + tail
    else
      assert hostname + "-" + tail == (hostname + "-") + tail;
      hostname + "-" + tail
  }

  // ---------------------------------------------------------------------
  // The requests, field by field, with the form values as the client holds
  // them; Wire gives what goes on the wire, every value through enc.

  function Wire(req: Request<string>): (w: Request<string>)
    ensures w.verb == req.verb && w.url == req.url && w.form.Keys == req.form.Keys
    ensures forall k :: k in req.form ==> PyCodec.Dec(w.form[k]) == Ok(req.form[k])
  {
    var w := Request(req.verb, req.url, map k | k in req.form :: PyCodec.Enc(req.form[k]));
    forall k | k in req.form
      ensures PyCodec.Dec(w.form[k]) == Ok(req.form[k])
    {
      PyCodec.DecEnc(req.form[k]);
    }
    w
  }

  function PostForm(topic: string, message: string, fromName: string, now: int, nice: string): map<string, string> {
    map["topic" := topic, "message" := message,
        "updated_time" := Decimal.IntToString(now),
        "updated_nicedatetime" := nice, "from" := fromName]
  }

  function PublishRequest(ip: string, port: string, topic: string, message: string, fromName: string, now: int, nice: string): Request<string> {
    Request("POST", "http://" + ip + ":" + port + "/POST", PostForm(topic, message, fromName, now, nice))
  }

  function PutvalRequest(ip: string, port: string, topic: string, message: string, fromName: string, now: int, nice: string): Request<string> {
    Request("PUT", "http://" + ip + ":" + port + "/PUTVAL",
      map["valname" := topic, "val" := message,
          "updated_time" := Decimal.IntToString(now),
          "updated_nicedatetime" := nice, "from" := fromName])
  }

  function SubscribeRequest(url: string, port: string, topic: string, name: string): Request<string> {
    Request("POST", url + ":" + port + "/SUBSCRIBE", map["topic" := topic, "client" := name])
  }

  function PickupRequest(url: string, port: string, name: string): Request<string> {
    Request("POST", url + ":" + port + "/PICKUP", map["client" := name])
  }

  function GetValRequest(ip: string, port: string, name: string, valname: string): Request<string> {
    Request("POST", "http://" + ip + ":" + port + "/GETVAL", map["client" := name, "topic" := valname])
  }

  function GetRequest(ip: string, port: string, name: string, pwd: string, endpoint: string): Request<string> {
    Request("POST", "http://" + ip + ":" + port + "/" + endpoint, map["client" := name, "pwd" := pwd])
  }

  /** One SUBSCRIBE per topic, in order. */
  function SubscribeAll(url: string, port: string, topics: seq<string>, name: string): (r: seq<Request<string>>)
    ensures |r| == |topics|
    ensures forall i :: 0 <= i < |topics| ==> r[i] == SubscribeRequest(url, port, topics[i], name)
  {
    if |topics| == 0 then []
    else SubscribeAll(url, port, topics[..|topics| - 1], name) + [SubscribeRequest(url, port, topics[|topics| - 1], name)]
  }

  // ---------------------------------------------------------------------
  // What a reply body turns into

  /** A reply read by the client: nothing usable, an escaping exception, or decoded text. */
  datatype Body = Unusable | Crash | Text(text: string)

  /**
   * raise_for_status, strip, dec: a failed connection, an error status or a
   * base64 error is caught (Unusable); a ValueError from dec escapes (Crash).
   */
  function ReadBody(reply: Reply<string>): Body {
    if reply.Failure? || IsHttpError(reply.status) then Unusable
    else
      match PyCodec.Dec(Strip(reply.body))
      case Err(e) => if e.Base64Error? then Unusable else Crash
      case Ok(text) => Text(text)
  }

  /** Whatever enc produces has no whitespace, so strip leaves it alone. */
  lemma EncNoSpace(x: string)
    ensures forall i :: 0 <= i < |PyCodec.Enc(x)| ==> !IsSpace(PyCodec.Enc(x)[i])
  {
    var e := Base64.Encode(Utf8.Encode(x));
    PyCodec.EncIsRotatedBase64(x);
    forall i | 0 <= i < |PyCodec.Enc(x)| ensures !IsSpace(PyCodec.Enc(x)[i]) {
      assert PyCodec.Enc(x)[i] == Rot13Char(e[i]);
    }
  }

  /** A reply the server wrote with the client's encoding reads back as the text encoded. */
  lemma ReadBodyEnc(status: int, x: string)
    requires !IsHttpError(status)
    ensures ReadBody(Response(status, PyCodec.Enc(x))) == Text(x)
  {
    EncNoSpace(x);
    TrimByKeeps(PyCodec.Enc(x), IsSpace);
    PyCodec.DecEnc(x);
  }

  /** What pickup gets to walk: parsed JSON, or why there is none. */
  datatype PickupBody = NoBatch | PickupCrash | Parsed(data: Json)

  /**
   * The reply read as for any request, then json.loads ({} for an empty
   * text); invalid JSON is a JSONDecodeError, which is caught.
   */
  function PickupData(reply: Reply<string>, parse: string -> Option<Json>): (r: PickupBody)
    ensures r == PickupCrash <==> ReadBody(reply) == Crash
    ensures ReadBody(reply) == Text("") ==> r == Parsed(Obj([]))
  {
    match ReadBody(reply)
    case Unusable => NoBatch
    case Crash => PickupCrash
    case Text(text) =>
      if text == "" then Parsed(Obj([]))
      else match parse(text)
        case None => NoBatch
        case Some(data) => Parsed(data)
  }

  // ---------------------------------------------------------------------
  // What pickup reads of the parsed body

  /** Python truthiness: None, False, zero, "", [] and {} are false. */
  predicate Truthy(j: Json) {
    match j
    case Null => false
    case Bool(b) => b
    case Num(v) => v != 0.0
    case Str(s) => s != ""
    case Arr(items) => items != []
    case Obj(members) => members != []
  }

  /**
   * What `for message in messages` runs over: a list's items, a string's
   * characters, a dict's keys; None (a TypeError) for None, a bool or a
   * number.
   */
  function Iterated(j: Json): (r: Option<seq<Json>>)
    ensures r.None? <==> j.Null? || j.Bool? || j.Num?
  {
    match j
    case Arr(items) => Some(items)
    case Str(s) => Some(Characters(s))
    case Obj(members) => Some(Keys(members))
    case _ => None
  }

  /**
   * message[field]: only a dict that has the key answers; a list, a string,
   * a number, a bool or None raises TypeError and a missing key KeyError,
   * both None here.
   */
  function Subscript(j: Json, field: string): (r: Option<Json>)
    ensures r.Some? <==> j.Obj? && exists i :: 0 <= i < |j.members| && j.members[i].0 == field
  {
    if j.Obj? then Member(j.members, field) else None
  }

  /**
   * What the calls for one message read of it.  User callbacks read
   * message["topic"], message["message"] and message["from"]; the system
   * callback, called only when the key has no user callback, reads the
   * first two; with neither, nothing is read.  None: a subscript raised.  A
   * field nobody reads is left None (the JSON null).
   */
  function ReadMessage(item: Json, users: bool, system: bool): (r: Option<Msg<Json>>)
    ensures !users && !system ==> r == Some(Msg(Null, Null, Null))
    ensures users ==> (r.Some? <==> Subscript(item, "topic").Some? && Subscript(item, "message").Some? && Subscript(item, "from").Some?)
    ensures !users && system ==> (r.Some? <==> Subscript(item, "topic").Some? && Subscript(item, "message").Some?)
    ensures (users || system) && r.Some? ==> Subscript(item, "topic") == Some(r.value.topic) && Subscript(item, "message") == Some(r.value.message)
    ensures users && r.Some? ==> Subscript(item, "from") == Some(r.value.from)
  {
    if !users && !system then Some(Msg(Null, Null, Null))
    else
      var topic, message := Subscript(item, "topic"), Subscript(item, "message");
      var from := if users then Subscript(item, "from") else Some(Null);
      if topic.Some? && message.Some? && from.Some? then Some(Msg(topic.value, message.value, from.value))
      else None
  }

  function ItemReader(users: bool, system: bool): Json -> Option<Msg<Json>> {
    item => ReadMessage(item, users, system)
  }

  /** One key of the batch: its value iterated (TypeError when it cannot be), then its messages read in order. */
  function ReadKey(reg: map<string, seq<Handler>>, system: set<string>, key: string, messages: Json): (r: (seq<Msg<Json>>, bool))
    ensures Iterated(messages).None? ==> r == ([], true)
  {
    var users := Lookup(reg, key);
    match Iterated(messages)
    case None => ([], true)
    case Some(items) => ReadItems(items, ItemReader(|users| > 0, key in system && |users| == 0))
  }

  function KeyReader(reg: map<string, seq<Handler>>, system: set<string>): (string, Json) -> (seq<Msg<Json>>, bool) {
    (key, messages) => ReadKey(reg, system, key, messages)
  }

  /**
   * The walk pickup makes: nothing for a false value (`if data:`), an
   * AttributeError for any other value that is not a dict (data.items()),
   * else key by key in the dict's order, until the first exception (an
   * empty dict, false as it is, walks nothing either way).  The result: the
   * messages read under each key reached, and whether an exception escaped.
   */
  function Walk(data: Json, reg: map<string, seq<Handler>>, system: set<string>): (r: (Batch<string, Json>, bool))
    ensures !Truthy(data) ==> r == ([], false)
    ensures Truthy(data) && !data.Obj? ==> r == ([], true)
  {
    if data.Obj? then ReadMembers(data.members, KeyReader(reg, system))
    else if Truthy(data) then ([], true)
    else ([], false)
  }

  /** A message the server wrote makes the calls its fields call for. */
  lemma ReadServerMessage(m: Msg<string>, users: seq<Handler>, system: bool)
    ensures var r := ReadMessage(MessageJson(m), |users| > 0, system && |users| == 0);
      r.Some? && MessageCalls(r.value, users, system) == MessageCalls(MapMsgs([m], StrOf)[0], users, system)
  {
    MessageJsonFields(m);
  }

  /** A key the server wrote reads without an exception and makes the calls of its messages. */
  lemma ReadServerKey(reg: map<string, seq<Handler>>, system: set<string>, key: string, msgs: seq<Msg<string>>)
    ensures var r := ReadKey(reg, system, key, Arr(MessagesJson(msgs)));
      !r.1 && KeyCalls(r.0, Lookup(reg, key), key in system) == KeyCalls(MapMsgs(msgs, StrOf), Lookup(reg, key), key in system)
  {
    var users := Lookup(reg, key);
    var sys := key in system;
    var read := ItemReader(|users| > 0, sys && |users| == 0);
    var items := MessagesJson(msgs);
    var r := ReadItems(items, read);
    forall i | 0 <= i < |items| ensures read(items[i]).Some? {
      ReadServerMessage(msgs[i], users, sys);
    }
    forall i | 0 <= i < |r.0|
      ensures MessageCalls(r.0[i], users, sys) == MessageCalls(MapMsgs(msgs, StrOf)[i], users, sys)
    {
      ReadServerMessage(msgs[i], users, sys);
      assert MapMsgs([msgs[i]], StrOf)[0] == MapMsgs(msgs, StrOf)[i];
    }
    KeyCallsAgree(r.0, MapMsgs(msgs, StrOf), users, sys);
  }

  /** The keys of a batch the server wrote read without an exception and bring the calls of their messages. */
  lemma ReadServerMembers(batch: Batch<string, string>, reg: map<string, seq<Handler>>, system: set<string>)
    ensures var r := ReadMembers(BatchMembers(batch), KeyReader(reg, system));
      !r.1 && BatchCalls(r.0, reg, system) == BatchCalls(MapBatch(batch, StrOf), reg, system)
  {
    var members := BatchMembers(batch);
    var mapped := MapBatch(batch, StrOf);
    var readKey := KeyReader(reg, system);
    var r := ReadMembers(members, readKey);
    forall i | 0 <= i < |members|
      ensures !readKey(members[i].0, members[i].1).1
      ensures KeyCalls(readKey(members[i].0, members[i].1).0, Lookup(reg, batch[i].0), batch[i].0 in system)
           == KeyCalls(mapped[i].1, Lookup(reg, batch[i].0), batch[i].0 in system)
    {
      ReadServerKey(reg, system, batch[i].0, batch[i].1);
    }
    BatchCallsAgree(r.0, mapped, reg, system);
  }

  /**
   * A batch the server wrote is walked without an exception and brings the
   * calls of its messages, key by key.
   */
  lemma WalkServer(batch: Batch<string, string>, reg: map<string, seq<Handler>>, system: set<string>)
    ensures var r := Walk(BatchJson(batch), reg, system);
      !r.1 && BatchCalls(r.0, reg, system) == BatchCalls(MapBatch(batch, StrOf), reg, system)
  {
    ReadServerMembers(batch, reg, system);
  }

  /**
   * A key whose second message is not a dict: the user callback's message
   * is read from the first, then the TypeError escapes.
   */
  lemma ReadKeyStops(m: Msg<string>, h: Handler)
    ensures ReadKey(map["a" := [h]], {}, "a", Arr([MessageJson(m), Null])) == ([MapMsgs([m], StrOf)[0]], true)
  {
    MessageJsonFields(m);
    var items := [MessageJson(m), Null];
    var read := ItemReader(true, false);
    var first := MapMsgs([m], StrOf)[0];
    assert read(items[0]) == Some(first);
    assert read(items[1]).None?;
    var r := ReadItems(items, read);
    assert |r.0| == 1 && r.0[0] == first;
    assert r.0 == [first] && r.1;
  }

  /** The walk over a body holding only that key: one call's worth of messages, then the exception. */
  lemma WalkStopsMidKey(m: Msg<string>, h: Handler)
    ensures Walk(Obj([("a", Arr([MessageJson(m), Null]))]), map["a" := [h]], {}) ==
      ([("a", [MapMsgs([m], StrOf)[0]])], true)
  {
    ReadKeyStops(m, h);
    var first := MapMsgs([m], StrOf)[0];
    var members := [("a", Arr([MessageJson(m), Null]))];
    var w := ReadMembers(members, KeyReader(map["a" := [h]], {}));
    assert |w.0| == 1 && w.0[0] == ("a", [first]);
    assert w.0 == [("a", [first])] && w.1;
  }

  lemma {:induction false} RepeatAppend<T>(s: seq<T>, a: nat, b: nat)
    ensures Repeat(s, a + b) == Repeat(s, a) + Repeat(s, b)
    decreases a
  {
    if a > 0 {
      RepeatAppend(s, a - 1, b);
    }
  }

  // ---------------------------------------------------------------------
  // Static helpers

  /** publish_nothread: one POST; its outcome is only printed. */
  method PublishNothread(net: Channel<string>, ip: string, port: string, topic: string, message: string,
                         fromName: string, now: int, nice: string)
    modifies net
    ensures net.sent == old(net.sent) + [PublishRequest(ip, port, topic, message, fromName, now, nice)]
    ensures net.replies == Rest(old(net.replies))
  {
    var _ := net.Send(PublishRequest(ip, port, topic, message, fromName, now, nice));
  }

  /**
   * getval and get_val: a failed connection, an error status, a base64
   * error or invalid JSON give None, as does an empty decoded body; a
   * ValueError from dec escapes.  There is no retry.
   */
  function GetValResult<J>(reply: Reply<string>, parse: string -> Option<J>): (r: GetResult<J>)
    ensures reply.Failure? ==> r == GetValue(None)
    ensures reply.Response? && IsHttpError(reply.status) ==> r == GetValue(None)
  {
    match ReadBody(reply)
    case Unusable => GetValue(None)
    case Crash => GetCrash
    case Text(text) => if text == "" then GetValue(None) else GetValue(parse(text))
  }

  /** A value the server sent in the client's encoding is what getval returns. */
  lemma GetValReadsEncoded<J>(status: int, json: string, parse: string -> Option<J>)
    requires !IsHttpError(status) && json != ""
    ensures GetValResult(Response(status, PyCodec.Enc(json)), parse) == GetValue(parse(json))
  {
    ReadBodyEnc(status, json);
  }

  /** getval: the static read of a stored value, under the shared global client name. */
  method Getval<J>(g: Globals, net: Channel<string>, ip: string, port: string, valname: string,
                   parse: string -> Option<J>) returns (result: GetResult<J>)
    modifies net
    ensures net.sent == old(net.sent) + [GetValRequest(ip, port, g.name, valname)]
    ensures net.replies == Rest(old(net.replies))
    ensures result == GetValResult(Next(old(net.replies)), parse)
  {
    var reply := net.Send(GetValRequest(ip, port, g.name, valname));
    result := GetValResult(reply, parse);
  }

  /** pitval calls publish_nothread_put, which the class does not define: the call raises before any request. */
  method Pitval(net: Channel<string>, ip: string, port: string, topic: string, message: string, fromName: string)
    returns (outcome: Outcome)
    ensures outcome == Raised
    ensures net.sent == old(net.sent) && net.replies == old(net.replies)
  {
    outcome := Raised;
  }

  /** What get returns after a number of attempts: a value, None, or an escaping exception. */
  datatype GetResult<J> = GetValue(value: Option<J>) | GetCrash

  /**
   * One attempt of get: its result, or None when get tries again.  A 401
   * gives None at once; a connection failure raises (the handler reads
   * status_code of a missing response); a ValueError from dec escapes; any
   * other error tries again while fewer than five retries were made, then
   * gives None.
   */
  function Attempt<J>(reply: Reply<string>, retries: int, parse: string -> Option<J>): (r: Option<GetResult<J>>)
    ensures reply.Failure? ==> r == Some(GetCrash)
    ensures retries >= MaxRetries ==> r.Some?
    ensures reply.Response? && reply.status == 401 ==> r == Some(GetValue(None))
  {
    var retry := retries < MaxRetries;
    if reply.Failure? then Some(GetCrash)
    else if IsHttpError(reply.status) then
      if reply.status == 401 || !retry then Some(GetValue(None)) else None
    else
      match PyCodec.Dec(Strip(reply.body))
      case Err(e) =>
        if e.ValueError? then Some(GetCrash)
        else if !retry then Some(GetValue(None))
        else None
      case Ok(text) =>
        if text == "" then Some(GetValue(None))
        else match parse(text)
          case Some(v) => Some(GetValue(Some(v)))
          case None => if !retry then Some(GetValue(None)) else None
  }

  /** get, attempt by attempt: the result and how many requests it took. */
  function GetSpec<J>(replies: seq<Reply<string>>, retries: int, parse: string -> Option<J>): (r: (GetResult<J>, nat))
    ensures r.1 >= 1
    ensures 0 <= retries <= MaxRetries ==> r.1 <= MaxRetries + 1 - retries
    ensures retries >= MaxRetries ==> r.1 == 1
    decreases if retries < MaxRetries then MaxRetries - retries else 0
  {
    match Attempt(Next(replies), retries, parse)
    case Some(res) => (res, 1)
    case None =>
      var (res, n) := GetSpec(Rest(replies), retries + 1, parse);
      (res, n + 1)
  }

  /** A server that keeps failing is asked exactly six times by a first call, which then gives None. */
  lemma {:induction false} GetGivesUp<J>(replies: seq<Reply<string>>, retries: int, parse: string -> Option<J>)
    requires 0 <= retries <= MaxRetries
    requires forall i :: 0 <= i < MaxRetries + 1 - retries ==> NextAt(replies, i) == Response(500, "")
    ensures GetSpec(replies, retries, parse) == (GetValue(None), MaxRetries + 1 - retries)
    decreases MaxRetries - retries
  {
    assert NextAt(replies, 0) == Next(replies);
    if retries < MaxRetries {
      forall i | 0 <= i < MaxRetries - retries
        ensures NextAt(Rest(replies), i) == Response(500, "")
      {
        assert NextAt(replies, i + 1) == NextAt(Rest(replies), i);
      }
      GetGivesUp(Rest(replies), retries + 1, parse);
    }
  }

  /** get: the static, retrying read of a server endpoint, under the shared global client name. */
  method Get<J>(g: Globals, net: Channel<string>, ip: string, port: string, pwd: string, endpoint: string,
                retries: int, parse: string -> Option<J>) returns (result: GetResult<J>)
    modifies net
    ensures var (res, n) := GetSpec(old(net.replies), retries, parse);
      result == res &&
      net.sent == old(net.sent) + Repeat([GetRequest(ip, port, g.name, pwd, endpoint)], n) &&
      net.replies == Drop(old(net.replies), n)
    decreases if retries < MaxRetries then MaxRetries - retries else 0
  {
    ghost var replies := net.replies;
    var req := GetRequest(ip, port, g.name, pwd, endpoint);
    var reply := net.Send(req);
    var attempt := Attempt(reply, retries, parse);
    if attempt.Some? {
      assert GetSpec(replies, retries, parse) == (attempt.value, 1);
      result := attempt.value;
    } else {
      ghost var rest := GetSpec(Rest(replies), retries + 1, parse);
      assert GetSpec(replies, retries, parse) == (rest.0, rest.1 + 1);
      result := Get(g, net, ip, port, pwd, endpoint, retries + 1, parse);
    }
  }

  /** The module-level globals every instance writes and static methods read. */
  class Globals {
    var serverIp: string
    var serverUrl: string
    var serverPort: string
    var name: string

    constructor ()
      ensures serverIp == "" && serverUrl == "" && serverPort == "" && name == "NONAME"
    {
      serverIp, serverUrl, serverPort, name := "", "", "", "NONAME";
    }
  }

  class Moustique {
    const g: Globals
    const net: Channel<string>
    var pid: nat
    var name: string
    var serverIp: string
    var serverPort: string
    /** callbacks, with its keys in insertion order (the order a dict iterates them). */
    var callbacks: map<string, seq<Handler>>
    var topics: seq<string>
    var systemCallbacks: map<string, SystemAction>
    /** Every callback invocation so far, oldest first. */
    var invoked: seq<Call<Json>>

    ghost predicate Valid()
      reads this`topics, this`callbacks
    {
      (forall t :: t in topics <==> t in callbacks) &&
      (forall i, j :: 0 <= i < j < |topics| ==> topics[i] != topics[j]) &&
      UniqueLists(callbacks)
    }

    /** __init__: name the instance, overwrite the globals, start with no callbacks, then initialize. */
    constructor (g: Globals, net: Channel<string>, ip: string, port: string, clientName: string,
                 hostname: string, random: Byte, pid: nat)
      modifies g
      ensures this.g == g && this.net == net && this.pid == pid
      ensures name == InstanceName(hostname, clientName, random, pid)
      ensures g.serverIp == ip && g.serverUrl == "http://" + ip && g.serverPort == port && g.name == name
      ensures serverIp == ip && serverPort == port
      ensures callbacks == map[] && topics == [] && invoked == []
      ensures systemCallbacks == map[ResubscribeTopic := ResubscribeAction]
      ensures Valid()
    {
      this.g := g;
      this.net := net;
      this.pid := pid;
      name := InstanceName(hostname, clientName, random, pid);
      callbacks := map[];
      topics := [];
      systemCallbacks := map[];
      invoked := [];
      serverIp, serverPort := "", "";
      new;
      g.serverIp := ip;
      g.serverUrl := "http://" + ip;
      g.serverPort := port;
      g.name := name;
      Initialize();
    }

    /** initialize: copy the global address and register the resubscribe system callback. */
    method Initialize()
      modifies this
      ensures serverIp == g.serverIp && serverPort == g.serverPort
      ensures systemCallbacks == old(systemCallbacks)[ResubscribeTopic := ResubscribeAction]
      ensures name == old(name) && pid == old(pid) && callbacks == old(callbacks) && topics == old(topics) && invoked == old(invoked)
    {
      serverIp := g.serverIp;
      serverPort := g.serverPort;
      systemCallbacks := systemCallbacks[ResubscribeTopic := ResubscribeAction];
    }

    method Publish(topic: string, message: string, now: int, nice: string)
      modifies net
      ensures net.sent == old(net.sent) + [PublishRequest(serverIp, serverPort, topic, message, name, now, nice)]
      ensures net.replies == Rest(old(net.replies))
    {
      PublishNothread(net, serverIp, serverPort, topic, message, name, now, nice);
    }

    /** putval: one PUT; 200 and 308 are reported as success, everything else only printed. */
    method Putval(topic: string, message: string, now: int, nice: string)
      modifies net
      ensures net.sent == old(net.sent) + [PutvalRequest(serverIp, serverPort, topic, message, name, now, nice)]
      ensures net.replies == Rest(old(net.replies))
    {
      var _ := net.Send(PutvalRequest(serverIp, serverPort, topic, message, name, now, nice));
    }

    /** The registry after a SUBSCRIBE that passed raise_for_status. */
    function Registered(topic: string, callback: Handler): map<string, seq<Handler>>
      reads this
    {
      AddUnique(callbacks, topic, callback)
    }

    /**
     * subscribe: the registry changes only when the SUBSCRIBE request got a
     * reply raise_for_status accepts; a callback already on the topic's
     * list is not added again.
     */
    method Subscribe(topic: string, callback: Handler)
      requires Valid()
      modifies this, net
      ensures Valid()
      ensures net.sent == old(net.sent) + [SubscribeRequest(g.serverUrl, g.serverPort, topic, name)]
      ensures net.replies == Rest(old(net.replies))
      ensures var reply := Next(old(net.replies));
        if reply.Response? && !IsHttpError(reply.status) then
          callbacks == old(Registered(topic, callback)) &&
          topics == (if topic in old(callbacks) then old(topics) else old(topics) + [topic])
        else
          callbacks == old(callbacks) && topics == old(topics)
      ensures name == old(name) && serverIp == old(serverIp) && serverPort == old(serverPort)
      ensures systemCallbacks == old(systemCallbacks) && invoked == old(invoked)
    {
      var reply := net.Send(SubscribeRequest(g.serverUrl, g.serverPort, topic, name));
      if reply.Response? && !IsHttpError(reply.status) {
        if topic !in callbacks {
          callbacks := callbacks[topic := []];
          topics := topics + [topic];
        }
        if callback !in callbacks[topic] {
          callbacks := callbacks[topic := callbacks[topic] + [callback]];
        }
        AddUniqueKeepsUnique(old(callbacks), topic, callback);
      }
    }

    /**
     * resubscribe: the "Resubscribing" log line only when there is a
     * subscription, one SUBSCRIBE per topic whatever the earlier ones gave,
     * then the "Resubscribed" log line; the registry is not touched.
     */
    method Resubscribe(now: int, nice: string)
      requires Valid()
      modifies net
      ensures net.sent == old(net.sent) + ResubscribeSequence(g.serverUrl, g.serverPort, serverIp, serverPort, name, topics, now, nice)
      ensures net.replies == Drop(old(net.replies), |ResubscribeSequence(g.serverUrl, g.serverPort, serverIp, serverPort, name, topics, now, nice)|)
    {
      assert (this as object) != (net as object) && (g as object) != (net as object);
      NonEmptyRegistry();
      var url, port, ip, ownPort, nm, ts := g.serverUrl, g.serverPort, serverIp, serverPort, name, topics;
      var opening := PublishRequest(ip, ownPort, LogTopic, nm + " Resubscribing all subscriptions", nm, now, nice);
      var closing := PublishRequest(ip, ownPort, LogTopic, nm + " Resubscribed all subscriptions", nm, now, nice);
      var each := SubscribeAll(url, port, ts, nm);
      var first: seq<Request<string>> := if |callbacks| > 0 then [opening] else [];
      assert ResubscribeSequence(url, port, ip, ownPort, nm, ts, now, nice) == first + each + [closing];
      if |callbacks| > 0 {
        var _ := net.Send(opening);
      }
      ghost var mid := net.replies;
      ghost var s1 := net.sent;
      assert s1 == old(net.sent) + first;
      net.SendEach(each);
      ghost var s2 := net.sent;
      assert s2 == s1 + each;
      var _ := net.Send(closing);
      assert net.sent == s2 + [closing];
      Assoc4(old(net.sent), first, each, [closing]);
      DropRest(mid, |ts|);
      DropAdd(old(net.replies), |first|, |ts| + 1);
    }

    /** The calls of one message filed under key, made in order; a resubscribe system callback runs on the spot. */
    method DispatchMessage(key: string, m: Msg<Json>, now: int, nice: string)
      requires Valid()
      modifies this`invoked, net
      ensures invoked == old(invoked) + MessageCalls(m, Lookup(callbacks, key), key in systemCallbacks)
      ensures if key in systemCallbacks && Lookup(callbacks, key) == [] then
          net.sent == old(net.sent) + ResubscribeSequence(g.serverUrl, g.serverPort, serverIp, serverPort, name, topics, now, nice) &&
          net.replies == Drop(old(net.replies), |ResubscribeSequence(g.serverUrl, g.serverPort, serverIp, serverPort, name, topics, now, nice)|)
        else
          net.sent == old(net.sent) && net.replies == old(net.replies)
    {
      var users := Lookup(callbacks, key);
      var system := key in systemCallbacks;
      var calls := DeliverMessage(m, users, system);
      invoked := invoked + calls;
      if system && |users| == 0 {
        Resubscribe(now, nice);
      }
    }

    /** The middle loop of pickup: the messages filed under one key, in order. */
    method DispatchKey(key: string, msgs: seq<Msg<Json>>, now: int, nice: string)
      requires Valid()
      modifies this`invoked, net
      ensures invoked == old(invoked) + KeyCalls(msgs, Lookup(callbacks, key), key in systemCallbacks)
      ensures var k := SystemCount(KeyCalls(msgs, Lookup(callbacks, key), key in systemCallbacks));
        net.sent == old(net.sent) + Repeat(ResubscribeSequence(g.serverUrl, g.serverPort, serverIp, serverPort, name, topics, now, nice), k) &&
        net.replies == Drop(old(net.replies), |Repeat(ResubscribeSequence(g.serverUrl, g.serverPort, serverIp, serverPort, name, topics, now, nice), k)|)
    {
      assert (this as object) != (net as object) && (g as object) != (net as object);
      ghost var rs := ResubscribeSequence(g.serverUrl, g.serverPort, serverIp, serverPort, name, topics, now, nice);
      var users := Lookup(callbacks, key);
      var system := key in systemCallbacks;
      var j := 0;
      ghost var n: nat := 0;
      while j < |msgs|
        invariant 0 <= j <= |msgs|
        invariant Lookup(callbacks, key) == users && (key in systemCallbacks) == system
        invariant ResubscribeSequence(g.serverUrl, g.serverPort, serverIp, serverPort, name, topics, now, nice) == rs
        invariant n == SystemCount(KeyCalls(msgs[..j], users, system))
        invariant invoked == old(invoked) + KeyCalls(msgs[..j], users, system)
        invariant net.sent == old(net.sent) + Repeat(rs, n)
        invariant net.replies == Drop(old(net.replies), |Repeat(rs, n)|)
      {
        ghost var invoked0, sent0, replies0 := invoked, net.sent, net.replies;
        DispatchMessage(key, msgs[j], now, nice);
        assert Lookup(callbacks, key) == users && (key in systemCallbacks) == system;
        assert ResubscribeSequence(g.serverUrl, g.serverPort, serverIp, serverPort, name, topics, now, nice) == rs;
        KeyStep(old(invoked), old(net.sent), old(net.replies), msgs, j, users, system, rs,
                invoked0, sent0, replies0, invoked, net.sent, net.replies);
        n := SystemCount(KeyCalls(msgs[..j + 1], users, system));
        j := j + 1;
      }
      assert msgs[..j] == msgs;
    }

    /** The outer loop of pickup: the keys of the batch in iteration order. */
    method DispatchBatch(batch: Batch<string, Json>, now: int, nice: string)
      requires Valid()
      modifies this`invoked, net
      ensures invoked == old(invoked) + BatchCalls(batch, callbacks, systemCallbacks.Keys)
      ensures var k := SystemCount(BatchCalls(batch, callbacks, systemCallbacks.Keys));
        net.sent == old(net.sent) + Repeat(ResubscribeSequence(g.serverUrl, g.serverPort, serverIp, serverPort, name, topics, now, nice), k) &&
        net.replies == Drop(old(net.replies), |Repeat(ResubscribeSequence(g.serverUrl, g.serverPort, serverIp, serverPort, name, topics, now, nice), k)|)
    {
      assert (this as object) != (net as object) && (g as object) != (net as object);
      ghost var rs := ResubscribeSequence(g.serverUrl, g.serverPort, serverIp, serverPort, name, topics, now, nice);
      ghost var reg, system := callbacks, systemCallbacks.Keys;
      var i := 0;
      ghost var n: nat := 0;
      while i < |batch|
        invariant 0 <= i <= |batch|
        invariant callbacks == reg && systemCallbacks.Keys == system
        invariant ResubscribeSequence(g.serverUrl, g.serverPort, serverIp, serverPort, name, topics, now, nice) == rs
        invariant n == SystemCount(BatchCalls(batch[..i], reg, system))
        invariant invoked == old(invoked) + BatchCalls(batch[..i], reg, system)
        invariant net.sent == old(net.sent) + Repeat(rs, n)
        invariant net.replies == Drop(old(net.replies), |Repeat(rs, n)|)
      {
        var (key, msgs) := batch[i];
        ghost var invoked0, sent0, replies0 := invoked, net.sent, net.replies;
        DispatchKey(key, msgs, now, nice);
        assert callbacks == reg && systemCallbacks.Keys == system;
        assert ResubscribeSequence(g.serverUrl, g.serverPort, serverIp, serverPort, name, topics, now, nice) == rs;
        BatchStep(old(invoked), old(net.sent), old(net.replies), batch, i, reg, system, rs,
                  invoked0, sent0, replies0, invoked, net.sent, net.replies);
        n := SystemCount(BatchCalls(batch[..i + 1], reg, system));
        i := i + 1;
      }
      assert batch[..i] == batch;
    }

    /**
     * pickup: one PICKUP request.  A reply that cannot be used (failed
     * connection, error status, base64 error, invalid JSON) ends it quietly.
     * A ValueError from dec escapes, and so does the AttributeError,
     * TypeError or KeyError of a body of the wrong shape, after the calls
     * made before it.  The batch is dispatched key by key, message by
     * message.  The registry is left alone.
     */
    method Pickup(now: int, nice: string, parse: string -> Option<Json>) returns (outcome: Outcome)
      requires Valid()
      modifies this`invoked, net
      ensures var data := PickupData(Next(old(net.replies)), parse);
        var walk := if data.Parsed? then Walk(data.data, callbacks, systemCallbacks.Keys) else ([], false);
        var calls := BatchCalls(walk.0, callbacks, systemCallbacks.Keys);
        var resubscribes := Repeat(ResubscribeSequence(g.serverUrl, g.serverPort, serverIp, serverPort, name, topics, now, nice), SystemCount(calls));
        outcome == (if data.PickupCrash? || walk.1 then Raised else Returned) &&
        invoked == old(invoked) + calls &&
        net.sent == old(net.sent) + [PickupRequest(g.serverUrl, g.serverPort, name)] + resubscribes &&
        net.replies == Drop(Rest(old(net.replies)), |resubscribes|)
    {
      assert (this as object) != (net as object) && (g as object) != (net as object);
      var reply := net.Send(PickupRequest(g.serverUrl, g.serverPort, name));
      var data := PickupData(reply, parse);
      // An unusable reply or a crash reaches no key: nothing is dispatched.
      var walk := if data.Parsed? then Walk(data.data, callbacks, systemCallbacks.Keys) else ([], false);
      DispatchBatch(walk.0, now, nice);
      outcome := if data.PickupCrash? || walk.1 then Raised else Returned;
    }

    /** get_val: the read of a stored value under this instance's own address and name. */
    method GetVal<J>(valname: string, parse: string -> Option<J>) returns (result: GetResult<J>)
      modifies net
      ensures net.sent == old(net.sent) + [GetValRequest(serverIp, serverPort, name, valname)]
      ensures net.replies == Rest(old(net.replies))
      ensures result == GetValResult(Next(old(net.replies)), parse)
    {
      var reply := net.Send(GetValRequest(serverIp, serverPort, name, valname));
      result := GetValResult(reply, parse);
    }

    /** tick: one pickup, then 1. */
    method Tick(now: int, nice: string, parse: string -> Option<Json>) returns (outcome: Outcome, r: int)
      requires Valid()
      modifies this`invoked, net
      ensures var data := PickupData(Next(old(net.replies)), parse);
        var walk := if data.Parsed? then Walk(data.data, callbacks, systemCallbacks.Keys) else ([], false);
        var calls := BatchCalls(walk.0, callbacks, systemCallbacks.Keys);
        var resubscribes := Repeat(ResubscribeSequence(g.serverUrl, g.serverPort, serverIp, serverPort, name, topics, now, nice), SystemCount(calls));
        outcome == (if data.PickupCrash? || walk.1 then Raised else Returned) &&
        invoked == old(invoked) + calls &&
        net.sent == old(net.sent) + [PickupRequest(g.serverUrl, g.serverPort, name)] + resubscribes &&
        net.replies == Drop(Rest(old(net.replies)), |resubscribes|)
      ensures outcome == Returned ==> r == 1
    {
      outcome := Pickup(now, nice, parse);
      r := 1;
    }

    lemma NonEmptyRegistry()
      requires Valid()
      ensures |callbacks| > 0 <==> |topics| > 0
    {
      if |topics| > 0 {
        assert topics[0] in callbacks;
      }
      if |callbacks| > 0 {
        var t :| t in callbacks;
        assert t in topics;
      }
    }

  }

  /**
   * What resubscribe sends: the "Resubscribing" log line only for a
   * non-empty registry, one SUBSCRIBE per topic, the "Resubscribed" log line.
   */
  function ResubscribeSequence(url: string, port: string, ip: string, ownPort: string, name: string,
                               topics: seq<string>, now: int, nice: string): (r: seq<Request<string>>)
    ensures |r| == |topics| + (if |topics| > 0 then 2 else 1)
    ensures r[|r| - 1] == PublishRequest(ip, ownPort, LogTopic, name + " Resubscribed all subscriptions", name, now, nice)
    ensures |topics| > 0 ==> r[0] == PublishRequest(ip, ownPort, LogTopic, name + " Resubscribing all subscriptions", name, now, nice)
  {
    (if |topics| > 0
     then [PublishRequest(ip, ownPort, LogTopic, name + " Resubscribing all subscriptions", name, now, nice)]
     else []) +
    SubscribeAll(url, port, topics, name) +
    [PublishRequest(ip, ownPort, LogTopic, name + " Resubscribed all subscriptions", name, now, nice)]
  }

  /** The middle loop of pickup after one more message: the invocation log and the traffic still match the calls. */
  lemma KeyStep(i0: seq<Call<Json>>, s0: seq<Request<string>>, r0: seq<Reply<string>>,
                msgs: seq<Msg<Json>>, j: nat, users: seq<Handler>, system: bool, rs: seq<Request<string>>,
                invokedMid: seq<Call<Json>>, sentMid: seq<Request<string>>, repliesMid: seq<Reply<string>>,
                invokedAfter: seq<Call<Json>>, sentAfter: seq<Request<string>>, repliesAfter: seq<Reply<string>>)
    requires j < |msgs|
    requires invokedMid == i0 + KeyCalls(msgs[..j], users, system)
    requires sentMid == s0 + Repeat(rs, SystemCount(KeyCalls(msgs[..j], users, system)))
    requires repliesMid == Drop(r0, |Repeat(rs, SystemCount(KeyCalls(msgs[..j], users, system)))|)
    requires invokedAfter == invokedMid + MessageCalls(msgs[j], users, system)
    requires if system && users == [] then sentAfter == sentMid + rs && repliesAfter == Drop(repliesMid, |rs|)
             else sentAfter == sentMid && repliesAfter == repliesMid
    ensures invokedAfter == i0 + KeyCalls(msgs[..j + 1], users, system)
    ensures sentAfter == s0 + Repeat(rs, SystemCount(KeyCalls(msgs[..j + 1], users, system)))
    ensures repliesAfter == Drop(r0, |Repeat(rs, SystemCount(KeyCalls(msgs[..j + 1], users, system)))|)
  {
    var before := KeyCalls(msgs[..j], users, system);
    var added := MessageCalls(msgs[j], users, system);
    assert msgs[..j + 1][..j] == msgs[..j];
    assert KeyCalls(msgs[..j + 1], users, system) == before + added;
    MessageSystemCount(msgs[j], users, system);
    Assoc3(i0, before, added);
    ResubscribeStep(s0, r0, rs, before, added, system && users == [], sentMid, repliesMid, sentAfter, repliesAfter);
  }

  /** The outer loop of pickup after one more key: the invocation log and the traffic still match the calls. */
  lemma BatchStep(i0: seq<Call<Json>>, s0: seq<Request<string>>, r0: seq<Reply<string>>,
                  batch: Batch<string, Json>, i: nat, reg: map<string, seq<Handler>>, system: set<string>, rs: seq<Request<string>>,
                  invokedMid: seq<Call<Json>>, sentMid: seq<Request<string>>, repliesMid: seq<Reply<string>>,
                  invokedAfter: seq<Call<Json>>, sentAfter: seq<Request<string>>, repliesAfter: seq<Reply<string>>)
    requires i < |batch|
    requires invokedMid == i0 + BatchCalls(batch[..i], reg, system)
    requires sentMid == s0 + Repeat(rs, SystemCount(BatchCalls(batch[..i], reg, system)))
    requires repliesMid == Drop(r0, |Repeat(rs, SystemCount(BatchCalls(batch[..i], reg, system)))|)
    requires var added := KeyCalls(batch[i].1, Lookup(reg, batch[i].0), batch[i].0 in system);
      invokedAfter == invokedMid + added &&
      sentAfter == sentMid + Repeat(rs, SystemCount(added)) &&
      repliesAfter == Drop(repliesMid, |Repeat(rs, SystemCount(added))|)
    ensures invokedAfter == i0 + BatchCalls(batch[..i + 1], reg, system)
    ensures sentAfter == s0 + Repeat(rs, SystemCount(BatchCalls(batch[..i + 1], reg, system)))
    ensures repliesAfter == Drop(r0, |Repeat(rs, SystemCount(BatchCalls(batch[..i + 1], reg, system)))|)
  {
    var before := BatchCalls(batch[..i], reg, system);
    var added := KeyCalls(batch[i].1, Lookup(reg, batch[i].0), batch[i].0 in system);
    assert batch[..i + 1][..i] == batch[..i];
    assert BatchCalls(batch[..i + 1], reg, system) == before + added;
    Assoc3(i0, before, added);
    RunsAdd(s0, r0, rs, before, added, sentMid, repliesMid, sentAfter, repliesAfter);
  }

  /** Resubscribes for two runs of calls, one after the other, add up. */
  lemma RunsAdd(s0: seq<Request<string>>, r0: seq<Reply<string>>, rs: seq<Request<string>>,
                before: seq<Call<Json>>, added: seq<Call<Json>>,
                sentMid: seq<Request<string>>, repliesMid: seq<Reply<string>>,
                sentAfter: seq<Request<string>>, repliesAfter: seq<Reply<string>>)
    requires sentMid == s0 + Repeat(rs, SystemCount(before))
    requires repliesMid == Drop(r0, |Repeat(rs, SystemCount(before))|)
    requires sentAfter == sentMid + Repeat(rs, SystemCount(added))
    requires repliesAfter == Drop(repliesMid, |Repeat(rs, SystemCount(added))|)
    ensures sentAfter == s0 + Repeat(rs, SystemCount(before + added))
    ensures repliesAfter == Drop(r0, |Repeat(rs, SystemCount(before + added))|)
  {
    var a, b := SystemCount(before), SystemCount(added);
    SystemCountAppend(before, added);
    RepeatAppend(rs, a, b);
    Assoc3(s0, Repeat(rs, a), Repeat(rs, b));
    DropAdd(r0, |Repeat(rs, a)|, |Repeat(rs, b)|);
  }

  /**
   * One more message in a pickup: when it fell back to the system callback
   * one more resubscribe went out, and the totals still match the calls.
   */
  lemma ResubscribeStep(s0: seq<Request<string>>, r0: seq<Reply<string>>, rs: seq<Request<string>>,
                        before: seq<Call<Json>>, added: seq<Call<Json>>, fallback: bool,
                        sentMid: seq<Request<string>>, repliesMid: seq<Reply<string>>,
                        sentAfter: seq<Request<string>>, repliesAfter: seq<Reply<string>>)
    requires sentMid == s0 + Repeat(rs, SystemCount(before))
    requires repliesMid == Drop(r0, |Repeat(rs, SystemCount(before))|)
    requires SystemCount(added) == if fallback then 1 else 0
    requires fallback ==> sentAfter == sentMid + rs && repliesAfter == Drop(repliesMid, |rs|)
    requires !fallback ==> sentAfter == sentMid && repliesAfter == repliesMid
    ensures sentAfter == s0 + Repeat(rs, SystemCount(before + added))
    ensures repliesAfter == Drop(r0, |Repeat(rs, SystemCount(before + added))|)
  {
    if fallback {
      assert Repeat(rs, SystemCount(added)) == rs by {
        assert rs + [] == rs;
      }
    } else {
      assert Repeat(rs, SystemCount(added)) == [];
      assert sentMid + [] == sentMid;
    }
    RunsAdd(s0, r0, rs, before, added, sentMid, repliesMid, sentAfter, repliesAfter);
  }

  lemma Assoc3<T>(a: seq<T>, b: seq<T>, c: seq<T>)
    ensures a + b + c == a + (b + c)
  {
  }

  lemma Assoc4<T>(a: seq<T>, b: seq<T>, c: seq<T>, d: seq<T>)
    ensures a + b + c + d == a + (b + c + d)
  {
  }
}

=== FILE: pycodec.dfy ===
/**
 * The Python client's wire codec (Moustique.enc / Moustique.dec): base64 of
 * the UTF-8 bytes first, then the letter rotation through str.translate.
 */
module PyCodec {

  import opened Wrappers
  import opened Text
  import Base64
  import Utf8
  import opened Rotation

  /**
   * How dec fails.  Base64Error is binascii.Error, which the client's except
   * clauses catch; ValueError (a non-ASCII argument to b64decode, or a
   * UnicodeDecodeError from bytes.decode()) is not caught by them.
   */
  datatype DecError = Base64Error | ValueError

  /** Moustique.enc: "" for an empty argument, else base64 of the UTF-8 bytes, rotated. */
  function Enc(plaintext: string): (r: string)
    ensures plaintext == "" <==> r == ""
    ensures Base64.IsEncodingText(Rot13(r))
  {
    if plaintext == "" then ""
    else Translate(Base64.Encode(Utf8.Encode(plaintext)), Plain(), Rotated())
  }

  /**
   * Moustique.dec: rotate back, base64-decode without validation (stray
   * characters skipped, reading stopped at the padding that ends a group),
   * then decode the bytes as UTF-8.
   */
  function Dec(encoded: string): (r: Result<string, DecError>)
    ensures encoded == "" ==> r == Ok("")
    ensures r.Ok? && encoded != "" ==> Base64.DecodeNonStrict(Rot13(encoded)) == Some(Utf8.Encode(r.value))
    ensures r == Err(Base64Error) <==> IsAscii(Rot13(encoded)) && Base64.DecodeNonStrict(Rot13(encoded)).None?
  {
    if encoded == "" then Ok("")
    else
      var text := Translate(encoded, Rotated(), Plain());
      TranslateBackward(encoded);
      if !IsAscii(text) then Err(ValueError)
      else
        match Base64.DecodeNonStrict(text)
        case None => Err(Base64Error)
        case Some(b) =>
          match Utf8.Decode(b)
          case None => Err(ValueError)
          case Some(s) =>
            Utf8.DecodeEncodeBytes(b);
            Ok(s)
  }

  /** enc is the letter rotation applied to base64 of the UTF-8 bytes. */
  lemma EncIsRotatedBase64(plaintext: string)
    ensures Enc(plaintext) == Rot13(Base64.Encode(Utf8.Encode(plaintext)))
  {
    TranslateForward(Base64.Encode(Utf8.Encode(plaintext)));
  }

  /** Every string survives enc followed by dec. */
  lemma DecEnc(s: string)
    ensures Dec(Enc(s)) == Ok(s)
  {
    if s != "" {
      var b := Utf8.Encode(s);
      var e := Base64.Encode(b);
      EncIsRotatedBase64(s);
      TranslateBackward(Enc(s));
      Rot13Involutive(e);
      Base64.EncodingTextIsAscii(e);
      Base64.NonStrictEncode(b);
      Utf8.DecodeEncode(s);
    }
  }

  /**
   * A character b64decode skips (an ASCII character outside the alphabet,
   * other than '='; the rotation leaves it alone) after a non-empty argument
   * changes nothing: dec(enc(s) + "\n") is s, say.
   */
  lemma DecSkipsJunk(x: string, c: char)
    requires x != "" && c as int < 128 && !Base64.IsAlphabet(c) && c != '='
    ensures Dec(x + [c]) == Dec(x)
  {
    TranslateBackward(x);
    TranslateBackward(x + [c]);
    Rot13Append(x, [c]);
    assert Rot13([c]) == [c];
    var t := Rot13(x);
    assert IsAscii(t + [c]) <==> IsAscii(t) by {
      assert forall i :: 0 <= i < |t| ==> (t + [c])[i] == t[i];
    }
    Base64.NonStrictSkips(t, c, []);
    assert t + [c] + [] == t + [c] && t + [] == t;
  }
}

=== FILE: ratelimit.dfy ===
/**
 * The per-user sliding-window rate limiter (ratelimit.go).  Each user has
 * a limit of requests per minute (0 meaning unlimited) and the list of the
 * times of its recent requests.  The clock reading is the now parameter.
 */
module RateLimit {

  /** Length of the window, in seconds. */
  const Window: int := 60

  /** The timestamps of ts later than cutoff, in their order. */
  function Recent(ts: seq<int>, cutoff: int): (r: seq<int>)
    ensures |r| <= |ts|
    decreases |ts|
  {
    if |ts| == 0 then []
    else
      var last := |ts| - 1;
      var r := Recent(ts[..last], cutoff);
      if ts[last] > cutoff then r + [ts[last]] else r
  }

  /** Recent keeps exactly the later timestamps. */
  lemma {:induction false} RecentMembers(ts: seq<int>, cutoff: int)
    ensures forall t :: t in Recent(ts, cutoff) <==> t in ts && t > cutoff
    decreases |ts|
  {
    if |ts| > 0 {
      var last := |ts| - 1;
      RecentMembers(ts[..last], cutoff);
      assert ts == ts[..last] + [ts[last]];
    }
  }

  /** A list that is already recent stays as it is. */
  lemma {:induction false} RecentKeeps(ts: seq<int>, cutoff: int)
    requires forall i :: 0 <= i < |ts| ==> ts[i] > cutoff
    ensures Recent(ts, cutoff) == ts
    decreases |ts|
  {
    if |ts| > 0 {
      var last := |ts| - 1;
      RecentKeeps(ts[..last], cutoff);
      assert ts[..last] + [ts[last]] == ts;
    }
  }

  /** Pruning twice is pruning once. */
  lemma RecentIdempotent(ts: seq<int>, cutoff: int)
    ensures Recent(Recent(ts, cutoff), cutoff) == Recent(ts, cutoff)
  {
    var r := Recent(ts, cutoff);
    RecentMembers(ts, cutoff);
    assert forall i :: 0 <= i < |r| ==> r[i] in r;
    RecentKeeps(r, cutoff);
  }

  /** The limit that applies to user: its own if set, else the default. */
  function LimitFor(userLimits: map<string, int>, defaultLimit: int, user: string): (l: int)
    ensures user in userLimits ==> l == userLimits[user]
    ensures user !in userLimits ==> l == defaultLimit
  {
    if user in userLimits then userLimits[user] else defaultLimit
  }

  /** What Cleanup leaves: each list pruned, users left with nothing dropped. */
  function Pruned(requests: map<string, seq<int>>, cutoff: int): (r: map<string, seq<int>>)
    ensures forall u :: u in r <==> u in requests && Recent(requests[u], cutoff) != []
    ensures forall u :: u in r ==> r[u] == Recent(requests[u], cutoff)
  {
    map u | u in requests && Recent(requests[u], cutoff) != [] :: Recent(requests[u], cutoff)
  }

  /** After Cleanup every stored list is non-empty and holds only recent times. */
  lemma PrunedRecent(requests: map<string, seq<int>>, cutoff: int)
    ensures forall u :: u in Pruned(requests, cutoff) ==>
      Pruned(requests, cutoff)[u] != [] &&
      forall i :: 0 <= i < |Pruned(requests, cutoff)[u]| ==> Pruned(requests, cutoff)[u][i] > cutoff
  {
    forall u | u in Pruned(requests, cutoff)
      ensures forall i :: 0 <= i < |Pruned(requests, cutoff)[u]| ==> Pruned(requests, cutoff)[u][i] > cutoff
    {
      var r := Pruned(requests, cutoff)[u];
      RecentMembers(requests[u], cutoff);
      assert forall i :: 0 <= i < |r| ==> r[i] in r;
    }
  }

  /** The later timestamps of ts, by a loop. */
  method FilterRecent(ts: seq<int>, cutoff: int) returns (valid: seq<int>)
    ensures valid == Recent(ts, cutoff)
  {
    valid := [];
    var i := 0;
    while i < |ts|
      invariant 0 <= i <= |ts|
      invariant valid == Recent(ts[..i], cutoff)
    {
      assert ts[..i + 1][..i] == ts[..i];
      if ts[i] > cutoff {
        valid := valid + [ts[i]];
      }
      i := i + 1;
    }
    assert ts[..i] == ts;
  }

  /** The later timestamps of ts, counted by a loop. */
  method CountRecent(ts: seq<int>, cutoff: int) returns (count: int)
    ensures count == |Recent(ts, cutoff)|
  {
    count := 0;
    var i := 0;
    while i < |ts|
      invariant 0 <= i <= |ts|
      invariant count == |Recent(ts[..i], cutoff)|
    {
      assert ts[..i + 1][..i] == ts[..i];
      if ts[i] > cutoff {
        count := count + 1;
      }
      i := i + 1;
    }
    assert ts[..i] == ts;
  }

  /** Cleanup's loop over the users: the pruned map. */
  method PruneAll(requests: map<string, seq<int>>, cutoff: int) returns (r: map<string, seq<int>>)
    ensures r == Pruned(requests, cutoff)
  {
    r := requests;
    var remaining := requests.Keys;
    while remaining != {}
      invariant remaining <= requests.Keys
      invariant forall u :: u in r <==> u in requests && (u in remaining || Recent(requests[u], cutoff) != [])
      invariant forall u :: u in r ==> r[u] == if u in remaining then requests[u] else Recent(requests[u], cutoff)
      decreases remaining
    {
      var u :| u in remaining;
      var valid := FilterRecent(requests[u], cutoff);
      if |valid| == 0 {
        r := r - {u};
      } else {
        r := r[u := valid];
      }
      remaining := remaining - {u};
    }
    assert forall u :: u in r <==> u in Pruned(requests, cutoff);
  }

  class RateLimiter {
    var userLimits: map<string, int>
    var userRequests: map<string, seq<int>>
    const defaultLimit: int

    /** NewRateLimiter: no user limits and no recorded requests. */
    constructor (defaultLimit: int)
      ensures this.defaultLimit == defaultLimit
      ensures userLimits == map[] && userRequests == map[]
    {
      this.defaultLimit := defaultLimit;
      userLimits := map[];
      userRequests := map[];
    }

    /** SetUserLimit: the user's limit is replaced; 0 means unlimited. */
    method SetUserLimit(user: string, limit: int)
      modifies this
      ensures userLimits == old(userLimits)[user := limit]
      ensures userRequests == old(userRequests)
    {
      userLimits := userLimits[user := limit];
    }

    /** GetUserLimit: the user's own limit, else the default. */
    method GetUserLimit(user: string) returns (limit: int)
      ensures limit == LimitFor(userLimits, defaultLimit, user)
    {
      if user in userLimits {
        return userLimits[user];
      }
      limit := defaultLimit;
    }

    /**
     * AllowRequest: unlimited users pass and leave no trace; otherwise the
     * user's times older than the window are dropped, and the request
     * passes, and is recorded, only while fewer than limit remain.
     */
    method AllowRequest(user: string, now: int) returns (allowed: bool)
      modifies this
      ensures userLimits == old(userLimits)
      ensures LimitFor(userLimits, defaultLimit, user) == 0 ==> allowed && userRequests == old(userRequests)
      ensures LimitFor(userLimits, defaultLimit, user) != 0 ==>
        var valid := Recent(if user in old(userRequests) then old(userRequests)[user] else [], now - Window);
        if |valid| >= LimitFor(userLimits, defaultLimit, user)
        then !allowed && userRequests == old(userRequests)[user := valid]
        else allowed && userRequests == old(userRequests)[user := valid + [now]]
    {
      var limit := defaultLimit;
      if user in userLimits {
        limit := userLimits[user];
      }
      if limit == 0 {
        return true;
      }
      var oneMinuteAgo := now - Window;
      var requests: seq<int> := [];
      if user in userRequests {
        requests := userRequests[user];
      }
      var valid := FilterRecent(requests, oneMinuteAgo);
      if |valid| >= limit {
        userRequests := userRequests[user := valid];
        return false;
      }
      valid := valid + [now];
      userRequests := userRequests[user := valid];
      allowed := true;
    }

    /** GetUserRequestCount: how many of the user's times fall in the window; nothing changes. */
    method GetUserRequestCount(user: string, now: int) returns (count: int)
      ensures user !in userRequests ==> count == 0
      ensures user in userRequests ==> count == |Recent(userRequests[user], now - Window)|
    {
      if user !in userRequests {
        return 0;
      }
      count := CountRecent(userRequests[user], now - Window);
    }

    /** Cleanup: every list pruned to the window; users left with nothing dropped. */
    method Cleanup(now: int)
      modifies this
      ensures userRequests == Pruned(old(userRequests), now - Window)
      ensures userLimits == old(userLimits)
    {
      userRequests := PruneAll(userRequests, now - Window);
    }
  }

  /**
   * A request that passes under a positive limit leaves the user with at
   * most limit requests in the window, counting this one.
   */
  lemma AllowedWithinLimit(requests: seq<int>, now: int, limit: int)
    requires limit > 0
    requires |Recent(requests, now - Window)| < limit
    ensures |Recent(requests, now - Window) + [now]| <= limit
    ensures |Recent(Recent(requests, now - Window) + [now], now - Window)| <= limit
  {
    var valid := Recent(requests, now - Window);
    RecentIdempotent(requests, now - Window);
    assert (valid + [now])[..|valid|] == valid;
  }

  /** A refused request records nothing new: the window still holds at least limit times. */
  lemma RefusedKeepsCount(requests: seq<int>, now: int, limit: int)
    requires |Recent(requests, now - Window)| >= limit
    ensures |Recent(Recent(requests, now - Window), now - Window)| >= limit
  {
    RecentIdempotent(requests, now - Window);
  }
}

=== FILE: rotation.dfy ===
/**
 * The 13-place rotation of ASCII letters that every Moustique codec applies,
 * both in its arithmetic form (the Go server's rot13, the CLI's byte-wise
 * rot13) and in its table form (Python's str.translate, the Go client's and
 * the Java client's rotate, the JavaScript replace callback).
 */
module Rotation {

  import opened Wrappers
  import opened Text

  /** Shifts an ASCII letter 13 places within its case; every other character is kept. */
  function Rot13Char(c: char): (r: char)
    ensures IsUpper(r) <==> IsUpper(c)
    ensures IsLower(r) <==> IsLower(c)
    ensures !IsAsciiLetter(c) ==> r == c
    ensures IsAsciiLetter(c) ==> r as int == c as int + 13 || r as int == c as int - 13
  {
    if IsUpper(c) then ('A' as int + (c as int - 'A' as int + 13) % 26) as char
    else if IsLower(c) then ('a' as int + (c as int - 'a' as int + 13) % 26) as char
    else c
  }

  lemma Rot13CharInvolutive(c: char)
    ensures Rot13Char(Rot13Char(c)) == c
  {
  }

  /** Rotation of every character of a string (one character per Unicode scalar value). */
  function Rot13(s: string): (r: string)
    ensures |r| == |s|
    ensures forall i :: 0 <= i < |s| ==> r[i] == Rot13Char(s[i])
  {
    seq(|s|, i requires 0 <= i < |s| => Rot13Char(s[i]))
  }

  lemma {:induction false} Rot13Involutive(s: string)
    ensures Rot13(Rot13(s)) == s
  {
    var r := Rot13(Rot13(s));
    forall i | 0 <= i < |s| ensures r[i] == s[i] {
      Rot13CharInvolutive(s[i]);
    }
  }

  lemma Rot13Ascii(s: string)
    requires IsAscii(s)
    ensures IsAscii(Rot13(s))
  {
  }

  lemma Rot13Append(a: string, b: string)
    ensures Rot13(a + b) == Rot13(a) + Rot13(b)
  {
  }

  /** The same shift on one octet, as the command-line client applies it. */
  function Rot13Byte(b: Byte): (r: Byte)
    ensures 'A' as int <= b <= 'Z' as int <==> 'A' as int <= r <= 'Z' as int
    ensures 'a' as int <= b <= 'z' as int <==> 'a' as int <= r <= 'z' as int
    ensures r as char == Rot13Char(b as char)
  {
    if 'a' as int <= b <= 'z' as int then 'a' as int + (b - 'a' as int + 13) % 26
    else if 'A' as int <= b <= 'Z' as int then 'A' as int + (b - 'A' as int + 13) % 26
    else b
  }

  function Rot13Bytes(s: seq<Byte>): (r: seq<Byte>)
    ensures |r| == |s|
    ensures forall i :: 0 <= i < |s| ==> r[i] == Rot13Byte(s[i])
  {
    seq(|s|, i requires 0 <= i < |s| => Rot13Byte(s[i]))
  }

  lemma {:induction false} Rot13BytesInvolutive(s: seq<Byte>)
    ensures Rot13Bytes(Rot13Bytes(s)) == s
  {
    var r := Rot13Bytes(Rot13Bytes(s));
    forall i | 0 <= i < |s| ensures r[i] == s[i] {
      Rot13CharInvolutive(s[i] as char);
    }
  }

  /** On the ASCII range the byte-wise and the character-wise rotations agree. */
  lemma {:induction false} Rot13BytesAscii(s: string)
    requires IsAscii(s)
    ensures Rot13Bytes(AsciiBytes(s)) == AsciiBytes(Rot13(s))
  {
    var l := Rot13Bytes(AsciiBytes(s));
    forall i | 0 <= i < |s| ensures l[i] == AsciiBytes(Rot13(s))[i] {
      assert (s[i] as int) as char == s[i];
    }
  }

  // ---------------------------------------------------------------------
  // Table form

  /**
   * The plain table "ABCDEFGHIJKLMNOPQRSTUVWXYZabcdefghijklmnopqrstuvwxyz",
   * written out by position.
   */
  function Plain(): (t: string)
    ensures |t| == 52
  {
    seq(52, i requires 0 <= i < 52 =>
      if i < 26 then ('A' as int + i) as char else ('a' as int + i - 26) as char)
  }

  /** The rotated table "NOPQRSTUVWXYZABCDEFGHIJKLMnopqrstuvwxyzabcdefghijklm". */
  function Rotated(): (t: string)
    ensures |t| == 52
  {
    seq(52, i requires 0 <= i < 52 =>
      if i < 13 then ('N' as int + i) as char
      else if i < 26 then ('A' as int + i - 13) as char
      else if i < 39 then ('n' as int + i - 26) as char
      else ('a' as int + i - 39) as char)
  }

  /**
   * Replaces each character found in `from` by the character at the same
   * position in `to`, and copies every other character.
   */
  function Translate(s: string, from: string, to: string): (r: string)
    requires |from| <= |to|
    ensures |r| == |s|
    ensures forall i :: 0 <= i < |s| && s[i] !in from ==> r[i] == s[i]
    ensures forall i :: 0 <= i < |s| && s[i] in from ==> r[i] in to
  {
    seq(|s|, i requires 0 <= i < |s| =>
      match IndexOf(from, s[i])
      case Some(k) => to[k]
      case None => s[i])
  }

  /** The rotation as a shift by 13 up or down, without the remainder. */
  lemma Rot13CharShift(c: char)
    ensures IsUpper(c) ==> Rot13Char(c) as int == if c < 'N' then c as int + 13 else c as int - 13
    ensures IsLower(c) ==> Rot13Char(c) as int == if c < 'n' then c as int + 13 else c as int - 13
  {
  }

  /** The rotated table holds, at each position, the rotation of the plain table's letter there. */
  lemma RotatedAt(i: nat)
    requires i < 52
    ensures Rotated()[i] == Rot13Char(Plain()[i])
  {
    Rot13CharShift(Plain()[i]);
  }

  /** Where a letter sits in the plain table. */
  function PlainPos(c: char): (k: nat)
    requires IsAsciiLetter(c)
    ensures k < 52 && Plain()[k] == c
  {
    if IsUpper(c) then c as int - 'A' as int else c as int - 'a' as int + 26
  }

  /** Both tables hold letters only. */
  lemma TablesAreLetters(i: nat)
    requires i < 52
    ensures IsAsciiLetter(Plain()[i]) && IsAsciiLetter(Rotated()[i])
  {
  }

  /** A letter found in the plain table faces its rotation in the rotated table; nothing else is found. */
  lemma PlainIndex(c: char)
    ensures IsAsciiLetter(c) <==> IndexOf(Plain(), c).Some?
    ensures IsAsciiLetter(c) ==> Rotated()[IndexOf(Plain(), c).value] == Rot13Char(c)
  {
    var r := IndexOf(Plain(), c);
    if IsAsciiLetter(c) {
      var k := PlainPos(c);
      assert Plain()[k] == c;
      RotatedAt(r.value);
    } else if r.Some? {
      TablesAreLetters(r.value);
      assert false;
    }
  }

  /** A letter found in the rotated table faces its rotation in the plain table; nothing else is found. */
  lemma RotatedIndex(c: char)
    ensures IsAsciiLetter(c) <==> IndexOf(Rotated(), c).Some?
    ensures IsAsciiLetter(c) ==> Plain()[IndexOf(Rotated(), c).value] == Rot13Char(c)
  {
    var r := IndexOf(Rotated(), c);
    if IsAsciiLetter(c) {
      var k := PlainPos(Rot13Char(c));
      RotatedAt(k);
      Rot13CharInvolutive(c);
      assert Rotated()[k] == c;
      RotatedAt(r.value);
      Rot13CharInvolutive(Plain()[r.value]);
    } else if r.Some? {
      TablesAreLetters(r.value);
      assert false;
    }
  }

  /** Translating from the plain table to the rotated one is the 13-place rotation. */
  lemma {:induction false} TranslateForward(s: string)
    ensures Translate(s, Plain(), Rotated()) == Rot13(s)
  {
    var r := Translate(s, Plain(), Rotated());
    forall i | 0 <= i < |s| ensures r[i] == Rot13(s)[i] {
      PlainIndex(s[i]);
    }
  }

  /** Translating back, from the rotated table to the plain one, is the same rotation. */
  lemma {:induction false} TranslateBackward(s: string)
    ensures Translate(s, Rotated(), Plain()) == Rot13(s)
  {
    var r := Translate(s, Rotated(), Plain());
    forall i | 0 <= i < |s| ensures r[i] == Rot13(s)[i] {
      RotatedIndex(s[i]);
    }
  }

  /** The two table pairs are inverse permutations of the letters. */
  lemma TranslateTablesInverse(s: string)
    ensures Translate(Translate(s, Plain(), Rotated()), Rotated(), Plain()) == s
  {
    TranslateForward(s);
    TranslateBackward(Rot13(s));
    Rot13Involutive(s);
  }
}

=== FILE: security.dfy ===
/**
 * The peer allowlist (security.go), for IPv4 peers.  Addresses are dotted
 * quads read as 32-bit numbers; a network is a masked base address and a
 * prefix length, and holds the addresses that agree with the base on the
 * first prefix-length bits (section 3.1 of RFC 4632).
 */
module Security {

  import opened Wrappers
  import opened Text
  import opened Decimal

  // ---------------------------------------------------------------------
  // IPv4 addresses and networks

  function Pow2(n: nat): (p: nat)
    ensures p >= 1
  {
    if n == 0 then 1 else 2 * Pow2(n - 1)
  }

  /** One dotted-quad field: one to three digits, no leading zero, at most 255. */
  function ParseOctet(s: string): (r: Option<nat>)
    ensures r.Some? ==> r.value < 256
  {
    if |s| == 0 || |s| > 3 || !AllDigits(s) || (|s| > 1 && s[0] == '0') then None
    else
      var v := DigitsValue(s);
      if v <= 255 then Some(v) else None
  }

  /** The four fields of a dotted quad, or None. */
  function ParseOctets(s: string): (r: Option<seq<nat>>)
    ensures r.Some? ==> |r.value| == 4 && forall i :: 0 <= i < 4 ==> r.value[i] < 256
  {
    var parts := Split(s, '.');
    if |parts| != 4 then None
    else
      var a, b, c, d := ParseOctet(parts[0]), ParseOctet(parts[1]), ParseOctet(parts[2]), ParseOctet(parts[3]);
      if a.Some? && b.Some? && c.Some? && d.Some? then Some([a.value, b.value, c.value, d.value])
      else None
  }

  /** The 32-bit number of four octets, most significant first. */
  function Address(o: seq<nat>): (a: nat)
    requires |o| == 4 && forall i :: 0 <= i < 4 ==> o[i] < 256
    ensures a < 0x1_0000_0000
  {
    o[0] * 0x100_0000 + o[1] * 0x1_0000 + o[2] * 0x100 + o[3]
  }

  /** net.ParseIP, restricted to IPv4: the address as a number. */
  function ParseIP(s: string): (r: Option<nat>)
    ensures r.Some? ==> r.value < 0x1_0000_0000
  {
    var o := ParseOctets(s);
    if o.None? then None else Some(Address(o.value))
  }

  /** A network: its base address with the host bits cleared, and its prefix length. */
  datatype Net = Net(base: int, bits: nat)

  /** The network holds the address when both agree on the first bits bits. */
  predicate NetContains(n: Net, a: nat)
    requires n.bits <= 32
  {
    a / Pow2(32 - n.bits) == n.base / Pow2(32 - n.bits)
  }

  /**
   * A prefix length as net.ParseCIDR reads it with its dtoi helper: a
   * non-empty run of decimal digits, leading zeros allowed, worth at most
   * 32.  (dtoi also gives up once the value reaches 0xFFFFFF, which a run
   * worth at most 32 never does.)
   */
  function ParseBits(s: string): (r: Option<nat>)
    ensures r.Some? ==> r.value <= 32 && |s| > 0 && AllDigits(s)
    ensures r.Some? <==> |s| > 0 && AllDigits(s) && DigitsValue(s) <= 32
  {
    if |s| == 0 || !AllDigits(s) then None
    else
      var v := DigitsValue(s);
      if v <= 32 then Some(v) else None
  }

  /** Every prefix length written out in decimal reads back. */
  lemma BitsOfDecimal(n: nat)
    requires n <= 32
    ensures ParseBits(NatToString(n)) == Some(n)
  {
    DigitsValueNatToString(n);
  }

  /** A leading zero changes nothing: "/08" is the same prefix as "/8". */
  lemma {:induction false} BitsLeadingZero(s: string)
    requires |s| > 0
    ensures ParseBits("0" + s) == ParseBits(s)
  {
    if AllDigits(s) {
      assert AllDigits("0" + s);
      DigitsValueLeadingZero(s);
    } else {
      var i :| 0 <= i < |s| && !IsDigit(s[i]);
      assert ("0" + s)[i + 1] == s[i];
    }
  }

  lemma {:induction false} DigitsValueLeadingZero(s: string)
    requires AllDigits(s)
    ensures AllDigits("0" + s) && DigitsValue("0" + s) == DigitsValue(s)
    decreases |s|
  {
    var z := "0" + s;
    assert AllDigits(z);
    if |s| > 0 {
      var init := s[..|s| - 1];
      assert z[..|z| - 1] == "0" + init;
      assert z[|z| - 1] == s[|s| - 1];
      DigitsValueLeadingZero(init);
    }
  }

  /** The entries "10.0.0.0/08" and "10.0.0.0/008" name the network 10.0.0.0/8. */
  lemma PaddedPrefixes()
    ensures ParseBits("08") == Some(8) && ParseBits("008") == Some(8)
  {
    BitsOfDecimal(8);
    assert NatToString(8) == "8";
    BitsLeadingZero("8");
    assert "0" + "8" == "08";
    BitsLeadingZero("08");
    assert "0" + "08" == "008";
  }

  /** net.ParseCIDR, restricted to IPv4: address '/' prefix length, the base masked. */
  function ParseCIDR(s: string): (r: Option<Net>)
    ensures r.Some? ==> '/' in s && r.value.bits <= 32
    ensures r.Some? <==> ('/' in s &&
      ParseIP(s[..IndexOf(s, '/').value]).Some? && ParseBits(s[IndexOf(s, '/').value + 1..]).Some?)
    ensures r.Some? ==> var i := IndexOf(s, '/').value;
      r.value.bits == ParseBits(s[i + 1..]).value && r.value.base % Pow2(32 - r.value.bits) == 0 &&
      NetContains(r.value, ParseIP(s[..i]).value)
  {
    match IndexOf(s, '/')
    case None => None
    case Some(i) =>
      var addr, bits := ParseIP(s[..i]), ParseBits(s[i + 1..]);
      if addr.None? || bits.None? then None
      else
        var p := Pow2(32 - bits.value);
        assert addr.value / p * p / p == addr.value / p && addr.value / p * p % p == 0 by {
          MaskDivides(addr.value, p);
        }
        Some(Net(addr.value / p * p, bits.value))
  }

  /** Clearing the low bits keeps the high ones. */
  lemma MaskDivides(a: nat, p: nat)
    requires p > 0
    ensures a / p * p / p == a / p && a / p * p % p == 0
  {
    var q := a / p;
    var x := q * p;
    var d, m := x / p, x % p;
    assert (q - d) * p == m;
    // A non-zero multiple of p lies outside 0 <= m < p.
    if q - d >= 1 {
      assert false;
    } else if q - d <= -1 {
      assert false;
    }
  }

  lemma Pow2At22()
    ensures Pow2(22) == 0x40_0000
  {
    assert Pow2(2) == 4;
    assert Pow2(4) == 16;
    assert Pow2(6) == 64;
    assert Pow2(8) == 256;
    assert Pow2(10) == 1024;
    assert Pow2(12) == 4096;
    assert Pow2(14) == 0x4000;
    assert Pow2(16) == 0x1_0000;
    assert Pow2(18) == 0x4_0000;
    assert Pow2(20) == 0x10_0000;
  }

  // ---------------------------------------------------------------------
  // Tailscale's range, 100.64.0.0/10

  /** 100.64.0.0/10: the base 0x6440_0000 is 100.64.0.0, the first ten bits the prefix. */
  const TailscaleNet: Net := Net(0x6440_0000, 10)

  /** isTailscaleIP: the host parses and lies in 100.64.0.0/10. */
  predicate IsTailscaleIP(host: string) {
    ParseIP(host).Some? && NetContains(TailscaleNet, ParseIP(host).value)
  }

  /** One more digit on the right: ten times the value, plus the digit. */
  lemma DigitsSnoc(s: string, d: nat)
    requires AllDigits(s) && d < 10
    ensures AllDigits(s + [DigitChar(d)])
    ensures DigitsValue(s + [DigitChar(d)]) == DigitsValue(s) * 10 + d
  {
    assert (s + [DigitChar(d)])[..|s|] == s;
  }

  /** The value of a field of at most three digits, written as hundreds, tens and units. */
  lemma OctetValue(s: string, h: nat, t: nat, u: nat)
    requires h < 10 && t < 10 && u < 10 && h * 100 + t * 10 + u <= 255
    requires s == (if h > 0 then [DigitChar(h), DigitChar(t)] else if t > 0 then [DigitChar(t)] else []) + [DigitChar(u)]
    ensures ParseOctet(s) == Some(h * 100 + t * 10 + u)
  {
    var e: string := [];
    if h > 0 {
      DigitsSnoc(e, h);
      assert e + [DigitChar(h)] == [DigitChar(h)];
      DigitsSnoc([DigitChar(h)], t);
      assert [DigitChar(h)] + [DigitChar(t)] == [DigitChar(h), DigitChar(t)];
      DigitsSnoc([DigitChar(h), DigitChar(t)], u);
    } else if t > 0 {
      DigitsSnoc(e, t);
      assert e + [DigitChar(t)] == [DigitChar(t)];
      DigitsSnoc([DigitChar(t)], u);
    } else {
      DigitsSnoc(e, u);
      assert e + [DigitChar(u)] == s;
    }
  }

  /** In 100.64.0.0/10 means first octet 100 and second octet 64 to 127. */
  lemma TailscaleOctets(o: seq<nat>)
    requires |o| == 4 && forall i :: 0 <= i < 4 ==> o[i] < 256
    ensures NetContains(TailscaleNet, Address(o)) <==> o[0] == 100 && 64 <= o[1] < 128
  {
    Pow2At22();
    var q, r := o[1] / 64, o[1] % 64;
    var rest := r * 0x1_0000 + o[2] * 0x100 + o[3];
    assert Address(o) == (o[0] * 4 + q) * 0x40_0000 + rest;
    assert 0 <= rest < 0x40_0000;
    assert Address(o) / 0x40_0000 == o[0] * 4 + q;
    assert TailscaleNet.base / 0x40_0000 == 401;
  }

  // ---------------------------------------------------------------------
  // The checker

  /** The exact addresses of a peer list: the entries without '/'. */
  function ExactPeers(peers: seq<string>): (r: set<string>)
    ensures forall p :: p in r <==> p in peers && '/' !in p
  {
    set p | p in peers && '/' !in p
  }

  /** The networks of a peer list: the entries with '/' that parse, in order. */
  function PeerNets(peers: seq<string>): (r: seq<Net>)
    ensures forall i :: 0 <= i < |r| ==> r[i].bits <= 32
    decreases |peers|
  {
    if |peers| == 0 then []
    else
      var last := |peers| - 1;
      var r := PeerNets(peers[..last]);
      var n := ParseCIDR(peers[last]);
      if '/' in peers[last] && n.Some? then r + [n.value] else r
  }

  /** A network is listed exactly when some listed peer parses to it. */
  lemma {:induction false} PeerNetsMembers(peers: seq<string>)
    ensures forall n :: n in PeerNets(peers) <==> exists p :: p in peers && ParseCIDR(p) == Some(n)
    decreases |peers|
  {
    if |peers| > 0 {
      var last := |peers| - 1;
      PeerNetsMembers(peers[..last]);
      assert peers == peers[..last] + [peers[last]];
    }
  }

  /** NewSecurityChecker's loop: entries with '/' become networks, unparseable ones dropped; the rest exact addresses. */
  method ClassifyPeers(peers: seq<string>) returns (ips: set<string>, nets: seq<Net>)
    ensures ips == ExactPeers(peers)
    ensures nets == PeerNets(peers)
  {
    ips := {};
    nets := [];
    var i := 0;
    while i < |peers|
      invariant 0 <= i <= |peers|
      invariant ips == ExactPeers(peers[..i])
      invariant nets == PeerNets(peers[..i])
    {
      var peer := peers[i];
      PeerStep(peers, i);
      if '/' in peer {
        var n := ParseCIDR(peer);
        if n.Some? {
          nets := nets + [n.value];
        }
      } else {
        ips := ips + {peer};
      }
      i := i + 1;
    }
    assert peers[..i] == peers;
  }

  /** One more peer: added to the exact addresses, or its network appended. */
  lemma PeerStep(peers: seq<string>, i: nat)
    requires i < |peers|
    ensures ExactPeers(peers[..i + 1]) == ExactPeers(peers[..i]) + (if '/' in peers[i] then {} else {peers[i]})
    ensures PeerNets(peers[..i + 1]) ==
      PeerNets(peers[..i]) + (if '/' in peers[i] && ParseCIDR(peers[i]).Some? then [ParseCIDR(peers[i]).value] else [])
  {
    assert peers[..i + 1][..i] == peers[..i];
    assert peers[..i + 1] == peers[..i] + [peers[i]];
  }

  /** Who IsPeerAllowed lets in, given the exact addresses and networks. */
  predicate Allowed(ips: set<string>, nets: seq<Net>, host: string)
    requires forall i :: 0 <= i < |nets| ==> nets[i].bits <= 32
  {
    host != "" && host != "UNKNOWN" &&
    (host == "127.0.0.1" || host == "::1" || host == "localhost" ||
     HasPrefix(host, "192.168.") ||
     host in ips ||
     (ParseIP(host).Some? && exists i :: 0 <= i < |nets| && NetContains(nets[i], ParseIP(host).value)) ||
     (HasPrefix(host, "100.") && IsTailscaleIP(host)))
  }

  class SecurityChecker {
    const allowedIPs: set<string>
    const allowedNets: seq<Net>

    ghost predicate Valid() {
      forall i :: 0 <= i < |allowedNets| ==> allowedNets[i].bits <= 32
    }

    /** NewSecurityChecker: the peer list split into exact addresses and networks. */
    constructor (allowedPeers: seq<string>)
      ensures Valid()
      ensures allowedIPs == ExactPeers(allowedPeers) && allowedNets == PeerNets(allowedPeers)
    {
      var ips, nets := ClassifyPeers(allowedPeers);
      allowedIPs := ips;
      allowedNets := nets;
    }

    /** IsPeerAllowed: the checks in order, the networks tried one by one. */
    method IsPeerAllowed(peerHost: string) returns (allowed: bool)
      requires Valid()
      ensures allowed == Allowed(allowedIPs, allowedNets, peerHost)
    {
      if peerHost == "" || peerHost == "UNKNOWN" {
        return false;
      }
      if peerHost == "127.0.0.1" || peerHost == "::1" || peerHost == "localhost" {
        return true;
      }
      if HasPrefix(peerHost, "192.168.") {
        return true;
      }
      if peerHost in allowedIPs {
        return true;
      }
      var parsed := ParseIP(peerHost);
      if parsed.Some? {
        var i := 0;
        while i < |allowedNets|
          invariant 0 <= i <= |allowedNets|
          invariant forall j :: 0 <= j < i ==> !NetContains(allowedNets[j], parsed.value)
        {
          if NetContains(allowedNets[i], parsed.value) {
            return true;
          }
          i := i + 1;
        }
      }
      if HasPrefix(peerHost, "100.") {
        return IsTailscaleIP(peerHost);
      }
      allowed := false;
    }
  }

  // ---------------------------------------------------------------------
  // What the allowlist promises

  /** "" and "UNKNOWN" are refused even when listed. */
  lemma BlankRefused(peers: seq<string>, host: string)
    requires host == "" || host == "UNKNOWN"
    ensures !Allowed(ExactPeers(peers), PeerNets(peers), host)
  {
  }

  /** A listed exact address is let in, unless it is "" or "UNKNOWN". */
  lemma ListedAllowed(peers: seq<string>, host: string)
    requires host in peers && '/' !in host && host != "" && host != "UNKNOWN"
    ensures Allowed(ExactPeers(peers), PeerNets(peers), host)
  {
  }

  /** An address inside a listed network is let in. */
  lemma InListedNetAllowed(peers: seq<string>, p: string, host: string)
    requires p in peers && ParseCIDR(p).Some? && ParseIP(host).Some?
    requires NetContains(ParseCIDR(p).value, ParseIP(host).value)
    ensures Allowed(ExactPeers(peers), PeerNets(peers), host)
  {
    PeerNetsMembers(peers);
    var nets := PeerNets(peers);
    assert ParseCIDR(p).value in nets;
    ParsedNotBlank(host);
  }

  /** A text that parses as an address is neither "" nor "UNKNOWN". */
  lemma ParsedNotBlank(host: string)
    requires ParseIP(host).Some?
    ensures host != "" && host != "UNKNOWN"
  {
    if '.' !in host {
      SplitWhole(host, '.');
    }
  }

  /** A host beginning "100." that parses has first octet 100. */
  lemma FirstOctetHundred(host: string, o: seq<nat>)
    requires HasPrefix(host, "100.") && ParseOctets(host) == Some(o)
    ensures o[0] == 100
  {
    assert host == "100" + ['.'] + host[4..];
    SplitCons("100", host[4..], '.');
    assert Split(host, '.')[0] == "100";
    OctetValue("100", 1, 0, 0);
  }

  /** A host "100.x.y.z" that is not listed is let in exactly when x is 64 to 127. */
  lemma TailscaleDecides(host: string, o: seq<nat>)
    requires HasPrefix(host, "100.") && ParseOctets(host) == Some(o)
    ensures Allowed({}, [], host) <==> 64 <= o[1] < 128
  {
    TailscaleOctets(o);
    FirstOctetHundred(host, o);
    assert host[..4] == "100.";
    assert host[1] == '0';
  }

  /** A text without the separator is one part. */
  lemma SplitWhole(s: string, sep: char)
    requires sep !in s
    ensures Split(s, sep) == [s]
  {
  }
}

=== FILE: server.dfy ===
/**
 * The multi-tenant server's bookkeeping (server.go): the user table, the
 * registry of per-user brokers, the routing of a request to a public page,
 * an admin action or a broker, and the parameter checks of each broker
 * endpoint.  Sockets, the HTTP parser, files and the clock are left out:
 * the decoded form fields, the peer host, the time and the outcome of each
 * file-system step come in as parameters; SHA-256 is the hash parameter.
 */
module Server {

  import opened Wrappers
  import opened Text
  import opened BrokerSpec
  import Decimal
  import Storage
  import Broker

  // ---------------------------------------------------------------------
  // Users

  /** The admin password every ADMIN/ request is checked against. */
  const AdminPassword: string := "admin123"

  /** ValidateUser's rule: the user is known and the password hashes to its stored hash. */
  predicate Accepts(users: map<string, string>, hash: string -> string, username: string, password: string) {
    username in users && users[username] == hash(password)
  }

  /** Adding a user makes its password the one accepted for it and leaves every other user as it was. */
  lemma AddedUserAccepted(users: map<string, string>, hash: string -> string, username: string, password: string)
    ensures Accepts(users[username := hash(password)], hash, username, password)
    ensures forall other, p :: other != username ==>
      (Accepts(users[username := hash(password)], hash, other, p) <==> Accepts(users, hash, other, p))
  {
  }

  /** Once deleted, a user is refused whatever the password. */
  lemma DeletedUserRefused(users: map<string, string>, hash: string -> string, username: string, password: string)
    ensures !Accepts(users - {username}, hash, username, password)
  {
  }

  class UserAuth {
    var users: map<string, string>
    const hash: string -> string

    constructor (hash: string -> string)
      ensures users == map[] && this.hash == hash
    {
      users := map[];
      this.hash := hash;
    }

    /** AddUser: the user's stored hash is replaced; saving the table to disk is left out. */
    method AddUser(username: string, password: string)
      modifies this
      ensures users == old(users)[username := hash(password)]
    {
      users := users[username := hash(password)];
    }

    /** ValidateUser: false for an unknown user, else whether the hashes agree. */
    method ValidateUser(username: string, password: string) returns (ok: bool)
      ensures ok == Accepts(users, hash, username, password)
      ensures username !in users ==> !ok
    {
      if username !in users {
        return false;
      }
      ok := users[username] == hash(password);
    }

    /** The admin delete: exactly that user is removed. */
    method DeleteUser(username: string)
      modifies this
      ensures users == old(users) - {username}
    {
      users := users - {username};
    }
  }

  // ---------------------------------------------------------------------
  // The broker registry

  class BrokerManager {
    var brokers: map<string, Broker.Broker>
    var defaultBroker: Option<Broker.Broker>
    var contextSet: bool
    const marshal: Message -> Option<string>
    const unmarshal: string -> Option<Message>

    /** Every broker, the public one included. */
    ghost function Brokers(): set<Broker.Broker>
      reads this
    {
      brokers.Values + (if defaultBroker.Some? then {defaultBroker.value} else {})
    }

    /**
     * Every registered broker keeps its own invariant; each user has a
     * broker and a store of its own, and the public broker is none of them.
     */
    ghost predicate Valid()
      reads this, Brokers()
    {
      (forall b :: b in Brokers() ==> b.Valid()) &&
      (forall u, v :: u in brokers && v in brokers && u != v ==>
        brokers[u] != brokers[v] && brokers[u].db != brokers[v].db) &&
      (defaultBroker.Some? ==> forall u :: u in brokers ==>
        brokers[u] != defaultBroker.value && brokers[u].db != defaultBroker.value.db)
    }

    /** NewBrokerManager: no brokers and no context yet. */
    constructor (marshal: Message -> Option<string>, unmarshal: string -> Option<Message>)
      ensures Valid()
      ensures brokers == map[] && defaultBroker == None && !contextSet
      ensures this.marshal == marshal && this.unmarshal == unmarshal
    {
      brokers := map[];
      defaultBroker := None;
      contextSet := false;
      this.marshal := marshal;
      this.unmarshal := unmarshal;
    }

    /** A broker over a fresh store loaded from rows; a load error is only logged. */
    method NewLoadedBroker(rows: seq<Storage.Row>) returns (b: Broker.Broker)
      ensures fresh(b) && fresh(b.db) && b.Valid()
      ensures b.marshal == marshal && b.unmarshal == unmarshal
    {
      var db := new Storage.Database();
      var _ := db.LoadAll(rows);
      b := new Broker.Broker(db, marshal, unmarshal);
    }

    /**
     * InitializeDefault: the context is set; with public access allowed and
     * the data directory and store created (setupErr None), a public broker
     * is made; a failure is only logged.
     */
    method InitializeDefault(allowPublic: bool, setupErr: Option<string>, rows: seq<Storage.Row>)
      requires Valid()
      modifies this
      ensures Valid()
      ensures contextSet && brokers == old(brokers)
      ensures allowPublic && setupErr.None? ==> defaultBroker.Some? && fresh(defaultBroker.value)
      ensures !(allowPublic && setupErr.None?) ==> defaultBroker == old(defaultBroker)
    {
      contextSet := true;
      if allowPublic && setupErr.None? {
        var b := NewLoadedBroker(rows);
        defaultBroker := Some(b);
      }
    }

    /**
     * GetOrCreateBroker: the registered broker for a known user; otherwise
     * an error with nothing registered when there is no context or a
     * directory or store cannot be created, else a new broker registered
     * under the user.
     */
    method GetOrCreateBroker(username: string, dirErr: Option<string>, dbErr: Option<string>, rows: seq<Storage.Row>)
      returns (r: Result<Broker.Broker, string>)
      requires Valid()
      modifies this
      ensures Valid()
      ensures defaultBroker == old(defaultBroker) && contextSet == old(contextSet)
      ensures username in old(brokers) ==> r == Ok(old(brokers)[username]) && brokers == old(brokers)
      ensures username !in old(brokers) && !contextSet ==>
        r == Err("broker manager context not initialized") && brokers == old(brokers)
      ensures username !in old(brokers) && contextSet && dirErr.Some? ==>
        r == Err("failed to create user data directory: " + dirErr.value) && brokers == old(brokers)
      ensures username !in old(brokers) && contextSet && dirErr.None? && dbErr.Some? ==>
        r == Err("failed to create database: " + dbErr.value) && brokers == old(brokers)
      ensures username !in old(brokers) && contextSet && dirErr.None? && dbErr.None? ==>
        r.Ok? && fresh(r.value) && fresh(r.value.db) && brokers == old(brokers)[username := r.value]
      ensures r.Ok? ==> r.value.Valid()
    {
      if username in brokers {
        return Ok(brokers[username]);
      }
      if !contextSet {
        return Err("broker manager context not initialized");
      }
      if dirErr.Some? {
        return Err("failed to create user data directory: " + dirErr.value);
      }
      if dbErr.Some? {
        return Err("failed to create database: " + dbErr.value);
      }
      var b := NewLoadedBroker(rows);
      brokers := brokers[username := b];
      r := Ok(b);
    }

    /** GetBroker: the registered broker, if any. */
    method GetBroker(username: string) returns (r: Option<Broker.Broker>)
      ensures username in brokers ==> r == Some(brokers[username])
      ensures username !in brokers ==> r == None
    {
      if username in brokers {
        return Some(brokers[username]);
      }
      r := None;
    }
  }

  // ---------------------------------------------------------------------
  // Routing

  /** A form field as Go's map lookup gives it: "" when absent. */
  function Param(params: map<string, string>, key: string): (v: string)
    ensures key !in params ==> v == ""
    ensures key in params ==> v == params[key]
  {
    if key in params then params[key] else ""
  }

  predicate IsSlash(c: char) {
    c == '/'
  }

  /** The request path with every leading and trailing '/' removed. */
  function RoutePath(rawPath: string): (path: string)
    ensures |path| > 0 ==> path[0] != '/' && path[|path| - 1] != '/'
  {
    TrimBy(rawPath, IsSlash)
  }

  datatype Page = WebAdmin | Version | FileVersion | SuperAdmin
  datatype AdminAction = ListUsers | AddUser | DeleteUser | ServerLog | UnknownAdmin

  /** Where handleRequest sends a request. */
  datatype Decision =
    | Public(page: Page)
    | Admin(action: AdminAction)
    | Refused(reason: string)
    | PublicBroker
    | UserBroker(username: string)

  predicate IsPublicPage(path: string) {
    path == "" || path == "VERSION" || path == "FILEVERSION" || path == "superadmin"
  }

  function AdminActionOf(path: string): AdminAction {
    if path == "ADMIN/LIST_USERS" then ListUsers
    else if path == "ADMIN/ADD_USER" then AddUser
    else if path == "ADMIN/DELETE_USER" then DeleteUser
    else if path == "ADMIN/SERVER_LOG" then ServerLog
    else UnknownAdmin
  }

  /**
   * handleRequest's routing: the public pages need nothing; ADMIN/ paths
   * need the admin password; everything else needs a user and password
   * the user table accepts, or, when either is missing, public access.
   */
  function Route(rawPath: string, params: map<string, string>, allowPublic: bool,
                 users: map<string, string>, hash: string -> string): (d: Decision)
    ensures d.Public? <==> IsPublicPage(RoutePath(rawPath))
    ensures d.Admin? ==>
      (HasPrefix(RoutePath(rawPath), "ADMIN/") && hash(Param(params, "admin_password")) == hash(AdminPassword))
    ensures d.UserBroker? ==>
      (d.username == Param(params, "username") && d.username != "" &&
       Accepts(users, hash, d.username, Param(params, "password")))
    ensures d.PublicBroker? ==>
      (allowPublic && !HasPrefix(RoutePath(rawPath), "ADMIN/") &&
       (Param(params, "username") == "" || Param(params, "password") == ""))
  {
    var path := RoutePath(rawPath);
    if path == "" then Public(WebAdmin)
    else if path == "VERSION" then Public(Version)
    else if path == "FILEVERSION" then Public(FileVersion)
    else if path == "superadmin" then Public(SuperAdmin)
    else if HasPrefix(path, "ADMIN/") then
      if hash(Param(params, "admin_password")) != hash(AdminPassword) then Refused("Invalid admin password")
      else Admin(AdminActionOf(path))
    else
      var username, password := Param(params, "username"), Param(params, "password");
      if username == "" || password == "" then
        if allowPublic then PublicBroker else Refused("Username and password required")
      else if !Accepts(users, hash, username, password) then Refused("Invalid credentials")
      else UserBroker(username)
  }

  /**
   * A broker endpoint is only reached with the right credentials: without a
   * user or password only when public access is on, otherwise only for
   * the user the table accepts.
   */
  lemma BrokerNeedsCredentials(rawPath: string, params: map<string, string>, allowPublic: bool,
                               users: map<string, string>, hash: string -> string)
    requires !IsPublicPage(RoutePath(rawPath)) && !HasPrefix(RoutePath(rawPath), "ADMIN/")
    ensures var d := Route(rawPath, params, allowPublic, users, hash);
      (d.PublicBroker? || d.UserBroker?) <==>
        (if Param(params, "username") == "" || Param(params, "password") == "" then allowPublic
         else Accepts(users, hash, Param(params, "username"), Param(params, "password")))
  {
  }

  /** The public pages answer whatever credentials come with them. */
  lemma PublicPagesIgnoreCredentials(rawPath: string, params: map<string, string>, params': map<string, string>,
                                     allowPublic: bool, users: map<string, string>, hash: string -> string)
    requires IsPublicPage(RoutePath(rawPath))
    ensures Route(rawPath, params, allowPublic, users, hash) == Route(rawPath, params', !allowPublic, map[], hash)
  {
  }

  /** The broker endpoints. */
  datatype Endpoint = Pickup | Post | Subscribe | PutVal | GetVal | GetValsByRegex
                    | Status | Stats | Clients | Posters | Log | Topics

  function EndpointOf(path: string): Option<Endpoint> {
    if path == "PICKUP" then Some(Pickup)
    else if path == "POST" then Some(Post)
    else if path == "SUBSCRIBE" then Some(Subscribe)
    else if path == "PUTVAL" then Some(PutVal)
    else if path == "GETVAL" then Some(GetVal)
    else if path == "GETVALSBYREGEX" then Some(GetValsByRegex)
    else if path == "STATUS" then Some(Status)
    else if path == "STATS" then Some(Stats)
    else if path == "CLIENTS" then Some(Clients)
    else if path == "POSTERS" then Some(Posters)
    else if path == "LOG" then Some(Log)
    else if path == "TOPICS" then Some(Topics)
    else None
  }

  /** The time a POST or PUTVAL carries: updated_time when it parses as a base-10 int64, else now. */
  function UpdatedTime(params: map<string, string>, now: int): (t: int)
    ensures Decimal.ParseInt64(Param(params, "updated_time")).None? ==> t == now
    ensures Decimal.ParseInt64(Param(params, "updated_time")).Some? ==>
      t == Decimal.ParseInt64(Param(params, "updated_time")).value
  {
    var text := Param(params, "updated_time");
    if text != "" then
      var parsed := Decimal.ParseInt64(text);
      if parsed.Some? then parsed.value else now
    else now
  }

  /** A client that sends its own 64-bit time in decimal gets that time, not the server's. */
  lemma UpdatedTimeSent(params: map<string, string>, now: int, t: int)
    requires Decimal.MinInt64 <= t <= Decimal.MaxInt64
    ensures UpdatedTime(params["updated_time" := Decimal.IntToString(t)], now) == t
  {
    Decimal.ParseIntToString(t);
  }

  // ---------------------------------------------------------------------
  // Replies

  /** What the server answers; JSON bodies are given by the value they encode. */
  datatype Response =
    | Success
    | Report                                  // HTML pages, version, statistics and logs
    | Messages(queue: Queue)
    | Value(msg: Message)
    | Values(values: map<string, Message>)
    | ClientList(clients: seq<Client>)
    | PosterList(posters: seq<Provider>)
    | TopicList(topics: seq<string>)
    | Reply(status: string, message: string)
    | NotFound
    | BadRequest
    | Unauthorized(reason: string)
    | ServerError(error: string)

  /** handlePickup: 404 without a client; otherwise the drained queue. */
  method HandlePickup(b: Broker.Broker, params: map<string, string>, peerHost: string, now: int)
    returns (resp: Response)
    modifies b
    ensures Param(params, "client") == "" ==> resp == NotFound && unchanged(b)
    ensures Param(params, "client") != "" ==>
      var c := Param(params, "client");
      resp == Messages(QueueOf(old(b.messageQueue), c) + Broker.SystemFor(old(b.clients), b.systemMessageQueue, c)) &&
      b.messageQueue == old(b.messageQueue)[c := map[]]
    ensures b.subscriptions == old(b.subscriptions) && b.topicExplosionCache == old(b.topicExplosionCache)
  {
    var client := Param(params, "client");
    if client == "" {
      return NotFound;
    }
    var messages := b.Pickup(client, peerHost, now);
    resp := Messages(messages);
  }

  /** handlePost: 404 without a topic or message; otherwise the message published with its time. */
  method HandlePost(b: Broker.Broker, params: map<string, string>, peerHost: string, now: int)
    returns (resp: Response)
    requires b.Valid()
    modifies b, b.db
    ensures b.Valid()
    ensures Param(params, "topic") == "" || Param(params, "message") == "" ==>
      resp == NotFound && unchanged(b) && unchanged(b.db)
    ensures Param(params, "topic") != "" && Param(params, "message") != "" ==>
      var topic := Param(params, "topic");
      var msg := Broker.Published(topic, Param(params, "message"), Param(params, "from"), peerHost,
                           UpdatedTime(params, now), Broker.Targets(topic), old(b.subscriptions));
      var stored := b.marshal(msg);
      (stored.Some? <==> resp == Success) && (stored.None? ==> resp.ServerError?) &&
      b.db.values == (if stored.Some? then old(b.db.values)[topic := stored.value] else old(b.db.values)) &&
      b.providers == old(b.providers)[msg.from := Broker.Posted(old(b.providers), msg.from, topic, msg, peerHost, UpdatedTime(params, now))] &&
      b.messageQueue == FanOut(old(b.messageQueue), Broker.Targets(topic), old(b.subscriptions), msg) &&
      b.subscriptions == old(b.subscriptions) && b.clients == old(b.clients)
  {
    var topic := Param(params, "topic");
    var message := Param(params, "message");
    var from := Param(params, "from");
    if topic == "" || message == "" {
      return NotFound;
    }
    var updatedTime := UpdatedTime(params, now);
    var err := b.Publish(topic, message, from, peerHost, updatedTime);
    if err.Some? {
      return ServerError(err.value);
    }
    resp := Success;
  }

  /** handleSubscribe: 404 without a topic or client; otherwise the client listed under the topic. */
  method HandleSubscribe(b: Broker.Broker, params: map<string, string>, peerHost: string, now: int)
    returns (resp: Response)
    requires b.Valid()
    modifies b
    ensures b.Valid()
    ensures Param(params, "topic") == "" || Param(params, "client") == "" ==> resp == NotFound && unchanged(b)
    ensures Param(params, "topic") != "" && Param(params, "client") != "" ==>
      resp == Success && b.subscriptions == Broker.Listed(old(b.subscriptions), Param(params, "topic"), Param(params, "client"))
  {
    var topic := Param(params, "topic");
    var client := Param(params, "client");
    if topic == "" || client == "" {
      return NotFound;
    }
    // Subscribe refuses only an empty client name, excluded above, so the
    // error reply of handleSubscribe cannot occur.
    var _ := b.Subscribe(topic, client, peerHost, now);
    resp := Success;
  }

  /** handlePutVal: 404 without a name, or with neither val nor message; otherwise the value stored. */
  method HandlePutVal(b: Broker.Broker, params: map<string, string>, now: int)
    returns (resp: Response)
    modifies b.db
    ensures Param(params, "valname") == "" || (Param(params, "val") == "" && Param(params, "message") == "") ==>
      resp == NotFound && unchanged(b.db)
    ensures Param(params, "valname") != "" && (Param(params, "val") != "" || Param(params, "message") != "") ==>
      var v := if Param(params, "val") == "" then Param(params, "message") else Param(params, "val");
      var stored := b.marshal(Message(Param(params, "from"), "", v, UpdatedTime(params, now), None, ""));
      (stored.Some? ==> resp == Success && b.db.values == old(b.db.values)[Param(params, "valname") := stored.value]) &&
      (stored.None? ==> resp.ServerError? && b.db.values == old(b.db.values))
  {
    var valname := Param(params, "valname");
    var val := Param(params, "val");
    var message := Param(params, "message");
    var from := Param(params, "from");
    if valname == "" || (val == "" && message == "") {
      return NotFound;
    }
    var updatedTime := UpdatedTime(params, now);
    var err := b.PutValue(valname, val, message, from, updatedTime);
    if err.Some? {
      return ServerError(err.value);
    }
    resp := Success;
  }

  /** handleGetVal: 404 without a topic and for a value that cannot be read; otherwise the message. */
  method HandleGetVal(b: Broker.Broker, params: map<string, string>) returns (resp: Response)
    ensures Param(params, "topic") == "" ==> resp == NotFound
    ensures Param(params, "topic") != "" ==>
      var r := Broker.ReadValue(b.db.values, Param(params, "topic"), b.unmarshal);
      resp == if r.Ok? then Value(r.value) else NotFound
  {
    var topic := Param(params, "topic");
    if topic == "" {
      return NotFound;
    }
    var value := b.GetValue(topic);
    if value.Err? {
      return NotFound;
    }
    resp := Value(value.value);
  }

  /** handleGetValsByRegex: 404 without a pattern; an invalid pattern is an error; otherwise the matching values. */
  method HandleGetValsByRegex(b: Broker.Broker, params: map<string, string>, compile: string -> Option<string -> bool>)
    returns (resp: Response)
    ensures Param(params, "topic") == "" ==> resp == NotFound
    ensures Param(params, "topic") != "" && compile(Param(params, "topic")).None? ==> resp.ServerError?
    ensures Param(params, "topic") != "" && compile(Param(params, "topic")).Some? ==>
      resp == Values(Broker.ReadMatching(b.db.values, compile(Param(params, "topic")).value, b.unmarshal))
  {
    var pattern := Param(params, "topic");
    if pattern == "" {
      return NotFound;
    }
    var values := b.GetValuesByRegex(compile(pattern));
    if values.Err? {
      return ServerError(values.error);
    }
    resp := Values(values.value);
  }

  /** The environment a request runs in: the outcomes of the file-system steps and the regexp compiler. */
  datatype Io = Io(dirErr: Option<string>, dbErr: Option<string>, rows: seq<Storage.Row>,
                   compile: string -> Option<string -> bool>)

  /** The endpoint switch of handleRequest, for a broker already chosen; an unknown path is 404. */
  method HandleEndpoint(b: Broker.Broker, path: string, params: map<string, string>, peerHost: string,
                        now: int, io: Io) returns (resp: Response)
    requires b.Valid()
    modifies b, b.db
    ensures b.Valid()
    ensures EndpointOf(path).None? ==> resp == NotFound && unchanged(b) && unchanged(b.db)
  {
    match EndpointOf(path)
    case None =>
      resp := NotFound;
    case Some(Pickup) =>
      resp := HandlePickup(b, params, peerHost, now);
    case Some(Post) =>
      resp := HandlePost(b, params, peerHost, now);
    case Some(Subscribe) =>
      resp := HandleSubscribe(b, params, peerHost, now);
    case Some(PutVal) =>
      resp := HandlePutVal(b, params, now);
    case Some(GetVal) =>
      resp := HandleGetVal(b, params);
    case Some(GetValsByRegex) =>
      resp := HandleGetValsByRegex(b, params, io.compile);
    case Some(Clients) =>
      var clients := b.GetClients();
      resp := ClientList(clients);
    case Some(Posters) =>
      var posters := b.GetPosters();
      resp := PosterList(posters);
    case Some(Topics) =>
      var topics := b.GetTopics();
      resp := TopicList(topics);
    case Some(_) =>
      resp := Report;
  }

  // ---------------------------------------------------------------------
  // The server

  class Server {
    const userAuth: UserAuth
    const manager: BrokerManager
    const allowPublic: bool

    ghost predicate Valid()
      reads this, manager, manager.Brokers()
    {
      manager.Valid()
    }

    ghost function Objects(): set<object>
      reads this, manager
    {
      {userAuth, manager} + manager.Brokers() + set b | b in manager.Brokers() :: b.db
    }

    constructor (hash: string -> string, allowPublic: bool,
                 marshal: Message -> Option<string>, unmarshal: string -> Option<Message>)
      ensures Valid() && fresh(Objects())
      ensures userAuth.users == map[] && userAuth.hash == hash && this.allowPublic == allowPublic
      ensures manager.brokers == map[] && manager.defaultBroker == None && !manager.contextSet
    {
      userAuth := new UserAuth(hash);
      manager := new BrokerManager(marshal, unmarshal);
      this.allowPublic := allowPublic;
    }

    /** The admin add: 400 without a name or password; an existing user is never overwritten. */
    method AdminAddUser(params: map<string, string>) returns (resp: Response)
      modifies userAuth
      ensures var u, p := Param(params, "username"), Param(params, "password");
        (u == "" || p == "" ==> resp == BadRequest && userAuth.users == old(userAuth.users)) &&
        (u != "" && p != "" && u in old(userAuth.users) ==>
          resp == Reply("error", "User '" + u + "' already exists") && userAuth.users == old(userAuth.users)) &&
        (u != "" && p != "" && u !in old(userAuth.users) ==>
          resp == Reply("success", "User '" + u + "' created") &&
          userAuth.users == old(userAuth.users)[u := userAuth.hash(p)])
    {
      var username := Param(params, "username");
      var password := Param(params, "password");
      if username == "" || password == "" {
        return BadRequest;
      }
      if username in userAuth.users {
        return Reply("error", "User '" + username + "' already exists");
      }
      userAuth.AddUser(username, password);
      resp := Reply("success", "User '" + username + "' created");
    }

    /** The admin delete: 400 without a name; otherwise exactly that user is removed. */
    method AdminDeleteUser(params: map<string, string>) returns (resp: Response)
      modifies userAuth
      ensures Param(params, "username") == "" ==> resp == BadRequest && userAuth.users == old(userAuth.users)
      ensures Param(params, "username") != "" ==>
        resp == Reply("success", "User '" + Param(params, "username") + "' deleted") &&
        userAuth.users == old(userAuth.users) - {Param(params, "username")}
    {
      var username := Param(params, "username");
      if username == "" {
        return BadRequest;
      }
      userAuth.DeleteUser(username);
      resp := Reply("success", "User '" + username + "' deleted");
    }

    /**
     * handleRequest, from the decoded fields on: the routing decision, the
     * admin actions, the choice of broker and the endpoint.  A refused
     * request is answered 401 and creates no broker.
     */
    method HandleRequest(rawPath: string, params: map<string, string>, peerHost: string, now: int, io: Io)
      returns (resp: Response)
      requires Valid()
      modifies Objects()
      ensures Valid()
      ensures var d := Route(rawPath, params, allowPublic, old(userAuth.users), userAuth.hash);
        (d.Refused? ==> resp == Unauthorized(d.reason) && manager.brokers == old(manager.brokers) &&
                        userAuth.users == old(userAuth.users)) &&
        (d.Public? ==> resp == Report && manager.brokers == old(manager.brokers)) &&
        (d.PublicBroker? ==> manager.brokers == old(manager.brokers) &&
                             (old(manager.defaultBroker).None? ==> resp == ServerError("public access not configured"))) &&
        (d.UserBroker? ==>
          (forall u :: u in old(manager.brokers) ==> u in manager.brokers && manager.brokers[u] == old(manager.brokers)[u]) &&
          manager.brokers.Keys <= old(manager.brokers).Keys + {d.username})
      ensures manager.defaultBroker == old(manager.defaultBroker)
    {
      var d := Route(rawPath, params, allowPublic, userAuth.users, userAuth.hash);
      var path := RoutePath(rawPath);
      match d
      case Public(_) =>
        resp := Report;
      case Refused(reason) =>
        resp := Unauthorized(reason);
      case Admin(action) =>
        resp := ServeAdmin(action, params);
      case PublicBroker =>
        resp := ServePublic(path, params, peerHost, now, io);
      case UserBroker(username) =>
        resp := ServeUser(username, path, params, peerHost, now, io);
    }

    /** An admin request whose password was accepted; an unknown action is 404. */
    method ServeAdmin(action: AdminAction, params: map<string, string>) returns (resp: Response)
      modifies userAuth
      ensures action == UnknownAdmin ==> resp == NotFound
      ensures action != AddUser && action != DeleteUser ==> userAuth.users == old(userAuth.users)
    {
      match action
      case AddUser =>
        resp := AdminAddUser(params);
      case DeleteUser =>
        resp := AdminDeleteUser(params);
      case UnknownAdmin =>
        resp := NotFound;
      case _ =>
        resp := Report;
    }

    /** A request without credentials, on the public broker if there is one. */
    method ServePublic(path: string, params: map<string, string>, peerHost: string, now: int, io: Io)
      returns (resp: Response)
      requires Valid()
      modifies manager.Brokers(), set b | b in manager.Brokers() :: b.db
      ensures Valid()
      ensures manager.defaultBroker.None? ==> resp == ServerError("public access not configured")
    {
      if manager.defaultBroker.None? {
        return ServerError("public access not configured");
      }
      var b := manager.defaultBroker.value;
      resp := HandleEndpoint(b, path, params, peerHost, now, io);
    }

    /** A request with accepted credentials, on the user's broker, created on first use. */
    method ServeUser(username: string, path: string, params: map<string, string>, peerHost: string, now: int, io: Io)
      returns (resp: Response)
      requires Valid()
      modifies manager
      modifies if username in manager.brokers then {manager.brokers[username]} else {}
      modifies if username in manager.brokers then {manager.brokers[username].db} else {}
      ensures Valid()
      ensures manager.defaultBroker == old(manager.defaultBroker)
      ensures forall u :: u in old(manager.brokers) ==> u in manager.brokers && manager.brokers[u] == old(manager.brokers)[u]
      ensures manager.brokers.Keys <= old(manager.brokers).Keys + {username}
      ensures forall u :: u in old(manager.brokers) && u != username ==>
        unchanged(manager.brokers[u], manager.brokers[u].db)
      ensures manager.defaultBroker.Some? ==> unchanged(manager.defaultBroker.value, manager.defaultBroker.value.db)
      ensures username !in old(manager.brokers) && !manager.contextSet ==>
        resp == ServerError("failed to get broker: " + "broker manager context not initialized") &&
        manager.brokers == old(manager.brokers)
      ensures username !in old(manager.brokers) && manager.contextSet && io.dirErr.Some? ==>
        resp == ServerError("failed to get broker: " + ("failed to create user data directory: " + io.dirErr.value)) &&
        manager.brokers == old(manager.brokers)
      ensures username !in old(manager.brokers) && manager.contextSet && io.dirErr.None? && io.dbErr.Some? ==>
        resp == ServerError("failed to get broker: " + ("failed to create database: " + io.dbErr.value)) &&
        manager.brokers == old(manager.brokers)
      ensures username in old(manager.brokers) || (manager.contextSet && io.dirErr.None? && io.dbErr.None?) ==>
        username in manager.brokers && (EndpointOf(path).None? ==> resp == NotFound)
    {
      var r := manager.GetOrCreateBroker(username, io.dirErr, io.dbErr, io.rows);
      if r.Err? {
        return ServerError("failed to get broker: " + r.error);
      }
      resp := HandleEndpoint(r.value, path, params, peerHost, now, io);
    }
  }
}

=== FILE: servercodec.dfy ===
/**
 * The server's wire codec (utils.go): rot13 over runes, then standard
 * base64; decoding falls back to the raw argument when it is not valid
 * base64.  Also the older encoder kept in a comment there, which used the
 * opposite order, and the decoding of request form fields.
 */
module ServerCodec {

  import opened Wrappers
  import opened Text
  import Base64
  import Utf8
  import opened Rotation
  import PyCodec
  import GoCodec

  /** What rot13 computes: the runes of s rotated, written back as UTF-8. */
  function RuneRot13(s: seq<Byte>): seq<Byte>
  {
    Utf8.Encode(Rot13(Utf8.DecodeLenient(s)))
  }

  /** rot13: appends one rune at a time, letters shifted 13 places within their case. */
  method Rot13Runes(s: seq<Byte>) returns (r: seq<Byte>)
    ensures r == RuneRot13(s)
  {
    var runes := Utf8.DecodeLenient(s);
    var result: string := [];
    var i := 0;
    while i < |runes|
      invariant 0 <= i <= |runes|
      invariant result == Rot13(runes[..i])
    {
      var c := runes[i];
      if 'a' <= c <= 'z' {
        result := result + [('a' as int + (c as int - 'a' as int + 13) % 26) as char];
      } else if 'A' <= c <= 'Z' {
        result := result + [('A' as int + (c as int - 'A' as int + 13) % 26) as char];
      } else {
        result := result + [c];
      }
      assert runes[..i + 1] == runes[..i] + [c];
      i := i + 1;
    }
    assert runes[..i] == runes;
    r := Utf8.Encode(result);
  }

  /** rot13 undoes itself on well-formed text. */
  lemma RuneRot13Involutive(t: string)
    ensures RuneRot13(RuneRot13(Utf8.Encode(t))) == Utf8.Encode(t)
  {
    Utf8.DecodeLenientEncode(t);
    Utf8.DecodeLenientEncode(Rot13(t));
    Rot13Involutive(t);
  }

  /** encodeROT13Base64: rotate, then base64. */
  function Encode(text: seq<Byte>): (r: seq<Byte>)
    ensures text == [] ==> r == []
    ensures Base64.IsEncodingText(Latin1(r))
  {
    var e := Base64.Encode(RuneRot13(text));
    Base64.EncodingTextIsAscii(e);
    Latin1AsciiBytes(e);
    AsciiBytes(e)
  }

  /**
   * decodeROT13Base64: base64-decode (line breaks skipped), then rotate; the
   * argument itself when DecodeString reports an error.
   */
  function Decode(encoded: seq<Byte>): (r: seq<Byte>)
    ensures encoded == [] ==> r == []
    ensures !Base64.DecodeString(Latin1(encoded)).complete ==> r == encoded
  {
    var d := Base64.DecodeString(Latin1(encoded));
    if d.complete then RuneRot13(d.bytes) else encoded
  }

  /** Every well-formed UTF-8 string survives the server's encode and decode. */
  lemma DecodeEncode(t: string)
    ensures Decode(Encode(Utf8.Encode(t))) == Utf8.Encode(t)
  {
    var rotated := RuneRot13(Utf8.Encode(t));
    var e := Base64.Encode(rotated);
    Base64.EncodingTextIsAscii(e);
    Latin1AsciiBytes(e);
    Base64.DecodeStringEncode(rotated);
    RuneRot13Involutive(t);
  }

  /** The Go client's Enc and the server's encoder agree on every input. */
  lemma GoClientEncAgrees(s: seq<Byte>)
    ensures GoCodec.Enc(s) == Encode(s)
  {
    TranslateForward(Utf8.DecodeLenient(s));
    assert GoCodec.RotateText(s) == RuneRot13(s);
    if s == [] {
      assert Utf8.DecodeLenient(s) == "";
    }
  }

  /**
   * The encoder the server used before (kept in a comment in utils.go):
   * base64 first, then rot13 — the order the Python, JavaScript and Java
   * clients still use.
   */
  function LegacyEncode(plaintext: seq<Byte>): (r: seq<Byte>)
    ensures plaintext == [] <==> r == []
  {
    if plaintext == [] then []
    else
      var e := Base64.Encode(plaintext);
      Base64.EncodingTextIsAscii(e);
      var r := RuneRot13(AsciiBytes(e));
      Utf8.EncodeAscii(e);
      Utf8.DecodeLenientEncode(e);
      r
  }

  /** The older server encoder computes exactly what Python's enc sends. */
  lemma LegacyEncodeIsPythonOrder(s: string)
    ensures LegacyEncode(Utf8.Encode(s)) == AsciiBytes(PyCodec.Enc(s))
  {
    if s != "" {
      var e := Base64.Encode(Utf8.Encode(s));
      Base64.EncodingTextIsAscii(e);
      Utf8.EncodeAscii(e);
      Utf8.DecodeLenientEncode(e);
      Rot13Ascii(e);
      Utf8.EncodeAscii(Rot13(e));
      PyCodec.EncIsRotatedBase64(s);
    }
  }

  /** "a" in the Python order. */
  lemma PythonOrderOfA()
    ensures PyCodec.Enc("a") == "LD=="
  {
    PyCodec.EncIsRotatedBase64("a");
    assert Utf8.Encode("a") == Utf8.EncodeChar('a') + Utf8.Encode("");
    Base64OfA();
    RotateYQ();
  }

  lemma Base64OfA()
    ensures Base64.Encode(['a' as int]) == "YQ=="
  {
    assert Base64.CharOf(24) == 'Y' && Base64.CharOf(16) == 'Q';
  }

  lemma RotateYQ()
    ensures Rot13("YQ==") == "LD=="
  {
    assert Rot13Char('Y') == 'L' && Rot13Char('Q') == 'D' && Rot13Char('=') == '=';
  }

  /** "a" in the server's order. */
  lemma ServerOrderOfA()
    ensures Encode(AsciiBytes("a")) == AsciiBytes("bg==")
  {
    assert Utf8.DecodeFirst(['a' as int]) == Some(('a', 1));
    assert Utf8.DecodeLenient(['a' as int]) == "a";
    assert Rot13Char('a') == 'n';
    assert Rot13("a") == "n";
    assert Utf8.Encode("n") == Utf8.EncodeChar('n') + Utf8.Encode("");
    assert Base64.Encode(['n' as int]) == "bg==";
  }

  /** The two orders disagree, so the server misreads what the Python order sends: "a" arrives as ",". */
  lemma OrdersDiffer()
    ensures AsciiBytes(PyCodec.Enc("a")) != Encode(AsciiBytes("a"))
    ensures Decode(AsciiBytes(PyCodec.Enc("a"))) == AsciiBytes(",")
  {
    PythonOrderOfA();
    ServerOrderOfA();
    assert AsciiBytes("LD==")[0] != AsciiBytes("bg==")[0];
    ServerReadsLD();
  }

  lemma ServerReadsLD()
    ensures Decode(AsciiBytes("LD==")) == AsciiBytes(",")
  {
    assert Latin1(AsciiBytes("LD==")) == "LD==";
    assert Base64.ValueOf('L') == 11 && Base64.ValueOf('D') == 3;
    assert Base64.DecodePrefix("LD==") == Base64.Decoded([',' as int], true);
    assert Base64.DecodeString("LD==") == Base64.DecodePrefix("LD==");
    assert Utf8.DecodeFirst([',' as int]) == Some((',', 1));
    assert Utf8.DecodeLenient([',' as int]) == ",";
    assert Rot13(",") == ",";
    assert Utf8.Encode(",") == Utf8.EncodeChar(',') + Utf8.Encode("");
  }

  /** A body wrapped as MIME does it, "Y\nQ==", is base64 of "a", which the server stores as "n". */
  lemma WrappedBody()
    ensures Decode(AsciiBytes("Y\nQ==")) == AsciiBytes("n")
  {
    assert Latin1(AsciiBytes("Y\nQ==")) == "Y\nQ==";
    Base64.WrappedA();
    assert Utf8.DecodeFirst(['a' as int]) == Some(('a', 1));
    assert Utf8.DecodeLenient(['a' as int]) == "a";
    assert Rot13Char('a') == 'n';
    assert Rot13("a") == "n";
    assert Utf8.Encode("n") == Utf8.EncodeChar('n') + Utf8.Encode("");
  }

  /**
   * decodeParams: the first value of each form field, decoded; fields with
   * no value are left out.
   */
  method DecodeParams(values: map<seq<Byte>, seq<seq<Byte>>>) returns (params: map<seq<Byte>, seq<Byte>>)
    ensures params.Keys == set k | k in values && |values[k]| > 0
    ensures forall k :: k in params ==> params[k] == Decode(values[k][0])
  {
    params := map[];
    var todo := values.Keys;
    while todo != {}
      invariant todo <= values.Keys
      invariant params.Keys == set k | k in values && k !in todo && |values[k]| > 0
      invariant forall k :: k in params ==> k in values && |values[k]| > 0 && params[k] == Decode(values[k][0])
      decreases |todo|
    {
      var key :| key in todo;
      if |values[key]| > 0 {
        params := params[key := Decode(values[key][0])];
      }
      todo := todo - {key};
    }
  }
}

=== FILE: text.dfy ===
/**
 * Bytes, ASCII classes and the small string helpers (split, join, trim,
 * prefix) that the broker, the server and the clients lean on.
 */
module Text {

  import opened Wrappers

  /** An octet, as Go's []byte, Python's bytes or Java's byte[] hold it. */
  type Byte = b: int | 0 <= b < 256

  predicate IsUpper(c: char) { 'A' <= c <= 'Z' }
  predicate IsLower(c: char) { 'a' <= c <= 'z' }
  predicate IsAsciiLetter(c: char) { IsUpper(c) || IsLower(c) }
  predicate IsDigit(c: char) { '0' <= c <= '9' }

  predicate IsAscii(s: string) {
    forall i :: 0 <= i < |s| ==> s[i] as int < 128
  }

  /** Reads each byte as the character with the same code (ISO 8859-1). */
  function Latin1(b: seq<Byte>): (s: string)
    ensures |s| == |b|
    ensures forall i :: 0 <= i < |b| ==> s[i] as int == b[i]
  {
    seq(|b|, i requires 0 <= i < |b| => b[i] as char)
  }

  /** The bytes of an all-ASCII string, one per character. */
  function AsciiBytes(s: string): (b: seq<Byte>)
    requires IsAscii(s)
    ensures |b| == |s|
    ensures forall i :: 0 <= i < |s| ==> b[i] == s[i] as int
  {
    seq(|s|, i requires 0 <= i < |s| => s[i] as int)
  }

  lemma {:induction false} Latin1AsciiBytes(s: string)
    requires IsAscii(s)
    ensures Latin1(AsciiBytes(s)) == s
  {
    var r := Latin1(AsciiBytes(s));
    assert |r| == |s|;
    forall i | 0 <= i < |s| ensures r[i] == s[i] {
      assert r[i] as int == s[i] as int;
    }
  }

  predicate HasPrefix(s: string, p: string) {
    |p| <= |s| && s[..|p|] == p
  }

  /** The index of the first occurrence of c in s. */
  function IndexOf(s: string, c: char): (r: Option<nat>)
    ensures r.Some? ==> r.value < |s| && s[r.value] == c && c !in s[..r.value]
    ensures r.None? <==> c !in s
  {
    if |s| == 0 then None
    else if s[0] == c then Some(0)
    else
      match IndexOf(s[1..], c)
      case None => None
      case Some(i) =>
        assert s[1..][..i] == s[1..i + 1];
        assert s[..i + 1] == [s[0]] + s[1..i + 1];
        Some(i + 1)
  }


  // ---------------------------------------------------------------------
  // Splitting and joining on a separator character (Go strings.Split and
  // strings.Join with a one-character separator)

  /** Go's strings.Split(s, sep): always at least one part; "" gives [""]. */
  function Split(s: string, sep: char): (parts: seq<string>)
    ensures |parts| >= 1
    ensures forall k :: 0 <= k < |parts| ==> sep !in parts[k]
    decreases |s|
  {
    match IndexOf(s, sep)
    case None => [s]
    case Some(i) => [s[..i]] + Split(s[i + 1..], sep)
  }

  /** Go's strings.Join(parts, sep). */
  function Join(parts: seq<string>, sep: char): string
  {
    if |parts| == 0 then ""
    else if |parts| == 1 then parts[0]
    else parts[0] + [sep] + Join(parts[1..], sep)
  }

  lemma {:induction false} JoinSplit(s: string, sep: char)
    ensures Join(Split(s, sep), sep) == s
    decreases |s|
  {
    var r := IndexOf(s, sep);
    if r.Some? {
      var i := r.value;
      var head, rest := s[..i], s[i + 1..];
      var parts := Split(rest, sep);
      assert Split(s, sep) == [head] + parts;
      JoinSplit(rest, sep);
      JoinCons(head, parts, sep);
      calc {
        Join(Split(s, sep), sep);
        Join([head] + parts, sep);
        head + [sep] + Join(parts, sep);
        head + [sep] + rest;
        s;
      }
    } else {
      assert Split(s, sep) == [s];
    }
  }

  lemma JoinCons(head: string, rest: seq<string>, sep: char)
    requires |rest| >= 1
    ensures Join([head] + rest, sep) == head + [sep] + Join(rest, sep)
  {
    assert ([head] + rest)[1..] == rest;
  }

  lemma {:induction false} SplitJoin(parts: seq<string>, sep: char)
    requires |parts| >= 1
    requires forall k :: 0 <= k < |parts| ==> sep !in parts[k]
    ensures Split(Join(parts, sep), sep) == parts
    decreases |parts|
  {
    if |parts| > 1 {
      var tail := Join(parts[1..], sep);
      SplitJoin(parts[1..], sep);
      assert Join(parts, sep) == parts[0] + [sep] + tail;
      SplitCons(parts[0], tail, sep);
      assert parts == [parts[0]] + parts[1..];
    }
  }

  lemma SplitCons(a: string, rest: string, sep: char)
    requires sep !in a
    ensures Split(a + [sep] + rest, sep) == [a] + Split(rest, sep)
  {
    var s := a + [sep] + rest;
    IndexOfAfter(a, [sep] + rest, sep);
    assert s == a + ([sep] + rest);
    assert s[..|a|] == a;
    assert s[|a| + 1..] == rest;
  }

  lemma {:induction false} IndexOfAfter(a: string, b: string, c: char)
    requires c !in a && |b| > 0 && b[0] == c
    ensures IndexOf(a + b, c) == Some(|a|)
    decreases |a|
  {
    if |a| == 0 {
      assert a + b == b;
    } else {
      IndexOfAfter(a[1..], b, c);
      assert (a + b)[1..] == a[1..] + b;
      assert (a + b)[0] == a[0];
    }
  }

  // ---------------------------------------------------------------------
  // Trimming

  /**
   * r is s with the a strip characters before it cut from its start and
   * a run of strip characters cut from its end.
   */
  ghost predicate CutAt(s: string, r: string, a: nat, strip: char -> bool) {
    a + |r| <= |s| && r == s[a..a + |r|] &&
    (forall i :: 0 <= i < a ==> strip(s[i])) && (forall i :: a + |r| <= i < |s| ==> strip(s[i]))
  }

  /** r is s with a run of strip characters cut from each end. */
  ghost predicate CutFrom(s: string, r: string, strip: char -> bool) {
    exists a: nat :: CutAt(s, r, a, strip)
  }

  /** Drops every leading and trailing character for which strip holds. */
  function TrimBy(s: string, strip: char -> bool): (r: string)
    ensures |r| <= |s|
    ensures CutFrom(s, r, strip)
    ensures |r| > 0 ==> !strip(r[0]) && !strip(r[|r| - 1])
  {
    var left := TrimLeft(s, strip);
    var r := TrimRight(left, strip);
    CutTwice(s, left, r, strip);
    r
  }

  /** A leading run dropped, then a trailing run dropped: the two cuts TrimBy makes, as one. */
  lemma CutTwice(s: string, left: string, r: string, strip: char -> bool)
    requires |left| <= |s| && left == s[|s| - |left|..]
    requires forall i :: 0 <= i < |s| - |left| ==> strip(s[i])
    requires |r| <= |left| && r == left[..|r|]
    requires forall i :: |r| <= i < |left| ==> strip(left[i])
    ensures CutAt(s, r, |s| - |left|, strip)
  {
    var a := |s| - |left|;
    assert r == s[a..a + |r|];
    forall i | a + |r| <= i < |s|
      ensures strip(s[i])
    {
      assert s[i] == left[i - a];
    }
  }

  function TrimLeft(s: string, strip: char -> bool): (r: string)
    ensures |r| <= |s| && r == s[|s| - |r|..]
    ensures forall i :: 0 <= i < |s| - |r| ==> strip(s[i])
    ensures |r| > 0 ==> !strip(r[0])
    ensures (forall i :: 0 <= i < |s| ==> strip(s[i])) ==> r == ""
    decreases |s|
  {
    if |s| > 0 && strip(s[0]) then
      var r := TrimLeft(s[1..], strip);
      assert forall i :: 1 <= i < |s| - |r| ==> s[i] == s[1..][i - 1];
      r
    else s
  }

  function TrimRight(s: string, strip: char -> bool): (r: string)
    ensures |r| <= |s| && r == s[..|r|]
    ensures forall i :: |r| <= i < |s| ==> strip(s[i])
    ensures |r| > 0 ==> !strip(r[|r| - 1])
    ensures |s| > 0 && !strip(s[0]) ==> |r| > 0 && r[0] == s[0]
    decreases |s|
  {
    if |s| > 0 && strip(s[|s| - 1]) then TrimRight(s[..|s| - 1], strip) else s
  }

  /** Two cuts of s with no strip character left at either end are the same text. */
  lemma CutsAgree(s: string, r: string, a: nat, t: string, c: nat, strip: char -> bool)
    requires CutAt(s, r, a, strip) && CutAt(s, t, c, strip)
    requires |r| > 0 ==> !strip(r[0]) && !strip(r[|r| - 1])
    requires |t| > 0 ==> !strip(t[0]) && !strip(t[|t| - 1])
    ensures r == t
  {
    if |r| > 0 && |t| > 0 {
      assert s[a] == r[0] && s[c] == t[0];
      assert a == c;
      assert s[a + |r| - 1] == r[|r| - 1] && s[c + |t| - 1] == t[|t| - 1];
      assert |r| == |t|;
    } else if |r| > 0 {
      assert false;
    } else if |t| > 0 {
      assert false;
    }
  }

  /**
   * Trimming is the only cut with no strip character left at either end:
   * any such cut of s is TrimBy(s, strip).
   */
  lemma TrimByUnique(s: string, r: string, strip: char -> bool)
    requires CutFrom(s, r, strip)
    requires |r| > 0 ==> !strip(r[0]) && !strip(r[|r| - 1])
    ensures r == TrimBy(s, strip)
  {
    var t := TrimBy(s, strip);
    var a: nat :| CutAt(s, r, a, strip);
    var c: nat :| CutAt(s, t, c, strip);
    CutsAgree(s, r, a, t, c, strip);
  }

  /** Nothing to strip at either end: trimming changes nothing. */
  lemma TrimByKeeps(s: string, strip: char -> bool)
    requires |s| == 0 || (!strip(s[0]) && !strip(s[|s| - 1]))
    ensures TrimBy(s, strip) == s
  {
  }
}

=== FILE: transport.dfy ===
/**
 * The HTTP exchange every client performs, reduced to what the clients
 * look at: a request (verb, URL, form fields) goes out, and either the
 * connection fails or a status and a body come back.  The replies are a
 * script fixed in advance, so a client method's effect can be stated for
 * every possible server behaviour.  Form values are recorded as the client
 * holds them before its wire encoding; each client's Wire function gives
 * the encoded form.
 */
module Transport {

  datatype Request<V> = Request(verb: string, url: string, form: map<string, V>)

  datatype Reply<V> = Failure | Response(status: int, body: V)

  /** The requests sent so far, and the replies still to come. */
  class Channel<V> {
    var sent: seq<Request<V>>
    var replies: seq<Reply<V>>

    constructor (script: seq<Reply<V>>)
      ensures sent == [] && replies == script
    {
      sent := [];
      replies := script;
    }

    /** Sends one request and takes the next reply; with none left, the connection fails. */
    method Send(req: Request<V>) returns (reply: Reply<V>)
      modifies this
      ensures sent == old(sent) + [req]
      ensures reply == Next(old(replies))
      ensures replies == Rest(old(replies))
    {
      sent := sent + [req];
      reply := Next(replies);
      replies := Rest(replies);
    }

    /** Sends the requests one after another, whatever the replies are. */
    method SendEach(reqs: seq<Request<V>>)
      modifies this
      ensures sent == old(sent) + reqs
      ensures replies == Drop(old(replies), |reqs|)
    {
      var i := 0;
      while i < |reqs|
        invariant 0 <= i <= |reqs|
        invariant sent == old(sent) + reqs[..i]
        invariant replies == Drop(old(replies), i)
      {
        var _ := Send(reqs[i]);
        assert reqs[..i + 1] == reqs[..i] + [reqs[i]];
        DropRest(old(replies), i);
        i := i + 1;
      }
      assert reqs[..i] == reqs;
    }
  }

  function Next<V>(replies: seq<Reply<V>>): Reply<V> {
    if |replies| == 0 then Failure else replies[0]
  }

  function Rest<V>(replies: seq<Reply<V>>): seq<Reply<V>> {
    if |replies| == 0 then [] else replies[1..]
  }

  /** The first k replies are used up. */
  function Drop<V>(replies: seq<Reply<V>>, k: nat): (r: seq<Reply<V>>)
    ensures |r| == if k <= |replies| then |replies| - k else 0
    decreases k
  {
    if k == 0 then replies else Drop(Rest(replies), k - 1)
  }

  /** The i-th reply, counting from zero, as the i-th request will see it. */
  function NextAt<V>(replies: seq<Reply<V>>, i: nat): Reply<V> {
    Next(Drop(replies, i))
  }

  /** s repeated k times. */
  function Repeat<T>(s: seq<T>, k: nat): seq<T>
  {
    if k == 0 then [] else s + Repeat(s, k - 1)
  }

  lemma {:induction false} DropRest<V>(replies: seq<Reply<V>>, k: nat)
    ensures Rest(Drop(replies, k)) == Drop(replies, k + 1)
    decreases k
  {
    if k > 0 {
      DropRest(Rest(replies), k - 1);
    }
  }

  lemma {:induction false} DropAdd<V>(replies: seq<Reply<V>>, a: nat, b: nat)
    ensures Drop(Drop(replies, a), b) == Drop(replies, a + b)
    decreases a
  {
    if a > 0 {
      DropAdd(Rest(replies), a - 1, b);
    }
  }
}

=== FILE: utf8.dfy ===
/**
 * UTF-8 (the encoding Python's str.encode()/bytes.decode() use by default
 * and the one Go's string/rune conversions assume).  Well-formed sequences
 * are those of Table 3-7 of the Unicode Standard: no overlong forms, no
 * surrogates, nothing above U+10FFFF.
 */
module Utf8 {

  import opened Wrappers
  import opened Text

  /** What Go substitutes for each byte that does not start a well-formed sequence. */
  const Replacement: char := '�'

  /** The bytes of one character. */
  function EncodeChar(c: char): (b: seq<Byte>)
    ensures 1 <= |b| <= 4
    ensures c as int < 128 <==> |b| == 1
    ensures |b| == 1 ==> b[0] == c as int
  {
    var x := c as int;
    if x < 0x80 then [x]
    else if x < 0x800 then [0xC0 + x / 64, 0x80 + x % 64]
    else if x < 0x10000 then [0xE0 + x / 4096, 0x80 + (x / 64) % 64, 0x80 + x % 64]
    else [0xF0 + x / 0x40000, 0x80 + (x / 4096) % 64, 0x80 + (x / 64) % 64, 0x80 + x % 64]
  }

  /** The bytes of a string: the characters' encodings one after another. */
  function Encode(s: string): (b: seq<Byte>)
    ensures |b| >= |s|
    ensures |s| == 0 <==> |b| == 0
    decreases |s|
  {
    if |s| == 0 then [] else EncodeChar(s[0]) + Encode(s[1..])
  }

  lemma {:induction false} EncodeAppend(a: string, b: string)
    ensures Encode(a + b) == Encode(a) + Encode(b)
    decreases |a|
  {
    if |a| > 0 {
      EncodeAppend(a[1..], b);
      assert (a + b)[0] == a[0] && (a + b)[1..] == a[1..] + b;
      calc {
        Encode(a + b);
        EncodeChar(a[0]) + Encode(a[1..] + b);
        EncodeChar(a[0]) + (Encode(a[1..]) + Encode(b));
        (EncodeChar(a[0]) + Encode(a[1..])) + Encode(b);
      }
    } else {
      assert a + b == b;
    }
  }

  /** An ASCII string is encoded one byte per character, each byte its code. */
  lemma {:induction false} EncodeAscii(s: string)
    requires IsAscii(s)
    ensures Encode(s) == AsciiBytes(s)
    decreases |s|
  {
    if |s| > 0 {
      EncodeAscii(s[1..]);
      assert AsciiBytes(s) == [s[0] as int] + AsciiBytes(s[1..]);
    }
  }

  predicate IsCont(b: Byte) { 0x80 <= b < 0xC0 }

  /** The range the second byte of a multi-byte sequence must fall in, given the first. */
  predicate SecondOk(b0: Byte, b1: Byte) {
    if b0 == 0xE0 then 0xA0 <= b1 < 0xC0
    else if b0 == 0xED then 0x80 <= b1 < 0xA0
    else if b0 == 0xF0 then 0x90 <= b1 < 0xC0
    else if b0 == 0xF4 then 0x80 <= b1 < 0x90
    else IsCont(b1)
  }

  /**
   * The character a byte string starts with and how many bytes it takes, or
   * None when the string does not start with a well-formed sequence.
   */
  function DecodeFirst(b: seq<Byte>): (r: Option<(char, nat)>)
    ensures r.Some? ==> 1 <= r.value.1 <= |b| && r.value.1 <= 4
    ensures |b| > 0 && b[0] < 0x80 ==> r == Some((b[0] as char, 1))
  {
    if |b| == 0 then None
    else
      var b0 := b[0];
      if b0 < 0x80 then Some((b0 as char, 1))
      else if 0xC2 <= b0 <= 0xDF then
        if |b| >= 2 && IsCont(b[1]) then Some((((b0 as int - 0xC0) * 64 + (b[1] as int - 0x80)) as char, 2))
        else None
      else if 0xE0 <= b0 <= 0xEF then
        if |b| >= 3 && SecondOk(b0, b[1]) && IsCont(b[2]) then
          Some((((b0 as int - 0xE0) * 4096 + (b[1] as int - 0x80) * 64 + (b[2] as int - 0x80)) as char, 3))
        else None
      else if 0xF0 <= b0 <= 0xF4 then
        if |b| >= 4 && SecondOk(b0, b[1]) && IsCont(b[2]) && IsCont(b[3]) then
          Some((((b0 as int - 0xF0) * 0x40000 + (b[1] as int - 0x80) * 4096 + (b[2] as int - 0x80) * 64 + (b[3] as int - 0x80)) as char, 4))
        else None
      else None
  }

  /** Strict decoding, as Python's bytes.decode(): None on any ill-formed sequence. */
  function Decode(b: seq<Byte>): (r: Option<string>)
    ensures b == [] ==> r == Some("")
    decreases |b|
  {
    if |b| == 0 then Some("")
    else
      match DecodeFirst(b)
      case None => None
      case Some((c, n)) =>
        match Decode(b[n..])
        case None => None
        case Some(rest) => Some([c] + rest)
  }

  /**
   * Go's conversion of a string to runes (for ... range, []rune(s)): every
   * byte that does not start a well-formed sequence becomes U+FFFD and only
   * that one byte is consumed.
   */
  function DecodeLenient(b: seq<Byte>): (r: string)
    ensures |r| <= |b|
    ensures b == [] ==> r == ""
    decreases |b|
  {
    if |b| == 0 then ""
    else
      match DecodeFirst(b)
      case None => [Replacement] + DecodeLenient(b[1..])
      case Some((c, n)) => [c] + DecodeLenient(b[n..])
  }

  lemma DecodeFirstTwo(c: char, rest: seq<Byte>)
    requires 0x80 <= c as int < 0x800
    ensures DecodeFirst(EncodeChar(c) + rest) == Some((c, 2))
  {
    var x := c as int;
    var h, l := x / 64, x % 64;
    assert x == h * 64 + l;
    var b := EncodeChar(c) + rest;
    assert b[0] == 0xC0 + h && b[1] == 0x80 + l;
  }

  /** The three fields of a code point from U+0800 to U+FFFF, and the ranges they keep. */
  lemma Fields3(x: int)
    requires 0x800 <= x < 0x10000 && !(0xD800 <= x < 0xE000)
    ensures var h, m, l := x / 4096, (x / 64) % 64, x % 64;
      x == h * 4096 + m * 64 + l &&
      0 <= h < 16 && 0 <= m < 64 && 0 <= l < 64 &&
      (h == 0 ==> m >= 32) && (h == 13 ==> m < 32)
  {
    var h, m, l := x / 4096, (x / 64) % 64, x % 64;
    assert x / 64 == h * 64 + m;
  }

  lemma DecodeFirstThree(c: char, rest: seq<Byte>)
    requires 0x800 <= c as int < 0x10000
    ensures DecodeFirst(EncodeChar(c) + rest) == Some((c, 3))
  {
    var x := c as int;
    var h, m, l := x / 4096, (x / 64) % 64, x % 64;
    Fields3(x);
    var b := EncodeChar(c) + rest;
    assert b[0] == 0xE0 + h && b[1] == 0x80 + m && b[2] == 0x80 + l;
    assert SecondOk(b[0], b[1]);
  }

  /** The four fields of a code point from U+10000 on, and the ranges they keep. */
  lemma Fields4(x: int)
    requires 0x10000 <= x < 0x110000
    ensures var h, m1, m2, l := x / 0x40000, (x / 4096) % 64, (x / 64) % 64, x % 64;
      x == h * 0x40000 + m1 * 4096 + m2 * 64 + l &&
      0 <= h <= 4 && 0 <= m1 < 64 && 0 <= m2 < 64 && 0 <= l < 64 &&
      (h == 0 ==> m1 >= 16) && (h == 4 ==> m1 < 16)
  {
    var h, m1, m2, l := x / 0x40000, (x / 4096) % 64, (x / 64) % 64, x % 64;
    assert x / 64 == (x / 4096) * 64 + m2;
    assert x / 4096 == h * 64 + m1;
  }

  lemma DecodeFirstFour(c: char, rest: seq<Byte>)
    requires 0x10000 <= c as int
    ensures DecodeFirst(EncodeChar(c) + rest) == Some((c, 4))
  {
    var x := c as int;
    var h, m1, m2, l := x / 0x40000, (x / 4096) % 64, (x / 64) % 64, x % 64;
    Fields4(x);
    var b := EncodeChar(c) + rest;
    assert b[0] == 0xF0 + h && b[1] == 0x80 + m1 && b[2] == 0x80 + m2 && b[3] == 0x80 + l;
    assert SecondOk(b[0], b[1]);
  }

  /** The bytes of a character decode back to that character, whatever follows them. */
  lemma DecodeFirstEncode(c: char, rest: seq<Byte>)
    ensures DecodeFirst(EncodeChar(c) + rest) == Some((c, |EncodeChar(c)|))
  {
    var x := c as int;
    if x < 0x80 {
    } else if x < 0x800 {
      DecodeFirstTwo(c, rest);
    } else if x < 0x10000 {
      DecodeFirstThree(c, rest);
    } else {
      DecodeFirstFour(c, rest);
    }
  }

  /** Every string survives a strict round trip. */
  lemma {:induction false} DecodeEncode(s: string)
    ensures Decode(Encode(s)) == Some(s)
    decreases |s|
  {
    if |s| > 0 {
      var b := Encode(s);
      var e := EncodeChar(s[0]);
      DecodeFirstEncode(s[0], Encode(s[1..]));
      assert b[|e|..] == Encode(s[1..]);
      DecodeEncode(s[1..]);
      assert s == [s[0]] + s[1..];
    }
  }

  /** Well-formed bytes read the same under the lenient decoder. */
  lemma {:induction false} DecodeLenientEncode(s: string)
    ensures DecodeLenient(Encode(s)) == s
    decreases |s|
  {
    if |s| > 0 {
      var b := Encode(s);
      var e := EncodeChar(s[0]);
      DecodeFirstEncode(s[0], Encode(s[1..]));
      assert b[|e|..] == Encode(s[1..]);
      DecodeLenientEncode(s[1..]);
      assert s == [s[0]] + s[1..];
    }
  }

  /** Where the strict decoder succeeds, the lenient one gives the same text. */
  lemma {:induction false} DecodeLenientAgrees(b: seq<Byte>)
    requires Decode(b).Some?
    ensures DecodeLenient(b) == Decode(b).value
    decreases |b|
  {
    if |b| > 0 {
      var n := DecodeFirst(b).value.1;
      DecodeLenientAgrees(b[n..]);
    }
  }

  /** Strict decoding succeeds exactly on the encodings of strings. */
  lemma {:induction false} DecodeEncodeBytes(b: seq<Byte>)
    requires Decode(b).Some?
    ensures Encode(Decode(b).value) == b
    decreases |b|
  {
    if |b| > 0 {
      DecodeCons(b);
      var (c, n) := DecodeFirst(b).value;
      var rest := Decode(b[n..]).value;
      calc {
        Encode(Decode(b).value);
        Encode([c] + rest);
        { EncodeCons(c, rest); }
        EncodeChar(c) + Encode(rest);
        { DecodeEncodeBytes(b[n..]); EncodeCharDecodeFirst(b); }
        b[..n] + b[n..];
        b;
      }
    }
  }

  /** A non-empty well-formed string decodes as its first character followed by the rest. */
  lemma DecodeCons(b: seq<Byte>)
    requires |b| > 0 && Decode(b).Some?
    ensures DecodeFirst(b).Some?
    ensures Decode(b[DecodeFirst(b).value.1..]).Some?
    ensures Decode(b).value == [DecodeFirst(b).value.0] + Decode(b[DecodeFirst(b).value.1..]).value
  {
  }

  lemma EncodeCons(c: char, rest: string)
    ensures Encode([c] + rest) == EncodeChar(c) + Encode(rest)
  {
    assert ([c] + rest)[0] == c && ([c] + rest)[1..] == rest;
  }

  /** The bytes a well-formed first sequence takes are the encoding of the character it gives. */
  lemma EncodeCharDecodeFirst(b: seq<Byte>)
    requires DecodeFirst(b).Some?
    ensures EncodeChar(DecodeFirst(b).value.0) == b[..DecodeFirst(b).value.1]
  {
    var b0 := b[0];
    if b0 < 0x80 {
      assert b[..1] == [b0];
    } else if b0 <= 0xDF {
      EncodeTwo(b0, b[1]);
      assert b[..2] == [b0, b[1]];
    } else if b0 <= 0xEF {
      EncodeThree(b0, b[1], b[2]);
      assert b[..3] == [b0, b[1], b[2]];
    } else {
      EncodeFour(b0, b[1], b[2], b[3]);
      assert b[..4] == [b0, b[1], b[2], b[3]];
    }
  }

  lemma EncodeTwo(b0: Byte, b1: Byte)
    requires 0xC2 <= b0 <= 0xDF && IsCont(b1)
    ensures EncodeChar(((b0 as int - 0xC0) * 64 + (b1 as int - 0x80)) as char) == [b0, b1]
  {
    Digits2(b0, b1);
  }

  lemma EncodeThree(b0: Byte, b1: Byte, b2: Byte)
    requires 0xE0 <= b0 <= 0xEF && SecondOk(b0, b1) && IsCont(b2)
    ensures EncodeChar(((b0 as int - 0xE0) * 4096 + (b1 as int - 0x80) * 64 + (b2 as int - 0x80)) as char) == [b0, b1, b2]
  {
    Digits3(b0, b1, b2);
  }

  lemma EncodeFour(b0: Byte, b1: Byte, b2: Byte, b3: Byte)
    requires 0xF0 <= b0 <= 0xF4 && SecondOk(b0, b1) && IsCont(b2) && IsCont(b3)
    ensures EncodeChar(((b0 as int - 0xF0) * 0x40000 + (b1 as int - 0x80) * 4096 + (b2 as int - 0x80) * 64 + (b3 as int - 0x80)) as char) == [b0, b1, b2, b3]
  {
    Digits4(b0, b1, b2, b3);
  }

  lemma Digits2(b0: int, b1: int)
    requires 0xC0 <= b0 < 0xE0 && 0x80 <= b1 < 0xC0
    ensures var x := (b0 - 0xC0) * 64 + (b1 - 0x80); x / 64 == b0 - 0xC0 && x % 64 == b1 - 0x80
  {
  }

  lemma Digits3(b0: int, b1: int, b2: int)
    requires 0xE0 <= b0 < 0xF0 && 0x80 <= b1 < 0xC0 && 0x80 <= b2 < 0xC0
    ensures var x := (b0 - 0xE0) * 4096 + (b1 - 0x80) * 64 + (b2 - 0x80);
      x / 4096 == b0 - 0xE0 && (x / 64) % 64 == b1 - 0x80 && x % 64 == b2 - 0x80
  {
    var x := (b0 - 0xE0) * 4096 + (b1 - 0x80) * 64 + (b2 - 0x80);
    assert x / 64 == (b0 - 0xE0) * 64 + (b1 - 0x80);
  }

  lemma Digits4(b0: int, b1: int, b2: int, b3: int)
    requires 0xF0 <= b0 < 0xF8 && 0x80 <= b1 < 0xC0 && 0x80 <= b2 < 0xC0 && 0x80 <= b3 < 0xC0
    ensures var x := (b0 - 0xF0) * 0x40000 + (b1 - 0x80) * 4096 + (b2 - 0x80) * 64 + (b3 - 0x80);
      x / 0x40000 == b0 - 0xF0 && (x / 4096) % 64 == b1 - 0x80 &&
      (x / 64) % 64 == b2 - 0x80 && x % 64 == b3 - 0x80
  {
    var x := (b0 - 0xF0) * 0x40000 + (b1 - 0x80) * 4096 + (b2 - 0x80) * 64 + (b3 - 0x80);
    var y := ((b0 - 0xF0) * 64 + (b1 - 0x80)) * 64 + (b2 - 0x80);
    assert x == y * 64 + (b3 - 0x80);
    assert x / 64 == y;
    assert y / 64 == (b0 - 0xF0) * 64 + (b1 - 0x80);
    assert x / 4096 == y / 64;
  }
}

=== FILE: wrappers.dfy ===
/** Failure-carrying results shared by every component of the model. */
module Wrappers {

  /** A value that may be absent: Go's nil, Python's None, Java's null. */
  datatype Option<+T> = None | Some(value: T)

  /** The outcome of an operation that either yields a value or an error. */
  datatype Result<+T, +E> = Ok(value: T) | Err(error: E)
}
